=== FILE: README.md ===
# CoalNet in Dafny

CoalNet tracks the carbon emissions of coal mines and forecasts them. It has three parts,
and this project models the rules each one computes:

- **The ML service** (Flask). It turns raw daily records into a gap-free daily series
  (`DataProcessor`). It selects an ARIMA order by AIC, forecasts with a clamped confidence
  band and backtests the fit (`Arima`). It orchestrates a forecast request
  (`ForecastService`) and validates the request body (`RequestValidator`). It also computes
  anomaly flags, weekday seasonality, driver shares, the trend slope and a MAPE proxy
  (`MlInsights`).
- **The backend** (Express with MongoDB). It holds the emission factors, scope roll-ups,
  same-date accumulation and collection names (`Accounting`). It serves the dashboard series
  (`DashboardApi`) and the CoalNet dashboard routes with their least-squares projection
  (`Visualization`). It does CSV upload and export (`CsvTransfer`), the forecast cache
  (`ForecastCache`) and the multi-mine comparison (`Comparison`). It computes the carbon
  budget and risk tiers (`CarbonBudget`), the AQI estimate (`Aqi`), the home-page
  statistics (`HomeStats`), user synchronisation (`UserSync`) and the data scripts'
  arithmetic (`Migration`).
- **The React frontend**. It has the what-if sliders (`WhatIf`), the forecast simulator
  (`Simulator`) and the pathways page (`Pathways`). It also has the multi-mine comparison
  chart (`MultiMine`), the dashboard page's panels (`DashboardPage`) and the navbar
  initials (`Navbar`).

Shared modules: `Wrappers` (Option and Result), `Collections` (end-slicing, filtering, a
stable descending sort, first-occurrence de-duplication, per-key totals), `Numbers` (sums,
means, the two runtimes' rounding, closed-form least squares) and `Text` (JavaScript string
operations).

Conventions:

- Dates are integer day numbers, with day 0 = 1970-01-01, a Thursday.
- Quantities are `real`.
- JavaScript's `x || 0` on a stored field is an `Option` field read with a default.
- MongoDB collections are sequences of records threaded through pure functions.
- Python's `round(·, k)` and JavaScript's `toFixed` are abstract monotone roundings that fix
  0. `Math.round` is modelled exactly as ⌊x + ½⌋.
- statsmodels' ARIMA fit, `Math.random`, clocks and calendar and time-zone conversions are
  parameters.

## Model

| member | source | states |
|---|---|---|
| DataProcessor.Kept | ml-service/app/services/data_processor.py:39-45 | the de-duplicated frame holds exactly the dates some record carries; records whose date is missing or null (NaT) are not among them |
| DataProcessor.KeptIsLast | ml-service/app/services/data_processor.py:42-45 | for a repeated date the total kept is that of the last record carrying it (`keep="last"`) |
| DataProcessor.LastCarrier | ml-service/app/services/data_processor.py:45 | a date some record carries has a last record carrying it, the one `keep="last"` keeps |
| DataProcessor.KeptFromLast | ml-service/app/services/data_processor.py:42-45 | conversely every kept day's value is the total of the last record carrying that date |
| DataProcessor.MinDate | ml-service/app/services/data_processor.py:51 | the range starts at a date some record carries and no record's date is earlier |
| DataProcessor.MaxDate | ml-service/app/services/data_processor.py:51 | the range ends at a date some record carries and no record's date is later |
| DataProcessor.NearestBefore | ml-service/app/services/data_processor.py:55 | the day `ffill` copies from is the latest earlier day holding a number, with none in between; absent when no earlier day holds one |
| DataProcessor.NearestAfter | ml-service/app/services/data_processor.py:55 | the day `bfill` copies from is the earliest later day holding a number, with none in between; absent when none does |
| DataProcessor.FillRange | ml-service/app/services/data_processor.py:51-58 | the reindexed series has one value for every day of the range, gaps included |
| DataProcessor.ProcessEmissionData | ml-service/app/services/data_processor.py:27-58 | empty input fails with "No emission data provided."; a missing `date` or `total_carbon_emission` column fails with the message naming both; then a date `to_datetime` cannot parse fails, then a kept total that is not a number; otherwise a series results exactly when some date is present, and it runs from the earliest to the latest date, covering every record's date |
| DataProcessor.KeepsLastTotal | ml-service/app/services/data_processor.py:42-52 | a date's own total survives processing: the last record carrying it decides that day's value |
| DataProcessor.ProcessedIsFilledRange | ml-service/app/services/data_processor.py:51-58 | the output is the filled range over the kept frame, so its length is (max − min) + 1 even with gaps |
| DataProcessor.GapTakesEarlier | ml-service/app/services/data_processor.py:55 | a day with no number takes the value of the nearest earlier day that has one |
| DataProcessor.GapTakesLater | ml-service/app/services/data_processor.py:55 | a day before the first day with a number takes that first day's value |
| DataProcessor.NothingObservedIsZero | ml-service/app/services/data_processor.py:58 | when no kept record carries a number, every day is 0 |
| DataProcessor.ValidateMinimumData | ml-service/app/services/data_processor.py:66-68 | the check passes exactly when the series has at least `min_points` values, 60 by default |
| DataProcessor.MinimumCountsSpan | ml-service/app/services/data_processor.py:51-68 | filled days count: a processed series passes the minimum exactly when its first and last dates span enough days |
| Arima.OrderList | ml-service/app/models/arima_model.py:90 | the reported order is the three-element list (p, d, q) |
| Arima.CandidateAics | ml-service/app/models/arima_model.py:56-75 | each of the ten candidates is tried in list order with its own trend, a failed fit giving no AIC |
| Arima.BestIndex | ml-service/app/models/arima_model.py:69-75 | the chosen candidate fits, has the least AIC of all that fit, and beats every earlier one strictly, so ties go to the earliest; none is chosen exactly when all fail |
| Arima.Fit | ml-service/app/models/arima_model.py:49-90 | a successful fit is fitted on the given data with trend `ct` for d = 0 and `c` otherwise, reports the order list and the AIC rounded to 2 decimals, and is the earliest minimum when any candidate fits; otherwise it succeeds exactly when the (1,1,1) fallback with `c` fits |
| Arima.ClampRounded | ml-service/app/models/arima_model.py:118-124 | `max(0, round(v, 2))` is never negative, is the rounding of a non-negative value and 0 for a non-positive one |
| Arima.ClampRoundedMonotone | ml-service/app/models/arima_model.py:118-124 | clamping after rounding keeps the order of values |
| Arima.ClampedBand | ml-service/app/models/arima_model.py:118-124 | a raw band lower ≤ mean ≤ upper stays ordered and non-negative after clamping |
| Arima.Predict | ml-service/app/models/arima_model.py:103-125 | before `fit` it fails with "Model has not been fitted"; otherwise four lists of length `horizon`, dates on consecutive days from the day after the last training day, and forecast, lower and upper each the clamped, rounded statsmodels mean, lower and upper of that step, with 0 ≤ lower ≤ forecast ≤ upper |
| Arima.SplitIndex | ml-service/app/models/arima_model.py:140 | the training prefix `int(n·(1 − ratio))` never exceeds the series |
| Arima.DefaultSplitLeavesTestDays | ml-service/app/models/arima_model.py:137-145 | with the 0.2 ratio a series of 10 or more days trains on at least 8 and always leaves a test day |
| Arima.AbsoluteErrors | ml-service/app/models/arima_model.py:152 | one non-negative absolute error per test day |
| Arima.ErrorMetrics | ml-service/app/models/arima_model.py:152-155 | MAE is the rounded mean of the absolute errors and RMSE the rounded square root of the mean squared error, both never negative |
| Arima.PerfectPredictionScoresZero | ml-service/app/models/arima_model.py:152-155 | predictions equal to the actual values score 0 on both metrics |
| Arima.TestPart | ml-service/app/models/arima_model.py:140-142 | the training prefix and the held-out days split the series between them |
| Arima.HeldOutForecast | ml-service/app/models/arima_model.py:148-150 | the refit forecasts one value per held-out day |
| Arima.Evaluate | ml-service/app/models/arima_model.py:137-157 | reports zeros without data, with fewer than 10 points, with an empty test split or when the refit fails; otherwise the report is exactly the rounded MAE and RMSE of the held-out days against the refit's forecast of them, the refit using the selected order and trend on the training prefix |
| Arima.GetModelParams | ml-service/app/models/arima_model.py:159-164 | before `fit` both fields are None; after it the order list, and the rounded AIC unless the AIC is exactly 0, which Python treats as absent |
| ForecastService.Entries | CoalNet/ml-service/app/services/forecast_service.py:61-68 | entry i zips date i, forecast i, upper bound i and lower bound i, one entry per predicted date |
| ForecastService.GenerateForecast | CoalNet/ml-service/app/services/forecast_service.py:31-75 | a horizon outside {7, 14, 30} is refused before any record is processed; a processing error propagates; fewer than 30 processed points is refused with a message carrying the count; a failed fit propagates its error; a success means the fit succeeded and the response is the `Report` of the processed series and that fit, so horizon-many entries dated from the day after the last observed day, with the processed length as the points used |
| ForecastService.Report | CoalNet/ml-service/app/services/forecast_service.py:47-75 | the response's entries are the zipped `Predict` output of the fitted model for the horizon, its accuracy is that model's `Evaluate` with a 20% test share, its parameters are the fit's summary and the points used is the series length |
| ForecastService.SucceedsWhenFitSucceeds | CoalNet/ml-service/app/services/forecast_service.py:37-57 | given a valid horizon and at least 30 processed points, the pipeline succeeds exactly when the order search yields a model |
| ForecastService.BacktestHasTestDays | CoalNet/ml-service/app/services/forecast_service.py:41-57 | every series the pipeline accepts leaves days for the 20% backtest |
| RequestValidator.ValidateForecastRequest | ml-service/app/utils/validators.py:14-38 | an empty body, a missing `emissions`, a non-list, an empty list, a bad horizon, a first record without `date`, then one without `total_carbon_emission` are refused in that order with their own messages; the request is valid exactly when every check passes |
| RequestValidator.HorizonRulesAgree | ml-service/app/utils/validators.py:27-29 | a numeric horizon passes the validator exactly when the pipeline accepts it |
| RequestValidator.DefaultHorizonAccepted | ml-service/app/utils/validators.py:27 | a request without a horizon is checked as 7, which the pipeline accepts |
| MlInsights.Prepared | ml-service/app/routes/insights.py:54-58 | rows whose date does not parse are dropped and the rest are the same rows in ascending date order |
| MlInsights.Window | ml-service/app/routes/insights.py:62-63 | the rolling window at a row is the trailing at most 7 values ending at that row |
| MlInsights.SquaredTestsAgree | ml-service/app/routes/insights.py:64-77 | the model's squared comparisons decide exactly what `residual > 2·std and 2·std > 0` and `|deviation| > 3·std` decide, std being the square root of the sample variance |
| MlInsights.FlaggedPositions | ml-service/app/routes/insights.py:62-70 | the flagged rows are exactly those whose window has at least 3 values, positive spread and a residual beyond two standard deviations, in ascending order; the first two rows are never flagged |
| MlInsights.FlaggedCount | ml-service/app/routes/insights.py:62-70 | each row is flagged at most once, so there are never more flagged rows than rows examined |
| MlInsights.Anomalies | ml-service/app/routes/insights.py:67-78 | one anomaly per flagged row, never more than there are rows |
| MlInsights.AnomaliesAreFlaggedRows | ml-service/app/routes/insights.py:67-78 | each anomaly reports a flagged row with its date, rounded value, rounded rolling mean as the expected value and rounded deviation, in date order, severity high exactly when the deviation exceeds three standard deviations, and every flagged row is reported |
| MlInsights.ConstantSeriesHasNoAnomalies | ml-service/app/routes/insights.py:62-70 | a constant series has zero spread, so nothing is flagged |
| MlInsights.SevereIsAboveThreshold | ml-service/app/routes/insights.py:70-77 | a high-severity deviation also passes the two-sigma flag |
| MlInsights.PyWeekday | ml-service/app/routes/insights.py:82 | the weekday of a day number is one of the seven days, Monday first |
| MlInsights.CountFor | ml-service/app/routes/insights.py:84-85 | a weekday has no rows exactly when no recent row falls on it |
| MlInsights.Insight | ml-service/app/routes/insights.py:90-100 | no insight exactly when the weekday mean is not positive; "weekend higher" exactly when the weekend mean exceeds the weekday mean by more than 5%, "weekday higher" exactly when it falls more than 5% short, "consistent" otherwise; the reported percentage is the absolute difference as a percentage of the weekday mean |
| MlInsights.PercentDifference | ml-service/app/routes/insights.py:93-98 | the percentage difference passes ±5 exactly when the weekend mean lies outside 95%–105% of the weekday mean |
| MlInsights.PatternMatchesInsight | ml-service/app/routes/insights.py:93-105 | once the weekday mean is at least 1, `has_pattern` holds exactly when the insight names a higher side |
| MlInsights.Seasonal | ml-service/app/routes/insights.py:81-106 | the last 30 rows give seven weekday averages, Monday to Sunday, each the rounded mean of that weekday's rows and 0 for a weekday without rows; the insight and `has_pattern` are judged on the unrounded Monday–Friday and weekend means |
| MlInsights.DriverTotals | ml-service/app/routes/insights.py:117-123 | one total per driver column present in the input, and every present column has one |
| MlInsights.Drivers | ml-service/app/routes/insights.py:125-134 | at most five drivers, each present column weighted by its rounded percentage of the combined total (0 when that total is 0), direction always "increase", sorted by descending weight |
| MlInsights.SharesSumToHundred | ml-service/app/routes/insights.py:127 | before rounding the driver percentages add up to 100 whenever the combined total is positive |
| MlInsights.DirectionOf | ml-service/app/routes/insights.py:142-147 | rising exactly when the slope exceeds 0.5, falling exactly when it is below −0.5 |
| MlInsights.TrendOf | ml-service/app/routes/insights.py:137-154 | the trend is computed exactly when the last 30 values number at least 7, from the least-squares slope rounded to 4 places; otherwise stable with slope 0 |
| MlInsights.LineTrend | ml-service/app/routes/insights.py:137-150 | values lying on a line a + b·x are classified by b, and the reported slope is b rounded: the closed-form fit recovers the line |
| MlInsights.RollingMeans | ml-service/app/routes/insights.py:168 | `rolling(7).mean().dropna()` has one mean per complete seven-value window |
| MlInsights.Ape | ml-service/app/routes/insights.py:170 | each absolute percentage error is non-negative |
| MlInsights.Mape | ml-service/app/routes/insights.py:157-171 | a MAPE is reported exactly when forecast data is given, the last ten actuals have a positive mean and the rolling means cover all ten, i.e. with at least 16 values; it is then non-negative |
| MlInsights.MapeWindows | ml-service/app/routes/insights.py:160-168 | with at least 16 values both slices hold ten entries: the last ten actuals, and the seven-value means ending at each of them |
| MlInsights.MapeCompares | ml-service/app/routes/insights.py:160-171 | the MAPE compares each of the last ten values with the trailing seven-value mean ending at that same value |
| MlInsights.GetInsights | ml-service/app/routes/insights.py:48-180 | fewer than 7 records is an error with its message; otherwise the report's anomalies, seasonality, drivers, trend and MAPE are each that analysis of the dated rows in date order, so at most one anomaly per dated row, seven weekday entries, at most five drivers, and a MAPE only with forecast data and at least 16 dated rows |
| CarbonBudget.TargetYear | backend/routes/insights.js:77-85 | the target lies between 2035 and 2065; it is earlier than 2050 exactly for a rising trend and later exactly for a falling one |
| CarbonBudget.BudgetFactor | backend/routes/insights.js:93 | the adjustment is within ±15%; it tightens the budget exactly for a rising trend and loosens it exactly for a falling one |
| CarbonBudget.DaysSoFar | backend/routes/insights.js:72 | the day count is at least 1 and never less than the time elapsed since 1 January |
| CarbonBudget.YearsUntil | backend/routes/insights.js:88 | at least one year, and at least the years left to the target |
| CarbonBudget.ComputeFigures | backend/routes/insights.js:71-94 | the year-to-date total sums this year's records, the daily rate is that total over the days so far and is positive exactly when the total is, the target follows the trend, and the budget is the annual budget for the years to that target |
| CarbonBudget.WorseTrendSmallerBudget | backend/routes/insights.js:74-94 | at the same non-negative daily rate a rising trend gets no larger a budget than a stable one, and a stable one no larger than a falling one |
| CarbonBudget.BudgetMonotone | backend/routes/insights.js:74-94 | the annual budget never shrinks when the daily rate, the years left or the trend factor grows |
| CarbonBudget.BreachDay | backend/routes/insights.js:104-111 | a breach date exists exactly while emitting and still under budget, and it lies strictly after today |
| CarbonBudget.RiskOf | backend/routes/insights.js:113-120 | high exactly when tracking more than 20% ahead of schedule or rising; low exactly when tracking at most 90% of schedule with a non-positive slope and not rising |
| CarbonBudget.ComputeBudget | backend/routes/insights.js:50-160 | fewer than 7 recent records is the insufficient-data error; otherwise the ML anomalies, seasonality, drivers and trend are passed through, and without ML insights they are empty, the "Insights unavailable" placeholder and the stable, slope-0 "Trend analysis unavailable." trend; the MAPE is shown exactly when ML insights carry a non-zero one, so a MAPE of 0 shows as null; the budget, year-to-date total, remaining budget and breach date are those of this year's figures for the trend (2050 without ML insights), the risk is judged on the tracking ratio and the summary is that of the window; usage is capped at 100%, the remaining budget is never negative, a breach date is given exactly when this year's emissions are positive and below the budget, and a rising trend is always high risk |
| CarbonBudget.ExhaustedBudget | backend/routes/insights.js:102-106 | once this year's emissions reach the budget nothing remains and no breach date is estimated |
| CarbonBudget.Older30 | backend/routes/insights.js:128 | `slice(-60, -30)` is empty for 30 or fewer records and has 30 records from 60 on |
| CarbonBudget.GrowthPct | backend/routes/insights.js:129-135 | growth is 0 unless the older average is positive, and then positive exactly when the current average is higher |
| CarbonBudget.Intensity | backend/routes/insights.js:138-139 | intensity is 0 without fuel and non-negative for a non-negative average with fuel |
| CarbonBudget.Summarize | backend/routes/insights.js:122-160 | the summary reports the rounded average of the last 30 records; the growth of that average over the 30 records before (the current average itself when there are none), rounded to tenths, so no growth without older records; 15% of the average, rounded, as the reduction potential; and the average per average daily fuel, rounded to hundredths, so no intensity without fuel |
| Aqi.Interpolate | backend/routes/aqi.js:92-94 | the linear interpolation inside a breakpoint stays within its index band and hits both ends of the band at both ends of the concentration range |
| Aqi.FirstContaining | backend/routes/aqi.js:90-91 | the loop stops at the first breakpoint containing the concentration, and finds none only when no breakpoint contains it |
| Aqi.SubIndex | backend/routes/aqi.js:89-98 | the sub-index lies between 0 and 500, is 500 when no breakpoint contains the concentration, and otherwise lies in the index band of the first containing breakpoint |
| Aqi.FirstIsUnique | backend/routes/aqi.js:90-91 | the first containing breakpoint is unique, so the sub-index is well defined |
| Aqi.Pm25GapIsBeyondScale | backend/routes/aqi.js:89-107 | a PM2.5 concentration of 12.05 falls between the 12.0 and 12.1 rows and is scored 500 |
| Aqi.Truncate | backend/routes/aqi.js:89-134 | truncation to the table's precision never raises the concentration and lowers it by less than one step |
| Aqi.TruncatedSubIndex | backend/routes/aqi.js:89-98 | the corrected lookup stays on the 0-500 scale and agrees with the lookup as written whenever the concentration is already at the table's precision, so the two differ only inside the table gaps |
| Aqi.TruncatedPm25Covered | backend/routes/aqi.js:100-107 | after truncation to one decimal every PM2.5 concentration from 0 to 500.4 lies in a breakpoint; 12.05 scores 50 |
| Aqi.TruncatedIntegerTablesCovered | backend/routes/aqi.js:109-134 | after truncation to whole numbers every PM10, SO2 and NO2 concentration up to the table's top lies in a breakpoint |
| Aqi.Estimate | backend/routes/aqi.js:46-86 | each estimated concentration is capped at its limit (500, 600, 800, 400, 50, 200) and, for non-negative averages and random draws in [0, 1), is at least its ambient baseline |
| Aqi.CategoryOf | backend/routes/aqi.js:146-172 | the six categories partition the index: up to 50, 100, 150, 200, 300, and above 300 |
| Aqi.MaxIndex | backend/routes/aqi.js:143-144 | the AQI is at least every sub-index and equal to one of them |
| Aqi.Dominant | backend/routes/aqi.js:174-175 | the dominant pollutant carries the maximum sub-index and every pollutant listed before it has a strictly smaller one |
| Aqi.SubIndicesOf | backend/routes/aqi.js:136-141 | each of the four sub-indices is the lookup as written of its raw, untruncated concentration in its own table, and lies between 0 and 500 |
| Aqi.ScoreIn | backend/routes/aqi.js:100-134 | each of the route's four breakpoint tables is well formed, so the lookup on it is defined and lies between 0 and 500 |
| Aqi.CorrectedSubIndicesOf | backend/routes/aqi.js:136-141 | the corrected sub-indices score each concentration truncated to its table's precision |
| Aqi.CorrectedAgreesAtPrecision | backend/routes/aqi.js:136-141 | for concentrations already at table precision the corrected sub-indices equal the route's |
| Aqi.TruncateExact | backend/routes/aqi.js:89-98 | truncation leaves a concentration that is already at the table's precision unchanged |
| Aqi.ComputeAqi | backend/routes/aqi.js:27-200 | no records is the 404 error; otherwise it counts the records, its concentrations are the estimate from the records' averages and the draws, the reported values are those rounded to one decimal (CO to two), its sub-indices are the as-written lookups of the unrounded concentrations, the AQI is the maximum sub-index, the dominant pollutant reaches it, the category follows the bands and the concentrations respect their caps |
| Aqi.Reported | backend/routes/aqi.js:184-189 | each reported concentration is within half a unit of its last shown decimal of the estimate: 0.05 for one decimal, 0.005 for CO's two |
| Aqi.GapRecordAverages | backend/routes/aqi.js:32-40 | a single stored day averages to its own values, with missing fields read as 0 |
| Aqi.RouteScoresGapAsHazardous | backend/routes/aqi.js:46-175 | one day with 5150 kg CO2e and a PM2.5 draw of 0.5 estimates PM2.5 at 35.45, between the 35.4 and 35.5 rows, and the route reports AQI 500, "Hazardous" |
| Aqi.CorrectedScoresGapAsModerate | backend/routes/aqi.js:100-107 | with truncation to one decimal the same day scores 100 for PM2.5, the top of "Moderate" |
| Accounting.Derive | CoalNet/backend/routes/emissions.js:65-76 | the derived fields of a record follow from its usages, and the total is the sum of the three scopes |
| Accounting.NewRecord | CoalNet/backend/routes/emissions.js:65-94 | a created record is consistent, with 0.02 kg of CH4 per litre of fuel and a CO2-equivalent of 28 times that |
| Accounting.Accumulate | CoalNet/backend/routes/emissions.js:27-59 | a same-date POST adds the usages and leaves a consistent record, keeping the date and the stored CH4 |
| Accounting.AccumulateIsCreate | CoalNet/backend/routes/emissions.js:25-94 | accumulating onto a record gives what creating from the summed usages gives, except that CH4 keeps its first value |
| Accounting.AccumulateTwice | CoalNet/backend/routes/emissions.js:27-30 | two accumulations equal one accumulation of the summed usages |
| Accounting.TotalIsAdditive | CoalNet/backend/routes/emissions.js:65-72 | the total of summed usages is the sum of the totals |
| Accounting.CollapseWhitespace | CoalNet/backend/models/Emission.js:22 | `replace(/\s+/g, '_')` leaves no whitespace, never lengthens the name, and leaves a name without whitespace alone |
| Accounting.RunBecomesUnderscore | CoalNet/backend/models/Emission.js:22 | a maximal run of whitespace between a word and the rest becomes exactly one underscore |
| Accounting.ModelName | CoalNet/backend/models/Emission.js:21-22 | a model name holds no JavaScript whitespace and no ASCII upper-case letter |
| Accounting.ModelNameIdempotent | CoalNet/backend/models/Emission.js:22 | naming a model name again gives the same name |
| Accounting.GetModel | CoalNet/backend/models/Emission.js:21-24 | the model is registered under the model name, and a name already registered leaves the registry unchanged |
| Accounting.Post | CoalNet/backend/routes/emissions.js:9-98 | a missing field is 400 and an unknown mine 404, both leaving the store unchanged; otherwise only the record for that date in that mine's collection changes, and it is created exactly when the date had no record |
| Accounting.PostKeepsConsistency | backend/index.js:93-145 | a store whose records are all consistent stays so through any POST |
| Accounting.ListRecords | CoalNet/backend/routes/emissions.js:115-116 | the GET lists the same records, most recent first |
| DashboardApi.ParsePeriod | backend/index.js:218-235 | only "daily", "weekly" and "monthly" are accepted periods |
| DashboardApi.CurrentReduction | backend/index.js:247 | the placeholder reduction lies between 0 and 50, is 0 exactly when there are no emissions, and is a tenth of the total up to 500 kg |
| DashboardApi.WeekStart | backend/index.js:281-283 | a day's week starts on the Sunday on or before it, less than seven days earlier, with the weekday counted in UTC |
| DashboardApi.SortedWeeks | backend/index.js:284-295 | the week keys are ascending and are exactly the weeks of the records |
| DashboardApi.WeeksOfData | backend/index.js:280-295 | a week appears exactly when some record falls in it |
| DashboardApi.WeeklyEntries | backend/index.js:278-302 | one entry per week with data, labelled "Week 1", "Week 2", ... in week order, each holding that week's total, methane and methane CO2e summed over its records in tonnes |
| DashboardApi.MonthlyEntries | backend/index.js:303-331 | seven entries for the months ending with the current one, in order, each holding its month's total, methane and methane CO2e summed over its records in tonnes, so all zero for a month without records |
| DashboardApi.DailyEntries | backend/index.js:269-277 | one entry per record, in order, with its figures in tonnes |
| DashboardApi.ChartRows | backend/index.js:250-257 | one chart row per fetched record, in order, with its date, mine, total and three scopes, a missing figure counting 0 |
| DashboardApi.GetDashboard | backend/index.js:199-361 | with no mine to fetch an all-zero dashboard with no chart rows for any period; otherwise an unknown period is 400, the chart rows are those of the fetched records, the period entries are the daily, weekly or monthly entries the period names, the scope 1–3 figures of the breakdown add up to the overview total in tonnes with methane beside them, the reduction stays within bounds, the single no-data alert appears exactly when the total is 0, and the last five records are the recent activity |
| DashboardApi.ScopesAddUp | backend/index.js:245-265 | Scope 1, 2 and 3 of the breakdown add up to the overview total |
| CsvTransfer.Lines | backend/routes/system.js:28 | the lines kept are exactly the non-blank ones |
| CsvTransfer.MissingColumns | backend/routes/system.js:31-32 | a column is reported missing exactly when it is required and absent from the header |
| CsvTransfer.Lookup | backend/routes/system.js:50-53 | a row has a value for a column exactly when the header names it |
| CsvTransfer.LookupUnique | backend/routes/system.js:50-53 | a column named once reads the value at its own position |
| CsvTransfer.Row | backend/routes/system.js:47-48 | a line whose field count differs from the header's is skipped |
| CsvTransfer.Apply | backend/routes/system.js:62-131 | a completed row changes only its day's record, accumulating into it or creating it |
| CsvTransfer.AcceptedStep | backend/routes/system.js:46-141 | each further data line adds its entry to the accepted rows, or nothing when it is skipped |
| CsvTransfer.TotalEmissionsAddUp | backend/routes/system.js:133-144 | the summary emissions equal the sum of the totals of the records the rows would create |
| CsvTransfer.Upload | backend/routes/system.js:16-154 | no file or mine is 400, an unknown mine 404, an all-blank file a server error, missing required columns are listed; otherwise the count, usage totals and emissions cover exactly the accepted rows and each was written to the collection |
| CsvTransfer.ProcessRows | backend/routes/system.js:40-142 | the row loop counts, sums and writes exactly the accepted rows |
| CsvTransfer.Export | backend/routes/system.js:172-174 | the export opens with the header line of the column names and a line break |
| CsvTransfer.HeaderReadsBack | backend/routes/system.js:174 | the export header splits back into its column names |
| CsvTransfer.ExportHasRequired | backend/routes/system.js:31 | the export header names every column the upload requires |
| CsvTransfer.LineReadsBack | backend/routes/system.js:176-193 | an exported record line splits back into its printed fields |
| CsvTransfer.RowReadsBack | backend/routes/system.js:47-60 | an exported line is accepted by the upload and yields its record's day and usages |
| CsvTransfer.ExportLines | backend/routes/system.js:172-196 | the lines of an export are the header line followed by one line per record, most recent first |
| CsvTransfer.UploadAccepts | backend/routes/system.js:28-60 | an upload whose header names every required column processes exactly the accepted data lines |
| CsvTransfer.ExportThenUpload | backend/routes/system.js:12-196 | uploading an export of a mine's records accepts every record, counts them all and sums exactly their usages |
| Visualization.OrElse | CoalNet/backend/routes/dashboard.js:66-77 | `x \|\| y` keeps a stored value that is present and non-zero and falls back otherwise |
| Visualization.Point | CoalNet/backend/routes/dashboard.js:65-85 | every stored component, scope and total that is present and non-zero is kept; a missing or zero component is recomputed from its usage (explosives at 2 kg per kg, methane from fuel), and a missing or zero scope or total is the sum of the point's components that belong to it |
| Visualization.FallbackAgreesWithCreation | CoalNet/backend/routes/dashboard.js:66-74 | for a document holding only usages the chart agrees with the record the POST route would create in every component but explosives, which it weighs 4/3 as heavily, and the totals differ by exactly that |
| Visualization.ChartBreakdown | CoalNet/backend/routes/dashboard.js:87-93 | four entries, Scope 1, Scope 2, Scope 3 and Methane in that order, each the sum of that field over the chart points in tonnes |
| Visualization.BreakdownAddsUp | CoalNet/backend/routes/dashboard.js:74-93 | over documents holding only usages the three scope entries add up to the chart total |
| Visualization.Ascending | CoalNet/backend/routes/dashboard.js:201 | the documents are the same ones in ascending date order |
| Visualization.BandAt | CoalNet/backend/routes/dashboard.js:253-262 | a projected point lies on the line clamped at 0, with a band around it that contains it and never goes below 0 |
| Visualization.Projections | CoalNet/backend/routes/dashboard.js:236-263 | 90 projected days exactly when the last 30 records number at least 7, each the continuation of the fitted line, none otherwise |
| Visualization.LineProjection | CoalNet/backend/routes/dashboard.js:240-254 | the least-squares fit of points on a straight line recovers the line, so projection i lies on its continuation |
| Visualization.ProjectionFollowsLine | CoalNet/backend/routes/dashboard.js:236-263 | a mine whose recent totals lie on a line is projected along that line |
| Visualization.VisualBreakdown | CoalNet/backend/routes/dashboard.js:215-225 | the breakdown holds exactly the positive scope and methane totals, at most four |
| Visualization.Average | CoalNet/backend/routes/dashboard.js:285 | the average times the record count is the total |
| Visualization.ShownProjections | CoalNet/backend/routes/dashboard.js:297 | the first three projected days are shown when there are at least 7 records, none otherwise |
| Visualization.GetVisualization | CoalNet/backend/routes/dashboard.js:203-301 | no records is a 404; otherwise one trend point per record in date order, each that record's stored values with `\|\| 0`; the shown bands are the first projected days of the fitted line, three exactly from 7 records and well ordered; the breakdown is the positive scope and methane totals; the total sums the records and the average is that total over the count; the fuel and electricity totals sum the records' usages, a missing usage counting 0 |
| ForecastCache.RequestedHorizon | backend/routes/forecast.js:15 | a non-zero parsed horizon is used as given; NaN or 0 defaults to 7 |
| ForecastCache.Purge | backend/routes/forecast.js:27-32 | the purge removes exactly the mine's expired entries for the horizon and keeps every other entry |
| ForecastCache.Newest | backend/routes/forecast.js:34-39 | a live matching entry is found exactly when one exists, and it is the most recently generated |
| ForecastCache.NewestAppend | backend/routes/forecast.js:34-39 | one more stored entry is served instead of the earlier winner only when it is a live match generated strictly later, so ties keep the entry stored first |
| ForecastCache.PurgeKeepsNewest | backend/routes/forecast.js:27-39 | purging expired entries before the lookup does not change what the lookup finds |
| ForecastCache.NewEntry | backend/routes/forecast.js:100-113 | a stored forecast matches its mine and horizon and expires exactly 24 hours after it is generated |
| ForecastCache.ServiceFailure | backend/routes/forecast.js:94-135 | a failed service call is 503 exactly when the service refused the connection, and otherwise 500 carrying the service's error when it gave one |
| ForecastCache.Post | backend/routes/forecast.js:12-136 | a horizon other than 7, 14 or 30 is 400 and an unknown mine 404, both leaving the cache alone; otherwise the expired entries are purged and a live cached forecast is served, else fewer than 30 records is 400, else a successful service answer is stored and served, else the failure is reported; whatever is served is live and belongs to the mine |
| ForecastCache.Get | backend/routes/forecast.js:139-175 | an unknown mine is 404; a known mine with a horizon that parses to NaN is 500 "Failed to fetch forecast.", because the lookup cannot cast it; otherwise a forecast is served exactly when a live entry matches the mine and parsed horizon, and it is the newest one, and without one the answer is 404 asking for a POST |
| ForecastCache.CacheHitIgnoresService | backend/routes/forecast.js:41-52 | on a cache hit neither the record count nor the service's answer matters |
| ForecastCache.GeneratedIsServedUntilExpiry | backend/routes/forecast.js:101-153 | a freshly generated forecast is served by a GET for the same mine and horizon until it expires |
| Comparison.Resolve | backend/routes/comparison.js:27-91 | a live cached forecast is used as is; otherwise one is generated and stored exactly when the mine has at least 30 records, the service succeeds and the horizon is one the schema accepts; anything used matches the mine and horizon |
| Comparison.RowOf | backend/routes/comparison.js:93-102 | a row has a forecast exactly when one was resolved, and then its total is the sum of the predictions; otherwise no data and a total of 0 |
| Comparison.Gather | backend/routes/comparison.js:93-103 | one row per requested id that names a mine, in request order, each carrying that id and its mine's name; the cache only grows, with entries generated now for requested ids |
| Comparison.Compare | backend/routes/comparison.js:14-111 | a selection that is not an array of 2 to 5 ids is 400; otherwise the rows are reordered by descending total, and the highest emitter is the first row's mine, none without rows |
| Comparison.HighestEmitterIsMaximal | backend/routes/comparison.js:105-110 | the first mine's total is at least every compared mine's |
| Comparison.EqualTotalsKeepRequestOrder | backend/routes/comparison.js:93-110 | ties keep the request order: when every compared mine predicts the same total, the ranking is the rows in request order and the highest emitter is the first requested id that names a mine |
| Comparison.AllCachedGeneratesNothing | backend/routes/comparison.js:27-35 | when every known mine has a live forecast nothing is generated and every row has its forecast |
| HomeStats.StatsCollectionName | backend/routes/homeStats.js:27 | the collection name is `emission_` followed by one character per name character: `_` exactly where the name has a character other than an ASCII letter or digit, and never an upper-case letter |
| HomeStats.SameCollection | backend/routes/homeStats.js:27 | names that differ only in letter case or in which non-alphanumeric characters they use read the same collection |
| HomeStats.Latest | backend/routes/homeStats.js:50-62 | one entry per document up to three (all of them when a mine has fewer), each built from one of the mine's documents with the mine's name and state, newest first, and no document left out is newer than any entry shown |
| HomeStats.Candidates | backend/routes/homeStats.js:26-63 | every candidate comes from one of the mines, and there are at most three times as many candidates as mines |
| HomeStats.CandidatesCover | backend/routes/homeStats.js:26-63 | every mine's latest entries are among the candidates, counted with multiplicity, and every candidate is one of some mine's latest entries |
| HomeStats.AtMostThreePerMine | backend/routes/homeStats.js:50-62 | the candidates carrying a given name number at most three for each mine of that name |
| HomeStats.ReductionPct | backend/routes/homeStats.js:65-68 | without a previous period the reduction is 0; otherwise it is non-negative exactly when recent emissions did not grow, and at most 100 |
| HomeStats.ReductionPctInverse | backend/routes/homeStats.js:66-68 | the percentage gives the recent total back from the previous one |
| HomeStats.Ticker | backend/routes/homeStats.js:70-72 | exactly 20 entries when there are at least 20 candidates and all of them otherwise, drawn from the candidates with multiplicity, most recent first, and no candidate left out is newer than any entry shown |
| HomeStats.TickerIsMostRecent | backend/routes/homeStats.js:70-72 | every candidate left out of the ticker is no newer than every entry shown |
| HomeStats.ActiveCount | backend/routes/homeStats.js:13 | the active count is 0 exactly when no mine is active and equals the mine count exactly when every mine is |
| HomeStats.GetHomeStats | backend/routes/homeStats.js:10-82 | counts the mines and the active ones among them, totals all emissions and the last 30 days' emissions in rounded tonnes, the reduction's rounded magnitude with "down" exactly when it is non-negative, and a ticker that is the 20 most recent of the per-mine candidates (so at most 20 entries, and at most three times as many as there are mines) |
| UserSync.FindByUid | backend/routes/users.js:17 | the lookup finds the first user with the uid, and none only when no user has it |
| UserSync.FindByEmail | backend/routes/users.js:21 | the lookup finds the first user with the email, and none only when no user has it |
| UserSync.Renamed | backend/routes/users.js:24-44 | only a given display name replaces the stored one; uid, email and role never change |
| UserSync.Sync | backend/routes/users.js:9-47 | a missing uid or email is 400; otherwise a user found by uid is renamed in place; failing that, the first user with the email is claimed in place (renamed and given the uid); only when neither exists is a user added, an observer named "User" unless a name is given; the user returned carries the uid and nobody's role or email changes |
| UserSync.Me | backend/routes/users.js:58-64 | a profile is returned exactly when some user has the uid, and it is one of the stored users; otherwise 404 |
| UserSync.SyncThenMe | backend/routes/users.js:9-64 | after a sync, looking up the uid returns the synced user |
| UserSync.SyncIdempotent | backend/routes/users.js:9-47 | syncing the same identity again changes nothing |
| Migration.SliceBounds | backend/migrateData.js:47-54 | as written, each mine's slice is as long as in the even split and stays within the records, but starts behind the even split's start by the extra records of the mines before it |
| Migration.SliceBoundsOverlap | backend/migrateData.js:48-56 | three records over two mines give record 1 to both mines and record 2 to neither |
| Migration.LastRecordUnassigned | CoalNet/backend/migrateData.js:48-56 | whenever the count does not divide evenly the last record goes to no mine |
| Migration.FairSliceBounds | backend/migrateData.js:48-56 | each corrected slice holds q records, one more for the first r mines, and lies within the records |
| Migration.FairSlicesPartition | backend/migrateData.js:48-56 | the corrected slices start at 0, each ends where the next begins, and the last ends at n |
| Migration.FairSliceUnique | backend/migrateData.js:48-56 | under the corrected split every record goes to exactly one mine |
| Migration.Plan | backend/migrateData.js:41-56 | no legacy records means nothing is migrated; otherwise each active mine receives its corrected slice |
| Migration.ProfilesCycle | backend/migrateData.js:110-114 | any five consecutive mines get five different profiles |
| Migration.ShareRecord | backend/migrateData.js:188-213 | the five components of a generated day add up to its target, and its total is the target and the sum of its scopes |
| Migration.BackCalculationInverts | backend/migrateData.js:203-208 | the back-calculated usages and CH4, multiplied by the API's factors, give the components back |
| Migration.VariedRecord | CoalNet/backend/migrateData.js:143-166 | a generated day scales every drawn usage by one factor, derives CH4 and methane as the API does, and totals its scopes |
| Migration.VariedIsCreated | CoalNet/backend/migrateData.js:150-166 | a generated record is exactly the record the POST route would create for its usages |
| Migration.VariationScalesTotal | CoalNet/backend/migrateData.js:148-166 | the variation factor scales the record's total |
| Migration.PlannedDays | CoalNet/backend/migrateData.js:132-139 | the loop writes days in the range that held no record, in strictly ascending order, and writes fewer than its budget only when every free day is written |
| Migration.PlannedStep | CoalNet/backend/migrateData.js:132-139 | an existing day is passed over without using the budget and a free day is written |
| Migration.GenerateDays | CoalNet/backend/migrateData.js:121-202 | the loop writes exactly the planned days and counts them, never more than the day count |
| Migration.FreshGenerationSkipsLastDay | CoalNet/backend/migrateData.js:117-132 | on a cleared collection the loop writes one record a day from the start until the budget runs out |
| WhatIf.ReductionFactor | frontend/src/pages/PathwaysPage.tsx:292-298 | the reduction lies between 0 and 85%, never exceeds the weighted slider sum, and sits at the cap exactly when that sum reaches it |
| WhatIf.ReductionMonotone | frontend/src/components/forecast/SimulatorRow.tsx:29-36 | moving any slider up never lowers the reduction |
| WhatIf.OffIsNoReduction | frontend/src/components/forecast/SimulatorRow.tsx:23-36 | the initial all-zero sliders apply no reduction |
| WhatIf.CapIsReachable | frontend/src/components/forecast/SimulatorRow.tsx:31-62 | with every slider at its maximum the weighted sum is 0.9, so the 85% cap is reached within the sliders' ranges |
| WhatIf.Badge | frontend/src/components/forecast/SimulatorRow.tsx:38 | the badge shows 0 to 85 percent, and 0 exactly when the weighted sum is below half a percent |
| WhatIf.Reduced | frontend/src/components/forecast/SimulatorRow.tsx:46-54 | a reduced non-negative quantity is at most the quantity and at least 15% of it, and unchanged with no reduction |
| WhatIf.ReducedMonotone | frontend/src/components/forecast/SimulatorRow.tsx:46-48 | the reduction keeps the order of quantities |
| WhatIf.ApplyPreset | frontend/src/pages/PathwaysPage.tsx:458-463 | applying one of the listed presets leaves every slider within its range, and reaches the 85% cap exactly for "Net Zero 2030" |
| WhatIf.PresetsAscend | frontend/src/pages/PathwaysPage.tsx:118-159 | the presets lie within the slider ranges, each moves every slider at least as far as the one before and reduces strictly more, and only "Net Zero 2030" reaches the cap |
| WhatIf.PlaybackSliders | frontend/src/pages/PathwaysPage.tsx:483-487 | each playback position is within the slider ranges and no further than the target |
| WhatIf.PlaybackRun | frontend/src/pages/PathwaysPage.tsx:473-492 | after starting, tick k shows step k with the sliders at k/10 of the target, and the eleventh tick stops at the full target |
| WhatIf.PlaybackMonotone | frontend/src/pages/PathwaysPage.tsx:483-487 | the reduction never drops from one playback step to the next |
| WhatIf.Reset | frontend/src/pages/PathwaysPage.tsx:494-501 | reset returns every slider and the step to 0, stops the timer, and leaves no reduction |
| Simulator.ChartData | frontend/src/components/forecast/SimulatorRow.tsx:41-50 | one chart point per forecast entry in order, none without a forecast; each keeps its date, draws the rounded prediction as baseline and the rounded upper edge as forecast, and scales the prediction and the lower edge by one minus the reduction factor before rounding |
| Simulator.SimulatedBelowBaseline | frontend/src/components/forecast/SimulatorRow.tsx:45-46 | a non-negative forecast is drawn between the rounded 15% of its baseline and the baseline |
| Simulator.BandStaysOrdered | frontend/src/components/forecast/SimulatorRow.tsx:46-48 | reducing only the lower edge keeps the drawn band ordered around the simulated value |
| Simulator.OffDrawsForecast | frontend/src/components/forecast/SimulatorRow.tsx:43-49 | with the sliders off the simulated curve is the baseline and the band is the forecast's |
| Simulator.Savings | frontend/src/components/forecast/SimulatorRow.tsx:53-55 | the baseline sums the predictions and the saving is the baseline minus the simulated total |
| Simulator.SavedIsShare | frontend/src/components/forecast/SimulatorRow.tsx:53-55 | the saving is the reduction's share of the baseline, between nothing and 85% of it |
| Pathways.Ascending | frontend/src/pages/PathwaysPage.tsx:233-235 | the records are the same ones in ascending date order |
| Pathways.Average | frontend/src/pages/PathwaysPage.tsx:241-247 | `sum / (length \|\| 1)` is the mean of a non-empty window and 0 for an empty one |
| Pathways.PreviousWindow | frontend/src/pages/PathwaysPage.tsx:244 | the previous window holds at most 30 records |
| Pathways.WindowsAdjacent | frontend/src/pages/PathwaysPage.tsx:240-244 | the previous and the recent window together are exactly the last 60 records |
| Pathways.Growth | frontend/src/pages/PathwaysPage.tsx:248 | with a positive previous average growth is positive exactly when the recent average is higher and 0 exactly when they are equal; otherwise 0 |
| Pathways.Sources | frontend/src/pages/PathwaysPage.tsx:251-270 | five source totals in the order Fuel, Electricity, Methane, Transport, Explosives: 2.68 per unit of fuel, 0.82 per unit of electricity, the recorded methane, 2.68 per unit of transport fuel and 0.316 per unit of explosives, summed over the records |
| Pathways.Ranked | frontend/src/pages/PathwaysPage.tsx:272 | the ranking is a reordering of the sources by descending total |
| Pathways.TopSource | frontend/src/pages/PathwaysPage.tsx:272 | the top source is one of the sources and no source exceeds it |
| Pathways.MineProfile | frontend/src/pages/PathwaysPage.tsx:231-289 | no profile exactly when there are no records; otherwise the records in date order, their count and total, the year to date equal to the total, the recent average, the growth over the previous window, and the five sources |
| Pathways.WeekKey | frontend/src/pages/PathwaysPage.tsx:318-322 | the week key of a record on day d of a month is the week w with 7(w − 1) < d ≤ 7w (so 1 to 5), together with that month and the year's last two digits |
| Pathways.CountPositive | frontend/src/pages/PathwaysPage.tsx:323-327 | a week that occurs has at least one value, so its mean divides by a positive count |
| Pathways.BucketTotals | frontend/src/pages/PathwaysPage.tsx:323-328 | the grouping loop's total and count for a week are the sum of the totals and the number of records in that week's bucket |
| Pathways.BucketPoint | frontend/src/pages/PathwaysPage.tsx:329-333 | a week that occurs has a non-empty bucket; its point draws the mean total of that bucket in tonnes, rounded to two decimals, and the same mean scaled by one minus the reduction factor |
| Pathways.Historical | frontend/src/pages/PathwaysPage.tsx:315-334 | one point per distinct week key, every record's week among them and no week without a record, never more points than records; each point is that week's bucket point |
| Pathways.PastPart | frontend/src/pages/PathwaysPage.tsx:311-335 | the historical part is non-empty exactly when the mode shows history and the mine has records, and when the mode shows history and there is a profile it is the weekly points of that profile's sorted records |
| Pathways.FuturePart | frontend/src/pages/PathwaysPage.tsx:337-355 | the forecast part has one point per forecast day, in order, when the mode shows the future, none otherwise; each draws the prediction in tonnes, rounded to two decimals, and the same value scaled by one minus the reduction factor |
| Pathways.Lifecycle | frontend/src/pages/PathwaysPage.tsx:303-358 | the chart's historical points are exactly the historical part and its forecast points exactly the forecast part, all historical points coming first; each part is present exactly as its mode and data allow |
| Pathways.HistoryShown | frontend/src/pages/PathwaysPage.tsx:231-335 | a mine with records always shows history when the mode includes it |
| Pathways.LifecycleBelowBaseline | frontend/src/pages/PathwaysPage.tsx:326-354 | with non-negative data every chart point's reduced value is non-negative and at most its baseline |
| Pathways.SavingsOf | frontend/src/pages/PathwaysPage.tsx:361-371 | an empty chart saves nothing; otherwise the saving is baseline minus simulated, spread evenly per point and scaled to a year |
| Pathways.SavingsNonNegative | frontend/src/pages/PathwaysPage.tsx:361-371 | a chart whose reduced curve never exceeds its baseline saves a non-negative amount |
| Pathways.PageSavingsNonNegative | frontend/src/pages/PathwaysPage.tsx:303-371 | the page's savings are never negative for non-negative data |
| Pathways.DaysLeft | frontend/src/pages/PathwaysPage.tsx:382-383 | the day count is the fewest whole days at the reduced rate that cover the remaining budget |
| Pathways.BudgetPct | frontend/src/pages/PathwaysPage.tsx:378-384 | the usage is at most 100%, exactly 100% once the budget is used up, never negative for non-negative use, and 0 without a budget |
| Pathways.CarbonBudget | frontend/src/pages/PathwaysPage.tsx:374-385 | no budget without a profile; otherwise the year's budget in tonnes, the reduced year-to-date use, its capped percentage, the non-negative remainder and the days it lasts at the reduced rate |
| Pathways.StrongerReductionHelps | frontend/src/pages/PathwaysPage.tsx:377-384 | moving sliders up never raises the reduced usage or its percentage and never shrinks the remainder |
| Pathways.Recommendations | frontend/src/pages/PathwaysPage.tsx:388-455 | none without a profile; otherwise an EV fleet exactly when fuel ranks first, renewables and methane capture exactly when those sources rank in the top two, the audit and route optimisation always, and the growth alert exactly when growth exceeds 5% |
| Pathways.EvFleetIffFuelLargest | frontend/src/pages/PathwaysPage.tsx:398-400 | the EV fleet is recommended exactly when no source exceeds the fuel total, since fuel is listed first and keeps the lead on a tie |
| MultiMine.FirstOther | frontend/src/components/forecast/MultiMineComparisonRow.tsx:32 | the first listed mine other than the current one, or none when every listed mine is the current one |
| MultiMine.AutoSelect | frontend/src/components/forecast/MultiMineComparisonRow.tsx:30-37 | the selection is left alone exactly when there is no current mine, at most one mine, or no other mine; otherwise it becomes the current mine followed by the first listed mine whose id differs from it (`FirstOther`, as `mines.find` returns) |
| MultiMine.AutoSelectionCompared | frontend/src/components/forecast/MultiMineComparisonRow.tsx:30-54 | an automatic selection is a valid selection of two and triggers a comparison |
| MultiMine.Toggle | frontend/src/components/forecast/MultiMineComparisonRow.tsx:56-64 | a selected mine is removed; an unselected one is added exactly when fewer than five are selected; no other mine changes |
| MultiMine.ToggleKeepsValid | frontend/src/components/forecast/MultiMineComparisonRow.tsx:56-64 | toggling keeps the selection free of repeats and at most five long |
| MultiMine.ToggleTwice | frontend/src/components/forecast/MultiMineComparisonRow.tsx:56-64 | toggling an unselected mine on and off restores the selection |
| MultiMine.MinesWithData | frontend/src/components/forecast/MultiMineComparisonRow.tsx:67 | the charted mines are the compared mines filtered to those with a non-empty forecast, in ranking order: a mine is charted exactly when it is compared and has data, and when every compared mine has data all of them are charted unchanged |
| MultiMine.MaxLen | frontend/src/components/forecast/MultiMineComparisonRow.tsx:72 | the chart length is the longest charted forecast |
| MultiMine.FirstCovering | frontend/src/components/forecast/MultiMineComparisonRow.tsx:78-85 | the date of a point comes from the first charted mine whose forecast reaches that index |
| MultiMine.ChartData | frontend/src/components/forecast/MultiMineComparisonRow.tsx:69-100 | one point per index below the longest forecast, none without charted mines; each carries a rounded band for exactly the mines whose forecast reaches it, and is dated by the first mine that reaches it |
| MultiMine.CollectPoints | frontend/src/components/forecast/MultiMineComparisonRow.tsx:75-97 | the loop over the first n indices pushes exactly one point per index, each the point that index's covering mines give, in index order, so it builds the first n chart points and, run to the longest forecast, the whole chart |
| MultiMine.TrendPct | frontend/src/components/forecast/MultiMineComparisonRow.tsx:110-121 | the trend is 0 unless the first prediction is positive, and otherwise has the sign of last minus first |
| MultiMine.StatsOf | frontend/src/components/forecast/MultiMineComparisonRow.tsx:103-123 | a mine's statistics carry its name and accuracy and its rounded total; all zero without predictions; otherwise the average is the rounded mean of the predictions, the peak and the minimum are rounded predictions that bracket every other rounded prediction, and the trend compares the first prediction with the last |
| MultiMine.ComparisonStats | frontend/src/components/forecast/MultiMineComparisonRow.tsx:103-124 | one statistics entry per charted mine, in chart order: entry i is that mine's `StatsOf` (peak, minimum, rounded average), so minimum ≤ average ≤ peak |
| DashboardPage.Rank | frontend/src/pages/DashboardPage.tsx:113-116 | the ranking keeps the smaller of all groups and the panel size, largest first, each key once, each value a group's total in tonnes |
| DashboardPage.RankIsTop | frontend/src/pages/DashboardPage.tsx:113-116 | nothing left out of a ranked panel outranks anything on it, and something is left out only when the panel is full |
| DashboardPage.TopTotals | frontend/src/pages/DashboardPage.tsx:105-116 | at most `size` entries, none exactly when there are no rows, largest first, each key once and from the rows, each value that key's total in tonnes |
| DashboardPage.TopTotalsIsTop | frontend/src/pages/DashboardPage.tsx:105-116 | a key of the rows missing from the ranking totals no more than each entry on it, and one is missing only when the ranking is full |
| DashboardPage.Leaderboard | frontend/src/pages/DashboardPage.tsx:101-117 | no chart data gives an empty board; otherwise at most ten mines with their totals in tonnes, largest first, each mine once |
| DashboardPage.LeaderboardIsTop | frontend/src/pages/DashboardPage.tsx:101-117 | a mine missing from the leaderboard totals no more than each mine on it, and is missing only when ten others fill the board |
| DashboardPage.HighestEmitter | frontend/src/pages/DashboardPage.tsx:141-144 | "N/A" with 0 for an empty board; otherwise an entry of the board, and on a board ranked largest first no entry exceeds it |
| DashboardPage.HighestIsLargest | frontend/src/pages/DashboardPage.tsx:101-144 | for non-empty data the highest emitter is a mine of the data whose total is at least every mine's total |
| DashboardPage.ActivityBreakdown | frontend/src/pages/DashboardPage.tsx:119-139 | nothing without chart data; otherwise five entries in the order Fuel, Electricity, Explosives, Transport, Methane, each the sum of that activity over the rows in tonnes, a missing field counting 0 |
| DashboardPage.BreakdownAdds | frontend/src/pages/DashboardPage.tsx:123-130 | the breakdown of two batches of rows together is the entry-by-entry sum of their breakdowns |
| DashboardPage.Month | frontend/src/pages/DashboardPage.tsx:152 | the month is the date's first seven characters, or the whole date when shorter |
| DashboardPage.FirstDash | frontend/src/pages/DashboardPage.tsx:159 | the match position is the first hyphen that has a character after it |
| DashboardPage.SplitFirstDash | frontend/src/pages/DashboardPage.tsx:159 | as written, the key splits at its first hyphen followed by something; with no such hyphen the month is absent |
| DashboardPage.FirstDashRoundTrip | frontend/src/pages/DashboardPage.tsx:153-159 | the as-written split recovers a mine and a non-empty month exactly when the mine name has no hyphen |
| DashboardPage.HyphenatedMineMisread | frontend/src/pages/DashboardPage.tsx:153-159 | mine "Hasdo-Arand" in month "2024-01" is read back as mine "Hasdo" in month "Arand-2024-01" |
| DashboardPage.SplitMonth | frontend/src/pages/DashboardPage.tsx:159 | the corrected split takes the last seven characters as the month and everything before the hyphen in front of them as the mine |
| DashboardPage.SplitMonthRoundTrip | frontend/src/pages/DashboardPage.tsx:153-159 | the corrected split recovers every mine name, hyphens included, with any seven-character month |
| DashboardPage.HeatKeyInjective | frontend/src/pages/DashboardPage.tsx:152-156 | with seven-character months distinct mine-month pairs get distinct keys, so grouping by key groups by mine and month |
| DashboardPage.Heatmap | frontend/src/pages/DashboardPage.tsx:146-164 | nothing without chart data; otherwise at most fifty cells, largest first, grouped by the string key mine-hyphen-month; each cell's label joins back to a key of the rows, each key once, and its value is that key's total in tonnes |
| DashboardPage.CellsRejoin | frontend/src/pages/DashboardPage.tsx:157-160 | labelling a key by splitting it at its first hyphen keeps its value, and the label joins back to the key |
| DashboardPage.HeatmapIsTop | frontend/src/pages/DashboardPage.tsx:146-164 | a key missing from the heatmap totals no more than each cell on it, and is missing only when fifty others fill the map |
| DashboardPage.HeatmapMisreadsHyphenatedMine | frontend/src/pages/DashboardPage.tsx:146-164 | one January 2024 row of the mine "Hasdo-Arand" gives one cell labelled mine "Hasdo", month "Arand-2024-01" |
| DashboardPage.CorrectedHeatmap | frontend/src/pages/DashboardPage.tsx:146-164 | corrected grouping by the mine and month kept apart: at most fifty mine-month cells with their totals in tonnes, largest first, each pair once |
| DashboardPage.CorrectedHeatmapIsTop | frontend/src/pages/DashboardPage.tsx:146-164 | a mine-month missing from the corrected heatmap totals no more than each cell on it, and is missing only when fifty others fill the map |
| DashboardPage.ChartConfigFor | frontend/src/pages/DashboardPage.tsx:210-221 | the x axis is always `period`; the title is "Daily Emissions Trend", "Weekly Emissions Trend" or "Monthly Emissions Trend" for those three periods and plain "Emissions Trend" exactly for any other |
| Navbar.FirstCharsAreWordStarts | frontend/src/components/Navbar.tsx:38-41 | splitting on single spaces and keeping each piece's first character gives exactly the characters that begin a word; empty pieces add nothing |
| Navbar.Initials | frontend/src/components/Navbar.tsx:36-44 | no display name gives "U"; otherwise the upper-cased word starts, cut to two characters |
| Navbar.OneWord | frontend/src/components/Navbar.tsx:36-44 | a one-word name gives its upper-cased first letter |
| Navbar.BlankName | frontend/src/components/Navbar.tsx:36-44 | a name of spaces only gives no initials at all, not "U" |
| Navbar.TwoWords | frontend/src/components/Navbar.tsx:36-44 | a first and a last name without spaces, joined by one space, give the upper-cased first letter of each, in order |


## Left out

- statsmodels' ARIMA internals are left out: coefficient estimation, AIC values and interval arithmetic. The fit is an oracle (`Arima.Statsmodels`) that returns failure or an AIC with raw mean and band sequences. sklearn's metrics and numpy's `polyfit` have closed forms over `real` instead.
- Python's `round(·, 2)`, `round(·, 4)` and JavaScript's `toFixed` are left out as exact digit functions. Every member that rounds takes an abstract monotone rounding that fixes 0. Contracts therefore say nothing about the exact digits produced.
- IEEE-754 doubles, NaN and infinities are left out. Quantities are `real`, so overflow and representation error are not modelled.
- `Math.random` is a parameter. This covers the AQI pollutant estimates below their caps, the demonstration profiles' multipliers and the per-day variation in the data scripts. The profiles' `Math.pow` growth curves are not modelled; only the record a generated day receives (`Migration.ShareRecord`) is.
- Clocks and the calendar are parameters. This covers `Date.now`, `setMonth`, `setHours` across daylight-saving changes, `toISOString` and month keys. Locale formatting (`toLocaleString`) is left out.
- WeekStart: the dashboard's week key takes the weekday with the server's local `getDay`/`setDate` and then prints the day in UTC (backend/index.js:281-283). The model counts the weekday in UTC, which is what the server computes when it runs in UTC; in another time zone a record near midnight can fall into the neighbouring week.
- GetDashboard: the `chartData` rows carry only the date, total, scopes and mine (backend/index.js:250-257). The dashboard page's activity panel, modelled by DashboardPage.ActivityBreakdown, reads fuel, electricity, explosives, transport and methane fields from those rows, which the route in CoalNet/backend/routes/dashboard.js supplies and this one does not; which server the page talks to is deployment configuration and is not modelled.
- MongoDB, mongoose schemas, TTL indexes and the axios calls to the ML service are left out. Collections are sequences threaded through pure functions. The axios timeout, Flask/Express routing, CORS and the catch-all 500 responses are not modelled.
- The data scripts' save failures are not modelled. This includes duplicate-key errors (code 11000) inside the generation loop: every generated record is taken to be stored.
- `migrateExistingData` throws at line 36 of both `migrateData.js` files, because `dailyEmissionSchema` is never defined there. Only its slicing arithmetic is modelled (`Migration.SliceBounds`).
- The explosives emission factor is not one constant. It is 1.5 in the API's accounting (`Accounting`), 2.0 in the dashboard route's fallback (`Visualization`) and 0.316 on the pathways page (`Pathways`). Each module uses its own value; the model does not reconcile them.
- Two per-mine names exist. `homeStats.js` reads the collection named `emission_` plus the name with every non-alphanumeric character replaced by `_`, lower-cased (`HomeStats`). The emission model registers a mongoose model named after the mine with every whitespace run turned into `_`, lower-cased (`Accounting`); mongoose then pluralises that model name to pick the collection, which is not modelled. Both names are modelled as written; a mine whose two names differ is not reconciled.
- NewestAppend: MongoDB's `findOne` with `sort({ generatedAt: -1 })` leaves the order of entries generated at the same instant unspecified. The model breaks such ties in favour of the entry stored first, a choice the database does not promise.
- `MultiMine.ChartData` keys each mine's values by its position in the comparison. The page keys them by mine name, so two mines with the same name would overwrite each other there. The page's colour palette and its `dateSet` guard are presentation and are left out.
- `Object.entries` lists integer-like keys first, in ascending order. The model keeps first-insertion order for every key. Mine and activity names are not integer-like.
- The JavaScript regular expression `.` does not match line terminators. The model treats every character alike in the CSV and name parsing.
- `toUpperCase` and `toLowerCase` are modelled on ASCII letters only. Other letters, and expansions such as `ß` → `SS`, are left unchanged. Strings are sequences of code points, whereas JavaScript indexes and counts UTF-16 code units. The members this affects are listed next.
- Navbar.Initials: the upper-casing is ASCII-only, so `"émile zola"` gives `"éZ"` where JavaScript gives `"ÉZ"`; and `charAt(0)` and `slice(0, 2)` are taken over code points, where JavaScript takes UTF-16 units, so a character outside the Basic Multilingual Plane is split there and kept whole here.
- Navbar.OneWord: the same ASCII-only upper-casing; a first letter outside ASCII is returned unchanged.
- Navbar.TwoWords: the same ASCII-only upper-casing of both first letters.
- Accounting.ModelName: the lower-casing is ASCII-only, so `"ÉMILE"` keeps its `É`; the contract promises only that no ASCII upper-case letter remains. mongoose pluralises the model name to find the collection, which is not modelled.
- HomeStats.StatsCollectionName: the name is counted in code points, so a character outside the Basic Multilingual Plane becomes one `_` where the JavaScript regular expression, which has no `u` flag, replaces each of its two UTF-16 units: `"a😀"` gives 11 characters here and 12 in JavaScript.
- HomeStats.SameCollection: for the same reason its hypothesis compares names code point by code point. `"a😀"` and `"a_"` satisfy it and read the same collection here, while JavaScript reads `emission_a__` for the first and `emission_a_` for the second. Case folding is ASCII-only as well.
- The monthly forecast grouping in `CoalNet/backend/routes/dashboard.js` (lines 265-281) is computed but never returned, so it is not modelled.
- `backend/routes/report.js` is a read-through of the cached forecast plus two averages, so it is not modelled.
- The presentation components are left out: charts, animations, PDF capture, authentication and the landing-page sections.
- pandas' date parsing is left out as a parser. A raw record's date is a day number, missing, null, or a string `to_datetime` cannot parse, which raises; the wording of pandas' own error messages is not modelled.
- KeptIsLast: `sort_index()` uses pandas' default quicksort, which is not stable, so which of several records with the same date ends up last is not fixed by the code. The model takes the last in input order.
- ProcessEmissionData: a total that `astype(float)` cannot read fails only when it sits in a kept row; the model decides which row is kept by input order, as for `KeptIsLast`.
- Prepared: `sort_values("date")` uses pandas' default quicksort, which is not stable, so the order of records that share a date is not fixed by the code (ml-service/app/routes/insights.py:58). The model sorts stably, and its contract fixes only the date order and the multiset of rows. The rolling anomaly windows and the 30-row seasonality tail depend on the order of same-date rows, so when several records share a date the model's anomalies and weekday averages are those of one admissible order, not necessarily the one pandas produces.
- Latest: MongoDB's `sort({ date: -1 })` leaves the order of documents with the same date unspecified, so which of several same-day documents fill a mine's three places is not fixed by the code. The model breaks such ties in favour of the document stored first.
- Ascending: the visualization route's `sort({ date: 1 })` leaves the order of same-day documents unspecified as well; the model breaks ties in favour of the document stored first.

## Findings

| source | as written | input that shows it | evidently intended | confidence | as-written member | corrected member |
|---|---|---|---|---|---|---|
| backend/migrateData.js:48-56 (same code at CoalNet/backend/migrateData.js:48-56) | mine `i` of `m` takes the records from `i·⌊n/m⌋` up to but excluding `i·⌊n/m⌋ + ⌊n/m⌋ + 1` for the first `n mod m` mines and `i·⌊n/m⌋ + ⌊n/m⌋` for the rest, so the start ignores the extra records already given to earlier mines | n = 3 records, m = 2 mines: record 1 goes to both mines and record 2 to neither | the slices partition the records: each record goes to exactly one mine | high (not executed) | Migration.SliceBoundsOverlap, Migration.LastRecordUnassigned | Migration.FairSlicesPartition, Migration.FairSliceUnique |
| backend/routes/aqi.js:89-107 | the PM2.5 breakpoint rows end at 12.0, 35.4, 55.4, … and the next row starts 0.1 higher; a concentration in a gap matches no row and scores 500 | PM2.5 = 12.05 µg/m³ scores 500; through the route, one stored day with 5150 kg CO2e in total and a PM2.5 draw of 0.5 gives PM2.5 = 35.45 and AQI 500, "Hazardous" | concentrations are truncated to the precision of the table before lookup, as the US EPA AQI Technical Assistance Document prescribes, so 12.05 scores as 12.0 and 35.45 as 35.4 (index 100) | high (not executed) | Aqi.Pm25GapIsBeyondScale, Aqi.RouteScoresGapAsHazardous | Aqi.TruncatedPm25Covered, Aqi.CorrectedScoresGapAsModerate |
| frontend/src/pages/DashboardPage.tsx:159 | the heatmap groups by the string `mine-month` and splits it back at its first `-` for the label | mine "Hasdo-Arand" (seeded at backend/index.js:409), month "2024-01" reads back as mine "Hasdo", month "Arand-2024-01" | the mine and month are recovered as stored | high (not executed) | DashboardPage.HyphenatedMineMisread, DashboardPage.HeatmapMisreadsHyphenatedMine | DashboardPage.SplitMonthRoundTrip, DashboardPage.HeatKeyInjective, DashboardPage.CorrectedHeatmap |

=== FILE: accounting.dfy ===
/** Emission accounting of the Node API (backend/index.js and CoalNet/backend/routes/emissions.js):
    emission factors and scopes of a daily record, same-date accumulation, the per-mine
    model name (CoalNet/backend/models/Emission.js) and the create-or-accumulate POST. */
module Accounting {
  import opened Wrappers
  import opened Text
  import opened Collections

  // ---------------------------------------------------------------------
  // Emission factors

  const FuelFactor := 2.68
  const ExplosivesFactor := 1.5
  const ElectricityFactor := 0.82
  const TransportFactor := 2.68
  /** kg of CH4 per litre of fuel, and the global-warming potential of CH4. */
  const MethanePerFuel := 0.02
  const MethaneGwp := 28.0

  datatype Usage = Usage(fuel: real, electricity: real, explosives: real, transport: real)

  function AddUsage(a: Usage, b: Usage): Usage
  {
    Usage(a.fuel + b.fuel, a.electricity + b.electricity, a.explosives + b.explosives, a.transport + b.transport)
  }

  /** A stored daily document of a mine's collection. */
  datatype EmissionRecord = EmissionRecord(
    date: int,
    usage: Usage,
    methaneCh4: real,
    fuelEmission: real,
    electricityEmission: real,
    explosivesEmission: real,
    methaneCo2e: real,
    transportEmission: real,
    scope1: real,
    scope2: real,
    scope3: real,
    total: real)

  /** The derived fields of a record agree with its usages: every emission is its usage times
      its factor, and the scopes partition the total. */
  ghost predicate Consistent(r: EmissionRecord)
  {
    && r.fuelEmission == r.usage.fuel * FuelFactor
    && r.explosivesEmission == r.usage.explosives * ExplosivesFactor
    && r.electricityEmission == r.usage.electricity * ElectricityFactor
    && r.transportEmission == r.usage.transport * TransportFactor
    && r.methaneCo2e == MethanePerFuel * r.usage.fuel * MethaneGwp
    && r.scope1 == r.fuelEmission + r.explosivesEmission + r.methaneCo2e
    && r.scope2 == r.electricityEmission
    && r.scope3 == r.transportEmission
    && r.total == r.fuelEmission + r.electricityEmission + r.transportEmission + r.explosivesEmission + r.methaneCo2e
  }

  /** Every derived field recomputed from the usages; `ch4` is carried as given. */
  function Derive(date: int, u: Usage, ch4: real): (r: EmissionRecord)
    ensures Consistent(r)
    ensures r.total == r.scope1 + r.scope2 + r.scope3
    ensures r.date == date && r.usage == u && r.methaneCh4 == ch4
  {
    var fuelE := u.fuel * FuelFactor;
    var explosivesE := u.explosives * ExplosivesFactor;
    var electricityE := u.electricity * ElectricityFactor;
    var transportE := u.transport * TransportFactor;
    var methaneE := MethanePerFuel * u.fuel * MethaneGwp;
    var carbon := fuelE + electricityE + transportE + explosivesE;
    EmissionRecord(date, u, ch4, fuelE, electricityE, explosivesE, methaneE, transportE,
                   fuelE + explosivesE + methaneE, electricityE, transportE, carbon + methaneE)
  }

  /** A record created from one POST; CH4 is 0.02 kg per litre of fuel. */
  function NewRecord(date: int, u: Usage): (r: EmissionRecord)
    ensures Consistent(r)
    ensures r.methaneCh4 == MethanePerFuel * u.fuel
    ensures r.methaneCo2e == r.methaneCh4 * MethaneGwp
  {
    Derive(date, u, MethanePerFuel * u.fuel)
  }

  /** A same-date POST: the usages are added and every derived field is recomputed from the
      sums; the date and the stored CH4 stay as they were. */
  function Accumulate(existing: EmissionRecord, u: Usage): (r: EmissionRecord)
    ensures Consistent(r)
    ensures r.usage == AddUsage(existing.usage, u)
    ensures r.date == existing.date && r.methaneCh4 == existing.methaneCh4
  {
    Derive(existing.date, AddUsage(existing.usage, u), existing.methaneCh4)
  }

  /** Accumulating onto a record gives the record that the summed usages would have created,
      except for the CH4 field, which keeps the first POST's value. */
  lemma AccumulateIsCreate(existing: EmissionRecord, u: Usage)
    ensures Accumulate(existing, u) == NewRecord(existing.date, AddUsage(existing.usage, u)).(methaneCh4 := existing.methaneCh4)
  {
  }

  /** Two accumulations are one accumulation of the summed usages. */
  lemma AccumulateTwice(r: EmissionRecord, a: Usage, b: Usage)
    ensures Accumulate(Accumulate(r, a), b) == Accumulate(r, AddUsage(a, b))
  {
    assert AddUsage(AddUsage(r.usage, a), b) == AddUsage(r.usage, AddUsage(a, b));
  }

  /** The total is linear in the usages: the total of summed usages is the sum of totals. */
  lemma TotalIsAdditive(date: int, a: Usage, b: Usage)
    ensures NewRecord(date, AddUsage(a, b)).total == NewRecord(date, a).total + NewRecord(date, b).total
  {
  }

  // ---------------------------------------------------------------------
  // Model names

  /** `s.replace(/\s+/g, '_')`: each maximal run of whitespace becomes one underscore. */
  function CollapseWhitespace(s: string): (r: string)
    ensures HasNoWhitespace(r)
    ensures HasNoWhitespace(s) ==> r == s
    ensures |r| <= |s|
    decreases |s|
  {
    if |s| == 0 then ""
    else if IsJsWhitespace(s[0]) then "_" + CollapseWhitespace(TrimStart(s[1..]))
    else [s[0]] + CollapseWhitespace(s[1..])
  }

  /** A word, a run of whitespace and the rest: the run becomes a single underscore. */
  lemma {:induction false} RunBecomesUnderscore(word: string, run: string, rest: string)
    requires HasNoWhitespace(word)
    requires |run| > 0 && forall i :: 0 <= i < |run| ==> IsJsWhitespace(run[i])
    requires |rest| > 0 ==> !IsJsWhitespace(rest[0])
    ensures CollapseWhitespace(word + run + rest) == word + "_" + CollapseWhitespace(rest)
    decreases |word|
  {
    var s := word + run + rest;
    if |word| == 0 {
      assert s == run + rest;
      RunAtStart(run, rest);
    } else {
      var t := word[1..] + run + rest;
      assert !IsJsWhitespace(word[0]);
      HeadThenRest(word, run, rest);
      KeepsPlainHead(word[0], t);
      assert HasNoWhitespace(word[1..]) by {
        forall i | 0 <= i < |word| - 1 ensures !IsJsWhitespace(word[1..][i]) {
          assert word[1..][i] == word[i + 1];
        }
      }
      RunBecomesUnderscore(word[1..], run, rest);
      HeadThenRest(word, "_", CollapseWhitespace(rest));
    }
  }

  /** Splitting off the first element of the first of three concatenated sequences. */
  lemma HeadThenRest<T>(word: seq<T>, u: seq<T>, v: seq<T>)
    requires |word| > 0
    ensures [word[0]] + (word[1..] + u + v) == word + u + v
  {
    assert word == [word[0]] + word[1..];
  }

  /** A character other than whitespace is copied as it is. */
  lemma KeepsPlainHead(c: char, t: string)
    requires !IsJsWhitespace(c)
    ensures CollapseWhitespace([c] + t) == [c] + CollapseWhitespace(t)
  {
    assert ([c] + t)[1..] == t;
  }

  /** A leading run of whitespace becomes a single underscore. */
  lemma RunAtStart(run: string, rest: string)
    requires |run| > 0 && forall i :: 0 <= i < |run| ==> IsJsWhitespace(run[i])
    requires |rest| > 0 ==> !IsJsWhitespace(rest[0])
    ensures CollapseWhitespace(run + rest) == "_" + CollapseWhitespace(rest)
  {
    var s := run + rest;
    assert IsJsWhitespace(s[0]);
    assert s[1..] == run[1..] + rest;
    SkipRun(run[1..], rest);
  }

  lemma {:induction false} SkipRun(run: string, rest: string)
    requires forall i :: 0 <= i < |run| ==> IsJsWhitespace(run[i])
    requires |rest| > 0 ==> !IsJsWhitespace(rest[0])
    ensures TrimStart(run + rest) == rest
    decreases |run|
  {
    if |run| > 0 {
      assert (run + rest)[1..] == run[1..] + rest;
      SkipRun(run[1..], rest);
    } else {
      assert run + rest == rest;
    }
  }

  /** `getMineEmissionModel`'s model name: whitespace runs to `_`, then lower case. mongoose
      derives the collection from it by pluralising, which is not modelled; the store below is
      keyed by model name, one collection per name. */
  function ModelName(mineName: string): (r: string)
    ensures HasNoWhitespace(r)
    ensures forall i :: 0 <= i < |r| ==> !('A' <= r[i] <= 'Z')
  {
    var c := CollapseWhitespace(mineName);
    var r := Lower(c);
    assert forall i :: 0 <= i < |r| ==> r[i] == LowerChar(c[i]);
    r
  }

  /** Naming is idempotent: a model name names itself. */
  lemma ModelNameIdempotent(mineName: string)
    ensures ModelName(ModelName(mineName)) == ModelName(mineName)
  {
    var r := ModelName(mineName);
    assert CollapseWhitespace(r) == r;
    assert forall i :: 0 <= i < |r| ==> LowerChar(r[i]) == r[i];
  }

  /** `mongoose.models[name] || mongoose.model(name, schema)`: the registered model for the
      name, registering it on first use. */
  function GetModel(registry: set<string>, mineName: string): (r: (string, set<string>))
    ensures r.0 == ModelName(mineName)
    ensures r.1 == registry + {r.0}
    ensures r.0 in registry ==> r.1 == registry
  {
    var name := ModelName(mineName);
    (name, registry + {name})
  }

  // ---------------------------------------------------------------------
  // POST /api/emissions and GET /api/emissions/:mineId

  /** The request body; a missing field is None, and for `mineId` and `date` an empty string is
      as missing as an absent one (`!mineId`). */
  datatype PostBody = PostBody(
    mineId: Option<string>, date: Option<int>,
    fuel: Option<real>, electricity: Option<real>, explosives: Option<real>, transport: Option<real>)

  datatype PostOutcome = BadRequest | MineNotFound | Created(record: EmissionRecord) | Updated(record: EmissionRecord)

  predicate HasRequiredFields(b: PostBody)
  {
    && b.mineId.Some? && b.mineId.value != ""
    && b.date.Some?
    && b.fuel.Some? && b.electricity.Some? && b.explosives.Some? && b.transport.Some?
  }

  /** The database the route sees: mine names by id and one collection per model name,
      each holding at most one record per date. */
  datatype Store = Store(mines: map<string, string>, collections: map<string, map<int, EmissionRecord>>)

  function Collection(s: Store, name: string): map<int, EmissionRecord>
  {
    if name in s.collections then s.collections[name] else map[]
  }

  /** The POST route: 400 without a required field, 404 for an unknown mine, otherwise the
      record for the date is accumulated into, or created. Only that one record changes. */
  function Post(s: Store, b: PostBody): (r: (PostOutcome, Store))
    ensures !HasRequiredFields(b) ==> r == (BadRequest, s)
    ensures HasRequiredFields(b) && b.mineId.value !in s.mines ==> r == (MineNotFound, s)
    ensures r.0.Created? || r.0.Updated? ==>
              var name := ModelName(s.mines[b.mineId.value]);
              var date := b.date.value;
              var u := Usage(b.fuel.value, b.electricity.value, b.explosives.value, b.transport.value);
              && r.1 == s.(collections := s.collections[name := Collection(s, name)[date := r.0.record]])
              && (r.0.Created? <==> date !in Collection(s, name))
              && (r.0.Created? ==> r.0.record == NewRecord(date, u))
              && (r.0.Updated? ==> r.0.record == Accumulate(Collection(s, name)[date], u))
    ensures r.0.BadRequest? || r.0.MineNotFound? ==> r.1 == s
    ensures HasRequiredFields(b) && b.mineId.value in s.mines ==> r.0.Created? || r.0.Updated?
  {
    if !HasRequiredFields(b) then (BadRequest, s)
    else if b.mineId.value !in s.mines then (MineNotFound, s)
    else
      var name := ModelName(s.mines[b.mineId.value]);
      var coll := Collection(s, name);
      var date := b.date.value;
      var u := Usage(b.fuel.value, b.electricity.value, b.explosives.value, b.transport.value);
      var outcome := if date in coll then Updated(Accumulate(coll[date], u)) else Created(NewRecord(date, u));
      (outcome, s.(collections := s.collections[name := coll[date := outcome.record]]))
  }

  /** Records that were consistent stay consistent through any POST. */
  lemma PostKeepsConsistency(s: Store, b: PostBody)
    requires forall n, d :: n in s.collections && d in s.collections[n] ==> Consistent(s.collections[n][d])
    ensures var s' := Post(s, b).1;
            forall n, d :: n in s'.collections && d in s'.collections[n] ==> Consistent(s'.collections[n][d])
  {
  }

  function RecordDate(r: EmissionRecord): real
  {
    r.date as real
  }

  /** GET: the mine's records, most recent first. */
  function ListRecords(records: seq<EmissionRecord>): (r: seq<EmissionRecord>)
    ensures multiset(r) == multiset(records)
    ensures forall i, j :: 0 <= i < j < |r| ==> r[i].date >= r[j].date
  {
    var r := SortDesc(records, RecordDate);
    assert forall i, j :: 0 <= i < j < |r| ==> RecordDate(r[i]) >= RecordDate(r[j]);
    r
  }
}

=== FILE: aqi.dfy ===
/** The air-quality estimate of `GET /api/aqi/:mineId` (backend/routes/aqi.js): pollutant
    concentrations estimated from average daily emissions and capped, US EPA sub-indices by
    piecewise-linear interpolation over breakpoint tables (Equation 1 of the US EPA AQI
    Technical Assistance Document, EPA-454/B-18-007), the AQI as their maximum, its category
    and the dominant pollutant. `Math.random()` draws are parameters in [0, 1). */
module Aqi {
  import opened Wrappers
  import opened Numbers
  import opened Collections

  datatype Breakpoint = Breakpoint(cLow: real, cHigh: real, iLow: int, iHigh: int)

  predicate WellFormed(bp: Breakpoint)
  {
    bp.cLow < bp.cHigh && 0 <= bp.iLow < bp.iHigh <= 500
  }

  const Pm25Table: seq<Breakpoint> := [
    Breakpoint(0.0, 12.0, 0, 50),
    Breakpoint(12.1, 35.4, 51, 100),
    Breakpoint(35.5, 55.4, 101, 150),
    Breakpoint(55.5, 150.4, 151, 200),
    Breakpoint(150.5, 250.4, 201, 300),
    Breakpoint(250.5, 500.4, 301, 500)
  ]

  const Pm10Table: seq<Breakpoint> := [
    Breakpoint(0.0, 54.0, 0, 50),
    Breakpoint(55.0, 154.0, 51, 100),
    Breakpoint(155.0, 254.0, 101, 150),
    Breakpoint(255.0, 354.0, 151, 200),
    Breakpoint(355.0, 424.0, 201, 300),
    Breakpoint(425.0, 604.0, 301, 500)
  ]

  const So2Table: seq<Breakpoint> := [
    Breakpoint(0.0, 35.0, 0, 50),
    Breakpoint(36.0, 75.0, 51, 100),
    Breakpoint(76.0, 185.0, 101, 150),
    Breakpoint(186.0, 304.0, 151, 200),
    Breakpoint(305.0, 604.0, 201, 300),
    Breakpoint(605.0, 804.0, 301, 500)
  ]

  const No2Table: seq<Breakpoint> := [
    Breakpoint(0.0, 53.0, 0, 50),
    Breakpoint(54.0, 100.0, 51, 100),
    Breakpoint(101.0, 360.0, 101, 150),
    Breakpoint(361.0, 649.0, 151, 200),
    Breakpoint(650.0, 1249.0, 201, 300),
    Breakpoint(1250.0, 2049.0, 301, 500)
  ]

  /** The index reported beyond the scale. */
  const BeyondScale := 500

  predicate Contains(bp: Breakpoint, c: real)
  {
    bp.cLow <= c <= bp.cHigh
  }

  /** Equation 1: (iHigh − iLow) / (cHigh − cLow) · (c − cLow) + iLow, rounded with `Math.round`. */
  function Interpolate(bp: Breakpoint, c: real): (r: int)
    requires WellFormed(bp) && Contains(bp, c)
    ensures bp.iLow <= r <= bp.iHigh
    ensures c == bp.cLow ==> r == bp.iLow
    ensures c == bp.cHigh ==> r == bp.iHigh
  {
    var x := (bp.iHigh - bp.iLow) as real / (bp.cHigh - bp.cLow) * (c - bp.cLow) + bp.iLow as real;
    InterpolationBounds(bp.iHigh - bp.iLow, bp.cHigh - bp.cLow, c - bp.cLow, bp.iLow as real, x);
    JsRoundMonotone(bp.iLow as real, x);
    JsRoundMonotone(x, bp.iHigh as real);
    JsRoundInteger(bp.iLow);
    JsRoundInteger(bp.iHigh);
    JsRound(x)
  }

  lemma InterpolationBounds(di: int, dc: real, off: real, lo: real, x: real)
    requires di > 0 && dc > 0.0 && 0.0 <= off <= dc
    requires x == di as real / dc * off + lo
    ensures lo <= x <= lo + di as real
    ensures off == 0.0 ==> x == lo
    ensures off == dc ==> x == lo + di as real
  {
    var slope := di as real / dc;
    assert slope > 0.0;
    assert slope * off <= slope * dc;
    assert slope * dc == di as real;
  }

  predicate TableWellFormed(table: seq<Breakpoint>)
  {
    forall k :: 0 <= k < |table| ==> WellFormed(table[k])
  }

  /** Index of the first breakpoint containing `c`, if any. */
  function FirstContaining(table: seq<Breakpoint>, c: real): (k: Option<nat>)
    ensures k.Some? ==> k.value < |table| && Contains(table[k.value], c)
    ensures k.Some? ==> forall j :: 0 <= j < k.value ==> !Contains(table[j], c)
    ensures k.None? ==> forall j :: 0 <= j < |table| ==> !Contains(table[j], c)
  {
    if |table| == 0 then None
    else if Contains(table[0], c) then Some(0)
    else match FirstContaining(table[1..], c)
      case None => None
      case Some(j) => Some(j + 1)
  }

  /** `calcSubIndex`: the interpolation in the first breakpoint containing `c`, else 500. */
  function SubIndex(c: real, table: seq<Breakpoint>): (r: int)
    requires TableWellFormed(table)
    ensures 0 <= r <= 500
    ensures (forall k :: 0 <= k < |table| ==> !Contains(table[k], c)) ==> r == BeyondScale
    ensures forall k :: 0 <= k < |table| && Contains(table[k], c) && (forall j :: 0 <= j < k ==> !Contains(table[j], c))
              ==> table[k].iLow <= r <= table[k].iHigh
  {
    match FirstContaining(table, c)
    case None => BeyondScale
    case Some(k) =>
      FirstIsUnique(table, c, k);
      Interpolate(table[k], c)
  }

  lemma FirstIsUnique(table: seq<Breakpoint>, c: real, k: nat)
    requires k < |table| && Contains(table[k], c) && forall j :: 0 <= j < k ==> !Contains(table[j], c)
    ensures forall m :: 0 <= m < |table| && Contains(table[m], c) && (forall j :: 0 <= j < m ==> !Contains(table[j], c)) ==> m == k
  {
  }

  // ---------------------------------------------------------------------
  // Truncation to table precision (the correction of the table gaps)

  /** `c` truncated to a multiple of 1/scale, as the US EPA Technical Assistance Document
      prescribes before the table lookup (one decimal for PM2.5, integers for PM10, SO2, NO2). */
  function Truncate(c: real, scale: nat): (t: real)
    requires scale > 0
    ensures t <= c < t + 1.0 / scale as real
  {
    var m := (c * scale as real).Floor;
    TruncateBounds(c, scale as real, m);
    m as real / scale as real
  }

  lemma TruncateBounds(c: real, s: real, m: int)
    requires s > 0.0 && m as real <= c * s < m as real + 1.0
    ensures m as real / s <= c < m as real / s + 1.0 / s
  {
  }

  /** The corrected lookup: the sub-index after truncating the concentration to the table's
      precision. It stays on the index scale and agrees with the lookup as written whenever the
      concentration is already at that precision, so it differs only inside the table gaps. */
  function TruncatedSubIndex(c: real, table: seq<Breakpoint>, scale: nat): (r: int)
    requires TableWellFormed(table) && scale > 0
    ensures 0 <= r <= 500
    ensures AtScale(c, scale) ==> r == SubIndex(c, table)
  {
    var t := Truncate(c, scale);
    assert (c * scale as real).Floor as real == c * scale as real ==> t == c;
    SubIndex(t, table)
  }

  /** As written, a PM2.5 concentration between two rows of the table, such as 12.05, falls in
      no breakpoint and is reported as 500, "Hazardous". */
  lemma Pm25GapIsBeyondScale()
    ensures SubIndex(12.05, Pm25Table) == BeyondScale
  {
    assert TableWellFormed(Pm25Table);
  }

  /** After truncation to one decimal, every PM2.5 concentration from 0 up to the top of the table
      lands in a breakpoint, so the 500 fallback only applies above the scale; 12.05 gets 50. */
  lemma TruncatedPm25Covered(c: real)
    requires 0.0 <= c <= 500.4
    ensures exists k :: 0 <= k < |Pm25Table| && Contains(Pm25Table[k], Truncate(c, 10))
    ensures TruncatedSubIndex(12.05, Pm25Table, 10) == 50
  {
    var m := (c * 10.0).Floor;
    assert 0 <= m <= 5004;
    var t := Truncate(c, 10);
    assert t == m as real / 10.0;
    var k := if m <= 120 then 0 else if m <= 354 then 1 else if m <= 554 then 2
             else if m <= 1504 then 3 else if m <= 2504 then 4 else 5;
    assert Contains(Pm25Table[k], t);
    var t' := Truncate(12.05, 10);
    assert (12.05 * 10.0).Floor == 120;
    assert t' == 12.0;
    assert FirstContaining(Pm25Table, t') == Some(0);
  }

  /** After truncation to integers, every PM10, SO2 and NO2 concentration from 0 to the top of
      its table lands in a breakpoint. */
  lemma TruncatedIntegerTablesCovered(c: real, table: seq<Breakpoint>)
    requires table == Pm10Table || table == So2Table || table == No2Table
    requires 0.0 <= c <= table[|table| - 1].cHigh
    ensures exists k :: 0 <= k < |table| && Contains(table[k], Truncate(c, 1))
  {
    var m := c.Floor;
    var t := Truncate(c, 1);
    assert t == m as real;
    if table == Pm10Table {
      var k := if m <= 54 then 0 else if m <= 154 then 1 else if m <= 254 then 2
               else if m <= 354 then 3 else if m <= 424 then 4 else 5;
      assert Contains(table[k], t);
    } else if table == So2Table {
      var k := if m <= 35 then 0 else if m <= 75 then 1 else if m <= 185 then 2
               else if m <= 304 then 3 else if m <= 604 then 4 else 5;
      assert Contains(table[k], t);
    } else {
      var k := if m <= 53 then 0 else if m <= 100 then 1 else if m <= 360 then 2
               else if m <= 649 then 3 else if m <= 1249 then 4 else 5;
      assert Contains(table[k], t);
    }
  }

  // ---------------------------------------------------------------------
  // Concentrations, AQI, category and dominant pollutant

  /** The `|| 0` fields of a stored daily document that the estimate reads. */
  datatype AqiRecord = AqiRecord(
    total: Option<real>, fuel: Option<real>, electricity: Option<real>,
    transport: Option<real>, methane: Option<real>, explosives: Option<real>)

  datatype Averages = Averages(totalCarbon: real, fuel: real, electricity: real, transport: real, methane: real, explosives: real)

  /** Six `Math.random()` draws, one per pollutant. */
  datatype Draws = Draws(pm25: real, pm10: real, so2: real, no2: real, co: real, o3: real)

  predicate ValidDraws(d: Draws)
  {
    && 0.0 <= d.pm25 < 1.0 && 0.0 <= d.pm10 < 1.0 && 0.0 <= d.so2 < 1.0
    && 0.0 <= d.no2 < 1.0 && 0.0 <= d.co < 1.0 && 0.0 <= d.o3 < 1.0
  }

  datatype Concentrations = Concentrations(pm25: real, pm10: real, so2: real, no2: real, co: real, o3: real)

  function Average(es: seq<AqiRecord>, field: AqiRecord -> Option<real>): real
    requires |es| > 0
  {
    Sum(seq(|es|, i requires 0 <= i < |es| => field(es[i]).GetOr(0.0))) / |es| as real
  }

  function AveragesOf(es: seq<AqiRecord>): Averages
    requires |es| > 0
  {
    Averages(Average(es, (e: AqiRecord) => e.total), Average(es, (e: AqiRecord) => e.fuel), Average(es, (e: AqiRecord) => e.electricity),
             Average(es, (e: AqiRecord) => e.transport), Average(es, (e: AqiRecord) => e.methane), Average(es, (e: AqiRecord) => e.explosives))
  }

  /** The estimated concentrations, each capped at its limit. */
  function Estimate(a: Averages, d: Draws): (c: Concentrations)
    ensures c.pm25 <= 500.0 && c.pm10 <= 600.0 && c.so2 <= 800.0
    ensures c.no2 <= 400.0 && c.co <= 50.0 && c.o3 <= 200.0
    ensures ValidDraws(d) && a.fuel >= 0.0 && a.transport >= 0.0 && a.totalCarbon >= 0.0
            && a.electricity >= 0.0 && a.explosives >= 0.0 ==>
              c.pm25 >= 15.0 && c.pm10 >= 20.0 && c.so2 >= 5.0 && c.no2 >= 10.0 && c.co >= 0.5 && c.o3 >= 20.0
  {
    var pm25 := Min(500.0, a.fuel * 0.008 + a.transport * 0.012 + a.totalCarbon * 0.003 + 15.0 + d.pm25 * 10.0);
    var pm10 := Min(600.0, pm25 * 1.8 + a.explosives * 0.05 + 20.0 + d.pm10 * 15.0);
    var so2 := Min(800.0, a.fuel * 0.006 + a.electricity * 0.003 + 5.0 + d.so2 * 8.0);
    var no2 := Min(400.0, a.transport * 0.01 + a.fuel * 0.004 + 10.0 + d.no2 * 12.0);
    var co := Min(50.0, a.fuel * 0.0001 + a.transport * 0.00015 + 0.5 + d.co * 0.3);
    var o3 := Min(200.0, no2 * 0.4 + 20.0 + d.o3 * 10.0);
    Concentrations(pm25, pm10, so2, no2, co, o3)
  }

  datatype Pollutant = Pm25 | Pm10 | So2 | No2

  function Label(p: Pollutant): string
  {
    match p
    case Pm25 => "PM2.5"
    case Pm10 => "PM10"
    case So2 => "SO\U{2082}"
    case No2 => "NO\U{2082}"
  }

  datatype Category = Good | Moderate | UnhealthyForSensitiveGroups | Unhealthy | VeryUnhealthy | Hazardous

  function CategoryOf(aqi: int): (c: Category)
    ensures c == Good <==> aqi <= 50
    ensures c == Moderate <==> 50 < aqi <= 100
    ensures c == UnhealthyForSensitiveGroups <==> 100 < aqi <= 150
    ensures c == Unhealthy <==> 150 < aqi <= 200
    ensures c == VeryUnhealthy <==> 200 < aqi <= 300
    ensures c == Hazardous <==> aqi > 300
  {
    if aqi <= 50 then Good
    else if aqi <= 100 then Moderate
    else if aqi <= 150 then UnhealthyForSensitiveGroups
    else if aqi <= 200 then Unhealthy
    else if aqi <= 300 then VeryUnhealthy
    else Hazardous
  }

  function CategoryName(c: Category): string
  {
    match c
    case Good => "Good"
    case Moderate => "Moderate"
    case UnhealthyForSensitiveGroups => "Unhealthy for Sensitive Groups"
    case Unhealthy => "Unhealthy"
    case VeryUnhealthy => "Very Unhealthy"
    case Hazardous => "Hazardous"
  }

  /** The sub-indices in the order pm25, pm10, so2, no2. */
  datatype SubIndices = SubIndices(pm25: int, pm10: int, so2: int, no2: int)

  function IndexOf(s: SubIndices, p: Pollutant): int
  {
    match p
    case Pm25 => s.pm25
    case Pm10 => s.pm10
    case So2 => s.so2
    case No2 => s.no2
  }

  function Rank(p: Pollutant): nat
  {
    match p
    case Pm25 => 0
    case Pm10 => 1
    case So2 => 2
    case No2 => 3
  }

  /** `Math.max` of the four sub-indices; CO and O3 take no part. */
  function MaxIndex(s: SubIndices): (m: int)
    ensures forall p: Pollutant :: IndexOf(s, p) <= m
    ensures exists p: Pollutant :: IndexOf(s, p) == m
  {
    var a := if s.pm25 >= s.pm10 then s.pm25 else s.pm10;
    var b := if s.so2 >= s.no2 then s.so2 else s.no2;
    var m := if a >= b then a else b;
    assert IndexOf(s, Pm25) == s.pm25 && IndexOf(s, Pm10) == s.pm10;
    assert IndexOf(s, So2) == s.so2 && IndexOf(s, No2) == s.no2;
    m
  }

  /** The entry kept by `reduce((a, b) => b[1] > a[1] ? b : a)`: the first carrying the maximum. */
  function Dominant(s: SubIndices): (p: Pollutant)
    ensures IndexOf(s, p) == MaxIndex(s)
    ensures forall q: Pollutant :: Rank(q) < Rank(p) ==> IndexOf(s, q) < IndexOf(s, p)
  {
    var p0 := Pm25;
    var p1 := if s.pm10 > IndexOf(s, p0) then Pm10 else p0;
    var p2 := if s.so2 > IndexOf(s, p1) then So2 else p1;
    if s.no2 > IndexOf(s, p2) then No2 else p2
  }

  datatype AqiReport = AqiReport(
    aqi: int, category: Category, dominant: Pollutant,
    concentrations: Concentrations, reported: Concentrations, subIndices: SubIndices, dataPoints: nat)

  /** The concentrations as the response shows them: CO to two decimals, the others to one.
      Each stays within half a unit of its last shown decimal of the estimate. */
  function Reported(c: Concentrations): (r: Concentrations)
    ensures c.pm25 - 0.05 < r.pm25 <= c.pm25 + 0.05 && c.pm10 - 0.05 < r.pm10 <= c.pm10 + 0.05
    ensures c.so2 - 0.05 < r.so2 <= c.so2 + 0.05 && c.no2 - 0.05 < r.no2 <= c.no2 + 0.05
    ensures c.co - 0.005 < r.co <= c.co + 0.005 && c.o3 - 0.05 < r.o3 <= c.o3 + 0.05
  {
    JsRoundTenthsClose(c.pm25);
    JsRoundTenthsClose(c.pm10);
    JsRoundTenthsClose(c.so2);
    JsRoundTenthsClose(c.no2);
    JsRoundHundredthsClose(c.co);
    JsRoundTenthsClose(c.o3);
    Concentrations(JsRoundTenths(c.pm25), JsRoundTenths(c.pm10), JsRoundTenths(c.so2), JsRoundTenths(c.no2),
                   JsRoundHundredths(c.co), JsRoundTenths(c.o3))
  }

  const NoDataMessage := "No emission data available for AQI calculation"

  /** The sub-indices of the four pollutants as the route computes them: each raw
      concentration looked up in its own table, so a concentration in a table gap scores 500. */
  function SubIndicesOf(c: Concentrations): (s: SubIndices)
    ensures s.pm25 == ScoreIn(c.pm25, Pm25Table) && s.pm10 == ScoreIn(c.pm10, Pm10Table)
    ensures s.so2 == ScoreIn(c.so2, So2Table) && s.no2 == ScoreIn(c.no2, No2Table)
    ensures 0 <= s.pm25 <= 500 && 0 <= s.pm10 <= 500 && 0 <= s.so2 <= 500 && 0 <= s.no2 <= 500
  {
    SubIndices(ScoreIn(c.pm25, Pm25Table), ScoreIn(c.pm10, Pm10Table),
               ScoreIn(c.so2, So2Table), ScoreIn(c.no2, No2Table))
  }

  /** `calcSubIndex` on one of the route's four tables. */
  function ScoreIn(c: real, table: seq<Breakpoint>): (r: int)
    requires table == Pm25Table || table == Pm10Table || table == So2Table || table == No2Table
    ensures TableWellFormed(table) && r == SubIndex(c, table)
    ensures 0 <= r <= 500
  {
    TablesWellFormed();
    SubIndex(c, table)
  }

  lemma TablesWellFormed()
    ensures TableWellFormed(Pm25Table) && TableWellFormed(Pm10Table)
    ensures TableWellFormed(So2Table) && TableWellFormed(No2Table)
  {
  }

  /** The corrected lookup agrees with the route's wherever the concentrations are already at
      the precision of their tables. */
  lemma CorrectedAgreesAtPrecision(c: Concentrations)
    requires AtTablePrecision(c)
    ensures CorrectedSubIndicesOf(c) == SubIndicesOf(c)
  {
    TruncateExact(c.pm25, 10);
    TruncateExact(c.pm10, 1);
    TruncateExact(c.so2, 1);
    TruncateExact(c.no2, 1);
  }

  /** A concentration already at the precision leaves truncation unchanged. */
  lemma TruncateExact(c: real, scale: nat)
    requires scale > 0 && AtScale(c, scale)
    ensures Truncate(c, scale) == c
  {
  }

  /** PM2.5 in tenths, the other three in whole units. */
  predicate AtTablePrecision(c: Concentrations)
  {
    AtScale(c.pm25, 10) && AtScale(c.pm10, 1) && AtScale(c.so2, 1) && AtScale(c.no2, 1)
  }

  /** `c` is a whole multiple of 1/scale. */
  predicate AtScale(c: real, scale: nat)
  {
    (c * scale as real).Floor as real == c * scale as real
  }

  /** The corrected sub-indices: each concentration truncated to its table's precision before
      the lookup. They agree with the route's wherever the concentrations are already at table
      precision. */
  function CorrectedSubIndicesOf(c: Concentrations): (s: SubIndices)
    ensures s.pm25 == ScoreIn(Truncate(c.pm25, 10), Pm25Table) && s.pm10 == ScoreIn(Truncate(c.pm10, 1), Pm10Table)
    ensures s.so2 == ScoreIn(Truncate(c.so2, 1), So2Table) && s.no2 == ScoreIn(Truncate(c.no2, 1), No2Table)
  {
    SubIndices(ScoreIn(Truncate(c.pm25, 10), Pm25Table), ScoreIn(Truncate(c.pm10, 1), Pm10Table),
               ScoreIn(Truncate(c.so2, 1), So2Table), ScoreIn(Truncate(c.no2, 1), No2Table))
  }

  /** The whole estimate: 404 without records, otherwise the AQI is the largest sub-index, its
      category follows the bands, and the dominant pollutant is the first that reaches it. */
  function ComputeAqi(es: seq<AqiRecord>, d: Draws): (r: Result<AqiReport>)
    ensures r.Err? <==> |es| == 0
    ensures r.Ok? ==> r.value.dataPoints == |es|
    ensures r.Ok? ==> forall p: Pollutant :: IndexOf(r.value.subIndices, p) <= r.value.aqi
    ensures r.Ok? ==> IndexOf(r.value.subIndices, r.value.dominant) == r.value.aqi
    ensures r.Ok? ==> r.value.category == CategoryOf(r.value.aqi)
    ensures r.Ok? ==> r.value.concentrations.pm25 <= 500.0 && r.value.concentrations.pm10 <= 600.0
    ensures r.Ok? ==> r.value.concentrations == Estimate(AveragesOf(es), d)
    ensures r.Ok? ==> var c, shown := r.value.concentrations, r.value.reported;
                      && shown.pm25 == JsRoundTenths(c.pm25) && shown.pm10 == JsRoundTenths(c.pm10)
                      && shown.so2 == JsRoundTenths(c.so2) && shown.no2 == JsRoundTenths(c.no2)
                      && shown.co == JsRoundHundredths(c.co) && shown.o3 == JsRoundTenths(c.o3)
    ensures r.Ok? ==> r.value.reported == Reported(r.value.concentrations)
    ensures r.Ok? ==> r.value.subIndices == SubIndicesOf(r.value.concentrations)
    ensures r.Ok? ==> r.value.aqi == MaxIndex(r.value.subIndices)
  {
    if |es| == 0 then Err(NoDataMessage)
    else
      var c := Estimate(AveragesOf(es), d);
      var s := SubIndicesOf(c);
      var aqi := MaxIndex(s);
      Ok(AqiReport(aqi, CategoryOf(aqi), Dominant(s), c, Reported(c), s, |es|))
  }

  /** One stored day with 5150 kg CO2e in total and nothing else, scored with a PM2.5 draw of
      0.5: its PM2.5 estimate is 35.45, in the gap between the 35.4 and 35.5 rows. */
  const GapRecord := AqiRecord(Some(5150.0), None, None, None, None, None)
  const GapDraws := Draws(0.5, 0.0, 0.0, 0.0, 0.0, 0.0)

  lemma GapRecordAverages()
    ensures AveragesOf([GapRecord]) == Averages(5150.0, 0.0, 0.0, 0.0, 0.0, 0.0)
  {
    var es := [GapRecord];
    forall field: AqiRecord -> Option<real> | true
      ensures Average(es, field) == field(GapRecord).GetOr(0.0)
    {
      var vs := seq(|es|, i requires 0 <= i < |es| => field(es[i]).GetOr(0.0));
      assert vs == [field(GapRecord).GetOr(0.0)];
      assert Sum(vs) == Sum(vs[..0]) + vs[0];
    }
  }

  /** As written, the route reaches the PM2.5 gap: the record above is reported at AQI 500,
      "Hazardous", although its PM2.5 level sits at the top of the "Moderate" row. */
  lemma RouteScoresGapAsHazardous()
    ensures ValidDraws(GapDraws)
    ensures ComputeAqi([GapRecord], GapDraws).Ok?
    ensures ComputeAqi([GapRecord], GapDraws).value.concentrations.pm25 == 35.45
    ensures ComputeAqi([GapRecord], GapDraws).value.reported.pm25 == 35.5
    ensures ComputeAqi([GapRecord], GapDraws).value.aqi == BeyondScale
    ensures ComputeAqi([GapRecord], GapDraws).value.category == Hazardous
  {
    GapRecordAverages();
    var c := Estimate(AveragesOf([GapRecord]), GapDraws);
    assert c.pm25 == 35.45;
    assert JsRound(c.pm25 * 10.0) == 355;
    var s := SubIndicesOf(c);
    assert forall k :: 0 <= k < |Pm25Table| ==> !Contains(Pm25Table[k], c.pm25);
    assert s.pm25 == BeyondScale;
    assert IndexOf(s, Pm25) == BeyondScale;
  }

  /** With the corrected lookup the same record scores 100 for PM2.5, the top of "Moderate". */
  lemma CorrectedScoresGapAsModerate()
    ensures CorrectedSubIndicesOf(Estimate(AveragesOf([GapRecord]), GapDraws)).pm25 == 100
  {
    GapRecordAverages();
    var c := Estimate(AveragesOf([GapRecord]), GapDraws);
    assert c.pm25 == 35.45;
    assert (c.pm25 * 10.0).Floor == 354;
    assert Truncate(c.pm25, 10) == 35.4;
    assert FirstContaining(Pm25Table, 35.4) == Some(1);
    assert Pm25Table[1].iHigh == 100;
  }
}

=== FILE: arima.dfy ===
/** The ARIMA forecaster (ml-service/app/models/arima_model.py): order selection by AIC over a
    fixed candidate grid, the non-negative rounded forecast with its confidence band, and the
    hold-out backtest. statsmodels itself is an oracle the model is given. */
module Arima {
  import opened Wrappers
  import opened Numbers
  import opened DataProcessor

  /** An ARIMA order (p, d, q). */
  datatype Order = Order(p: nat, d: nat, q: nat)

  /** The deterministic trend term passed to statsmodels: "ct" (constant and linear trend) or "c". */
  datatype TrendSpec = ConstantAndTrend | ConstantOnly

  /** The ten candidate orders, tried in this order. */
  const CandidateOrders: seq<Order> := [
    Order(1, 0, 0), Order(2, 0, 0), Order(1, 0, 1), Order(2, 0, 1),
    Order(1, 1, 0), Order(0, 1, 1), Order(1, 1, 1), Order(2, 1, 1),
    Order(1, 2, 1), Order(0, 2, 1)]

  /** The order fitted when no candidate fits. */
  const FallbackOrder := Order(1, 1, 1)

  const NotFittedMessage := "Model has not been fitted. Call fit() first."
  /** The exception statsmodels raises when even the fallback fit fails; its wording is the library's. */
  const FitFailedMessage := "ARIMA fit failed"

  /** A stationary model (d = 0) gets constant and trend; a differenced one a constant only. */
  function TrendFor(o: Order): TrendSpec
  {
    if o.d == 0 then ConstantAndTrend else ConstantOnly
  }

  /** One forecast step with its 95% confidence interval; the interval contains the mean. */
  datatype Interval = Interval(lower: real, mean: real, upper: real)
  type Band = b: Interval | b.lower <= b.mean <= b.upper witness Interval(0.0, 0.0, 0.0)

  /** A square root as numpy computes it: non-negative, and 0 at 0. */
  ghost predicate IsRoot(f: real -> real)
  {
    f(0.0) == 0.0 && forall x :: 0.0 <= f(x)
  }

  type Root = f: real -> real | IsRoot(f) witness (x: real) => 0.0

  /** statsmodels as the forecaster uses it. `fit` is the AIC of a successful fit of the series
      with the order and trend, None when fitting raises; `forecast` is step k (from 0) of
      `get_forecast` on that fit. */
  datatype Statsmodels = Statsmodels(
    fit: (seq<real>, Order, TrendSpec) -> Option<real>,
    forecast: (seq<real>, Order, TrendSpec, nat) -> Band,
    sqrt: Root)

  /** The forecaster's state: before `fit`, or after a successful one. */
  datatype Forecaster = Unfitted | Fitted(data: Series, order: Order, trend: TrendSpec, aic: real)

  /** What `fit` returns: the order as a list and the AIC rounded to 2 decimals. */
  datatype FitSummary = FitSummary(order: seq<nat>, aic: real)

  datatype FitOutcome = FitOutcome(model: Forecaster, summary: FitSummary)

  function OrderList(o: Order): (l: seq<nat>)
    ensures |l| == 3 && l[0] == o.p && l[1] == o.d && l[2] == o.q
  {
    [o.p, o.d, o.q]
  }

  // ---------------------------------------------------------------------
  // Order selection

  /** The AIC of each candidate on the series, None where fitting raised. */
  function CandidateAics(sm: Statsmodels, values: seq<real>): (a: seq<Option<real>>)
    ensures |a| == |CandidateOrders|
    ensures forall i :: 0 <= i < |a| ==> a[i] == sm.fit(values, CandidateOrders[i], TrendFor(CandidateOrders[i]))
  {
    seq(|CandidateOrders|, i requires 0 <= i < |CandidateOrders| =>
      sm.fit(values, CandidateOrders[i], TrendFor(CandidateOrders[i])))
  }

  /** The selection loop: a candidate replaces the best so far only when its AIC is strictly
      smaller, so among equal AICs the earliest candidate wins. */
  function BestIndex(aics: seq<Option<real>>): (r: Option<nat>)
    ensures r.None? <==> forall i :: 0 <= i < |aics| ==> aics[i].None?
    ensures r.Some? ==> r.value < |aics| && aics[r.value].Some?
    ensures r.Some? ==> forall j :: 0 <= j < |aics| && aics[j].Some? ==> aics[r.value].value <= aics[j].value
    ensures r.Some? ==> forall j :: 0 <= j < r.value && aics[j].Some? ==> aics[r.value].value < aics[j].value
  {
    if |aics| == 0 then None
    else
      var n := |aics| - 1;
      var b := BestIndex(aics[..n]);
      assert forall j :: 0 <= j < n ==> aics[..n][j] == aics[j];
      match aics[n]
      case None => b
      case Some(a) => if b.None? || a < aics[b.value].value then Some(n) else b
  }

  ghost predicate AnyCandidateFits(sm: Statsmodels, values: seq<real>)
  {
    exists i :: 0 <= i < |CandidateOrders| && sm.fit(values, CandidateOrders[i], TrendFor(CandidateOrders[i])).Some?
  }

  /** `m` holds candidate k with the smallest AIC of all candidates that fit, and no earlier
      candidate has an AIC as small. */
  ghost predicate IsEarliestMinimum(sm: Statsmodels, values: seq<real>, m: Forecaster)
  {
    && m.Fitted?
    && exists k :: 0 <= k < |CandidateOrders| && CandidateOrders[k] == m.order
        && sm.fit(values, m.order, TrendFor(m.order)) == Some(m.aic)
        && (forall j :: 0 <= j < |CandidateOrders| && sm.fit(values, CandidateOrders[j], TrendFor(CandidateOrders[j])).Some? ==>
              m.aic <= sm.fit(values, CandidateOrders[j], TrendFor(CandidateOrders[j])).value)
        && (forall j :: 0 <= j < k && sm.fit(values, CandidateOrders[j], TrendFor(CandidateOrders[j])).Some? ==>
              m.aic < sm.fit(values, CandidateOrders[j], TrendFor(CandidateOrders[j])).value)
  }

  /** `fit`: try every candidate with its trend, keep the strictly best AIC; if none fits, fit
      (1,1,1) with a constant and let its failure propagate. */
  function Fit(data: Series, sm: Statsmodels, round2: Rounding): (r: Result<FitOutcome>)
    ensures r.Ok? ==> r.value.model.Fitted? && r.value.model.data == data
    ensures r.Ok? ==> r.value.model.trend == TrendFor(r.value.model.order)
    ensures r.Ok? ==> sm.fit(data.values, r.value.model.order, r.value.model.trend) == Some(r.value.model.aic)
    ensures r.Ok? ==> (r.value.summary.order == OrderList(r.value.model.order)
                       && r.value.summary.aic == round2(r.value.model.aic))
    ensures AnyCandidateFits(sm, data.values) ==> r.Ok? && IsEarliestMinimum(sm, data.values, r.value.model)
    ensures !AnyCandidateFits(sm, data.values) ==>
              (r.Ok? <==> sm.fit(data.values, FallbackOrder, ConstantOnly).Some?)
              && (r.Ok? ==> r.value.model.order == FallbackOrder)
              && (r.Err? ==> r.msg == FitFailedMessage)
  {
    var aics := CandidateAics(sm, data.values);
    match BestIndex(aics)
    case Some(k) =>
      var o := CandidateOrders[k];
      var m := Fitted(data, o, TrendFor(o), aics[k].value);
      assert IsEarliestMinimum(sm, data.values, m) by {
        assert CandidateOrders[k] == m.order;
      }
      Ok(FitOutcome(m, FitSummary(OrderList(o), round2(m.aic))))
    case None =>
      match sm.fit(data.values, FallbackOrder, ConstantOnly)
      case None => Err(FitFailedMessage)
      case Some(aic) =>
        var m := Fitted(data, FallbackOrder, ConstantOnly, aic);
        Ok(FitOutcome(m, FitSummary(OrderList(FallbackOrder), round2(aic))))
  }

  // ---------------------------------------------------------------------
  // Prediction

  /** Day-by-day forecast: dates and the three rounded, non-negative series. */
  datatype Prediction = Prediction(dates: seq<int>, forecast: seq<real>, lower: seq<real>, upper: seq<real>)

  /** `max(0.0, round(v, 2))`. */
  function ClampRounded(round2: Rounding, x: real): (c: real)
    ensures c >= 0.0
    ensures x >= 0.0 ==> c == round2(x)
    ensures x <= 0.0 ==> c == 0.0
  {
    RoundingKeepsSign(round2, x);
    Max(0.0, round2(x))
  }

  lemma ClampRoundedMonotone(round2: Rounding, x: real, y: real)
    requires x <= y
    ensures ClampRounded(round2, x) <= ClampRounded(round2, y)
  {
    assert IsRounding(round2);
    assert round2(x) <= round2(y);
  }

  function ClampedBand(round2: Rounding, b: Band): (c: Band)
    ensures 0.0 <= c.lower <= c.mean <= c.upper
    ensures c.mean == ClampRounded(round2, b.mean)
    ensures c.lower == ClampRounded(round2, b.lower) && c.upper == ClampRounded(round2, b.upper)
  {
    ClampRoundedMonotone(round2, b.lower, b.mean);
    ClampRoundedMonotone(round2, b.mean, b.upper);
    Interval(ClampRounded(round2, b.lower), ClampRounded(round2, b.mean), ClampRounded(round2, b.upper))
  }

  /** `predict`: refuse before `fit`; otherwise `horizon` consecutive days after the last
      observed day, each with its clamped forecast and band. */
  function Predict(m: Forecaster, sm: Statsmodels, round2: Rounding, horizon: nat): (r: Result<Prediction>)
    ensures r.Err? <==> m.Unfitted?
    ensures m.Unfitted? ==> r == Err(NotFittedMessage)
    ensures r.Ok? ==> |r.value.dates| == |r.value.forecast| == |r.value.lower| == |r.value.upper| == horizon
    ensures r.Ok? ==> forall i :: 0 <= i < horizon ==> r.value.dates[i] == LastDay(m.data) + 1 + i
    ensures r.Ok? ==> forall i :: 0 <= i < horizon ==>
              0.0 <= r.value.lower[i] <= r.value.forecast[i] <= r.value.upper[i]
    ensures r.Ok? ==> forall i :: 0 <= i < horizon ==>
              r.value.forecast[i] == ClampRounded(round2, sm.forecast(m.data.values, m.order, m.trend, i).mean)
    ensures r.Ok? ==> forall i :: 0 <= i < horizon ==>
              r.value.lower[i] == ClampRounded(round2, sm.forecast(m.data.values, m.order, m.trend, i).lower)
    ensures r.Ok? ==> forall i :: 0 <= i < horizon ==>
              r.value.upper[i] == ClampRounded(round2, sm.forecast(m.data.values, m.order, m.trend, i).upper)
  {
    if m.Unfitted? then Err(NotFittedMessage)
    else
      var bands := seq(horizon, i requires 0 <= i < horizon =>
        ClampedBand(round2, sm.forecast(m.data.values, m.order, m.trend, i)));
      forall i | 0 <= i < horizon
        ensures 0.0 <= bands[i].lower <= bands[i].mean <= bands[i].upper
      {
        var b := sm.forecast(m.data.values, m.order, m.trend, i);
        assert bands[i] == ClampedBand(round2, b);
      }
      Ok(Prediction(
        seq(horizon, i requires 0 <= i < horizon => LastDay(m.data) + 1 + i),
        seq(horizon, i requires 0 <= i < horizon => bands[i].mean),
        seq(horizon, i requires 0 <= i < horizon => bands[i].lower),
        seq(horizon, i requires 0 <= i < horizon => bands[i].upper)))
  }

  // ---------------------------------------------------------------------
  // Backtest

  datatype Metrics = Metrics(mae: real, rmse: real)

  const NoMetrics := Metrics(0.0, 0.0)

  /** `int(len(data) * (1 - test_ratio))`: the length of the training prefix. */
  function SplitIndex(n: nat, testRatio: real): (k: nat)
    requires 0.0 <= testRatio <= 1.0
    ensures k <= n
  {
    SplitBound(n, testRatio);
    (n as real * (1.0 - testRatio)).Floor
  }

  lemma SplitBound(n: nat, testRatio: real)
    requires 0.0 <= testRatio <= 1.0
    ensures 0.0 <= n as real * (1.0 - testRatio) <= n as real
  {
    var f := 1.0 - testRatio;
    assert 0.0 <= f <= 1.0;
    assert n as real * f <= n as real * 1.0;
  }

  /** With the 20% hold-out the service uses, a series of at least 10 days trains on at least 8
      of them and always leaves at least one day to test on. */
  lemma DefaultSplitLeavesTestDays(n: nat)
    requires n >= 10
    ensures 8 <= SplitIndex(n, 0.2) < n
  {
    var x := n as real * (1.0 - 0.2);
    assert x == 0.8 * n as real;
    assert 8.0 <= x < n as real;
  }

  function AbsoluteErrors(actual: seq<real>, predicted: seq<real>): (e: seq<real>)
    requires |actual| == |predicted|
    ensures |e| == |actual|
    ensures forall i :: 0 <= i < |e| ==> e[i] >= 0.0
  {
    seq(|actual|, i requires 0 <= i < |actual| => Abs(actual[i] - predicted[i]))
  }

  function SquaredErrors(actual: seq<real>, predicted: seq<real>): (e: seq<real>)
    requires |actual| == |predicted|
    ensures |e| == |actual|
  {
    seq(|actual|, i requires 0 <= i < |actual| => Square(actual[i] - predicted[i]))
  }

  /** Rounded mean absolute error and root mean squared error of predictions against actuals,
      as sklearn's `mean_absolute_error` and `mean_squared_error` define them. */
  function ErrorMetrics(round2: Rounding, sqrt: Root, actual: seq<real>, predicted: seq<real>): (r: Metrics)
    requires |actual| == |predicted| > 0
    ensures r.mae >= 0.0 && r.rmse >= 0.0
    ensures r.mae == round2(Sum(AbsoluteErrors(actual, predicted)) / |actual| as real)
    ensures r.rmse == round2(sqrt(Sum(SquaredErrors(actual, predicted)) / |actual| as real))
  {
    var absolute := AbsoluteErrors(actual, predicted);
    var mae := Mean(absolute);
    var rmse := sqrt(Mean(SquaredErrors(actual, predicted)));
    MeanNonNegative(absolute);
    RoundingKeepsSign(round2, mae);
    RoundingKeepsSign(round2, rmse);
    Metrics(round2(mae), round2(rmse))
  }

  /** A perfect prediction scores zero on both metrics. */
  lemma PerfectPredictionScoresZero(round2: Rounding, sqrt: Root, actual: seq<real>)
    requires |actual| > 0
    ensures ErrorMetrics(round2, sqrt, actual, actual) == NoMetrics
  {
    var absolute, squared := AbsoluteErrors(actual, actual), SquaredErrors(actual, actual);
    forall i | 0 <= i < |actual|
      ensures absolute[i] == 0.0 && squared[i] == 0.0
    {
      assert actual[i] - actual[i] == 0.0;
      assert absolute[i] == Abs(actual[i] - actual[i]);
      assert squared[i] == Square(actual[i] - actual[i]);
    }
    ZeroErrorsSumToZero(absolute);
    ZeroErrorsSumToZero(squared);
    assert IsRounding(round2) && IsRoot(sqrt);
  }

  lemma {:induction false} ZeroErrorsSumToZero(e: seq<real>)
    requires forall i :: 0 <= i < |e| ==> e[i] == 0.0
    ensures Sum(e) == 0.0
  {
    if |e| > 0 {
      ZeroErrorsSumToZero(e[..|e| - 1]);
    }
  }

  /** The training prefix and the held-out days of a series. */
  function TrainPart(values: seq<real>, testRatio: real): seq<real>
    requires 0.0 <= testRatio <= 1.0
  {
    values[..SplitIndex(|values|, testRatio)]
  }

  function TestPart(values: seq<real>, testRatio: real): (t: seq<real>)
    requires 0.0 <= testRatio <= 1.0
    ensures |TrainPart(values, testRatio)| + |t| == |values|
  {
    values[SplitIndex(|values|, testRatio)..]
  }

  /** The refit's forecast mean for each held-out day. */
  function HeldOutForecast(m: Forecaster, sm: Statsmodels, testRatio: real): (p: seq<real>)
    requires m.Fitted? && 0.0 <= testRatio <= 1.0
    ensures |p| == |TestPart(m.data.values, testRatio)|
  {
    var train := TrainPart(m.data.values, testRatio);
    seq(|TestPart(m.data.values, testRatio)|, i requires 0 <= i < |TestPart(m.data.values, testRatio)| =>
      sm.forecast(train, m.order, m.trend, i).mean)
  }

  /** `evaluate`: refit the selected order and trend on the training prefix, forecast the
      held-out days and report rounded MAE and RMSE; every degenerate case reports zeros. */
  function Evaluate(m: Forecaster, sm: Statsmodels, round2: Rounding, testRatio: real): (r: Metrics)
    requires 0.0 <= testRatio <= 1.0
    ensures r.mae >= 0.0 && r.rmse >= 0.0
    ensures m.Unfitted? || |m.data.values| < 10 ==> r == NoMetrics
    ensures r != NoMetrics ==>
              && m.Fitted? && |m.data.values| >= 10
              && SplitIndex(|m.data.values|, testRatio) < |m.data.values|
              && sm.fit(m.data.values[..SplitIndex(|m.data.values|, testRatio)], m.order, m.trend).Some?
    ensures m.Fitted? && |m.data.values| >= 10 && |TestPart(m.data.values, testRatio)| > 0
            && sm.fit(TrainPart(m.data.values, testRatio), m.order, m.trend).Some? ==>
              r == ErrorMetrics(round2, sm.sqrt, TestPart(m.data.values, testRatio), HeldOutForecast(m, sm, testRatio))
  {
    if m.Unfitted? || |m.data.values| < 10 then NoMetrics
    else
      var train, test := TrainPart(m.data.values, testRatio), TestPart(m.data.values, testRatio);
      if |test| == 0 then NoMetrics
      else if sm.fit(train, m.order, m.trend).None? then NoMetrics
      else ErrorMetrics(round2, sm.sqrt, test, HeldOutForecast(m, sm, testRatio))
  }

  datatype ModelParams = ModelParams(order: Option<seq<nat>>, aic: Option<real>)

  /** `get_model_params`: the order and rounded AIC, or None for each before `fit`. An AIC of
      exactly 0 is falsy in Python and is reported as None too. */
  function GetModelParams(m: Forecaster, round2: Rounding): (r: ModelParams)
    ensures m.Unfitted? ==> r == ModelParams(None, None)
    ensures m.Fitted? ==> r.order == Some(OrderList(m.order))
    ensures m.Fitted? ==> (r.aic.None? <==> m.aic == 0.0)
    ensures r.aic.Some? ==> m.Fitted? && r.aic.value == round2(m.aic)
  {
    match m
    case Unfitted => ModelParams(None, None)
    case Fitted(_, o, _, aic) => ModelParams(Some(OrderList(o)), if aic != 0.0 then Some(round2(aic)) else None)
  }
}

=== FILE: carbon_budget.dfy ===
/** The carbon-budget, risk and summary part of `GET /api/forecast/insights/:mineId`
    (backend/routes/insights.js). Dates are day numbers; the ML insights arrive as an optional
    report, None when the ML call fails or reports no success. */
module CarbonBudget {
  import opened Wrappers
  import opened Numbers
  import opened Collections
  import MlInsights

  /** The fields of a stored daily document that the summary reads; a missing or null field
      is None and reads as 0 through `|| 0`. */
  datatype BudgetRecord = BudgetRecord(total: Option<real>, fuelUsed: Option<real>)

  const InsufficientMessage := "Insufficient data for insights analysis."
  const MinimumRecords := 7

  datatype Risk = Low | Medium | High

  datatype Budget = Budget(
    annualBudgetKg: int,
    ytdEmissionsKg: int,
    budgetUsedPct: real,
    remainingBudgetKg: int,
    breachDay: Option<int>,
    targetYear: int)

  datatype Summary = Summary(currentEmission: int, forecastGrowthPct: real, reductionPotential: int, carbonIntensity: real)

  /** The seasonality the route answers: the ML one, or, without ML insights, the placeholder
      with no weekday data, no pattern and the insight text `UnavailableInsight`. */
  datatype ShownSeasonality = MlSeasonality(seasonality: MlInsights.Seasonality) | SeasonalityUnavailable

  /** The trend the route answers: the ML one, or, without ML insights, a stable trend of slope
      0 described by `UnavailableTrend`. */
  datatype ShownTrend = MlTrend(trend: MlInsights.Trend) | TrendUnavailable

  const UnavailableInsight := "Insights unavailable"
  const UnavailableTrend := "Trend analysis unavailable."

  datatype BudgetReport = BudgetReport(
    anomalies: seq<MlInsights.Anomaly>,
    seasonality: ShownSeasonality,
    drivers: seq<MlInsights.Driver>,
    trend: ShownTrend,
    mape: Option<real>,
    budget: Budget,
    risk: Risk,
    summary: Summary)

  /** The ML trend, or the stable default when the ML call failed. */
  function TrendOrDefault(ml: Option<MlInsights.InsightsReport>): MlInsights.Trend
  {
    if ml.Some? then ml.value.trend else MlInsights.Trend(MlInsights.Stable, 0.0, false)
  }

  /** The weekday series shown: empty for the placeholder. */
  function ShownWeekdays(s: ShownSeasonality): seq<real>
  {
    match s
    case MlSeasonality(x) => x.weekdayData
    case SeasonalityUnavailable => []
  }

  /** The trend direction and slope shown: stable and 0 for the placeholder. */
  function ShownDirection(t: ShownTrend): MlInsights.Direction
  {
    match t
    case MlTrend(x) => x.direction
    case TrendUnavailable => MlInsights.Stable
  }

  function ShownSlope(t: ShownTrend): real
  {
    match t
    case MlTrend(x) => x.slope
    case TrendUnavailable => 0.0
  }

  /** `mape || null`: a missing MAPE and a MAPE of 0 both answer null. */
  function ShownMape(ml: Option<MlInsights.InsightsReport>): (m: Option<real>)
    ensures m.Some? <==> ml.Some? && ml.value.mape.Some? && ml.value.mape.value != 0.0
    ensures m.Some? ==> m == ml.value.mape
  {
    if ml.Some? && ml.value.mape.Some? && ml.value.mape.value != 0.0 then ml.value.mape else None
  }

  /** The net-zero target year: earlier than 2050 exactly for a rising trend, later exactly
      for a falling one. */
  function TargetYear(d: MlInsights.Direction): (y: int)
    ensures 2035 <= y <= 2065
    ensures y < 2050 <==> d == MlInsights.Rising
    ensures y > 2050 <==> d == MlInsights.Falling
  {
    if d == MlInsights.Rising then 2035 else if d == MlInsights.Falling then 2065 else 2050
  }

  /** The trend adjustment of the budget: a tightening exactly for a rising trend, a
      loosening exactly for a falling one, by at most 15%. */
  function BudgetFactor(d: MlInsights.Direction): (f: real)
    ensures 0.85 <= f <= 1.15
    ensures f < 1.0 <==> d == MlInsights.Rising
    ensures f > 1.0 <==> d == MlInsights.Falling
  {
    if d == MlInsights.Rising then 0.85 else if d == MlInsights.Falling then 1.15 else 1.0
  }

  function TotalOf(e: BudgetRecord): real { e.total.GetOr(0.0) }
  function FuelOf(e: BudgetRecord): real { e.fuelUsed.GetOr(0.0) }

  function TotalsOf(es: seq<BudgetRecord>): (v: seq<real>)
    ensures |v| == |es|
  {
    Map(es, TotalOf)
  }

  /** Average of the totals, or `fallback` for an empty window. */
  function AverageOr(es: seq<BudgetRecord>, fallback: real): real
  {
    if |es| > 0 then Sum(TotalsOf(es)) / |es| as real else fallback
  }

  /** `slice(-60, -30)`: the up-to-30 records before the last 30. */
  function Older30(es: seq<BudgetRecord>): (r: seq<BudgetRecord>)
    ensures |es| <= 30 ==> r == []
    ensures |es| >= 60 ==> |r| == 30
  {
    if |es| <= 30 then [] else Tail(es[..|es| - 30], 30)
  }

  /** The days elapsed this year, rounded up and at least 1 (`elapsedDays` may be fractional). */
  function DaysSoFar(elapsedDays: real): (d: int)
    ensures d >= 1 && d as real >= elapsedDays
  {
    var c := JsCeil(elapsedDays);
    if c >= 1 then c else 1
  }

  function YearsUntil(target: int, currentYear: int): (y: int)
    ensures y >= 1 && y >= target - currentYear
  {
    if target - currentYear >= 1 then target - currentYear else 1
  }

  /** The intermediate figures of the budget computation. */
  datatype Figures = Figures(ytd: real, days: int, dailyRate: real, target: int, years: int, budgetKg: int, actual: real)

  function ComputeFigures(yearTotals: seq<BudgetRecord>, trend: MlInsights.Trend, elapsedDays: real, currentYear: int): (f: Figures)
    ensures f.days >= 1 && f.years >= 1
    ensures f.ytd == Sum(TotalsOf(yearTotals))
    ensures f.dailyRate > 0.0 <==> f.ytd > 0.0
    ensures f.target == TargetYear(trend.direction) && f.years == YearsUntil(f.target, currentYear)
    ensures f.dailyRate == f.ytd / f.days as real
    ensures f.budgetKg == AnnualBudget(f.dailyRate, f.years, trend.direction)
  {
    var ytd := Sum(TotalsOf(yearTotals));
    var days := DaysSoFar(elapsedDays);
    var dailyRate := ytd / days as real;
    var target := TargetYear(trend.direction);
    var years := YearsUntil(target, currentYear);
    var budgetKg := AnnualBudget(dailyRate, years, trend.direction);
    var actual := if budgetKg > 0 then ytd / budgetKg as real else 0.0;
    RateSign(ytd, days as real);
    Figures(ytd, days, dailyRate, target, years, budgetKg, actual)
  }

  /** The annual budget in kg: the daily rate over a year, times the years to the target,
      adjusted for the trend. */
  function AnnualBudget(dailyRate: real, years: int, d: MlInsights.Direction): int
  {
    JsRound(dailyRate * 365.0 * years as real * BudgetFactor(d))
  }

  /** At a non-negative daily rate, the annual budget shrinks as the trend worsens: a rising
      trend gets at most what a stable one gets, and that at most what a falling one gets. */
  lemma WorseTrendSmallerBudget(dailyRate: real, currentYear: int)
    requires dailyRate >= 0.0
    ensures AnnualBudget(dailyRate, YearsUntil(TargetYear(MlInsights.Rising), currentYear), MlInsights.Rising)
         <= AnnualBudget(dailyRate, YearsUntil(TargetYear(MlInsights.Stable), currentYear), MlInsights.Stable)
    ensures AnnualBudget(dailyRate, YearsUntil(TargetYear(MlInsights.Stable), currentYear), MlInsights.Stable)
         <= AnnualBudget(dailyRate, YearsUntil(TargetYear(MlInsights.Falling), currentYear), MlInsights.Falling)
  {
    var yr := YearsUntil(TargetYear(MlInsights.Rising), currentYear);
    var ys := YearsUntil(TargetYear(MlInsights.Stable), currentYear);
    var yf := YearsUntil(TargetYear(MlInsights.Falling), currentYear);
    assert 1 <= yr <= ys <= yf;
    BudgetMonotone(dailyRate, yr, MlInsights.Rising, dailyRate, ys, MlInsights.Stable);
    BudgetMonotone(dailyRate, ys, MlInsights.Stable, dailyRate, yf, MlInsights.Falling);
  }

  /** The annual budget grows with the daily rate, the years left and the trend factor. */
  lemma BudgetMonotone(rate1: real, y1: int, d1: MlInsights.Direction, rate2: real, y2: int, d2: MlInsights.Direction)
    requires 0.0 <= rate1 <= rate2 && 0 <= y1 <= y2 && BudgetFactor(d1) <= BudgetFactor(d2)
    ensures AnnualBudget(rate1, y1, d1) <= AnnualBudget(rate2, y2, d2)
  {
    var f1, f2 := BudgetFactor(d1), BudgetFactor(d2);
    var p1, p2 := rate1 * 365.0, rate2 * 365.0;
    MulMonotone(rate1, 365.0, rate2, 365.0);
    var q1, q2 := p1 * y1 as real, p2 * y2 as real;
    MulMonotone(p1, y1 as real, p2, y2 as real);
    MulMonotone(q1, f1, q2, f2);
    JsRoundMonotone(q1 * f1, q2 * f2);
  }

  lemma RateSign(ytd: real, days: real)
    requires days >= 1.0
    ensures ytd / days > 0.0 <==> ytd > 0.0
  {
  }

  /** The estimated breach day: only while emitting and under budget, and then strictly after
      today, `ceil(remaining / dailyRate)` days ahead. */
  function BreachDay(ytd: real, dailyRate: real, budgetKg: int, today: int): (b: Option<int>)
    ensures b.Some? <==> dailyRate > 0.0 && ytd < budgetKg as real
    ensures b.Some? ==> b.value > today
  {
    if dailyRate > 0.0 && ytd < budgetKg as real then
      var remaining := Max(budgetKg as real - ytd, 0.0);
      PositiveQuotient(remaining, dailyRate);
      Some(today + JsCeil(remaining / dailyRate))
    else None
  }

  /** Risk: high when ahead of schedule by 20% or rising; medium when ahead by -10% or the
      slope is positive; low otherwise. */
  function RiskOf(tracking: real, trend: MlInsights.Trend): (r: Risk)
    ensures r == High <==> tracking > 1.2 || trend.direction == MlInsights.Rising
    ensures r == Low <==> tracking <= 0.9 && trend.slope <= 0.0 && trend.direction != MlInsights.Rising
  {
    if tracking > 1.2 || trend.direction == MlInsights.Rising then High
    else if tracking > 0.9 || trend.slope > 0.0 then Medium
    else Low
  }

  /** actual / max(expected, 0.001): the share of the budget used so far against the share of
      the period elapsed. */
  function TrackingRatio(f: Figures): real
    requires f.years >= 1
  {
    var expected := (f.days as real / 365.0) / f.years as real;
    f.actual / Max(expected, 0.001)
  }

  /** The budget, breach estimate and risk level. `window` is the last 120 days of records,
      `yearTotals` this year's, `elapsedDays` the time since 1 January, `today` the current
      day number. */
  function ComputeBudget(window: seq<BudgetRecord>, yearTotals: seq<BudgetRecord>, ml: Option<MlInsights.InsightsReport>,
                         elapsedDays: real, currentYear: int, today: int): (r: Result<BudgetReport>)
    ensures r.Err? <==> |window| < MinimumRecords
    ensures r.Err? ==> r.msg == InsufficientMessage
    ensures r.Ok? && ml.Some? ==> (&& r.value.anomalies == ml.value.anomalies
                                   && r.value.seasonality == MlSeasonality(ml.value.seasonality)
                                   && r.value.drivers == ml.value.drivers
                                   && r.value.trend == MlTrend(ml.value.trend))
    ensures r.Ok? && ml.None? ==> (&& r.value.anomalies == []
                                   && r.value.seasonality == SeasonalityUnavailable
                                   && r.value.drivers == []
                                   && r.value.trend == TrendUnavailable)
    ensures r.Ok? ==> (r.value.mape.Some? <==> ml.Some? && ml.value.mape.Some? && ml.value.mape.value != 0.0)
    ensures r.Ok? && r.value.mape.Some? ==> r.value.mape == ml.value.mape
    ensures r.Ok? ==> ShownDirection(r.value.trend) == TrendOrDefault(ml).direction
                      && ShownSlope(r.value.trend) == TrendOrDefault(ml).slope
    ensures r.Ok? ==> r.value.budget.targetYear == TargetYear(TrendOrDefault(ml).direction)
    ensures r.Ok? && ml.None? ==> r.value.budget.targetYear == 2050
    ensures r.Ok? ==> r.value.risk == RiskOf(TrackingRatio(ComputeFigures(yearTotals, TrendOrDefault(ml), elapsedDays, currentYear)),
                                              TrendOrDefault(ml))
    ensures r.Ok? ==> r.value.budget.budgetUsedPct <= 100.0 && r.value.budget.remainingBudgetKg >= 0
    ensures r.Ok? ==> (r.value.budget.breachDay.Some? <==>
                         0.0 < Sum(TotalsOf(yearTotals)) < r.value.budget.annualBudgetKg as real)
    ensures r.Ok? && r.value.budget.breachDay.Some? ==> r.value.budget.breachDay.value > today
    ensures r.Ok? && TrendOrDefault(ml).direction == MlInsights.Rising ==> r.value.risk == High
    ensures r.Ok? ==>
              var f := ComputeFigures(yearTotals, TrendOrDefault(ml), elapsedDays, currentYear);
              && r.value.budget.annualBudgetKg == f.budgetKg
              && r.value.budget.ytdEmissionsKg == JsRound(f.ytd)
              && r.value.budget.remainingBudgetKg == JsRound(Max(f.budgetKg as real - f.ytd, 0.0))
              && r.value.budget.breachDay == BreachDay(f.ytd, f.dailyRate, f.budgetKg, today)
    ensures r.Ok? ==> r.value.summary == Summarize(window)
  {
    if |window| < MinimumRecords then Err(InsufficientMessage)
    else
      var trend := TrendOrDefault(ml);
      var f := ComputeFigures(yearTotals, trend, elapsedDays, currentYear);
      var usedPct := Min(f.actual * 100.0, 100.0);
      var remaining := Max(f.budgetKg as real - f.ytd, 0.0);
      UsedPctCapped(usedPct);
      JsRoundMonotone(0.0, remaining);
      JsRoundInteger(0);
      Ok(BudgetReport(
        if ml.Some? then ml.value.anomalies else [],
        if ml.Some? then MlSeasonality(ml.value.seasonality) else SeasonalityUnavailable,
        if ml.Some? then ml.value.drivers else [],
        if ml.Some? then MlTrend(ml.value.trend) else TrendUnavailable,
        ShownMape(ml),
        Budget(f.budgetKg, JsRound(f.ytd), JsRoundTenths(usedPct), JsRound(remaining),
               BreachDay(f.ytd, f.dailyRate, f.budgetKg, today), f.target),
        RiskOf(TrackingRatio(f), trend),
        Summarize(window)))
  }

  lemma UsedPctCapped(p: real)
    requires p <= 100.0
    ensures JsRoundTenths(p) <= 100.0
  {
    JsRoundTenthsMonotone(p, 100.0);
    JsRoundTenthsWhole(100);
  }

  lemma PositiveQuotient(a: real, b: real)
    requires a > 0.0 && b > 0.0
    ensures a / b > 0.0
  {
  }

  /** Once this year's emissions reach the budget, nothing is left: no remaining budget and no
      breach estimate. */
  lemma ExhaustedBudget(window: seq<BudgetRecord>, yearTotals: seq<BudgetRecord>, ml: Option<MlInsights.InsightsReport>,
                        elapsedDays: real, currentYear: int, today: int)
    requires |window| >= MinimumRecords
    requires Sum(TotalsOf(yearTotals)) >= ComputeBudget(window, yearTotals, ml, elapsedDays, currentYear, today).value.budget.annualBudgetKg as real
    ensures ComputeBudget(window, yearTotals, ml, elapsedDays, currentYear, today).value.budget.remainingBudgetKg == 0
    ensures ComputeBudget(window, yearTotals, ml, elapsedDays, currentYear, today).value.budget.breachDay.None?
  {
    JsRoundInteger(0);
  }

  /** Growth of the current average over the older one, in percent; 0 unless the older average
      is positive. */
  function GrowthPct(current: real, older: real): (g: real)
    ensures older <= 0.0 ==> g == 0.0
    ensures current == older ==> g == 0.0
    ensures older > 0.0 ==> (g > 0.0 <==> current > older)
  {
    if older > 0.0 then
      GrowthSign(current - older, older);
      (current - older) / older * 100.0
    else 0.0
  }

  lemma GrowthSign(diff: real, older: real)
    requires older > 0.0
    ensures diff / older * 100.0 > 0.0 <==> diff > 0.0
    ensures diff == 0.0 ==> diff / older * 100.0 == 0.0
  {
  }

  /** Emissions per average daily fuel over 30 days; 0 without fuel. */
  function Intensity(current: real, fuel: real): (i: real)
    ensures fuel <= 0.0 ==> i == 0.0
    ensures fuel > 0.0 && current >= 0.0 ==> i >= 0.0
  {
    if fuel > 0.0 then
      NonNegativeQuotient(current, fuel / 30.0);
      current / (fuel / 30.0)
    else 0.0
  }

  lemma NonNegativeQuotient(a: real, b: real)
    requires b > 0.0
    ensures a >= 0.0 ==> a / b >= 0.0
  {
  }

  /** The mine summary: the average of the last 30 records, its growth over the 30 before (0 when
      there are none or their average is not positive), and the intensity per average fuel. */
  function Summarize(window: seq<BudgetRecord>): (s: Summary)
    ensures |Older30(window)| == 0 ==> s.forecastGrowthPct == 0.0
    ensures Sum(Map(Tail(window, 30), FuelOf)) <= 0.0 ==> s.carbonIntensity == 0.0
    ensures s.currentEmission == JsRound(AverageOr(Tail(window, 30), 0.0))
    ensures var current := AverageOr(Tail(window, 30), 0.0);
            && s.forecastGrowthPct == JsRoundTenths(GrowthPct(current, AverageOr(Older30(window), current)))
            && s.reductionPotential == JsRound(current * 0.15)
            && s.carbonIntensity == JsRoundHundredths(Intensity(current, Sum(Map(Tail(window, 30), FuelOf))))
  {
    var recent := Tail(window, 30);
    var current := AverageOr(recent, 0.0);
    var older := Older30(window);
    var olderAvg := AverageOr(older, current);
    var fuel := Sum(Map(recent, FuelOf));
    RoundingsFixZero();
    Summary(JsRound(current), JsRoundTenths(GrowthPct(current, olderAvg)), JsRound(current * 0.15),
            JsRoundHundredths(Intensity(current, fuel)))
  }

  lemma RoundingsFixZero()
    ensures JsRoundTenths(0.0) == 0.0 && JsRoundHundredths(0.0) == 0.0
  {
    JsRoundInteger(0);
  }
}

=== FILE: collections.dfy ===
/** Generic sequence operations shared by the services: JavaScript/pandas slicing from the end,
    filtering, a stable descending sort, first-occurrence de-duplication and per-key totals. */
module Collections {
  import opened Numbers

  /** The last `k` elements (all of them when there are fewer): `slice(-k)`, `tail(k)`. */
  function Tail<T>(s: seq<T>, k: nat): (r: seq<T>)
    ensures |r| == if |s| < k then |s| else k
    ensures r == s[|s| - |r|..]
  {
    if |s| <= k then s else s[|s| - k..]
  }

  /** The first `k` elements (all of them when there are fewer): `slice(0, k)`, `head(k)`. */
  function Take<T>(s: seq<T>, k: nat): (r: seq<T>)
    ensures |r| == if |s| < k then |s| else k
    ensures r == s[..|r|]
  {
    if |s| <= k then s else s[..k]
  }

  /** The elements after the first `k`. */
  function Drop<T>(s: seq<T>, k: nat): (r: seq<T>)
    ensures Take(s, k) + r == s
  {
    if |s| <= k then [] else s[k..]
  }

  function Filter<T(==,!new)>(s: seq<T>, keep: T -> bool): (r: seq<T>)
    ensures |r| <= |s|
    ensures forall i :: 0 <= i < |r| ==> keep(r[i])
    ensures forall x :: x in s && keep(x) <==> x in r
  {
    if |s| == 0 then []
    else
      var r' := Filter(s[..|s| - 1], keep);
      assert forall x :: x in s <==> x in s[..|s| - 1] || x == s[|s| - 1];
      if keep(s[|s| - 1]) then r' + [s[|s| - 1]] else r'
  }

  /** Filtering keeps a sequence whole when every element passes. */
  lemma {:induction false} FilterAll<T(!new)>(s: seq<T>, keep: T -> bool)
    requires forall i :: 0 <= i < |s| ==> keep(s[i])
    ensures Filter(s, keep) == s
  {
    if |s| > 0 {
      FilterAll(s[..|s| - 1], keep);
    }
  }

  /** Conversely, a filter that keeps every position kept every element. */
  lemma {:induction false} FilterFull<T(!new)>(s: seq<T>, keep: T -> bool)
    requires |Filter(s, keep)| == |s|
    ensures forall i :: 0 <= i < |s| ==> keep(s[i])
  {
    if |s| > 0 {
      var init := s[..|s| - 1];
      assert keep(s[|s| - 1]);
      FilterFull(init, keep);
      assert forall i :: 0 <= i < |init| ==> init[i] == s[i];
    }
  }

  /** Filtering drops everything when no element passes. */
  lemma {:induction false} FilterNone<T(!new)>(s: seq<T>, keep: T -> bool)
    requires forall i :: 0 <= i < |s| ==> !keep(s[i])
    ensures Filter(s, keep) == []
  {
    if |s| > 0 {
      FilterNone(s[..|s| - 1], keep);
    }
  }

  /** Filtering preserves order: appending an element that passes appends it to the result. */
  lemma FilterAppend<T(!new)>(s: seq<T>, x: T, keep: T -> bool)
    ensures Filter(s + [x], keep) == if keep(x) then Filter(s, keep) + [x] else Filter(s, keep)
  {
    assert (s + [x])[..|s|] == s;
  }

  /** Filtering distributes over concatenation. */
  lemma {:induction false} FilterConcat<T(!new)>(a: seq<T>, b: seq<T>, keep: T -> bool)
    ensures Filter(a + b, keep) == Filter(a, keep) + Filter(b, keep)
    decreases |b|
  {
    if |b| == 0 {
      assert a + b == a;
    } else {
      var b', x := b[..|b| - 1], b[|b| - 1];
      assert a + b == (a + b') + [x];
      assert b == b' + [x];
      FilterAppend(a + b', x, keep);
      FilterAppend(b', x, keep);
      FilterConcat(a, b', keep);
      if keep(x) {
        AppendAssoc(Filter(a, keep), Filter(b', keep), [x]);
      }
    }
  }

  lemma AppendAssoc<T>(u: seq<T>, v: seq<T>, w: seq<T>)
    ensures (u + v) + w == u + (v + w)
  {
  }

  function Map<T, U>(s: seq<T>, f: T -> U): (r: seq<U>)
    ensures |r| == |s|
    ensures forall i :: 0 <= i < |s| ==> r[i] == f(s[i])
  {
    seq(|s|, i requires 0 <= i < |s| => f(s[i]))
  }

  // ---------------------------------------------------------------------
  // Stable descending sort

  ghost predicate SortedDesc<T>(s: seq<T>, key: T -> real)
  {
    forall i, j :: 0 <= i < j < |s| ==> key(s[i]) >= key(s[j])
  }

  /** Where a stable insertion puts `x`: after every element whose key is at least `x`'s. */
  function InsertPosition<T>(sorted: seq<T>, x: T, key: T -> real): (k: nat)
    requires SortedDesc(sorted, key)
    ensures k <= |sorted|
    ensures forall i :: 0 <= i < k ==> key(sorted[i]) >= key(x)
    ensures forall i :: k <= i < |sorted| ==> key(sorted[i]) < key(x)
  {
    if |sorted| == 0 || key(sorted[|sorted| - 1]) >= key(x) then |sorted|
    else InsertPosition(sorted[..|sorted| - 1], x, key)
  }

  function Insert<T>(sorted: seq<T>, x: T, key: T -> real): (r: seq<T>)
    requires SortedDesc(sorted, key)
    ensures SortedDesc(r, key)
    ensures multiset(r) == multiset(sorted) + multiset{x}
  {
    var k := InsertPosition(sorted, x, key);
    var r := sorted[..k] + [x] + sorted[k..];
    assert sorted == sorted[..k] + sorted[k..];
    InsertedSorted(sorted, x, key, k);
    r
  }

  lemma InsertedSorted<T>(sorted: seq<T>, x: T, key: T -> real, k: nat)
    requires SortedDesc(sorted, key) && k <= |sorted|
    requires forall i :: 0 <= i < k ==> key(sorted[i]) >= key(x)
    requires forall i :: k <= i < |sorted| ==> key(sorted[i]) < key(x)
    ensures SortedDesc(sorted[..k] + [x] + sorted[k..], key)
  {
    var r := sorted[..k] + [x] + sorted[k..];
    forall i, j | 0 <= i < j < |r|
      ensures key(r[i]) >= key(r[j])
    {
      if j < k {
        assert r[i] == sorted[i] && r[j] == sorted[j];
      } else if j == k {
        assert r[i] == sorted[i];
      } else if i == k {
        assert r[j] == sorted[j - 1];
      } else if i < k {
        assert r[i] == sorted[i] && r[j] == sorted[j - 1];
      } else {
        assert r[i] == sorted[i - 1] && r[j] == sorted[j - 1];
      }
    }
  }

  /** Stable sort by descending key: Python's `sorted(..., reverse=True)` and JavaScript's
      `sort((a, b) => key(b) - key(a))` on the values this model uses. */
  function SortDesc<T>(s: seq<T>, key: T -> real): (r: seq<T>)
    ensures SortedDesc(r, key)
    ensures multiset(r) == multiset(s)
    ensures |r| == |s|
  {
    if |s| == 0 then []
    else
      assert s == s[..|s| - 1] + [s[|s| - 1]];
      Insert(SortDesc(s[..|s| - 1], key), s[|s| - 1], key)
  }

  /** Keeping the first `k` of a descending sort keeps the `k` largest: nothing left out
      has a larger key than anything kept. */
  lemma TopK<T>(s: seq<T>, key: T -> real, k: nat)
    ensures multiset(Take(SortDesc(s, key), k)) + multiset(Drop(SortDesc(s, key), k)) == multiset(s)
    ensures forall y, z :: y in Drop(SortDesc(s, key), k) && z in Take(SortDesc(s, key), k) ==> key(y) <= key(z)
  {
    var t := SortDesc(s, key);
    assert Take(t, k) + Drop(t, k) == t;
    forall y, z | y in Drop(t, k) && z in Take(t, k)
      ensures key(y) <= key(z)
    {
      var i :| 0 <= i < |Drop(t, k)| && Drop(t, k)[i] == y;
      var j :| 0 <= j < |Take(t, k)| && Take(t, k)[j] == z;
      assert t[|Take(t, k)| + i] == y;
      assert t[j] == z;
    }
  }

  /** The `k` elements with the largest keys, largest first: a descending sort cut to `k`. */
  function TopBy<T>(s: seq<T>, key: T -> real, k: nat): (r: seq<T>)
    ensures |r| == if |s| < k then |s| else k
    ensures SortedDesc(r, key)
    ensures multiset(r) <= multiset(s)
    ensures forall y, z :: y in multiset(s) - multiset(r) && z in r ==> key(y) <= key(z)
  {
    TopK(s, key, k);
    TopKSorted(s, key, k);
    TopKRest(s, key, k);
    Take(SortDesc(s, key), k)
  }

  /** The same, with what is left out taken as the multiset difference. */
  lemma TopKRest<T>(s: seq<T>, key: T -> real, k: nat)
    ensures forall y, z :: y in multiset(s) - multiset(Take(SortDesc(s, key), k)) && z in Take(SortDesc(s, key), k) ==> key(y) <= key(z)
  {
    var t := SortDesc(s, key);
    TopK(s, key, k);
    assert multiset(s) - multiset(Take(t, k)) == multiset(Drop(t, k));
  }

  /** The first `k` of a sorted copy are still sorted. */
  lemma TopKSorted<T>(s: seq<T>, key: T -> real, k: nat)
    ensures SortedDesc(Take(SortDesc(s, key), k), key)
  {
  }

  /** The first `k` of a sorted copy are elements of the original. */
  lemma TopKFrom<T>(s: seq<T>, key: T -> real, k: nat)
    ensures forall x :: x in Take(SortDesc(s, key), k) ==> x in s
  {
    var t := SortDesc(s, key);
    forall x | x in Take(t, k)
      ensures x in s
    {
      assert x in t;
      assert x in multiset(t);
    }
  }

  /** A stable sort keeps the first element in front when no other key exceeds its key. */
  lemma {:induction false} SortDescHead<T>(s: seq<T>, key: T -> real)
    requires |s| > 0
    requires forall i :: 0 <= i < |s| ==> key(s[i]) <= key(s[0])
    ensures SortDesc(s, key)[0] == s[0]
  {
    if |s| > 1 {
      var p := s[..|s| - 1];
      SortDescHead(p, key);
      var sp := SortDesc(p, key);
      var k := InsertPosition(sp, s[|s| - 1], key);
      assert k > 0;
    }
  }

  /** The sort is stable: when every key is the same, the order is left exactly as it was. */
  lemma {:induction false} SortDescEqualKeys<T>(s: seq<T>, key: T -> real)
    requires forall i, j :: 0 <= i < |s| && 0 <= j < |s| ==> key(s[i]) == key(s[j])
    ensures SortDesc(s, key) == s
  {
    if |s| > 0 {
      var p, x := s[..|s| - 1], s[|s| - 1];
      assert s == p + [x];
      assert forall i :: 0 <= i < |p| ==> p[i] == s[i];
      SortDescEqualKeys(p, key);
      assert InsertPosition(p, x, key) == |p| by {
        if |p| > 0 {
          assert key(p[|p| - 1]) == key(x);
        }
      }
      assert Insert(p, x, key) == p + [x] by {
        assert p[..|p|] == p && p[|p|..] == [];
      }
    }
  }

  // ---------------------------------------------------------------------
  // First-occurrence de-duplication and per-key totals

  ghost predicate NoDuplicates<T>(s: seq<T>)
  {
    forall i, j :: 0 <= i < j < |s| ==> s[i] != s[j]
  }

  /** The distinct elements of `s` in order of first occurrence, as the keys of a JavaScript
      object or a Python dict appear after a grouping loop. */
  function Distinct<T(==,!new)>(s: seq<T>): (r: seq<T>)
    ensures NoDuplicates(r)
    ensures forall x :: x in r <==> x in s
    ensures |r| <= |s|
  {
    if |s| == 0 then []
    else
      var r' := Distinct(s[..|s| - 1]);
      assert forall x :: x in s <==> x in s[..|s| - 1] || x == s[|s| - 1];
      if s[|s| - 1] in r' then r' else r' + [s[|s| - 1]]
  }

  /** Filtering a sequence without duplicates leaves none. */
  lemma {:induction false} FilterKeepsDistinct<T(!new)>(s: seq<T>, keep: T -> bool)
    requires NoDuplicates(s)
    ensures NoDuplicates(Filter(s, keep))
  {
    if |s| > 0 {
      var p := s[..|s| - 1];
      assert NoDuplicates(p);
      FilterKeepsDistinct(p, keep);
      assert s[|s| - 1] !in p;
      assert s[|s| - 1] !in Filter(p, keep);
    }
  }

  /** Without duplicates every element occurs at most once. */
  lemma {:induction false} DistinctCountsOnce<T>(s: seq<T>, x: T)
    requires NoDuplicates(s)
    ensures multiset(s)[x] <= 1
  {
    if |s| > 0 {
      var p := s[..|s| - 1];
      assert s == p + [s[|s| - 1]];
      assert NoDuplicates(p);
      DistinctCountsOnce(p, x);
      if x == s[|s| - 1] {
        assert x !in p;
      }
    }
  }

  /** Reordering a sequence without duplicates leaves none. */
  lemma PermutationKeepsDistinct<T>(a: seq<T>, b: seq<T>)
    requires multiset(a) == multiset(b) && NoDuplicates(a)
    ensures NoDuplicates(b)
  {
    forall i, j | 0 <= i < j < |b|
      ensures b[i] != b[j]
    {
      if b[i] == b[j] {
        assert b == b[..j] + b[j..];
        assert b[i] in b[..j] && b[j] in b[j..];
        assert multiset(b)[b[i]] >= 2;
        DistinctCountsOnce(a, b[i]);
        assert false;
      }
    }
  }

  /** Sum of `value` over the elements whose key is `k`, accumulated in order. */
  function TotalFor<T, K(==)>(s: seq<T>, key: T -> K, value: T -> real, k: K): real
  {
    if |s| == 0 then 0.0
    else
      var t := TotalFor(s[..|s| - 1], key, value, k);
      if key(s[|s| - 1]) == k then t + value(s[|s| - 1]) else t
  }

  function Keys<T, K>(s: seq<T>, key: T -> K): (r: seq<K>)
    ensures |r| == |s|
    ensures forall i :: 0 <= i < |s| ==> r[i] == key(s[i])
  {
    Map(s, key)
  }

  /** The `acc[key] = (acc[key] || 0) + value` grouping loop: one total per distinct key,
      keys in first-occurrence order. */
  function GroupTotals<T, K(==,!new)>(s: seq<T>, key: T -> K, value: T -> real): (r: seq<(K, real)>)
    ensures |r| <= |s|
    ensures forall i :: 0 <= i < |r| ==> r[i].1 == TotalFor(s, key, value, r[i].0)
    ensures forall i, j :: 0 <= i < j < |r| ==> r[i].0 != r[j].0
    ensures forall i :: 0 <= i < |s| ==> exists j :: 0 <= j < |r| && r[j].0 == key(s[i])
    ensures forall j :: 0 <= j < |r| ==> r[j].0 in Keys(s, key)
  {
    var ks := Distinct(Keys(s, key));
    var r := seq(|ks|, i requires 0 <= i < |ks| => (ks[i], TotalFor(s, key, value, ks[i])));
    assert forall i :: 0 <= i < |s| ==> key(s[i]) in Keys(s, key);
    assert forall j :: 0 <= j < |ks| ==> r[j].0 == ks[j];
    r
  }

  /** A key that occurs nowhere totals zero. */
  lemma {:induction false} TotalForAbsent<T, K>(s: seq<T>, key: T -> K, value: T -> real, k: K)
    requires forall i :: 0 <= i < |s| ==> key(s[i]) != k
    ensures TotalFor(s, key, value, k) == 0.0
  {
    if |s| > 0 {
      TotalForAbsent(s[..|s| - 1], key, value, k);
    }
  }

  /** One key's total over `s + t` is its total over `s` plus its total over `t`. */
  lemma {:induction false} TotalForAppend<T, K>(s: seq<T>, t: seq<T>, key: T -> K, value: T -> real, k: K)
    ensures TotalFor(s + t, key, value, k) == TotalFor(s, key, value, k) + TotalFor(t, key, value, k)
    decreases |t|
  {
    if |t| == 0 {
      assert s + t == s;
    } else {
      assert (s + t)[..|s + t| - 1] == s + t[..|t| - 1];
      TotalForAppend(s, t[..|t| - 1], key, value, k);
    }
  }
}

=== FILE: comparison.dfy ===
/** Multi-mine forecast comparison (backend/routes/comparison.js): for 2 to 5 mine ids, take
    each known mine's live cached forecast, or generate and cache one when none is live and the
    mine has enough history, then rank the mines by total predicted emissions. */
module Comparison {
  import opened Wrappers
  import opened Numbers
  import opened Collections
  import opened Arima
  import opened ForecastService
  import opened ForecastCache

  const SelectionMessage := "Select 2 to 5 mines for comparison."

  /** One mine's row of the comparison. */
  datatype MineForecast = MineForecast(
    mineId: string, mineName: string, hasForecast: bool,
    forecastData: seq<ForecastPoint>, accuracy: Option<Metrics>, totalPredicted: real)

  datatype ComparisonReport = ComparisonReport(comparison: seq<MineForecast>, highestEmitter: Option<string>)

  /** What the route can see of the world: mine names by id, and per mine id the number of
      records in the last 120 days and what the ML service answers for it. */
  datatype World = World(mines: map<string, string>, recordCount: string -> nat, ml: string -> MlReply)

  function Predicted(p: ForecastPoint): real { p.predicted }

  function TotalPredicted(data: seq<ForecastPoint>): real
  {
    Sum(Map(data, Predicted))
  }

  /** The forecast a mine is compared on: the live cached one, else a freshly generated one
      when the mine has at least 30 records, the service succeeds and the document validates
      (its horizon must be 7, 14 or 30), else none. Only a generated forecast is stored. */
  function Resolve(cache: seq<Entry>, w: World, mineId: string, horizon: int, now: int): (r: (Option<Entry>, seq<Entry>))
    ensures Newest(cache, mineId, horizon, now).Some? ==> r == (Newest(cache, mineId, horizon, now), cache)
    ensures r.1 != cache <==>
              && Newest(cache, mineId, horizon, now).None?
              && w.recordCount(mineId) >= MinimumRecords && w.ml(mineId).Success? && ValidHorizon(horizon)
    ensures r.1 != cache ==> r.0.Some? && r.1 == cache + [r.0.value] && r.0.value == NewEntry(mineId, horizon, now, w.ml(mineId).report)
    ensures r.0.Some? ==> Matches(r.0.value, mineId, horizon)
  {
    var cached := Newest(cache, mineId, horizon, now);
    if cached.Some? then (cached, cache)
    else if w.recordCount(mineId) >= MinimumRecords && w.ml(mineId).Success? && ValidHorizon(horizon) then
      var e := NewEntry(mineId, horizon, now, w.ml(mineId).report);
      assert |cache + [e]| != |cache|;
      (Some(e), cache + [e])
    else (None, cache)
  }

  /** The row for a mine with the forecast it resolved to. */
  function RowOf(mineId: string, name: string, e: Option<Entry>): (row: MineForecast)
    ensures row.mineId == mineId && row.mineName == name
    ensures row.hasForecast <==> e.Some?
    ensures row.hasForecast ==> row.forecastData == e.value.report.forecastData && row.totalPredicted == TotalPredicted(row.forecastData)
    ensures !row.hasForecast ==> row.forecastData == [] && row.totalPredicted == 0.0 && row.accuracy.None?
  {
    match e
    case Some(f) => MineForecast(mineId, name, true, f.report.forecastData, Some(f.report.accuracy), TotalPredicted(f.report.forecastData))
    case None => MineForecast(mineId, name, false, [], None, 0.0)
  }

  predicate Known(w: World, mineId: string)
  {
    mineId in w.mines
  }

  /** The requested ids that name a mine, in request order. */
  function KnownIds(ids: seq<string>, w: World): (r: seq<string>)
    ensures forall i :: 0 <= i < |r| ==> r[i] in ids && Known(w, r[i])
  {
    if |ids| == 0 then []
    else
      var prefix := ids[..|ids| - 1];
      var id := ids[|ids| - 1];
      assert forall x :: x in prefix ==> x in ids;
      KnownIds(prefix, w) + (if Known(w, id) then [id] else [])
  }

  /** The loop over the requested ids, in order: unknown ids are skipped, and a forecast stored
      for one id is visible to the later ones. */
  function Gather(ids: seq<string>, w: World, cache: seq<Entry>, horizon: int, now: int): (r: (seq<MineForecast>, seq<Entry>))
    ensures |r.0| == |KnownIds(ids, w)|
    ensures forall i :: 0 <= i < |r.0| ==> r.0[i].mineId == KnownIds(ids, w)[i] && r.0[i].mineName == w.mines[r.0[i].mineId]
    ensures cache <= r.1
    ensures forall i :: |cache| <= i < |r.1| ==> r.1[i].mineId in ids && r.1[i].generatedAt == now
  {
    if |ids| == 0 then ([], cache)
    else
      var prefix := ids[..|ids| - 1];
      var id := ids[|ids| - 1];
      var (rows, c) := Gather(prefix, w, cache, horizon, now);
      assert forall i :: |cache| <= i < |c| ==> c[i].mineId in ids by {
        assert forall x :: x in prefix ==> x in ids;
      }
      if id !in w.mines then (rows, c)
      else
        var (e, c') := Resolve(c, w, id, horizon, now);
        ResolveAppends(c, w, id, horizon, now);
        (rows + [RowOf(id, w.mines[id], e)], c')
  }

  /** Resolving a mine only ever appends entries for that mine, stamped with the current time. */
  lemma ResolveAppends(c: seq<Entry>, w: World, mineId: string, horizon: int, now: int)
    ensures var c' := Resolve(c, w, mineId, horizon, now).1;
            c <= c' && forall i :: |c| <= i < |c'| ==> c'[i].mineId == mineId && c'[i].generatedAt == now
  {
    var (e, c') := Resolve(c, w, mineId, horizon, now);
    if c' != c {
      assert c' == c + [e.value];
    }
  }

  /** The ranking key: the predicted total of a row. */
  function RowTotal(m: MineForecast): real { m.totalPredicted }

  /** POST /api/forecast/compare. `mineIds` is `None` when the body's value is not an array. */
  function Compare(mineIds: Option<seq<string>>, horizonParam: Option<int>, w: World, cache: seq<Entry>, now: int): (r: Result<(ComparisonReport, seq<Entry>)>)
    ensures r.Err? <==> mineIds.None? || |mineIds.value| < 2 || |mineIds.value| > 5
    ensures r.Err? ==> r.msg == SelectionMessage
    ensures r.Ok? ==>
              var (report, cache') := r.value;
              var (rows, _) := Gather(mineIds.value, w, cache, RequestedHorizon(horizonParam), now);
              && multiset(report.comparison) == multiset(rows)
              && (forall i, j :: 0 <= i < j < |report.comparison| ==>
                    report.comparison[i].totalPredicted >= report.comparison[j].totalPredicted)
              && (report.highestEmitter.None? <==> report.comparison == [])
              && (report.highestEmitter.Some? ==> report.highestEmitter.value == report.comparison[0].mineName)
              && cache <= cache'
  {
    if mineIds.None? || |mineIds.value| < 2 || |mineIds.value| > 5 then Err(SelectionMessage)
    else
      var (rows, cache') := Gather(mineIds.value, w, cache, RequestedHorizon(horizonParam), now);
      var ranked := SortDesc(rows, RowTotal);
      assert forall i, j :: 0 <= i < j < |ranked| ==> ranked[i].totalPredicted >= ranked[j].totalPredicted;
      Ok((ComparisonReport(ranked, if |ranked| > 0 then Some(ranked[0].mineName) else None), cache'))
  }

  /** The highest emitter is a compared mine whose total is at least every other mine's. */
  lemma HighestEmitterIsMaximal(mineIds: Option<seq<string>>, horizonParam: Option<int>, w: World, cache: seq<Entry>, now: int)
    requires Compare(mineIds, horizonParam, w, cache, now).Ok?
    ensures var report := Compare(mineIds, horizonParam, w, cache, now).value.0;
            report.highestEmitter.Some? ==>
              forall m :: m in report.comparison ==> m.totalPredicted <= report.comparison[0].totalPredicted
  {
    var report := Compare(mineIds, horizonParam, w, cache, now).value.0;
    var rc := report.comparison;
    forall m | m in rc ensures m.totalPredicted <= rc[0].totalPredicted {
      var k :| 0 <= k < |rc| && rc[k] == m;
      if k > 0 { assert rc[0].totalPredicted >= rc[k].totalPredicted; }
    }
  }

  predicate EqualTotals(rows: seq<MineForecast>)
  {
    forall i, j :: 0 <= i < |rows| && 0 <= j < |rows| ==> RowTotal(rows[i]) == RowTotal(rows[j])
  }

  /** Ties keep the request order: when every compared mine predicts the same total (all 0, say,
      when none has a forecast), the ranking is the gathered rows unchanged and the highest
      emitter is the first requested mine that exists. */
  lemma EqualTotalsKeepRequestOrder(mineIds: Option<seq<string>>, horizonParam: Option<int>, w: World, cache: seq<Entry>, now: int)
    requires Compare(mineIds, horizonParam, w, cache, now).Ok?
    requires EqualTotals(Gather(mineIds.value, w, cache, RequestedHorizon(horizonParam), now).0)
    ensures var report := Compare(mineIds, horizonParam, w, cache, now).value.0;
            && report.comparison == Gather(mineIds.value, w, cache, RequestedHorizon(horizonParam), now).0
            && (|KnownIds(mineIds.value, w)| > 0 ==>
                  report.highestEmitter == Some(w.mines[KnownIds(mineIds.value, w)[0]]))
  {
    var rows := Gather(mineIds.value, w, cache, RequestedHorizon(horizonParam), now).0;
    SortDescEqualKeys(rows, RowTotal);
  }

  /** When every requested mine already has a live forecast, nothing is generated: the cache
      is left exactly as it was and every row has its forecast. */
  lemma {:induction false} AllCachedGeneratesNothing(ids: seq<string>, w: World, cache: seq<Entry>, horizon: int, now: int)
    requires forall id :: id in ids && Known(w, id) ==> Newest(cache, id, horizon, now).Some?
    ensures Gather(ids, w, cache, horizon, now).1 == cache
    ensures forall m :: m in Gather(ids, w, cache, horizon, now).0 ==> m.hasForecast
  {
    if |ids| > 0 {
      var prefix := ids[..|ids| - 1];
      assert forall x :: x in prefix ==> x in ids;
      AllCachedGeneratesNothing(prefix, w, cache, horizon, now);
    }
  }
}

=== FILE: csv_transfer.dfy ===
/** CSV upload and export of a mine's daily records (backend/routes/system.js). An upload
    accumulates each well-formed row into the mine's collection exactly as a same-date POST
    does; an export writes one 15-field line per record, most recent first. Text is parsed with
    `new Date(...)` and `parseFloat`, given here as parameters. */
module CsvTransfer {
  import opened Wrappers
  import opened Collections
  import opened Text
  import opened Accounting

  const RequiredColumns: seq<string> :=
    ["Date", "Fuel Used (L)", "Electricity Used (kWh)", "Explosives Used (kg)", "Transport Fuel Used (L)"]

  const ExportColumns: seq<string> := [
    "Date", "Fuel Used (L)", "Electricity Used (kWh)", "Explosives Used (kg)", "Methane Emissions (kg CH4)",
    "Transport Fuel Used (L)", "Fuel Emission (kg CO2e)", "Electricity Emission (kg CO2e)",
    "Explosives Emission (kg CO2e)", "Methane Emissions (kg CO2e)", "Transport Emission (kg CO2e)",
    "Scope 1 (kg CO2e)", "Scope 2 (kg CO2e)", "Scope 3 (kg CO2e)", "Total Carbon Emission (kg CO2e)"]

  const MissingInputMessage := "File and mineId are required"

  /** `new Date(text)`, None for an invalid date, and `parseFloat(text)`, None for NaN. */
  datatype Parsers = Parsers(date: string -> Option<int>, number: string -> Option<real>)

  /** A mine's collection: at most one record per day. */
  type Collection = map<int, EmissionRecord>

  // ---------------------------------------------------------------------
  // Upload

  function NonBlank(line: string): bool { Trim(line) != "" }

  /** The content's lines with blank ones dropped. */
  function Lines(content: string): (r: seq<string>)
    ensures forall i :: 0 <= i < |r| ==> Trim(r[i]) != ""
  {
    Filter(Split(content, '\n'), NonBlank)
  }

  /** A line's comma-separated fields, each trimmed. */
  function Fields(line: string): (r: seq<string>)
    ensures |r| >= 1
  {
    Map(Split(line, ','), Trim)
  }

  /** The required columns the header lacks, in the order of the required list. */
  function MissingColumns(headers: seq<string>): (r: seq<string>)
    ensures forall c :: c in r <==> c in RequiredColumns && c !in headers
  {
    Filter(RequiredColumns, (c: string) => c !in headers)
  }

  /** `rowData[col]`: the value under the LAST header equal to `col`, since later columns
      overwrite earlier ones. */
  function Lookup(headers: seq<string>, values: seq<string>, col: string): (r: Option<string>)
    requires |headers| == |values|
    ensures r.Some? <==> col in headers
  {
    if |headers| == 0 then None
    else if headers[|headers| - 1] == col then Some(values[|headers| - 1])
    else Lookup(headers[..|headers| - 1], values[..|headers| - 1], col)
  }

  /** When `col` heads exactly one column, its value is that column's. */
  lemma {:induction false} LookupUnique(headers: seq<string>, values: seq<string>, col: string, j: nat)
    requires |headers| == |values| && j < |headers| && headers[j] == col
    requires forall k :: 0 <= k < |headers| && k != j ==> headers[k] != col
    ensures Lookup(headers, values, col) == Some(values[j])
    decreases |headers|
  {
    if j < |headers| - 1 {
      LookupUnique(headers[..|headers| - 1], values[..|headers| - 1], col, j);
    }
  }

  /** `parseFloat(text) || 0`: NaN and a missing field count as 0. */
  function Number(p: Parsers, text: Option<string>): real
  {
    match text
    case None => 0.0
    case Some(t) => p.number(t).GetOr(0.0)
  }

  /** A data row's date and usages, or None when it is skipped: a field count different from
      the header's, or a date that does not parse (the lookup then fails and the row is
      abandoned before anything is written). */
  function Row(p: Parsers, headers: seq<string>, line: string): (r: Option<(int, Usage)>)
    ensures |Fields(line)| != |headers| ==> r.None?
  {
    var values := Fields(line);
    if |values| != |headers| then None else RowValues(p, headers, values)
  }

  /** The date and usages read from the fields of a row of the right length. */
  function RowValues(p: Parsers, headers: seq<string>, values: seq<string>): (r: Option<(int, Usage)>)
    requires |values| == |headers|
  {
    match Lookup(headers, values, "Date")
    case None => None
    case Some(dateText) =>
      match p.date(dateText)
      case None => None
      case Some(day) =>
        Some((day, Usage(Number(p, Lookup(headers, values, "Fuel Used (L)")),
                         Number(p, Lookup(headers, values, "Electricity Used (kWh)")),
                         Number(p, Lookup(headers, values, "Explosives Used (kg)")),
                         Number(p, Lookup(headers, values, "Transport Fuel Used (L)")))))
  }

  /** The rows that complete, in file order. */
  function Accepted(p: Parsers, headers: seq<string>, rows: seq<string>): (r: seq<(int, Usage)>)
    ensures |r| <= |rows|
  {
    if |rows| == 0 then []
    else
      var prior := Accepted(p, headers, rows[..|rows| - 1]);
      match Row(p, headers, rows[|rows| - 1])
      case None => prior
      case Some(entry) => prior + [entry]
  }

  /** One completed row written to the collection: accumulated into the record of its day, or
      a new record. */
  function Apply(c: Collection, entry: (int, Usage)): (r: Collection)
    ensures r.Keys == c.Keys + {entry.0}
    ensures forall d :: d in c && d != entry.0 ==> r[d] == c[d]
    ensures entry.0 in c ==> r[entry.0] == Accumulate(c[entry.0], entry.1)
    ensures entry.0 !in c ==> r[entry.0] == NewRecord(entry.0, entry.1)
  {
    var (day, u) := entry;
    if day in c then c[day := Accumulate(c[day], u)] else c[day := NewRecord(day, u)]
  }

  function ApplyAll(c: Collection, entries: seq<(int, Usage)>): (r: Collection)
    ensures forall d :: d in c ==> d in r
    ensures forall i :: 0 <= i < |entries| ==> entries[i].0 in r
  {
    if |entries| == 0 then c
    else
      var prior := ApplyAll(c, entries[..|entries| - 1]);
      assert forall i :: 0 <= i < |entries| - 1 ==> entries[i] == entries[..|entries| - 1][i];
      Apply(prior, entries[|entries| - 1])
  }

  /** One more data line: the accepted rows take that line's entry, or stay as they were when
      the line is skipped. */
  lemma AcceptedStep(p: Parsers, headers: seq<string>, rows: seq<string>, i: nat)
    requires i < |rows|
    ensures Row(p, headers, rows[i]).None? ==> Accepted(p, headers, rows[..i + 1]) == Accepted(p, headers, rows[..i])
    ensures Row(p, headers, rows[i]).Some? ==>
              Accepted(p, headers, rows[..i + 1]) == Accepted(p, headers, rows[..i]) + [Row(p, headers, rows[i]).value]
  {
    assert rows[..i + 1][..i] == rows[..i];
  }

  /** Appending an entry applies it last and adds its usage last. */
  lemma AppendStep(c: Collection, entries: seq<(int, Usage)>, entry: (int, Usage))
    ensures ApplyAll(c, entries + [entry]) == Apply(ApplyAll(c, entries), entry)
    ensures SumUsage(entries + [entry]) == AddUsage(SumUsage(entries), entry.1)
  {
    assert (entries + [entry])[..|entries|] == entries;
  }

  function SumUsage(entries: seq<(int, Usage)>): Usage
  {
    if |entries| == 0 then Usage(0.0, 0.0, 0.0, 0.0)
    else AddUsage(SumUsage(entries[..|entries| - 1]), entries[|entries| - 1].1)
  }

  /** The emissions of a usage total, by the record factors. */
  function TotalEmissionsOf(u: Usage): real
  {
    NewRecord(0, u).total
  }

  function NewTotal(entry: (int, Usage)): real { NewRecord(entry.0, entry.1).total }

  /** The summary figure equals the sum of the totals of the records each row would create:
      the factor formula is additive. */
  lemma {:induction false} TotalEmissionsAddUp(entries: seq<(int, Usage)>)
    ensures TotalEmissionsOf(SumUsage(entries)) == Numbers.Sum(Map(entries, NewTotal))
  {
    if |entries| > 0 {
      var k := |entries| - 1;
      TotalEmissionsAddUp(entries[..k]);
      assert Map(entries, NewTotal)[..k] == Map(entries[..k], NewTotal);
      TotalIsAdditive(0, SumUsage(entries[..k]), entries[k].1);
    }
  }

  datatype UploadOutcome =
    | NoInput(msg: string)
    | UnknownMine
    | ServerError
    | MissingRequired(columns: seq<string>)
    | Uploaded(recordsProcessed: nat, totals: Usage, totalEmissions: real, collection: Collection)

  /** The upload of `file` for `mineId` into that mine's collection. */
  function Upload(file: Option<string>, mineId: string, mines: set<string>, c: Collection, p: Parsers): (r: UploadOutcome)
    ensures r.NoInput? <==> file.None? || mineId == ""
    ensures r.NoInput? ==> r.msg == MissingInputMessage
    ensures r.UnknownMine? <==> file.Some? && mineId != "" && mineId !in mines
    ensures r.ServerError? <==> file.Some? && mineId != "" && mineId in mines && Lines(file.value) == []
    ensures r.MissingRequired? ==>
              && r.columns == MissingColumns(Fields(Lines(file.value)[0]))
              && |r.columns| > 0
    ensures r.Uploaded? ==>
              var lines := Lines(file.value);
              var entries := Accepted(p, Fields(lines[0]), lines[1..]);
              && MissingColumns(Fields(lines[0])) == []
              && r.recordsProcessed == |entries| < |lines|
              && r.totals == SumUsage(entries)
              && r.totalEmissions == TotalEmissionsOf(r.totals)
              && r.collection == ApplyAll(c, entries)
  {
    if file.None? || mineId == "" then NoInput(MissingInputMessage)
    else if mineId !in mines then UnknownMine
    else
      var lines := Lines(file.value);
      if |lines| == 0 then ServerError
      else
        var headers := Fields(lines[0]);
        var missing := MissingColumns(headers);
        if |missing| > 0 then MissingRequired(missing)
        else
          var entries := Accepted(p, headers, lines[1..]);
          var totals := SumUsage(entries);
          Uploaded(|entries|, totals, TotalEmissionsOf(totals), ApplyAll(c, entries))
  }

  /** The row loop as the route runs it: one pass over the data lines, skipping rows that do
      not complete and accumulating the rest. */
  method ProcessRows(p: Parsers, headers: seq<string>, rows: seq<string>, c0: Collection)
    returns (count: nat, totals: Usage, c: Collection)
    ensures count == |Accepted(p, headers, rows)|
    ensures totals == SumUsage(Accepted(p, headers, rows))
    ensures c == ApplyAll(c0, Accepted(p, headers, rows))
  {
    count, totals, c := 0, Usage(0.0, 0.0, 0.0, 0.0), c0;
    ghost var accepted: seq<(int, Usage)> := [];
    var i := 0;
    while i < |rows|
      invariant 0 <= i <= |rows|
      invariant accepted == Accepted(p, headers, rows[..i])
      invariant count == |accepted| && totals == SumUsage(accepted) && c == ApplyAll(c0, accepted)
    {
      var row := Row(p, headers, rows[i]);
      assert Accepted(p, headers, rows[..i + 1]) == if row.Some? then accepted + [row.value] else accepted by {
        AcceptedStep(p, headers, rows, i);
      }
      if row.Some? {
        assert ApplyAll(c0, accepted + [row.value]) == Apply(c, row.value)
            && SumUsage(accepted + [row.value]) == AddUsage(totals, row.value.1) by {
          AppendStep(c0, accepted, row.value);
        }
        c := Apply(c, row.value);
        totals := AddUsage(totals, row.value.1);
        count := count + 1;
        accepted := accepted + [row.value];
      }
      i := i + 1;
    }
    assert rows[..i] == rows;
  }

  // ---------------------------------------------------------------------
  // Export

  /** How the route prints a day and a number. */
  datatype Formatters = Formatters(date: int -> string, number: real -> string)

  function ExportFields(f: Formatters, e: EmissionRecord): (r: seq<string>)
    ensures |r| == |ExportColumns|
  {
    [f.date(e.date), f.number(e.usage.fuel), f.number(e.usage.electricity), f.number(e.usage.explosives),
     f.number(e.methaneCh4), f.number(e.usage.transport), f.number(e.fuelEmission),
     f.number(e.electricityEmission), f.number(e.explosivesEmission), f.number(e.methaneCo2e),
     f.number(e.transportEmission), f.number(e.scope1), f.number(e.scope2), f.number(e.scope3),
     f.number(e.total)]
  }

  function ExportLine(f: Formatters, e: EmissionRecord): string
  {
    Join(ExportFields(f, e), ',')
  }

  const HeaderLine := Join(ExportColumns, ',')

  /** The export: the header line, a line break, then one line per record, most recent first. */
  function Export(f: Formatters, records: seq<EmissionRecord>): (r: string)
    ensures |r| > |HeaderLine| && r[..|HeaderLine| + 1] == HeaderLine + "\n"
  {
    HeaderLine + "\n" + Join(Map(ListRecords(records), LineOf(f)), '\n')
  }

  // ---------------------------------------------------------------------
  // Round trip

  /** The parsers read back what the formatters print. */
  ghost predicate ReadsBack(f: Formatters, p: Parsers)
  {
    && (forall d :: p.date(f.date(d)) == Some(d))
    && (forall x :: p.number(f.number(x)) == Some(x))
  }

  /** Printed values are non-empty and hold no separator and no whitespace. */
  ghost predicate PlainOutput(f: Formatters)
  {
    && (forall d :: PrintedField(f.date(d)))
    && (forall x :: PrintedField(f.number(x)))
  }

  predicate PrintedField(s: string)
  {
    ',' !in s && '\n' !in s && |s| > 0 && HasNoWhitespace(s)
  }

  /** Every field of an exported line is a printed value. */
  lemma FieldsPrinted(f: Formatters, e: EmissionRecord)
    requires PlainOutput(f)
    ensures forall i :: 0 <= i < |ExportFields(f, e)| ==> PrintedField(ExportFields(f, e)[i])
  {
    var fs := ExportFields(f, e);
    forall i | 1 <= i < |fs| ensures PrintedField(fs[i]) {
      assert fs[1..] == Map(NumbersOf(e), f.number);
      assert fs[i] == f.number(NumbersOf(e)[i - 1]);
    }
    assert fs[0] == f.date(e.date);
  }

  /** The printed numbers of an exported line, in column order after the date. */
  function NumbersOf(e: EmissionRecord): (r: seq<real>)
    ensures |r| == |ExportColumns| - 1
  {
    [e.usage.fuel, e.usage.electricity, e.usage.explosives, e.methaneCh4, e.usage.transport,
     e.fuelEmission, e.electricityEmission, e.explosivesEmission, e.methaneCo2e, e.transportEmission,
     e.scope1, e.scope2, e.scope3, e.total]
  }

  /** Text holding neither the field separator nor a line break. */
  predicate PlainText(s: string)
  {
    forall k :: 0 <= k < |s| ==> s[k] != ',' && s[k] != '\n'
  }

  lemma LiteralPlain(s: string, literal: string)
    requires s == literal && PlainText(literal)
    ensures PlainText(s)
  {
  }

  /** No export column holds a comma or a line break (one lemma per five columns keeps each
      literal check small). */
  lemma ColumnPlain(i: nat)
    requires i < |ExportColumns|
    ensures PlainText(ExportColumns[i])
  {
    if i < 5 {
      UsageColumnsPlain(i);
    } else if i < 10 {
      FactorColumnsPlain(i);
    } else {
      ScopeColumnsPlain(i);
    }
  }

  /** The date and the usage columns. */
  lemma UsageColumnsPlain(i: nat)
    requires 0 <= i < 5
    ensures PlainText(ExportColumns[i])
  {
    if i == 0 {
      LiteralPlain(ExportColumns[i], "Date");
    } else if i == 1 {
      LiteralPlain(ExportColumns[i], "Fuel Used (L)");
    } else if i == 2 {
      LiteralPlain(ExportColumns[i], "Electricity Used (kWh)");
    } else if i == 3 {
      LiteralPlain(ExportColumns[i], "Explosives Used (kg)");
    } else {
      LiteralPlain(ExportColumns[i], "Methane Emissions (kg CH4)");
    }
  }

  /** Transport usage and the per-source emission columns. */
  lemma FactorColumnsPlain(i: nat)
    requires 5 <= i < 10
    ensures PlainText(ExportColumns[i])
  {
    if i == 5 {
      LiteralPlain(ExportColumns[i], "Transport Fuel Used (L)");
    } else if i == 6 {
      LiteralPlain(ExportColumns[i], "Fuel Emission (kg CO2e)");
    } else if i == 7 {
      LiteralPlain(ExportColumns[i], "Electricity Emission (kg CO2e)");
    } else if i == 8 {
      LiteralPlain(ExportColumns[i], "Explosives Emission (kg CO2e)");
    } else {
      LiteralPlain(ExportColumns[i], "Methane Emissions (kg CO2e)");
    }
  }

  /** Transport emission, the scopes and the total. */
  lemma ScopeColumnsPlain(i: nat)
    requires 10 <= i < 15
    ensures PlainText(ExportColumns[i])
  {
    if i == 10 {
      LiteralPlain(ExportColumns[i], "Transport Emission (kg CO2e)");
    } else if i == 11 {
      LiteralPlain(ExportColumns[i], "Scope 1 (kg CO2e)");
    } else if i == 12 {
      LiteralPlain(ExportColumns[i], "Scope 2 (kg CO2e)");
    } else if i == 13 {
      LiteralPlain(ExportColumns[i], "Scope 3 (kg CO2e)");
    } else {
      LiteralPlain(ExportColumns[i], "Total Carbon Emission (kg CO2e)");
    }
  }

  /** Every column name begins with a capital letter. */
  lemma ColumnsStartPlain()
    ensures forall i :: 0 <= i < |ExportColumns| ==> |ExportColumns[i]| > 0 && 'A' <= ExportColumns[i][0] <= 'Z'
  {
  }

  /** Every column name but the first ends with its unit in parentheses. */
  lemma ColumnsEndPlain()
    ensures forall i :: 1 <= i < |ExportColumns| ==> |ExportColumns[i]| > 0 && ExportColumns[i][|ExportColumns[i]| - 1] == ')'
  {
  }

  lemma PlainColumn(s: string)
    requires |s| > 0 && 'A' <= s[0] <= 'Z'
    requires s == "Date" || s[|s| - 1] == ')'
    ensures Trim(s) == s
  {
    assert !IsJsWhitespace(s[0]);
    assert !IsJsWhitespace(s[|s| - 1]);
    TrimKeeps(s);
  }

  lemma ColumnsPlain()
    ensures forall i :: 0 <= i < |ExportColumns| ==> ',' !in ExportColumns[i] && '\n' !in ExportColumns[i]
    ensures forall i :: 0 <= i < |ExportColumns| ==> Trim(ExportColumns[i]) == ExportColumns[i]
  {
    ColumnsStartPlain();
    ColumnsEndPlain();
    forall i | 0 <= i < |ExportColumns|
      ensures ',' !in ExportColumns[i] && '\n' !in ExportColumns[i] && Trim(ExportColumns[i]) == ExportColumns[i]
    {
      var s := ExportColumns[i];
      ColumnPlain(i);
      PlainColumn(s);
    }
  }

  /** The header of an export reads back as the export columns. */
  lemma HeaderReadsBack()
    ensures Fields(HeaderLine) == ExportColumns
  {
    ColumnsPlain();
    SplitJoin(ExportColumns, ',');
  }

  /** The export columns include every required column. */
  lemma ExportHasRequired()
    ensures MissingColumns(ExportColumns) == []
  {
    RequiredExported();
    FilterNone(RequiredColumns, (c: string) => c !in ExportColumns);
  }

  lemma RequiredExported()
    ensures forall c :: c in RequiredColumns ==> c in ExportColumns
  {
  }

  /** An exported line reads back as its record's fields. */
  lemma LineReadsBack(f: Formatters, e: EmissionRecord)
    requires PlainOutput(f)
    ensures Fields(ExportLine(f, e)) == ExportFields(f, e)
  {
    var fs := ExportFields(f, e);
    FieldsPrinted(f, e);
    SplitJoin(fs, ',');
    forall i | 0 <= i < |fs| ensures Trim(fs[i]) == fs[i] {
      TrimNoWhitespace(fs[i]);
    }
  }

  /** Column `col` heads exactly one column, the j-th. */
  predicate Unique(headers: seq<string>, col: string, j: nat)
  {
    && j < |headers| && headers[j] == col
    && forall k :: 0 <= k < |headers| && k != j ==> headers[k] != col
  }

  /** The export columns the upload reads are each named once. */
  lemma ReadColumnsUnique()
    ensures Unique(ExportColumns, "Date", 0)
    ensures Unique(ExportColumns, "Fuel Used (L)", 1)
    ensures Unique(ExportColumns, "Electricity Used (kWh)", 2)
    ensures Unique(ExportColumns, "Explosives Used (kg)", 3)
    ensures Unique(ExportColumns, "Transport Fuel Used (L)", 5)
  {
    DateUnique();
    FuelUnique();
    ElectricityUnique();
    ExplosivesUnique();
    TransportUnique();
  }

  lemma DateUnique() ensures Unique(ExportColumns, "Date", 0) {}
  lemma FuelUnique() ensures Unique(ExportColumns, "Fuel Used (L)", 1) {}
  lemma ElectricityUnique() ensures Unique(ExportColumns, "Electricity Used (kWh)", 2) {}
  lemma ExplosivesUnique() ensures Unique(ExportColumns, "Explosives Used (kg)", 3) {}
  lemma TransportUnique() ensures Unique(ExportColumns, "Transport Fuel Used (L)", 5) {}

  /** With each read column named once, a row reads the values under those columns. */
  lemma RowValuesAt(p: Parsers, headers: seq<string>, values: seq<string>, jd: nat, jf: nat, je: nat, jx: nat, jt: nat)
    requires |values| == |headers|
    requires Unique(headers, "Date", jd) && Unique(headers, "Fuel Used (L)", jf)
    requires Unique(headers, "Electricity Used (kWh)", je) && Unique(headers, "Explosives Used (kg)", jx)
    requires Unique(headers, "Transport Fuel Used (L)", jt)
    requires p.date(values[jd]).Some?
    ensures RowValues(p, headers, values)
            == Some((p.date(values[jd]).value,
                     Usage(Number(p, Some(values[jf])), Number(p, Some(values[je])),
                           Number(p, Some(values[jx])), Number(p, Some(values[jt])))))
  {
    LookupUnique(headers, values, "Date", jd);
    LookupUnique(headers, values, "Fuel Used (L)", jf);
    LookupUnique(headers, values, "Electricity Used (kWh)", je);
    LookupUnique(headers, values, "Explosives Used (kg)", jx);
    LookupUnique(headers, values, "Transport Fuel Used (L)", jt);
  }

  /** The fields of an exported line yield its record's day and usages. */
  lemma ValuesReadBack(f: Formatters, p: Parsers, e: EmissionRecord)
    requires ReadsBack(f, p)
    ensures RowValues(p, ExportColumns, ExportFields(f, e)) == Some((e.date, e.usage))
  {
    var values := ExportFields(f, e);
    ReadColumnsUnique();
    assert p.date(values[0]) == Some(e.date);
    RowValuesAt(p, ExportColumns, values, 0, 1, 2, 3, 5);
  }

  /** An exported line is accepted by the upload and yields its record's day and usages. */
  lemma RowReadsBack(f: Formatters, p: Parsers, e: EmissionRecord)
    requires ReadsBack(f, p) && PlainOutput(f)
    ensures Row(p, ExportColumns, ExportLine(f, e)) == Some((e.date, e.usage))
  {
    LineReadsBack(f, e);
    ValuesReadBack(f, p, e);
  }

  function EntryOf(e: EmissionRecord): (int, Usage) { (e.date, e.usage) }

  /** Lines that each parse to their entry are all accepted, in order. */
  lemma {:induction false} AllAccepted(p: Parsers, headers: seq<string>, lines: seq<string>, entries: seq<(int, Usage)>)
    requires |lines| == |entries|
    requires forall i :: 0 <= i < |lines| ==> Row(p, headers, lines[i]) == Some(entries[i])
    ensures Accepted(p, headers, lines) == entries
  {
    if |lines| > 0 {
      var k := |lines| - 1;
      AllAccepted(p, headers, lines[..k], entries[..k]);
      assert entries[..k] + [entries[k]] == entries;
    }
  }

  function LineOf(f: Formatters): EmissionRecord -> string
  {
    (e: EmissionRecord) => ExportLine(f, e)
  }

  /** Every exported line is accepted, in order. */
  lemma RowsReadBack(f: Formatters, p: Parsers, records: seq<EmissionRecord>)
    requires ReadsBack(f, p) && PlainOutput(f)
    ensures Accepted(p, ExportColumns, Map(records, LineOf(f))) == Map(records, EntryOf)
  {
    var lines := Map(records, LineOf(f));
    forall i | 0 <= i < |lines| ensures Row(p, ExportColumns, lines[i]) == Some(Map(records, EntryOf)[i]) {
      RowReadsBack(f, p, records[i]);
    }
    AllAccepted(p, ExportColumns, lines, Map(records, EntryOf));
  }

  /** A non-empty line holding a comma is not blank. */
  lemma CommaNotBlank(s: string)
    requires ',' in s
    ensures Trim(s) != ""
  {
    TrimEmptyIffBlank(s);
    var i :| 0 <= i < |s| && s[i] == ',';
    assert !IsJsWhitespace(s[i]);
  }

  /** A header line and body lines, each holding a comma and no line break, joined by line
      breaks after the header, read back as those lines. */
  lemma LinesOf(header: string, body: seq<string>)
    requires '\n' !in header && ',' in header
    requires forall i :: 0 <= i < |body| ==> '\n' !in body[i] && ',' in body[i]
    ensures Lines(header + "\n" + Join(body, '\n')) == [header] + body
  {
    var content := header + "\n" + Join(body, '\n');
    assert content == header + ['\n'] + Join(body, '\n');
    SplitAt(header, Join(body, '\n'), '\n');
    CommaNotBlank(header);
    if |body| == 0 {
      HeaderOnlyLines(header, Split(content, '\n'));
    } else {
      SplitJoin(body, '\n');
      BodyLines(header, body, Split(content, '\n'));
    }
  }

  /** With no body the content splits into the header and one empty piece, and only the
      header is kept. */
  lemma HeaderOnlyLines(header: string, parts: seq<string>)
    requires parts == [header] + [""] && NonBlank(header)
    ensures Filter(parts, NonBlank) == [header]
  {
    assert !NonBlank("") by { TrimEmptyIffBlank(""); }
    FilterAppend([header], "", NonBlank);
    FilterAll([header], NonBlank);
  }

  /** Body lines that each hold a comma are all kept, after the header. */
  lemma BodyLines(header: string, body: seq<string>, parts: seq<string>)
    requires NonBlank(header) && forall i :: 0 <= i < |body| ==> ',' in body[i]
    requires parts == [header] + body
    ensures Filter(parts, NonBlank) == [header] + body
  {
    forall i | 0 <= i < |parts| ensures NonBlank(parts[i]) {
      if i > 0 { CommaNotBlank(body[i - 1]); }
    }
    FilterAll(parts, NonBlank);
  }

  /** The header line holds a comma and no line break. */
  lemma HeaderLinePlain()
    ensures '\n' !in HeaderLine && ',' in HeaderLine
  {
    ColumnsPlain();
    JoinWithout(ExportColumns, ',', '\n');
    assert HeaderLine == ExportColumns[0] + [','] + Join(ExportColumns[1..], ',');
  }

  /** An exported record line holds a comma and no line break. */
  lemma ExportLinePlain(f: Formatters, e: EmissionRecord)
    requires PlainOutput(f)
    ensures '\n' !in ExportLine(f, e) && ',' in ExportLine(f, e)
  {
    var fs := ExportFields(f, e);
    JoinWithout(fs, ',', '\n');
    assert ExportLine(f, e) == fs[0] + [','] + Join(fs[1..], ',');
  }

  /** The lines of an export are the header line and the record lines. */
  lemma ExportLines(f: Formatters, records: seq<EmissionRecord>)
    requires PlainOutput(f)
    ensures Lines(Export(f, records)) == [HeaderLine] + Map(ListRecords(records), LineOf(f))
  {
    var body := Map(ListRecords(records), LineOf(f));
    HeaderLinePlain();
    forall i | 0 <= i < |body| ensures '\n' !in body[i] && ',' in body[i] {
      ExportLinePlain(f, ListRecords(records)[i]);
    }
    assert Export(f, records) == HeaderLine + "\n" + Join(body, '\n');
    LinesOf(HeaderLine, body);
  }

  /** An upload whose header names every required column processes exactly the accepted data
      lines. */
  lemma UploadAccepts(content: string, mineId: string, mines: set<string>, c: Collection, p: Parsers,
                      header: string, body: seq<string>, headers: seq<string>)
    requires mineId != "" && mineId in mines
    requires Lines(content) == [header] + body && Fields(header) == headers && MissingColumns(headers) == []
    ensures var r := Upload(Some(content), mineId, mines, c, p);
            && r.Uploaded?
            && r.recordsProcessed == |Accepted(p, headers, body)|
            && r.totals == SumUsage(Accepted(p, headers, body))
  {
    var lines := Lines(content);
    assert lines[0] == header && lines[1..] == body;
    assert |MissingColumns(Fields(lines[0]))| == 0;
    var r := Upload(Some(content), mineId, mines, c, p);
    assert !r.NoInput? && !r.UnknownMine? && !r.ServerError? && !r.MissingRequired?;
  }

  /** Round trip: uploading an export of a mine's records accepts every record line, counts
      every record and sums exactly their usages. */
  lemma ExportThenUpload(f: Formatters, p: Parsers, records: seq<EmissionRecord>, mineId: string, mines: set<string>, c: Collection)
    requires ReadsBack(f, p) && PlainOutput(f)
    requires mineId != "" && mineId in mines
    ensures var r := Upload(Some(Export(f, records)), mineId, mines, c, p);
            && r.Uploaded?
            && r.recordsProcessed == |records|
            && r.totals == SumUsage(Map(ListRecords(records), EntryOf))
  {
    var body := Map(ListRecords(records), LineOf(f));
    ExportLines(f, records);
    HeaderReadsBack();
    ExportHasRequired();
    UploadAccepts(Export(f, records), mineId, mines, c, p, HeaderLine, body, ExportColumns);
    RowsReadBack(f, p, ListRecords(records));
  }
}

=== FILE: dashboard_api.dfy ===
/** `GET /api/dashboard` (backend/index.js): overview figures, chart points, scope breakdown
    and the daily, weekly or monthly emission series over the fetched records. Dates are day
    numbers; the calendar month of a day is a parameter. */
module DashboardApi {
  import opened Wrappers
  import opened Numbers
  import opened Collections
  import opened Text

  /** A fetched daily document, tagged with its mine; `|| 0` fields are options. */
  datatype DashItem = DashItem(
    date: int, mineName: string,
    total: Option<real>, scope1: Option<real>, scope2: Option<real>, scope3: Option<real>,
    methaneCh4: Option<real>, methaneCo2e: Option<real>)

  datatype Period = Daily | Weekly | Monthly

  /** The `period` query parameter; anything else is rejected. */
  function ParsePeriod(p: string): (r: Option<Period>)
    ensures r.Some? <==> p == "daily" || p == "weekly" || p == "monthly"
  {
    if p == "daily" then Some(Daily) else if p == "weekly" then Some(Weekly)
    else if p == "monthly" then Some(Monthly) else None
  }

  const InvalidPeriodMessage := "Invalid period specified"
  const TargetReduction := 100

  datatype Overview = Overview(totalMines: nat, activeMines: nat, totalEmissions: real, targetReduction: int, currentReduction: real)

  datatype PeriodEntry = PeriodEntry(heading: string, emissions: real, methane: real, methaneCo2e: real)

  /** One `chartData` row: the record's date, its total and scopes (`|| 0`) and its mine. */
  datatype ChartRow = ChartRow(date: int, totalEmissions: real, scope1: real, scope2: real, scope3: real, mineName: string)

  datatype Dashboard = Dashboard(
    overview: Overview,
    chartData: seq<ChartRow>,
    scopeBreakdown: seq<(string, real)>,
    periodEmissions: seq<PeriodEntry>,
    recentActivities: seq<DashItem>,
    alerts: nat)

  function Scope1Of(e: DashItem): real { e.scope1.GetOr(0.0) }
  function Scope2Of(e: DashItem): real { e.scope2.GetOr(0.0) }
  function Scope3Of(e: DashItem): real { e.scope3.GetOr(0.0) }
  function MethaneOf(e: DashItem): real { e.methaneCo2e.GetOr(0.0) }

  function ScopeSum(e: DashItem): real
  {
    e.scope1.GetOr(0.0) + e.scope2.GetOr(0.0) + e.scope3.GetOr(0.0)
  }

  function TotalEmissions(data: seq<DashItem>): real
  {
    Sum(Map(data, ScopeSum))
  }

  /** min(50, total / 1000 · 100) for a positive total, else 0. */
  function CurrentReduction(total: real): (r: real)
    ensures 0.0 <= r <= 50.0
    ensures r == 0.0 <==> total <= 0.0
    ensures total > 0.0 && total <= 500.0 ==> r == total / 10.0
  {
    if total > 0.0 then Min(50.0, total / 1000.0 * 100.0) else 0.0
  }

  function Tonnes(x: Option<real>): real
  {
    x.GetOr(0.0) / 1000.0
  }

  function TotalTonnes(e: DashItem): real { Tonnes(e.total) }
  function Ch4Tonnes(e: DashItem): real { Tonnes(e.methaneCh4) }
  function Co2eTonnes(e: DashItem): real { Tonnes(e.methaneCo2e) }

  /** JavaScript's `getDay()` for a day number (Sunday = 0; 1970-01-01 was a Thursday). */
  function JsWeekday(day: int): (k: int)
    ensures 0 <= k < 7
  {
    (day + 4) % 7
  }

  /** The Sunday that starts a day's week. */
  function WeekStart(day: int): (w: int)
    ensures w <= day < w + 7
    ensures JsWeekday(w) == 0
  {
    day - JsWeekday(day)
  }

  function WeekOf(e: DashItem): int { WeekStart(e.date) }

  function NegatedKey(k: int): real { -(k as real) }

  /** The week keys present in the data, ascending. */
  function SortedWeeks(data: seq<DashItem>): (r: seq<int>)
    ensures forall i, j :: 0 <= i < j < |r| ==> r[i] <= r[j]
    ensures forall w :: w in r <==> w in Keys(data, WeekOf)
  {
    var keys := Distinct(Keys(data, WeekOf));
    var r := SortDesc(keys, NegatedKey);
    NegatedKeysAscend(r);
    SameMembers(r, keys);
    r
  }

  /** Descending by negated key is ascending. */
  lemma NegatedKeysAscend(r: seq<int>)
    requires SortedDesc(r, NegatedKey)
    ensures forall i, j :: 0 <= i < j < |r| ==> r[i] <= r[j]
  {
    forall i, j | 0 <= i < j < |r| ensures r[i] <= r[j] {
      assert NegatedKey(r[i]) >= NegatedKey(r[j]);
    }
  }

  /** A reordering has the same members. */
  lemma SameMembers(r: seq<int>, keys: seq<int>)
    requires multiset(r) == multiset(keys)
    ensures forall w :: w in r <==> w in keys
  {
    forall w ensures w in r <==> w in keys {
      assert w in r <==> w in multiset(r);
      assert w in keys <==> w in multiset(keys);
    }
  }

  /** Every day's week appears in the weekly series, and nothing else does. */
  lemma WeeksOfData(data: seq<DashItem>, w: int)
    ensures w in SortedWeeks(data) <==> exists i :: 0 <= i < |data| && WeekStart(data[i].date) == w
  {
    var ks := Keys(data, WeekOf);
    if w in ks {
      var k :| 0 <= k < |ks| && ks[k] == w;
      assert WeekStart(data[k].date) == w;
    }
    if exists i :: 0 <= i < |data| && WeekStart(data[i].date) == w {
      var i :| 0 <= i < |data| && WeekStart(data[i].date) == w;
      assert ks[i] == w;
    }
  }

  /** One entry per week with data, labelled "Week 1", "Week 2", ... in ascending week order,
      holding the week's totals in tonnes. */
  function WeeklyEntries(data: seq<DashItem>): (r: seq<PeriodEntry>)
    ensures |r| == |SortedWeeks(data)|
    ensures forall i :: 0 <= i < |r| ==>
              && r[i].heading == "Week " + NatToString(i + 1)
              && r[i].emissions == TotalFor(data, WeekOf, TotalTonnes, SortedWeeks(data)[i])
              && r[i].methane == TotalFor(data, WeekOf, Ch4Tonnes, SortedWeeks(data)[i])
              && r[i].methaneCo2e == TotalFor(data, WeekOf, Co2eTonnes, SortedWeeks(data)[i])
  {
    var weeks := SortedWeeks(data);
    seq(|weeks|, i requires 0 <= i < |weeks| => WeekEntry(data, i, weeks[i]))
  }

  /** The `i`-th week's entry, for the week starting on day `week`. */
  function WeekEntry(data: seq<DashItem>, i: nat, week: int): PeriodEntry
  {
    PeriodEntry("Week " + NatToString(i + 1),
                TotalFor(data, WeekOf, TotalTonnes, week),
                TotalFor(data, WeekOf, Ch4Tonnes, week),
                TotalFor(data, WeekOf, Co2eTonnes, week))
  }

  /** The month of a record, as the grouping loop keys it. */
  function MonthKey(monthOf: int -> int): DashItem -> int
  {
    (e: DashItem) => monthOf(e.date)
  }

  /** The seven months ending with the current one, each with its totals in tonnes and 0 for a
      month without data. `monthOf` maps a day to its month index, `monthLabel` prints one. */
  function MonthlyEntries(data: seq<DashItem>, monthOf: int -> int, monthLabel: int -> string, currentMonth: int): (r: seq<PeriodEntry>)
    ensures |r| == 7
    ensures forall i :: 0 <= i < 7 ==> r[i].heading == monthLabel(currentMonth - 6 + i)
    ensures forall i :: 0 <= i < 7 ==>
              && r[i].emissions == TotalFor(data, MonthKey(monthOf), TotalTonnes, currentMonth - 6 + i)
              && r[i].methane == TotalFor(data, MonthKey(monthOf), Ch4Tonnes, currentMonth - 6 + i)
              && r[i].methaneCo2e == TotalFor(data, MonthKey(monthOf), Co2eTonnes, currentMonth - 6 + i)
    ensures forall i :: 0 <= i < 7 && (forall j :: 0 <= j < |data| ==> monthOf(data[j].date) != currentMonth - 6 + i)
              ==> r[i].emissions == 0.0 && r[i].methane == 0.0 && r[i].methaneCo2e == 0.0
  {
    var key := MonthKey(monthOf);
    var r := seq(7, i requires 0 <= i < 7 =>
      var m := currentMonth - 6 + i;
      PeriodEntry(monthLabel(m), TotalFor(data, key, TotalTonnes, m), TotalFor(data, key, Ch4Tonnes, m),
                  TotalFor(data, key, Co2eTonnes, m)));
    forall i | 0 <= i < 7 && (forall j :: 0 <= j < |data| ==> monthOf(data[j].date) != currentMonth - 6 + i)
      ensures r[i].emissions == 0.0 && r[i].methane == 0.0 && r[i].methaneCo2e == 0.0
    {
      var m := currentMonth - 6 + i;
      TotalForAbsent(data, key, TotalTonnes, m);
      TotalForAbsent(data, key, Ch4Tonnes, m);
      TotalForAbsent(data, key, Co2eTonnes, m);
    }
    r
  }

  function DailyEntries(data: seq<DashItem>, dayLabel: int -> string): (r: seq<PeriodEntry>)
    ensures |r| == |data|
    ensures forall i :: 0 <= i < |data| ==> r[i] == PeriodEntry(dayLabel(data[i].date), TotalTonnes(data[i]), Ch4Tonnes(data[i]), Co2eTonnes(data[i]))
  {
    seq(|data|, i requires 0 <= i < |data| =>
      PeriodEntry(dayLabel(data[i].date), TotalTonnes(data[i]), Ch4Tonnes(data[i]), Co2eTonnes(data[i])))
  }

  function ChartRowOf(e: DashItem): ChartRow
  {
    ChartRow(e.date, e.total.GetOr(0.0), Scope1Of(e), Scope2Of(e), Scope3Of(e), e.mineName)
  }

  /** The `chartData` rows: one per fetched record, in order. */
  function ChartRows(data: seq<DashItem>): (r: seq<ChartRow>)
    ensures |r| == |data|
    ensures forall i :: 0 <= i < |data| ==>
              && r[i].date == data[i].date && r[i].mineName == data[i].mineName
              && r[i].totalEmissions == data[i].total.GetOr(0.0)
              && r[i].scope1 == data[i].scope1.GetOr(0.0) && r[i].scope2 == data[i].scope2.GetOr(0.0)
              && r[i].scope3 == data[i].scope3.GetOr(0.0)
  {
    Map(data, ChartRowOf)
  }

  function SumOf(data: seq<DashItem>, f: DashItem -> real): real
  {
    Sum(Map(data, f))
  }

  /** The dashboard: with no mine to fetch, an all-zero dashboard whatever the period; otherwise
      400 for an unknown period, else the figures over `data`, the concatenated records of the
      `mineCount` mines fetched. */
  function GetDashboard(mineCount: nat, period: string, data: seq<DashItem>,
                        dayLabel: int -> string, monthOf: int -> int, monthLabel: int -> string, currentMonth: int): (r: Result<Dashboard>)
    ensures r.Err? <==> mineCount > 0 && ParsePeriod(period).None?
    ensures r.Err? ==> r.msg == InvalidPeriodMessage
    ensures r.Ok? && mineCount == 0 ==>
              && r.value.overview == Overview(0, 0, 0.0, TargetReduction, 0.0)
              && r.value.periodEmissions == [] && r.value.chartData == []
    ensures r.Ok? && mineCount > 0 ==>
              && r.value.overview.totalEmissions == TotalEmissions(data)
              && 0.0 <= r.value.overview.currentReduction <= 50.0
              && (r.value.alerts == 1 <==> TotalEmissions(data) == 0.0)
              && r.value.recentActivities == Tail(data, 5)
              && r.value.chartData == ChartRows(data)
              && (ParsePeriod(period) == Some(Monthly) ==> |r.value.periodEmissions| == 7)
              && (ParsePeriod(period) == Some(Daily) ==> |r.value.periodEmissions| == |data|)
    ensures r.Ok? && mineCount > 0 ==>
              && (ParsePeriod(period) == Some(Daily) ==> r.value.periodEmissions == DailyEntries(data, dayLabel))
              && (ParsePeriod(period) == Some(Weekly) ==> r.value.periodEmissions == WeeklyEntries(data))
              && (ParsePeriod(period) == Some(Monthly) ==>
                    r.value.periodEmissions == MonthlyEntries(data, monthOf, monthLabel, currentMonth))
    ensures r.Ok? && mineCount > 0 ==>
              && |r.value.scopeBreakdown| == 4
              && r.value.scopeBreakdown[0].1 + r.value.scopeBreakdown[1].1 + r.value.scopeBreakdown[2].1
                 == TotalEmissions(data) / 1000.0
              && r.value.scopeBreakdown[3].1 == SumOf(data, MethaneOf) / 1000.0
  {
    if mineCount == 0 then Ok(Dashboard(Overview(0, 0, 0.0, TargetReduction, 0.0), [], [], [], [], 0))
    else match ParsePeriod(period)
      case None => Err(InvalidPeriodMessage)
      case Some(p) =>
        var total := TotalEmissions(data);
        ScopesAddUp(data);
        var breakdown := [
          ("Scope 1", SumOf(data, Scope1Of) / 1000.0),
          ("Scope 2", SumOf(data, Scope2Of) / 1000.0),
          ("Scope 3", SumOf(data, Scope3Of) / 1000.0),
          ("Methane", SumOf(data, MethaneOf) / 1000.0)];
        var entries := match p
          case Daily => DailyEntries(data, dayLabel)
          case Weekly => WeeklyEntries(data)
          case Monthly => MonthlyEntries(data, monthOf, monthLabel, currentMonth);
        Ok(Dashboard(Overview(mineCount, mineCount, total, TargetReduction, CurrentReduction(total)),
                     ChartRows(data), breakdown, entries, Tail(data, 5), if total == 0.0 then 1 else 0))
  }

  /** The scope breakdown adds up to the overview total: Scope 1 + Scope 2 + Scope 3, in kg, is
      `totalEmissions`. */
  lemma {:induction false} ScopesAddUp(data: seq<DashItem>)
    ensures SumOf(data, Scope1Of) + SumOf(data, Scope2Of)
            + SumOf(data, Scope3Of) == TotalEmissions(data)
    decreases |data|
  {
    if |data| > 0 {
      var d' := data[..|data| - 1];
      ScopesAddUp(d');
      assert Map(data, ScopeSum)[..|data| - 1] == Map(d', ScopeSum);
      assert Map(data, Scope1Of)[..|data| - 1] == Map(d', Scope1Of);
      assert Map(data, Scope2Of)[..|data| - 1] == Map(d', Scope2Of);
      assert Map(data, Scope3Of)[..|data| - 1] == Map(d', Scope3Of);
    }
  }
}

=== FILE: dashboard_page.dfy ===
/** The dashboard page's derived panels (frontend/src/pages/DashboardPage.tsx): the mine
    leaderboard, the activity breakdown, the highest-emitting mine, the mine-by-month heatmap
    and the trend chart's title, all computed from the `chartData` rows the dashboard API
    sends. */
module DashboardPage {
  import opened Wrappers
  import opened Numbers
  import opened Collections

  /** One `chartData` row as the page reads it; the per-activity fields are read with `|| 0`. */
  datatype ChartItem = ChartItem(
    mineName: string,
    date: string,
    totalEmissions: real,
    fuel: Option<real>,
    electricity: Option<real>,
    explosives: Option<real>,
    transport: Option<real>,
    methane: Option<real>)

  const LeaderboardSize := 10
  const HeatmapSize := 50
  /** kg to tonnes. */
  const Tonnes := 1000.0

  /** A ranked panel entry: the grouping key and its total in tonnes. */
  datatype Ranked<K> = Ranked(key: K, value: real)

  function ValueOf<K>(e: Ranked<K>): real { e.value }

  function ToTonnes<K>(g: (K, real)): Ranked<K> { Ranked(g.0, g.1 / Tonnes) }

  ghost predicate DistinctKeys<K>(groups: seq<(K, real)>)
  {
    forall i, j :: 0 <= i < j < |groups| ==> groups[i].0 != groups[j].0
  }

  ghost predicate DistinctRanked<K>(r: seq<Ranked<K>>)
  {
    forall i, j :: 0 <= i < j < |r| ==> r[i].key != r[j].key
  }

  /** The ranking before it is cut: every group in tonnes, largest first. */
  function Ranking<K>(groups: seq<(K, real)>): seq<Ranked<K>>
  {
    SortDesc(Map(groups, ToTonnes), ValueOf)
  }

  /** `Object.entries(totals).map(to tonnes).sort((a, b) => b.value - a.value).slice(0, size)`:
      the `size` largest totals, largest first, each key once. */
  function Rank<K>(groups: seq<(K, real)>, size: nat): (r: seq<Ranked<K>>)
    requires DistinctKeys(groups)
    ensures |r| == if |groups| < size then |groups| else size
    ensures SortedDesc(r, ValueOf)
    ensures forall i :: 0 <= i < |r| ==> exists j :: 0 <= j < |groups| && r[i] == ToTonnes(groups[j])
    ensures DistinctRanked(r)
  {
    RankedFromGroups(groups, size);
    RankedDistinct(groups, size);
    Take(Ranking(groups), size)
  }

  lemma RankedFromGroups<K>(groups: seq<(K, real)>, size: nat)
    ensures var r := Take(Ranking(groups), size);
            forall i :: 0 <= i < |r| ==> exists j :: 0 <= j < |groups| && r[i] == ToTonnes(groups[j])
  {
    var all := Map(groups, ToTonnes);
    var r := Take(Ranking(groups), size);
    forall i | 0 <= i < |r|
      ensures exists j :: 0 <= j < |groups| && r[i] == ToTonnes(groups[j])
    {
      assert r[i] in multiset(Ranking(groups));
      assert r[i] in all;
    }
  }

  lemma RankedDistinct<K>(groups: seq<(K, real)>, size: nat)
    requires DistinctKeys(groups)
    ensures DistinctRanked(Take(Ranking(groups), size))
  {
    var all := Map(groups, ToTonnes);
    var sorted := Ranking(groups);
    var r := Take(sorted, size);
    assert NoDuplicates(all) by {
      forall i, j | 0 <= i < j < |all|
        ensures all[i] != all[j]
      {
        assert all[i].key == groups[i].0 && all[j].key == groups[j].0;
      }
    }
    PermutationKeepsDistinct(all, sorted);
    RankedFromGroups(groups, size);
    forall i, j | 0 <= i < j < |r|
      ensures r[i].key != r[j].key
    {
      assert r[i] == sorted[i] && r[j] == sorted[j];
      var a :| 0 <= a < |groups| && r[i] == ToTonnes(groups[a]);
      var b :| 0 <= b < |groups| && r[j] == ToTonnes(groups[b]);
      if a != b {
        assert groups[a].0 != groups[b].0;
      }
    }
  }

  /** Nothing left out of a ranked panel outranks anything on it, and something is left out
      only when the panel is full. */
  lemma RankIsTop<K>(groups: seq<(K, real)>, size: nat, j: nat)
    requires DistinctKeys(groups)
    requires j < |groups|
    requires forall i :: 0 <= i < |Rank(groups, size)| ==> Rank(groups, size)[i].key != groups[j].0
    ensures |Rank(groups, size)| == size
    ensures forall i :: 0 <= i < size ==> groups[j].1 / Tonnes <= Rank(groups, size)[i].value
  {
    var all := Map(groups, ToTonnes);
    var sorted := Ranking(groups);
    var r := Rank(groups, size);
    var e := ToTonnes(groups[j]);
    assert e == all[j];
    TopK(all, ValueOf, size);
    assert e in multiset(all);
    assert e !in Take(sorted, size);
    assert e in Drop(sorted, size);
    forall i | 0 <= i < size
      ensures groups[j].1 / Tonnes <= r[i].value
    {
      assert r[i] in Take(sorted, size);
    }
  }

  /** The grouping loop followed by the ranking: per-key totals of `value`, the `size`
      largest in tonnes, largest first. */
  function TopTotals<T, K(==,!new)>(items: seq<T>, key: T -> K, value: T -> real, size: nat): (r: seq<Ranked<K>>)
    requires size > 0
    ensures |r| <= size
    ensures r == [] <==> items == []
    ensures SortedDesc(r, ValueOf)
    ensures DistinctRanked(r)
    ensures forall i :: 0 <= i < |r| ==> r[i].value == TotalFor(items, key, value, r[i].key) / Tonnes
    ensures forall i :: 0 <= i < |r| ==> r[i].key in Keys(items, key)
  {
    GroupsRanked(items, key, value, size);
    Rank(GroupTotals(items, key, value), size)
  }

  lemma GroupsRanked<T, K(!new)>(items: seq<T>, key: T -> K, value: T -> real, size: nat)
    requires size > 0
    ensures var r := Rank(GroupTotals(items, key, value), size);
            && (r == [] <==> items == [])
            && forall i :: 0 <= i < |r| ==>
                 r[i].value == TotalFor(items, key, value, r[i].key) / Tonnes && r[i].key in Keys(items, key)
  {
    var groups := GroupTotals(items, key, value);
    if items != [] {
      var j :| 0 <= j < |groups| && groups[j].0 == key(items[0]);
    }
    var r := Rank(groups, size);
    forall i | 0 <= i < |r|
      ensures r[i].value == TotalFor(items, key, value, r[i].key) / Tonnes
      ensures r[i].key in Keys(items, key)
    {
      var a :| 0 <= a < |groups| && r[i] == ToTonnes(groups[a]);
    }
  }

  /** A key of the rows missing from the ranking totals no more than each entry on it, and
      one is missing only when the ranking is full. */
  lemma TopTotalsIsTop<T, K(!new)>(items: seq<T>, key: T -> K, value: T -> real, size: nat, k: nat)
    requires size > 0 && k < |items|
    requires forall i :: 0 <= i < |TopTotals(items, key, value, size)| ==> TopTotals(items, key, value, size)[i].key != key(items[k])
    ensures |TopTotals(items, key, value, size)| == size
    ensures forall i :: 0 <= i < size ==>
              TotalFor(items, key, value, key(items[k])) / Tonnes <= TopTotals(items, key, value, size)[i].value
  {
    var groups := GroupTotals(items, key, value);
    assert TopTotals(items, key, value, size) == Rank(groups, size);
    var j :| 0 <= j < |groups| && groups[j].0 == key(items[k]);
    RankIsTop(groups, size, j);
  }

  // ---------------------------------------------------------------------
  // Mine leaderboard

  function MineOf(item: ChartItem): string { item.mineName }

  function TotalOf(item: ChartItem): real { item.totalEmissions }

  /** A mine's summed `totalEmissions` over the rows. */
  function MineTotal(items: seq<ChartItem>, mine: string): real
  {
    TotalFor(items, MineOf, TotalOf, mine)
  }

  /** `mineLeaderboard`: no chart data gives nothing; otherwise the ten mines with the
      largest total, in tonnes, largest first. */
  function Leaderboard(chartData: Option<seq<ChartItem>>): (r: seq<Ranked<string>>)
    ensures chartData.None? ==> r == []
    ensures |r| <= LeaderboardSize
    ensures chartData.Some? ==> (r == [] <==> chartData.value == [])
    ensures SortedDesc(r, ValueOf)
    ensures DistinctRanked(r)
    ensures chartData.Some? ==> forall i :: 0 <= i < |r| ==>
              r[i].value == MineTotal(chartData.value, r[i].key) / Tonnes && r[i].key in Keys(chartData.value, MineOf)
  {
    match chartData
    case None => []
    case Some(items) => TopTotals(items, MineOf, TotalOf, LeaderboardSize)
  }

  /** Every mine missing from the leaderboard totals no more than each mine on it, and a
      mine is missing only when ten others fill the board. */
  lemma LeaderboardIsTop(items: seq<ChartItem>, k: nat)
    requires k < |items|
    requires forall i :: 0 <= i < |Leaderboard(Some(items))| ==> Leaderboard(Some(items))[i].key != items[k].mineName
    ensures |Leaderboard(Some(items))| == LeaderboardSize
    ensures forall i :: 0 <= i < LeaderboardSize ==>
              MineTotal(items, items[k].mineName) / Tonnes <= Leaderboard(Some(items))[i].value
  {
    assert Leaderboard(Some(items)) == TopTotals(items, MineOf, TotalOf, LeaderboardSize);
    TopTotalsIsTop(items, MineOf, TotalOf, LeaderboardSize, k);
  }

  // ---------------------------------------------------------------------
  // Highest-emitting mine

  /** `highestEmittingMine`: `{name: 'N/A', value: 0}` for an empty leaderboard, else its
      first entry. */
  function HighestEmitter(board: seq<Ranked<string>>): (e: Ranked<string>)
    ensures board == [] ==> e == Ranked("N/A", 0.0)
    ensures board != [] ==> e in board
    ensures SortedDesc(board, ValueOf) ==> forall i :: 0 <= i < |board| ==> board[i].value <= e.value
  {
    if |board| == 0 then Ranked("N/A", 0.0) else board[0]
  }

  /** The highest emitter of a non-empty data set is a mine of the data whose total is at
      least every mine's total. */
  lemma HighestIsLargest(items: seq<ChartItem>)
    requires items != []
    ensures var e := HighestEmitter(Leaderboard(Some(items)));
            && e.key in Keys(items, MineOf)
            && forall k :: 0 <= k < |items| ==> MineTotal(items, items[k].mineName) / Tonnes <= e.value
  {
    var board := Leaderboard(Some(items));
    forall k | 0 <= k < |items|
      ensures MineTotal(items, items[k].mineName) / Tonnes <= board[0].value
    {
      if i :| 0 <= i < |board| && board[i].key == items[k].mineName {
        assert board[0].value >= board[i].value;
      } else {
        LeaderboardIsTop(items, k);
      }
    }
  }

  // ---------------------------------------------------------------------
  // Activity breakdown

  function FuelOf(item: ChartItem): real { item.fuel.GetOr(0.0) }
  function ElectricityOf(item: ChartItem): real { item.electricity.GetOr(0.0) }
  function ExplosivesOf(item: ChartItem): real { item.explosives.GetOr(0.0) }
  function TransportOf(item: ChartItem): real { item.transport.GetOr(0.0) }
  function MethaneOf(item: ChartItem): real { item.methane.GetOr(0.0) }

  /** `activityBreakdown`: nothing without chart data; otherwise the five activity totals in
      tonnes, always in the order Fuel, Electricity, Explosives, Transport, Methane. */
  function ActivityBreakdown(chartData: Option<seq<ChartItem>>): (r: seq<Ranked<string>>)
    ensures chartData.None? <==> r == []
    ensures chartData.Some? ==>
              && |r| == 5
              && r[0].key == "Fuel" && r[1].key == "Electricity" && r[2].key == "Explosives"
              && r[3].key == "Transport" && r[4].key == "Methane"
              && r[0].value * Tonnes == Sum(Map(chartData.value, FuelOf))
              && r[1].value * Tonnes == Sum(Map(chartData.value, ElectricityOf))
              && r[2].value * Tonnes == Sum(Map(chartData.value, ExplosivesOf))
              && r[3].value * Tonnes == Sum(Map(chartData.value, TransportOf))
              && r[4].value * Tonnes == Sum(Map(chartData.value, MethaneOf))
  {
    match chartData
    case None => []
    case Some(items) =>
      [ Ranked("Fuel", Share(items, FuelOf)),
        Ranked("Electricity", Share(items, ElectricityOf)),
        Ranked("Explosives", Share(items, ExplosivesOf)),
        Ranked("Transport", Share(items, TransportOf)),
        Ranked("Methane", Share(items, MethaneOf)) ]
  }

  /** One activity's total over the rows, in tonnes. */
  function Share(items: seq<ChartItem>, f: ChartItem -> real): (t: real)
    ensures t * Tonnes == Sum(Map(items, f))
  {
    Sum(Map(items, f)) / Tonnes
  }

  /** Summing a field over two batches of rows is summing it over each, also in tonnes. */
  lemma ShareSplits(a: seq<ChartItem>, b: seq<ChartItem>, f: ChartItem -> real)
    ensures Share(a + b, f) == Share(a, f) + Share(b, f)
  {
    assert Map(a + b, f) == Map(a, f) + Map(b, f);
    SumAppend(Map(a, f), Map(b, f));
  }

  /** The breakdown of two batches of rows together is the entry-by-entry sum of their
      breakdowns. */
  lemma BreakdownAdds(a: seq<ChartItem>, b: seq<ChartItem>)
    ensures var ra, rb, rab := ActivityBreakdown(Some(a)), ActivityBreakdown(Some(b)), ActivityBreakdown(Some(a + b));
            forall i :: 0 <= i < 5 ==> rab[i].key == ra[i].key && rab[i].value == ra[i].value + rb[i].value
  {
    ShareSplits(a, b, FuelOf);
    ShareSplits(a, b, ElectricityOf);
    ShareSplits(a, b, ExplosivesOf);
    ShareSplits(a, b, TransportOf);
    ShareSplits(a, b, MethaneOf);
  }

  // ---------------------------------------------------------------------
  // Mine-by-month heatmap

  /** `date.substring(0, 7)`: the `YYYY-MM` prefix, or the whole string when it is shorter. */
  function Month(date: string): (m: string)
    ensures |date| >= 7 ==> |m| == 7 && date == m + date[7..]
    ensures |date| < 7 ==> m == date
  {
    if |date| >= 7 then date[..7] else date
  }

  /** The grouping key `${mineName}-${month}`. */
  function HeatKey(mine: string, month: string): string
  {
    mine + "-" + month
  }

  /** The first position of a `-` with at least one character after it: where the regular
      expression `/-(.+)/` matches. */
  function FirstDash(s: string): (r: Option<nat>)
    ensures r.Some? ==> r.value + 1 < |s| && s[r.value] == '-'
    ensures r.Some? ==> forall k :: 0 <= k < r.value ==> s[k] != '-'
    ensures r.None? ==> forall k :: 0 <= k < |s| - 1 ==> s[k] != '-'
  {
    if |s| < 2 then None
    else if s[0] == '-' then Some(0)
    else match FirstDash(s[1..])
      case None => None
      case Some(k) => Some(k + 1)
  }

  /** As written: `const [mine, month] = key.split(/-(.+)/)`, which splits at the FIRST
      hyphen; with no match the month is `undefined`. */
  function SplitFirstDash(key: string): (r: (string, Option<string>))
    ensures r.1.Some? ==> key == r.0 + "-" + r.1.value && '-' !in r.0 && r.1.value != ""
    ensures r.1.None? ==> r.0 == key
  {
    match FirstDash(key)
    case None => (key, None)
    case Some(i) =>
      assert key == key[..i] + "-" + key[i + 1..];
      (key[..i], Some(key[i + 1..]))
  }

  /** The as-written split recovers a mine and a non-empty month exactly when the mine name
      has no hyphen. */
  lemma FirstDashRoundTrip(mine: string, month: string)
    requires month != ""
    ensures SplitFirstDash(HeatKey(mine, month)) == (mine, Some(month)) <==> '-' !in mine
  {
    var key := HeatKey(mine, month);
    var r := SplitFirstDash(key);
    if '-' !in mine {
      assert key[|mine|] == '-';
      var i := FirstDash(key).value;
      assert forall k :: 0 <= k < |mine| ==> key[k] == mine[k];
      assert i == |mine|;
      assert key[..i] == mine && key[i + 1..] == month;
    } else {
      assert r.1.Some? ==> '-' !in r.0;
    }
  }

  /** The seeded mine `Hasdo-Arand` shows up in the heatmap as mine `Hasdo` with month
      `Arand-2024-01`. */
  lemma HyphenatedMineMisread()
    ensures SplitFirstDash(HeatKey("Hasdo-Arand", "2024-01")) == ("Hasdo", Some("Arand-2024-01"))
  {
    var key := HeatKey("Hasdo-Arand", "2024-01");
    assert key[5] == '-';
    assert FirstDash(key) == Some(5);
    assert key[..5] == "Hasdo" && key[6..] == "Arand-2024-01";
  }

  /** Corrected split: the month is the key's last seven characters, the mine everything
      before the hyphen in front of them. */
  function SplitMonth(key: string): (r: Option<(string, string)>)
    ensures r.Some? ==> HeatKey(r.value.0, r.value.1) == key && |r.value.1| == 7
    ensures r.None? <==> |key| < 8 || key[|key| - 8] != '-'
  {
    if |key| < 8 then None
    else
      var n := |key| - 8;
      if key[n] == '-' then
        assert key == key[..n] + "-" + key[n + 1..];
        Some((key[..n], key[n + 1..]))
      else None
  }

  /** The corrected split recovers every mine name, hyphens included, together with any
      seven-character month. */
  lemma SplitMonthRoundTrip(mine: string, month: string)
    requires |month| == 7
    ensures SplitMonth(HeatKey(mine, month)) == Some((mine, month))
  {
    var key := HeatKey(mine, month);
    assert key[|mine|] == '-';
    assert key[..|mine|] == mine && key[|mine| + 1..] == month;
  }

  /** Dates of at least seven characters give distinct mine-month pairs distinct keys, so the
      page's string-keyed grouping groups exactly by mine and month. */
  lemma HeatKeyInjective(m1: string, d1: string, m2: string, d2: string)
    requires |d1| >= 7 && |d2| >= 7
    requires HeatKey(m1, Month(d1)) == HeatKey(m2, Month(d2))
    ensures m1 == m2 && Month(d1) == Month(d2)
  {
    SplitMonthRoundTrip(m1, Month(d1));
    SplitMonthRoundTrip(m2, Month(d2));
  }

  /** The page's grouping key of a row: `${mineName}-${month}` as one string. */
  function HeatKeyOf(item: ChartItem): string { HeatKey(item.mineName, Month(item.date)) }

  /** A heatmap cell as the page labels it: the key split at its first hyphen. */
  datatype HeatCell = HeatCell(mine: string, month: Option<string>, value: real)

  function Cell(e: Ranked<string>): HeatCell
  {
    var parts := SplitFirstDash(e.key);
    HeatCell(parts.0, parts.1, e.value)
  }

  /** The key a cell's label joins back to. */
  function Rejoined(c: HeatCell): string
  {
    match c.month
    case None => c.mine
    case Some(month) => HeatKey(c.mine, month)
  }

  /** `heatmapData` as written: nothing without chart data; otherwise the totals grouped by
      the string key `${mineName}-${month}`, split back at the first hyphen for the label, the
      fifty largest in tonnes, largest first. Splitting before or after the sort gives the same
      cells, since the split leaves the values alone. */
  function Heatmap(chartData: Option<seq<ChartItem>>): (r: seq<HeatCell>)
    ensures chartData.None? ==> r == []
    ensures |r| <= HeatmapSize
    ensures chartData.Some? ==> (r == [] <==> chartData.value == [])
    ensures forall i, j :: 0 <= i < j < |r| ==> r[i].value >= r[j].value
    ensures forall i, j :: 0 <= i < j < |r| ==> Rejoined(r[i]) != Rejoined(r[j])
    ensures chartData.Some? ==> forall i :: 0 <= i < |r| ==>
              && Rejoined(r[i]) in Keys(chartData.value, HeatKeyOf)
              && r[i].value == TotalFor(chartData.value, HeatKeyOf, TotalOf, Rejoined(r[i])) / Tonnes
  {
    match chartData
    case None => []
    case Some(items) =>
      var top := TopTotals(items, HeatKeyOf, TotalOf, HeatmapSize);
      CellsRejoin(top);
      Map(top, Cell)
  }

  /** Labelling ranked keys keeps their values and order, and every label joins back to its
      key. */
  lemma CellsRejoin(top: seq<Ranked<string>>)
    ensures |Map(top, Cell)| == |top|
    ensures forall i :: 0 <= i < |top| ==>
              Rejoined(Map(top, Cell)[i]) == top[i].key && Map(top, Cell)[i].value == top[i].value
  {
    forall i | 0 <= i < |top|
      ensures Rejoined(Map(top, Cell)[i]) == top[i].key
    {
      var parts := SplitFirstDash(top[i].key);
    }
  }

  /** A key missing from the as-written heatmap totals no more than each cell on it, and is
      missing only when fifty others fill the map. */
  lemma HeatmapIsTop(items: seq<ChartItem>, k: nat)
    requires k < |items|
    requires forall i :: 0 <= i < |Heatmap(Some(items))| ==> Rejoined(Heatmap(Some(items))[i]) != HeatKeyOf(items[k])
    ensures |Heatmap(Some(items))| == HeatmapSize
    ensures forall i :: 0 <= i < HeatmapSize ==>
              TotalFor(items, HeatKeyOf, TotalOf, HeatKeyOf(items[k])) / Tonnes <= Heatmap(Some(items))[i].value
  {
    var top := TopTotals(items, HeatKeyOf, TotalOf, HeatmapSize);
    CellsRejoin(top);
    assert Heatmap(Some(items)) == Map(top, Cell);
    TopTotalsIsTop(items, HeatKeyOf, TotalOf, HeatmapSize, k);
  }

  /** A single January 2024 row of the seeded mine `Hasdo-Arand` gives one heatmap cell,
      labelled mine `Hasdo`, month `Arand-2024-01`. */
  lemma HeatmapMisreadsHyphenatedMine(item: ChartItem)
    requires item.mineName == "Hasdo-Arand" && |item.date| >= 7 && item.date[..7] == "2024-01"
    ensures Heatmap(Some([item])) == [HeatCell("Hasdo", Some("Arand-2024-01"), item.totalEmissions / Tonnes)]
  {
    var items := [item];
    var top := TopTotals(items, HeatKeyOf, TotalOf, HeatmapSize);
    var key := HeatKeyOf(item);
    assert key == HeatKey("Hasdo-Arand", "2024-01");
    assert Keys(items, HeatKeyOf) == [key];
    assert forall i :: 0 <= i < |top| ==> top[i].key == key;
    assert |top| == 1;
    assert top[0].key == key;
    assert TotalFor(items, HeatKeyOf, TotalOf, key) == TotalFor(items[..0], HeatKeyOf, TotalOf, key) + item.totalEmissions;
    HyphenatedMineMisread();
    assert Heatmap(Some(items)) == Map(top, Cell);
  }

  /** The heatmap's corrected grouping key: the mine and the month, kept apart. */
  function MineMonthOf(item: ChartItem): (string, string) { (item.mineName, Month(item.date)) }

  /** A mine's summed `totalEmissions` over the rows of one month. */
  function MonthTotal(items: seq<ChartItem>, mine: string, month: string): real
  {
    TotalFor(items, MineMonthOf, TotalOf, (mine, month))
  }

  /** The corrected heatmap, grouping by the mine and the month kept apart, so each cell
      carries them as they went in: nothing without chart data; otherwise the fifty largest
      mine-month totals, in tonnes, largest first. */
  function CorrectedHeatmap(chartData: Option<seq<ChartItem>>): (r: seq<Ranked<(string, string)>>)
    ensures chartData.None? ==> r == []
    ensures |r| <= HeatmapSize
    ensures chartData.Some? ==> (r == [] <==> chartData.value == [])
    ensures SortedDesc(r, ValueOf)
    ensures DistinctRanked(r)
    ensures chartData.Some? ==> forall i :: 0 <= i < |r| ==>
              && r[i].value == MonthTotal(chartData.value, r[i].key.0, r[i].key.1) / Tonnes
              && r[i].key in Keys(chartData.value, MineMonthOf)
  {
    match chartData
    case None => []
    case Some(items) => TopTotals(items, MineMonthOf, TotalOf, HeatmapSize)
  }

  /** Every mine-month missing from the corrected heatmap totals no more than each cell on
      it, and a mine-month is missing only when fifty others fill the map. */
  lemma CorrectedHeatmapIsTop(items: seq<ChartItem>, k: nat)
    requires k < |items|
    requires forall i :: 0 <= i < |CorrectedHeatmap(Some(items))| ==> CorrectedHeatmap(Some(items))[i].key != MineMonthOf(items[k])
    ensures |CorrectedHeatmap(Some(items))| == HeatmapSize
    ensures forall i :: 0 <= i < HeatmapSize ==>
              MonthTotal(items, items[k].mineName, Month(items[k].date)) / Tonnes <= CorrectedHeatmap(Some(items))[i].value
  {
    assert CorrectedHeatmap(Some(items)) == TopTotals(items, MineMonthOf, TotalOf, HeatmapSize);
    TopTotalsIsTop(items, MineMonthOf, TotalOf, HeatmapSize, k);
  }

  // ---------------------------------------------------------------------
  // Trend chart title

  datatype ChartConfig = ChartConfig(title: string, dataKey: string)

  const TrendTitle := "Emissions Trend"

  /** The word naming an aggregation period in the title, with its trailing space; none for
      any other value. */
  function PeriodPrefix(period: string): (p: string)
    ensures p == "" <==> period != "daily" && period != "weekly" && period != "monthly"
  {
    if period == "daily" then "Daily "
    else if period == "weekly" then "Weekly "
    else if period == "monthly" then "Monthly "
    else ""
  }

  /** `getChartConfig`: a title per aggregation period; the x axis is always `period`. */
  function ChartConfigFor(period: string): (c: ChartConfig)
    ensures c.dataKey == "period"
    ensures |c.title| >= |TrendTitle| && c.title[|c.title| - |TrendTitle|..] == TrendTitle
    ensures c.title == TrendTitle <==> period != "daily" && period != "weekly" && period != "monthly"
    ensures period == "daily" ==> c.title == "Daily " + TrendTitle
    ensures period == "weekly" ==> c.title == "Weekly " + TrendTitle
    ensures period == "monthly" ==> c.title == "Monthly " + TrendTitle
  {
    var prefix := PeriodPrefix(period);
    var title := prefix + TrendTitle;
    assert title[|prefix|..] == TrendTitle;
    assert prefix != "" ==> |title| > |TrendTitle|;
    ChartConfig(title, "period")
  }
}

=== FILE: data_processor.dfy ===
/** Conversion of raw emission records into the contiguous daily series the forecaster fits
    (ml-service/app/services/data_processor.py). Dates are day numbers. */
module DataProcessor {
  import opened Wrappers

  /** A JSON field as pandas sees it: absent from the record, present but null (NaT / NaN),
      given, or present with a value pandas cannot convert (a date string `to_datetime` cannot
      parse, a total `astype(float)` cannot read as a number). */
  datatype Field<T> = Missing | Null | Given(value: T) | Invalid

  /** One emission record of the request: its `date` and `total_carbon_emission`. */
  datatype RawRecord = RawRecord(date: Field<int>, total: Field<real>)

  /** A daily series: `values[i]` is the emission of day `start + i`. */
  datatype DailySeries = DailySeries(start: int, values: seq<real>)

  /** The series the processor returns is never empty. */
  type Series = s: DailySeries | |s.values| > 0 witness DailySeries(0, [0.0])

  function LastDay(s: Series): int
  {
    s.start + |s.values| - 1
  }

  const NoDataMessage := "No emission data provided."
  const MissingFieldsMessage := "Emission data must contain 'date' and 'total_carbon_emission' fields."
  /** pandas refuses to build a date range whose ends are NaT; its own wording is not modelled. */
  const NoValidDateMessage := "Neither `start` nor `end` can be NaT"
  /** `to_datetime` without `errors="coerce"` raises on a string it cannot parse, and
      `astype(float)` on a value that is not a number; their wording is pandas' own. */
  const UnparseableDateMessage := "Unknown datetime string format"
  const NotANumberMessage := "could not convert string to float"
  const DefaultMinimumPoints := 60

  /** A column exists in the DataFrame as soon as one record carries the key. */
  predicate HasDateColumn(raw: seq<RawRecord>)
  {
    exists i :: 0 <= i < |raw| && !raw[i].date.Missing?
  }

  predicate HasTotalColumn(raw: seq<RawRecord>)
  {
    exists i :: 0 <= i < |raw| && !raw[i].total.Missing?
  }

  predicate HasValidDate(raw: seq<RawRecord>)
  {
    exists i :: 0 <= i < |raw| && raw[i].date.Given?
  }

  /** Some record's date is a string pandas cannot parse. */
  predicate HasInvalidDate(raw: seq<RawRecord>)
  {
    exists i :: 0 <= i < |raw| && raw[i].date.Invalid?
  }

  /** The index label a record gets: its day, or NaT (None) for a missing or null date. */
  function DateKey(rec: RawRecord): Option<int>
  {
    if rec.date.Given? then Some(rec.date.value) else None
  }

  /** Some row that survives `duplicated(keep="last")` (the last record of its day, or of the
      NaT rows) holds a total that is not a number, so `astype(float)` raises. */
  predicate HasInvalidKeptTotal(raw: seq<RawRecord>)
  {
    exists i :: 0 <= i < |raw| && raw[i].total.Invalid?
      && forall j :: i < j < |raw| ==> DateKey(raw[j]) != DateKey(raw[i])
  }

  function TotalOf(rec: RawRecord): Option<real>
  {
    if rec.total.Given? then Some(rec.total.value) else None
  }

  /** Record `i` is the last one carrying its date, so its total is the one `duplicated(keep="last")` keeps. */
  ghost predicate IsLastForItsDate(raw: seq<RawRecord>, i: int)
  {
    && 0 <= i < |raw|
    && raw[i].date.Given?
    && forall j :: i < j < |raw| ==> raw[j].date != raw[i].date
  }

  /** The de-duplicated frame: each date mapped to the total of its last record (None for NaN).
      Records without a date (NaT) fall outside the daily range and are dropped. */
  function Kept(raw: seq<RawRecord>): (m: map<int, Option<real>>)
    ensures forall d :: d in m <==> exists i :: 0 <= i < |raw| && raw[i].date == Given(d)
  {
    if |raw| == 0 then map[]
    else
      var init := raw[..|raw| - 1];
      var last := raw[|raw| - 1];
      var m := Kept(init);
      assert forall i :: 0 <= i < |init| ==> init[i] == raw[i];
      if last.date.Given? then m[last.date.value := TotalOf(last)] else m
  }

  lemma {:induction false} KeptIsLast(raw: seq<RawRecord>, i: int)
    requires IsLastForItsDate(raw, i)
    ensures raw[i].date.value in Kept(raw)
    ensures Kept(raw)[raw[i].date.value] == TotalOf(raw[i])
    decreases |raw|
  {
    if i < |raw| - 1 {
      var init := raw[..|raw| - 1];
      assert IsLastForItsDate(init, i) by {
        forall j | i < j < |init|
          ensures init[j].date != init[i].date
        {
          assert init[j] == raw[j];
        }
      }
      KeptIsLast(init, i);
    }
  }

  /** The last record carrying a date that some record carries. */
  lemma {:induction false} LastCarrier(raw: seq<RawRecord>, d: int) returns (i: int)
    requires exists j :: 0 <= j < |raw| && raw[j].date == Given(d)
    ensures IsLastForItsDate(raw, i) && raw[i].date == Given(d)
    decreases |raw|
  {
    if raw[|raw| - 1].date == Given(d) {
      i := |raw| - 1;
    } else {
      var init := raw[..|raw| - 1];
      assert forall j :: 0 <= j < |init| ==> init[j] == raw[j];
      var j :| 0 <= j < |raw| && raw[j].date == Given(d);
      assert init[j].date == Given(d);
      i := LastCarrier(init, d);
      assert IsLastForItsDate(raw, i);
    }
  }

  /** Every kept day comes from the last record carrying that date: its value is that record's total. */
  lemma KeptFromLast(raw: seq<RawRecord>, d: int)
    requires d in Kept(raw)
    ensures exists i :: IsLastForItsDate(raw, i) && raw[i].date == Given(d) && Kept(raw)[d] == TotalOf(raw[i])
  {
    var i := LastCarrier(raw, d);
    KeptIsLast(raw, i);
  }

  function MinDate(raw: seq<RawRecord>): (d: int)
    requires HasValidDate(raw)
    ensures exists i :: 0 <= i < |raw| && raw[i].date == Given(d)
    ensures forall i :: 0 <= i < |raw| && raw[i].date.Given? ==> d <= raw[i].date.value
  {
    var init := raw[..|raw| - 1];
    var last := raw[|raw| - 1];
    assert forall i :: 0 <= i < |init| ==> init[i] == raw[i];
    if !HasValidDate(init) then
      assert last.date.Given?;
      last.date.value
    else
      var m := MinDate(init);
      if last.date.Given? && last.date.value < m then last.date.value else m
  }

  function MaxDate(raw: seq<RawRecord>): (d: int)
    requires HasValidDate(raw)
    ensures exists i :: 0 <= i < |raw| && raw[i].date == Given(d)
    ensures forall i :: 0 <= i < |raw| && raw[i].date.Given? ==> raw[i].date.value <= d
  {
    var init := raw[..|raw| - 1];
    var last := raw[|raw| - 1];
    assert forall i :: 0 <= i < |init| ==> init[i] == raw[i];
    if !HasValidDate(init) then
      assert last.date.Given?;
      last.date.value
    else
      var m := MaxDate(init);
      if last.date.Given? && last.date.value > m then last.date.value else m
  }

  // ---------------------------------------------------------------------
  // Gap filling: ffill, then bfill, then 0

  /** A day whose kept total is a number (not NaN). */
  predicate Observed(m: map<int, Option<real>>, d: int)
  {
    d in m && m[d].Some?
  }

  /** The latest observed day in [lo, d), the one `ffill` copies from. */
  function NearestBefore(m: map<int, Option<real>>, lo: int, d: int): (r: Option<int>)
    ensures r.Some? ==> lo <= r.value < d && Observed(m, r.value)
    ensures r.Some? ==> forall j :: r.value < j < d ==> !Observed(m, j)
    ensures r.None? ==> forall j :: lo <= j < d ==> !Observed(m, j)
    decreases d - lo
  {
    if d <= lo then None
    else if Observed(m, d - 1) then Some(d - 1)
    else NearestBefore(m, lo, d - 1)
  }

  /** The earliest observed day in (d, hi], the one `bfill` copies from. */
  function NearestAfter(m: map<int, Option<real>>, d: int, hi: int): (r: Option<int>)
    ensures r.Some? ==> d < r.value <= hi && Observed(m, r.value)
    ensures r.Some? ==> forall j :: d < j < r.value ==> !Observed(m, j)
    ensures r.None? ==> forall j :: d < j <= hi ==> !Observed(m, j)
    decreases hi - d
  {
    if d >= hi then None
    else if Observed(m, d + 1) then Some(d + 1)
    else NearestAfter(m, d + 1, hi)
  }

  function Filled(m: map<int, Option<real>>, lo: int, hi: int, d: int): real
  {
    if Observed(m, d) then m[d].value
    else match NearestBefore(m, lo, d)
      case Some(k) => m[k].value
      case None =>
        match NearestAfter(m, d, hi)
        case Some(k) => m[k].value
        case None => 0.0
  }

  function FillRange(m: map<int, Option<real>>, lo: int, hi: int): (v: seq<real>)
    requires lo <= hi
    ensures |v| == hi - lo + 1
    ensures forall i :: 0 <= i < |v| ==> v[i] == Filled(m, lo, hi, lo + i)
  {
    seq(hi - lo + 1, i requires 0 <= i < hi - lo + 1 => Filled(m, lo, hi, lo + i))
  }

  /** `process_emission_data`: reject empty input and input without the two columns, then parse
      the dates, sort, keep the last record per date, convert the kept totals to numbers, reindex
      to every day from the first to the last date and fill the gaps. */
  function ProcessEmissionData(raw: seq<RawRecord>): (r: Result<Series>)
    ensures |raw| == 0 ==> r == Err(NoDataMessage)
    ensures |raw| > 0 && (!HasDateColumn(raw) || !HasTotalColumn(raw)) ==> r == Err(MissingFieldsMessage)
    ensures |raw| > 0 && HasDateColumn(raw) && HasTotalColumn(raw) && HasInvalidDate(raw) ==>
              r == Err(UnparseableDateMessage)
    ensures |raw| > 0 && HasDateColumn(raw) && HasTotalColumn(raw) && !HasInvalidDate(raw) && HasInvalidKeptTotal(raw) ==>
              r == Err(NotANumberMessage)
    ensures r.Ok? <==> && |raw| > 0 && HasDateColumn(raw) && HasTotalColumn(raw)
                       && !HasInvalidDate(raw) && !HasInvalidKeptTotal(raw) && HasValidDate(raw)
    ensures r.Ok? ==> r.value.start == MinDate(raw) && LastDay(r.value) == MaxDate(raw)
    ensures r.Ok? ==> forall i :: 0 <= i < |raw| && raw[i].date.Given? ==>
              r.value.start <= raw[i].date.value <= LastDay(r.value)
  {
    if |raw| == 0 then Err(NoDataMessage)
    else if !HasDateColumn(raw) || !HasTotalColumn(raw) then Err(MissingFieldsMessage)
    else if HasInvalidDate(raw) then Err(UnparseableDateMessage)
    else if HasInvalidKeptTotal(raw) then Err(NotANumberMessage)
    else if !HasValidDate(raw) then Err(NoValidDateMessage)
    else
      var lo, hi, m := MinDate(raw), MaxDate(raw), Kept(raw);
      Ok(DailySeries(lo, FillRange(m, lo, hi)))
  }

  /** A date's own total survives: the day of the last record carrying a date holds that record's total. */
  lemma KeepsLastTotal(raw: seq<RawRecord>, i: int)
    requires ProcessEmissionData(raw).Ok?
    requires IsLastForItsDate(raw, i) && raw[i].total.Given?
    ensures ProcessEmissionData(raw).value.values[raw[i].date.value - MinDate(raw)] == raw[i].total.value
  {
    var d := raw[i].date.value;
    ProcessedIsFilledRange(raw);
    KeptIsLast(raw, i);
    assert Observed(Kept(raw), d);
    assert FillRange(Kept(raw), MinDate(raw), MaxDate(raw))[d - MinDate(raw)] == Filled(Kept(raw), MinDate(raw), MaxDate(raw), d);
  }

  lemma ProcessedIsFilledRange(raw: seq<RawRecord>)
    requires ProcessEmissionData(raw).Ok?
    ensures ProcessEmissionData(raw).value.values == FillRange(Kept(raw), MinDate(raw), MaxDate(raw))
  {}

  lemma FilledFromEarlier(m: map<int, Option<real>>, lo: int, hi: int, d: int, k: int)
    requires lo <= k < d && Observed(m, k) && !Observed(m, d)
    requires forall j :: k < j < d ==> !Observed(m, j)
    ensures Filled(m, lo, hi, d) == m[k].value
  {
  }

  lemma FilledFromLater(m: map<int, Option<real>>, lo: int, hi: int, d: int, k: int)
    requires lo <= d < k <= hi && Observed(m, k)
    requires forall j :: lo <= j < k ==> !Observed(m, j)
    ensures Filled(m, lo, hi, d) == m[k].value
  {
    assert NearestBefore(m, lo, d).None?;
  }

  /** A day with no number of its own takes the value of the nearest earlier day that has one (`ffill`). */
  lemma GapTakesEarlier(raw: seq<RawRecord>, d: int, k: int)
    requires ProcessEmissionData(raw).Ok?
    requires MinDate(raw) <= k < d <= MaxDate(raw)
    requires Observed(Kept(raw), k) && !Observed(Kept(raw), d)
    requires forall j :: k < j < d ==> !Observed(Kept(raw), j)
    ensures ProcessEmissionData(raw).value.values[d - MinDate(raw)] == Kept(raw)[k].value
  {
    ProcessedIsFilledRange(raw);
    FilledFromEarlier(Kept(raw), MinDate(raw), MaxDate(raw), d, k);
  }

  /** A day before the first day with a number takes the value of that first day (`bfill`). */
  lemma GapTakesLater(raw: seq<RawRecord>, d: int, k: int)
    requires ProcessEmissionData(raw).Ok?
    requires MinDate(raw) <= d < k <= MaxDate(raw)
    requires Observed(Kept(raw), k)
    requires forall j :: MinDate(raw) <= j < k ==> !Observed(Kept(raw), j)
    ensures ProcessEmissionData(raw).value.values[d - MinDate(raw)] == Kept(raw)[k].value
  {
    ProcessedIsFilledRange(raw);
    FilledFromLater(Kept(raw), MinDate(raw), MaxDate(raw), d, k);
  }

  /** When no kept record carries a number, every day is 0 (`fillna(0)`). */
  lemma NothingObservedIsZero(raw: seq<RawRecord>, d: int)
    requires ProcessEmissionData(raw).Ok?
    requires MinDate(raw) <= d <= MaxDate(raw)
    requires forall j :: !Observed(Kept(raw), j)
    ensures ProcessEmissionData(raw).value.values[d - MinDate(raw)] == 0.0
  {
    ProcessedIsFilledRange(raw);
    var m, lo, hi := Kept(raw), MinDate(raw), MaxDate(raw);
    assert NearestBefore(m, lo, d).None?;
    assert NearestAfter(m, d, hi).None?;
  }

  /** `validate_minimum_data(series, min_points=60)`. */
  function ValidateMinimumData(s: Series, minPoints: nat := DefaultMinimumPoints): (ok: bool)
    ensures ok <==> |s.values| >= minPoints
  {
    |s.values| >= minPoints
  }

  /** Filled gaps count as data: a processed series passes the minimum check exactly when its
      first and last dates span enough days, however few records there were. */
  lemma MinimumCountsSpan(raw: seq<RawRecord>, minPoints: nat)
    requires ProcessEmissionData(raw).Ok?
    ensures ValidateMinimumData(ProcessEmissionData(raw).value, minPoints) <==> MaxDate(raw) - MinDate(raw) + 1 >= minPoints
  {
    ProcessedIsFilledRange(raw);
  }
}

=== FILE: forecast_cache.dfy ===
/** The backend's forecast cache (backend/routes/forecast.js): a POST validates the horizon,
    purges expired entries for the mine and horizon, serves the newest live entry, and otherwise
    asks the ML service and stores its answer for 24 hours; a GET only reads the cache. Time is
    an integer count of milliseconds and the store is a sequence of cache documents. */
module ForecastCache {
  import opened Wrappers
  import opened Collections
  import opened Text
  import opened ForecastService

  const TtlHours := 24
  const HourMs := 3600000
  /** `FORECAST_TTL_HOURS` in milliseconds. */
  const Ttl := TtlHours * HourMs

  /** Records the ML service needs before a forecast is requested. */
  const MinimumRecords := 30

  const MineNotFoundMessage := "Mine not found"
  const NoCacheMessage := "No cached forecast available. Use POST to generate a new one."
  const FetchFailedMessage := "Failed to fetch forecast."
  const ServiceErrorMessage := "ML service returned an error."
  const UnavailableMessage := "ML service is unavailable. Please ensure it is running on port 5001."
  const FailurePrefix := "Failed to generate forecast: "

  function InsufficientMessage(n: nat): string
  {
    "Insufficient data for forecasting. Need at least 30 data points, got " + NatToString(n)
      + ". Please add more emission data."
  }

  /** One cached forecast document. */
  datatype Entry = Entry(mineId: string, horizon: int, generatedAt: int, expiresAt: int, report: ForecastReport)

  /** What the ML service call yields: a report, a `success: false` reply carrying its error
      text (empty when it has none), a refused connection or any other failure. */
  datatype MlReply = Success(report: ForecastReport) | Failure(error: string) | Refused | Crashed(message: string)

  datatype Source = FromCache | Generated

  datatype Response = Rejected(status: nat, error: string) | Served(source: Source, entry: Entry)

  /** `parseInt(horizon) || 7`: `None` stands for NaN, and NaN and 0 are both falsy. */
  function RequestedHorizon(parsed: Option<int>): (h: int)
    ensures parsed.Some? && parsed.value != 0 ==> h == parsed.value
    ensures parsed.None? || parsed.value == 0 ==> h == 7
  {
    if parsed.None? || parsed.value == 0 then 7 else parsed.value
  }

  predicate Matches(e: Entry, mineId: string, horizon: int)
  {
    e.mineId == mineId && e.horizon == horizon
  }

  predicate Live(e: Entry, now: int)
  {
    e.expiresAt > now
  }

  predicate Candidate(e: Entry, mineId: string, horizon: int, now: int)
  {
    Matches(e, mineId, horizon) && Live(e, now)
  }

  predicate Survives(e: Entry, mineId: string, horizon: int, now: int)
  {
    !(Matches(e, mineId, horizon) && e.expiresAt <= now)
  }

  /** `deleteMany` of the mine's expired entries for the horizon; every other entry stays. */
  function Purge(cache: seq<Entry>, mineId: string, horizon: int, now: int): (r: seq<Entry>)
    ensures forall e :: e in r <==> e in cache && Survives(e, mineId, horizon, now)
    ensures forall e :: e in r && Matches(e, mineId, horizon) ==> Live(e, now)
    ensures forall e :: e in cache && !Matches(e, mineId, horizon) ==> e in r
  {
    Filter(cache, (e: Entry) => Survives(e, mineId, horizon, now))
  }

  /** `findOne(live, mine, horizon).sort({generated_at: -1})`: the live entry with the latest
      generation time; among equals, the one stored first. */
  function Newest(cache: seq<Entry>, mineId: string, horizon: int, now: int): (r: Option<Entry>)
    ensures r.Some? <==> exists e :: e in cache && Candidate(e, mineId, horizon, now)
    ensures r.Some? ==> r.value in cache && Candidate(r.value, mineId, horizon, now)
    ensures r.Some? ==> forall e :: e in cache && Candidate(e, mineId, horizon, now) ==> e.generatedAt <= r.value.generatedAt
  {
    if |cache| == 0 then None
    else
      var prefix := cache[..|cache| - 1];
      var last := cache[|cache| - 1];
      assert forall e :: e in cache <==> e in prefix || e == last;
      var rest := Newest(prefix, mineId, horizon, now);
      if Candidate(last, mineId, horizon, now) && (rest.None? || rest.value.generatedAt < last.generatedAt)
      then Some(last)
      else rest
  }

  /** Purging before the lookup changes nothing about what the lookup finds: expired entries
      are never served. */
  lemma {:induction false} PurgeKeepsNewest(cache: seq<Entry>, mineId: string, horizon: int, now: int)
    ensures Newest(Purge(cache, mineId, horizon, now), mineId, horizon, now) == Newest(cache, mineId, horizon, now)
  {
    if |cache| > 0 {
      var prefix := cache[..|cache| - 1];
      var last := cache[|cache| - 1];
      var keep := (e: Entry) => Survives(e, mineId, horizon, now);
      PurgeKeepsNewest(prefix, mineId, horizon, now);
      assert prefix + [last] == cache;
      FilterAppend(prefix, last, keep);
      NewestAppend(prefix, last, mineId, horizon, now);
      var kept := Purge(prefix, mineId, horizon, now);
      assert kept == Filter(prefix, keep);
      if keep(last) {
        assert Purge(cache, mineId, horizon, now) == kept + [last];
        NewestAppend(kept, last, mineId, horizon, now);
      } else {
        assert Purge(cache, mineId, horizon, now) == kept;
        assert !Candidate(last, mineId, horizon, now);
      }
    }
  }

  /** The lookup over one more stored entry: the new entry wins only when it is a candidate
      generated strictly later than the previous winner. */
  lemma NewestAppend(s: seq<Entry>, x: Entry, mineId: string, horizon: int, now: int)
    ensures Newest(s + [x], mineId, horizon, now)
            == if Candidate(x, mineId, horizon, now)
                  && (Newest(s, mineId, horizon, now).None?
                      || Newest(s, mineId, horizon, now).value.generatedAt < x.generatedAt)
               then Some(x) else Newest(s, mineId, horizon, now)
  {
    assert (s + [x])[..|s|] == s;
  }

  /** A stored forecast expires exactly `FORECAST_TTL_HOURS` after it is generated. */
  function NewEntry(mineId: string, horizon: int, now: int, report: ForecastReport): (e: Entry)
    ensures e.expiresAt - e.generatedAt == 24 * 60 * 60 * 1000
    ensures e.generatedAt == now && Matches(e, mineId, horizon)
  {
    Entry(mineId, horizon, now, now + Ttl, report)
  }

  /** The 500 or 503 answer for a failed service call. */
  function ServiceFailure(ml: MlReply): (r: Response)
    requires !ml.Success?
    ensures r.Rejected?
    ensures r.status == 503 <==> ml.Refused?
    ensures ml.Failure? && ml.error != "" ==> r.error == ml.error
  {
    match ml
    case Failure(error) => Rejected(500, if error != "" then error else ServiceErrorMessage)
    case Refused => Rejected(503, UnavailableMessage)
    case Crashed(message) => Rejected(500, FailurePrefix + message)
  }

  /** POST /api/forecast/:mineId. `recordCount` is the number of the mine's records in the last
      120 days and `ml` what the service answers; both matter only on a cache miss. */
  function Post(cache: seq<Entry>, mines: set<string>, mineId: string, horizonParam: Option<int>,
                recordCount: nat, ml: MlReply, now: int): (r: (Response, seq<Entry>))
    ensures var h := RequestedHorizon(horizonParam);
            !ValidHorizon(h) ==> r == (Rejected(400, HorizonMessage), cache)
    ensures var h := RequestedHorizon(horizonParam);
            ValidHorizon(h) && mineId !in mines ==> r == (Rejected(404, MineNotFoundMessage), cache)
    ensures var h := RequestedHorizon(horizonParam);
            var purged := Purge(cache, mineId, h, now);
            ValidHorizon(h) && mineId in mines ==>
              && (Newest(cache, mineId, h, now).Some? ==>
                    r == (Served(FromCache, Newest(cache, mineId, h, now).value), purged))
              && (Newest(cache, mineId, h, now).None? && recordCount < MinimumRecords ==>
                    r == (Rejected(400, InsufficientMessage(recordCount)), purged))
              && (Newest(cache, mineId, h, now).None? && recordCount >= MinimumRecords && ml.Success? ==>
                    r == (Served(Generated, NewEntry(mineId, h, now, ml.report)), purged + [NewEntry(mineId, h, now, ml.report)]))
              && (Newest(cache, mineId, h, now).None? && recordCount >= MinimumRecords && !ml.Success? ==>
                    r == (ServiceFailure(ml), purged))
    ensures r.0.Served? ==> Live(r.0.entry, now) && r.0.entry.mineId == mineId
  {
    var h := RequestedHorizon(horizonParam);
    if !ValidHorizon(h) then (Rejected(400, HorizonMessage), cache)
    else if mineId !in mines then (Rejected(404, MineNotFoundMessage), cache)
    else
      var purged := Purge(cache, mineId, h, now);
      PurgeKeepsNewest(cache, mineId, h, now);
      var cached := Newest(purged, mineId, h, now);
      if cached.Some? then (Served(FromCache, cached.value), purged)
      else if recordCount < MinimumRecords then (Rejected(400, InsufficientMessage(recordCount)), purged)
      else if ml.Success? then
        var e := NewEntry(mineId, h, now, ml.report);
        (Served(Generated, e), purged + [e])
      else (ServiceFailure(ml), purged)
  }

  /** GET /api/forecast/:mineId: read-only; `horizon` is the parsed query value (7 when absent,
      `None` when `parseInt` gives NaN). A NaN horizon cannot be cast to the schema's number, so
      the lookup throws and the route answers 500. */
  function Get(cache: seq<Entry>, mines: set<string>, mineId: string, horizon: Option<int>, now: int): (r: Response)
    ensures mineId !in mines ==> r == Rejected(404, MineNotFoundMessage)
    ensures mineId in mines && horizon.None? ==> r == Rejected(500, FetchFailedMessage)
    ensures r.Served? <==> mineId in mines && horizon.Some? && Newest(cache, mineId, horizon.value, now).Some?
    ensures r.Served? ==> r.source == FromCache && r.entry == Newest(cache, mineId, horizon.value, now).value
    ensures r.Rejected? && mineId in mines && horizon.Some? ==> r == Rejected(404, NoCacheMessage)
  {
    if mineId !in mines then Rejected(404, MineNotFoundMessage)
    else if horizon.None? then Rejected(500, FetchFailedMessage)
    else match Newest(cache, mineId, horizon.value, now)
      case None => Rejected(404, NoCacheMessage)
      case Some(e) => Served(FromCache, e)
  }

  /** A cache hit does not depend on the history or on the service: the same live entry is
      served whatever the record count and whatever the service would answer. */
  lemma CacheHitIgnoresService(cache: seq<Entry>, mines: set<string>, mineId: string, horizonParam: Option<int>,
                               n1: nat, n2: nat, ml1: MlReply, ml2: MlReply, now: int)
    requires Newest(cache, mineId, RequestedHorizon(horizonParam), now).Some?
    ensures Post(cache, mines, mineId, horizonParam, n1, ml1, now) == Post(cache, mines, mineId, horizonParam, n2, ml2, now)
  {
  }

  /** A freshly generated forecast is found by a GET for the same mine and horizon at any time
      before it expires; what is found is at least as recent. */
  lemma {:induction false} GeneratedIsServedUntilExpiry(cache: seq<Entry>, mines: set<string>, mineId: string,
                                     horizonParam: Option<int>, recordCount: nat, ml: MlReply, now: int, later: int)
    requires Post(cache, mines, mineId, horizonParam, recordCount, ml, now).0.Served?
    requires Post(cache, mines, mineId, horizonParam, recordCount, ml, now).0.source == Generated
    requires now <= later < now + Ttl
    ensures var (resp, cache') := Post(cache, mines, mineId, horizonParam, recordCount, ml, now);
            var g := Get(cache', mines, mineId, Some(resp.entry.horizon), later);
            g.Served? && g.entry.generatedAt >= now
  {
    var (resp, cache') := Post(cache, mines, mineId, horizonParam, recordCount, ml, now);
    var e := resp.entry;
    assert e == NewEntry(mineId, RequestedHorizon(horizonParam), now, ml.report);
    assert e in cache' && Candidate(e, mineId, e.horizon, later);
  }
}

=== FILE: forecast_service.dfy ===
/** The forecasting pipeline of the ML service (CoalNet/ml-service/app/services/forecast_service.py):
    validate the horizon, build the daily series, demand enough history, fit, predict, backtest. */
module ForecastService {
  import opened Wrappers
  import opened Numbers
  import opened Text
  import opened DataProcessor
  import opened Arima

  const HorizonMessage := "Horizon must be 7, 14, or 30 days."
  const MinimumPoints := 30
  const TestRatio := 0.2

  predicate ValidHorizon(h: int)
  {
    h == 7 || h == 14 || h == 30
  }

  function InsufficientDataMessage(n: nat): string
  {
    "Insufficient data for forecasting. Need at least 30 data points, got " + NatToString(n)
      + ". Recommended: 60+ days of data."
  }

  /** One day of the response: `{date, predicted, upper_bound, lower_bound}`. */
  datatype ForecastPoint = ForecastPoint(date: int, predicted: real, upperBound: real, lowerBound: real)

  datatype ForecastReport = ForecastReport(
    forecastData: seq<ForecastPoint>,
    accuracy: Metrics,
    params: FitSummary,
    dataPointsUsed: nat)

  /** Zip the four prediction lists into response entries. */
  function Entries(p: Prediction): (e: seq<ForecastPoint>)
    requires |p.dates| == |p.forecast| == |p.lower| == |p.upper|
    ensures |e| == |p.dates|
    ensures forall i :: 0 <= i < |e| ==>
              e[i] == ForecastPoint(p.dates[i], p.forecast[i], p.upper[i], p.lower[i])
  {
    seq(|p.dates|, i requires 0 <= i < |p.dates| => ForecastPoint(p.dates[i], p.forecast[i], p.upper[i], p.lower[i]))
  }

  /** `generate_forecast`. Each refusal carries the message the service raises. */
  function GenerateForecast(emissions: seq<RawRecord>, horizon: int, sm: Statsmodels, round2: Rounding)
    : (r: Result<ForecastReport>)
    ensures !ValidHorizon(horizon) ==> r == Err(HorizonMessage)
    ensures ValidHorizon(horizon) && ProcessEmissionData(emissions).Err? ==>
              r == Err(ProcessEmissionData(emissions).msg)
    ensures ValidHorizon(horizon) && ProcessEmissionData(emissions).Ok?
            && |ProcessEmissionData(emissions).value.values| < MinimumPoints ==>
              r == Err(InsufficientDataMessage(|ProcessEmissionData(emissions).value.values|))
    ensures r.Ok? ==> ValidHorizon(horizon) && ProcessEmissionData(emissions).Ok?
    ensures r.Ok? ==> r.value.dataPointsUsed == |ProcessEmissionData(emissions).value.values| >= MinimumPoints
    ensures r.Ok? ==> |r.value.forecastData| == horizon
    ensures r.Ok? ==> forall i :: 0 <= i < |r.value.forecastData| ==>
              && r.value.forecastData[i].date == LastDay(ProcessEmissionData(emissions).value) + 1 + i
              && 0.0 <= r.value.forecastData[i].lowerBound <= r.value.forecastData[i].predicted
              && r.value.forecastData[i].predicted <= r.value.forecastData[i].upperBound
    ensures r.Ok? ==> |r.value.params.order| == 3 && r.value.accuracy.mae >= 0.0 && r.value.accuracy.rmse >= 0.0
    ensures ValidHorizon(horizon) && ProcessEmissionData(emissions).Ok?
            && |ProcessEmissionData(emissions).value.values| >= MinimumPoints
            && Fit(ProcessEmissionData(emissions).value, sm, round2).Err? ==>
              r == Err(Fit(ProcessEmissionData(emissions).value, sm, round2).msg)
    ensures r.Ok? ==> && Fit(ProcessEmissionData(emissions).value, sm, round2).Ok?
                      && r.value == Report(ProcessEmissionData(emissions).value,
                                           Fit(ProcessEmissionData(emissions).value, sm, round2).value,
                                           sm, round2, horizon)
  {
    if !ValidHorizon(horizon) then Err(HorizonMessage)
    else match ProcessEmissionData(emissions)
      case Err(e) => Err(e)
      case Ok(series) =>
        if |series.values| < MinimumPoints then Err(InsufficientDataMessage(|series.values|))
        else match Fit(series, sm, round2)
          case Err(e) => Err(e)
          case Ok(outcome) => Ok(Report(series, outcome, sm, round2, horizon))
  }

  /** The success response of `generate_forecast`: one entry per forecast day after the
      last observed day, the backtest metrics, the chosen order and the series length. */
  function Report(series: Series, outcome: FitOutcome, sm: Statsmodels, round2: Rounding, horizon: nat)
    : (r: ForecastReport)
    requires outcome.model.Fitted? && outcome.model.data == series
    ensures r.params == outcome.summary && r.dataPointsUsed == |series.values|
    ensures |r.forecastData| == horizon
    ensures forall i :: 0 <= i < |r.forecastData| ==>
              && r.forecastData[i].date == LastDay(series) + 1 + i
              && 0.0 <= r.forecastData[i].lowerBound <= r.forecastData[i].predicted
              && r.forecastData[i].predicted <= r.forecastData[i].upperBound
    ensures r.accuracy.mae >= 0.0 && r.accuracy.rmse >= 0.0
    ensures Predict(outcome.model, sm, round2, horizon).Ok?
            && r.forecastData == Entries(Predict(outcome.model, sm, round2, horizon).value)
    ensures r.accuracy == Evaluate(outcome.model, sm, round2, TestRatio)
  {
    var prediction := Predict(outcome.model, sm, round2, horizon);
    var accuracy := Evaluate(outcome.model, sm, round2, TestRatio);
    ForecastReport(Entries(prediction.value), accuracy, outcome.summary, |series.values|)
  }

  /** The pipeline fails only for the reasons it names: given a valid horizon and at least 30
      days of processed data, it succeeds exactly when the order search finds a model. */
  lemma SucceedsWhenFitSucceeds(emissions: seq<RawRecord>, horizon: int, sm: Statsmodels, round2: Rounding)
    requires ValidHorizon(horizon)
    requires ProcessEmissionData(emissions).Ok?
    requires |ProcessEmissionData(emissions).value.values| >= MinimumPoints
    ensures GenerateForecast(emissions, horizon, sm, round2).Ok?
            <==> Fit(ProcessEmissionData(emissions).value, sm, round2).Ok?
  {}

  /** With 30 or more days, the 20% backtest always has days to test on. */
  lemma BacktestHasTestDays(n: nat)
    requires n >= MinimumPoints
    ensures SplitIndex(n, TestRatio) < n
  {
    DefaultSplitLeavesTestDays(n);
  }
}

=== FILE: home_stats.dfy ===
/** Home-page statistics (backend/routes/homeStats.js): mine counts, emission totals over all
    mine collections, the change between the last 30 days and the 30 before, and a ticker of
    the most recent records. Times are integer milliseconds. */
module HomeStats {
  import opened Wrappers
  import opened Numbers
  import opened Collections
  import opened Text

  const DayMs := 24 * 60 * 60 * 1000
  const TickerSize := 20
  const LatestPerMine := 3
  const ActiveStatus := "active"
  const CollectionPrefix := "emission_"

  datatype MineInfo = MineInfo(name: string, state: string, status: string)

  /** A stored daily document as the aggregation sees it; a missing total adds nothing. */
  datatype StatDoc = StatDoc(date: int, total: Option<real>)

  datatype TickerEntry = TickerEntry(mine: string, state: string, date: int, emission: real)

  datatype HomeReport = HomeReport(
    totalMines: nat, activeMines: nat, totalEmissions: int, recentEmissions: int,
    reductionPct: real, reductionDown: bool, ticker: seq<TickerEntry>)

  predicate IsAlphanumeric(c: char)
  {
    'a' <= c <= 'z' || 'A' <= c <= 'Z' || '0' <= c <= '9'
  }

  /** `/[^a-zA-Z0-9]/g` replaced by `_`. */
  function SafeChar(c: char): char
  {
    if IsAlphanumeric(c) then c else '_'
  }

  /** The collection this route reads for a mine: `emission_` and the name with every
      character other than an ASCII letter or digit replaced by `_`, lower-cased. */
  function StatsCollectionName(name: string): (r: string)
    ensures |r| == |CollectionPrefix| + |name|
    ensures r[..|CollectionPrefix|] == CollectionPrefix
    ensures forall i :: 0 <= i < |name| ==>
              var c := r[|CollectionPrefix| + i];
              (c == '_' <==> !IsAlphanumeric(name[i])) && !('A' <= c <= 'Z')
  {
    var safe := Lower(Map(name, SafeChar));
    CollectionPrefix + safe
  }

  /** Names that differ only in which non-alphanumeric characters they use, or in letter case,
      read the same collection. */
  lemma SameCollection(a: string, b: string)
    requires |a| == |b|
    requires forall i :: 0 <= i < |a| ==> LowerChar(SafeChar(a[i])) == LowerChar(SafeChar(b[i]))
    ensures StatsCollectionName(a) == StatsCollectionName(b)
  {
    assert Lower(Map(a, SafeChar)) == Lower(Map(b, SafeChar));
  }

  function DocTotal(d: StatDoc): real { d.total.GetOr(0.0) }

  predicate Recent(d: StatDoc, now: int)
  {
    d.date >= now - 30 * DayMs
  }

  predicate Previous(d: StatDoc, now: int)
  {
    now - 60 * DayMs <= d.date < now - 30 * DayMs
  }

  /** The filters of the three totals: the last 30 days, the 30 before them, and every document. */
  function RecentAt(now: int): StatDoc -> bool { (d: StatDoc) => Recent(d, now) }

  function PreviousAt(now: int): StatDoc -> bool { (d: StatDoc) => Previous(d, now) }

  predicate AnyDoc(d: StatDoc) { true }

  function DocDate(d: StatDoc): real { d.date as real }

  /** Kilograms to tonnes. */
  function Tonnes(kg: real): real { kg / 1000.0 }

  function CollectionOf(colls: map<string, seq<StatDoc>>, mine: MineInfo): seq<StatDoc>
  {
    var name := StatsCollectionName(mine.name);
    if name in colls then colls[name] else []
  }

  /** `$sum` of the totals of the documents that pass a filter, over every mine's collection. */
  function TotalOver(mines: seq<MineInfo>, colls: map<string, seq<StatDoc>>, keep: StatDoc -> bool): real
  {
    if |mines| == 0 then 0.0
    else
      TotalOver(mines[..|mines| - 1], colls, keep)
        + Sum(Map(Filter(CollectionOf(colls, mines[|mines| - 1]), keep), DocTotal))
  }

  function TickerOf(mine: MineInfo, d: StatDoc): TickerEntry
  {
    TickerEntry(mine.name, mine.state, d.date, DocTotal(d))
  }

  /** One ticker entry per document, in the documents' order. */
  function TickersOf(mine: MineInfo, docs: seq<StatDoc>): (r: seq<TickerEntry>)
    ensures |r| == |docs|
    ensures forall i :: 0 <= i < |docs| ==> r[i] == TickerOf(mine, docs[i])
  {
    Map(docs, (d: StatDoc) => TickerOf(mine, d))
  }

  lemma TickersKeepOrder(mine: MineInfo, docs: seq<StatDoc>)
    requires SortedDesc(docs, DocDate)
    ensures var r := TickersOf(mine, docs);
            forall i, j :: 0 <= i < j < |r| ==> r[i].date >= r[j].date
  {
    var r := TickersOf(mine, docs);
    forall i, j | 0 <= i < j < |r|
      ensures r[i].date >= r[j].date
    {
      assert DocDate(docs[i]) >= DocDate(docs[j]);
    }
  }

  lemma TickersFrom(mine: MineInfo, docs: seq<StatDoc>, all: seq<StatDoc>)
    requires forall d :: d in docs ==> d in all
    ensures forall e :: e in TickersOf(mine, docs) ==> exists d :: d in all && e == TickerOf(mine, d)
  {
    var r := TickersOf(mine, docs);
    forall e | e in r
      ensures exists d :: d in all && e == TickerOf(mine, d)
    {
      var i :| 0 <= i < |r| && r[i] == e;
      assert docs[i] in all;
    }
  }

  lemma TickersAbove(mine: MineInfo, docs: seq<StatDoc>, dropped: seq<StatDoc>)
    requires forall y, z :: y in dropped && z in docs ==> DocDate(y) <= DocDate(z)
    ensures forall d, e :: d in dropped && e in TickersOf(mine, docs) ==> d.date <= e.date
  {
    var r := TickersOf(mine, docs);
    forall d, e | d in dropped && e in r
      ensures d.date <= e.date
    {
      var i :| 0 <= i < |r| && r[i] == e;
      assert DocDate(d) <= DocDate(docs[i]);
    }
  }

  /** The three most recent documents of one mine, as ticker entries: as many as there are
      documents up to three, newest first, each made from one of the mine's documents, and no
      document left out is newer than any shown. */
  function Latest(mine: MineInfo, docs: seq<StatDoc>): (r: seq<TickerEntry>)
    ensures |r| == if |docs| < LatestPerMine then |docs| else LatestPerMine
    ensures forall e :: e in r ==> e.mine == mine.name && e.state == mine.state
    ensures forall e :: e in r ==> exists d :: d in docs && e == TickerOf(mine, d)
    ensures forall i, j :: 0 <= i < j < |r| ==> r[i].date >= r[j].date
    ensures forall d, e :: d in Drop(SortDesc(docs, DocDate), LatestPerMine) && e in r ==> d.date <= e.date
  {
    var top := Take(SortDesc(docs, DocDate), LatestPerMine);
    TopK(docs, DocDate, LatestPerMine);
    TopKFrom(docs, DocDate, LatestPerMine);
    TopKSorted(docs, DocDate, LatestPerMine);
    TickersKeepOrder(mine, top);
    TickersFrom(mine, top, docs);
    TickersAbove(mine, top, Drop(SortDesc(docs, DocDate), LatestPerMine));
    TickersOf(mine, top)
  }

  /** Whether a ticker entry, or a mine, carries a given name. */
  function FromMine(name: string): TickerEntry -> bool { (e: TickerEntry) => e.mine == name }

  function NamedMine(name: string): MineInfo -> bool { (m: MineInfo) => m.name == name }

  /** The ticker candidates, mine by mine. */
  function Candidates(mines: seq<MineInfo>, colls: map<string, seq<StatDoc>>): (r: seq<TickerEntry>)
    ensures |r| <= LatestPerMine * |mines|
    ensures forall e :: e in r ==> exists m :: m in mines && m.name == e.mine
  {
    if |mines| == 0 then []
    else
      var prefix := mines[..|mines| - 1];
      var m := mines[|mines| - 1];
      var rest := Candidates(prefix, colls);
      assert forall x :: x in prefix ==> x in mines;
      rest + Latest(m, CollectionOf(colls, m))
  }

  /** The candidates are exactly the mines' latest entries: every mine's entries are among
      them, with their multiplicity, and every candidate is one of some mine's entries. */
  lemma {:induction false} CandidatesCover(mines: seq<MineInfo>, colls: map<string, seq<StatDoc>>)
    ensures var r := Candidates(mines, colls);
            && (forall i :: 0 <= i < |mines| ==> multiset(Latest(mines[i], CollectionOf(colls, mines[i]))) <= multiset(r))
            && (forall e :: e in r ==> exists i :: 0 <= i < |mines| && e in Latest(mines[i], CollectionOf(colls, mines[i])))
    decreases |mines|
  {
    if |mines| > 0 {
      var prefix, m := mines[..|mines| - 1], mines[|mines| - 1];
      assert mines == prefix + [m];
      assert Candidates(mines, colls) == Candidates(prefix, colls) + Latest(m, CollectionOf(colls, m));
      CandidatesCover(prefix, colls);
      CandidatesStep(prefix, m, colls, Candidates(prefix, colls));
    }
  }

  /** Appending one more mine's entries keeps every earlier mine's entries and adds its own. */
  lemma CandidatesStep(prefix: seq<MineInfo>, m: MineInfo, colls: map<string, seq<StatDoc>>, rest: seq<TickerEntry>)
    requires forall i :: 0 <= i < |prefix| ==> multiset(Latest(prefix[i], CollectionOf(colls, prefix[i]))) <= multiset(rest)
    requires forall e :: e in rest ==> exists i :: 0 <= i < |prefix| && e in Latest(prefix[i], CollectionOf(colls, prefix[i]))
    ensures var mines, r := prefix + [m], rest + Latest(m, CollectionOf(colls, m));
            && (forall i :: 0 <= i < |mines| ==> multiset(Latest(mines[i], CollectionOf(colls, mines[i]))) <= multiset(r))
            && (forall e :: e in r ==> exists i :: 0 <= i < |mines| && e in Latest(mines[i], CollectionOf(colls, mines[i])))
  {
    var mines := prefix + [m];
    var latest := Latest(m, CollectionOf(colls, m));
    assert multiset(rest + latest) == multiset(rest) + multiset(latest);
    forall i | 0 <= i < |mines|
      ensures multiset(Latest(mines[i], CollectionOf(colls, mines[i]))) <= multiset(rest + latest)
    {
      if i < |prefix| {
        assert mines[i] == prefix[i];
      }
    }
    forall e | e in rest + latest
      ensures exists i :: 0 <= i < |mines| && e in Latest(mines[i], CollectionOf(colls, mines[i]))
    {
      if e in rest {
        var i :| 0 <= i < |prefix| && e in Latest(prefix[i], CollectionOf(colls, prefix[i]));
        assert mines[i] == prefix[i];
      } else {
        assert mines[|prefix|] == m;
      }
    }
  }

  /** Each mine contributes at most three candidates: the candidates carrying a name number at
      most three per mine of that name. */
  lemma {:induction false} AtMostThreePerMine(mines: seq<MineInfo>, colls: map<string, seq<StatDoc>>, name: string)
    ensures |Filter(Candidates(mines, colls), FromMine(name))| <= LatestPerMine * |Filter(mines, NamedMine(name))|
    decreases |mines|
  {
    if |mines| > 0 {
      var prefix, m := mines[..|mines| - 1], mines[|mines| - 1];
      assert mines == prefix + [m];
      var latest := Latest(m, CollectionOf(colls, m));
      var rest := Candidates(prefix, colls);
      var own := if m.name == name then 1 else 0;
      assert Candidates(mines, colls) == rest + latest;
      assert |Filter(Candidates(mines, colls), FromMine(name))|
             == |Filter(rest, FromMine(name))| + |Filter(latest, FromMine(name))| by {
        FilterConcat(rest, latest, FromMine(name));
      }
      assert |Filter(mines, NamedMine(name))| == |Filter(prefix, NamedMine(name))| + own by {
        FilterAppend(prefix, m, NamedMine(name));
      }
      assert |Filter(latest, FromMine(name))| <= LatestPerMine * own by {
        LatestForName(m, CollectionOf(colls, m), name);
      }
      AtMostThreePerMine(prefix, colls, name);
    }
  }

  /** One mine's entries carry its name and no other. */
  lemma LatestForName(m: MineInfo, docs: seq<StatDoc>, name: string)
    ensures |Filter(Latest(m, docs), FromMine(name))| <= if m.name == name then LatestPerMine else 0
  {
    var latest := Latest(m, docs);
    if m.name != name {
      assert forall i :: 0 <= i < |latest| ==> !FromMine(name)(latest[i]);
      FilterNone(latest, FromMine(name));
    }
  }

  /** `(prev - recent) / prev * 100`, or 0 without a previous period. */
  function ReductionPct(previous: real, recent: real): (pct: real)
    ensures previous > 0.0 ==> (pct >= 0.0 <==> recent <= previous)
    ensures previous > 0.0 && recent >= 0.0 ==> pct <= 100.0
    ensures previous <= 0.0 ==> pct == 0.0
  {
    if previous > 0.0 then (previous - recent) / previous * 100.0 else 0.0
  }

  /** The percentage gives the recent total back from the previous one. */
  lemma ReductionPctInverse(previous: real, recent: real)
    requires previous > 0.0
    ensures recent == previous * (1.0 - ReductionPct(previous, recent) / 100.0)
  {
    var pct := ReductionPct(previous, recent);
    assert pct / 100.0 == (previous - recent) / previous;
    assert previous * ((previous - recent) / previous) == previous - recent;
  }

  function EntryDate(e: TickerEntry): real { e.date as real }

  predicate IsActive(m: MineInfo) { m.status == ActiveStatus }

  /** The candidates by date, most recent first, cut to 20. */
  function Ticker(candidates: seq<TickerEntry>): (r: seq<TickerEntry>)
    ensures |r| == if |candidates| < TickerSize then |candidates| else TickerSize
    ensures forall i, j :: 0 <= i < j < |r| ==> r[i].date >= r[j].date
    ensures multiset(r) <= multiset(candidates)
    ensures forall y, z :: y in multiset(candidates) - multiset(r) && z in r ==> EntryDate(y) <= EntryDate(z)
  {
    var ticker := TopBy(candidates, EntryDate, TickerSize);
    assert forall i, j :: 0 <= i < j < |ticker| ==> EntryDate(ticker[i]) >= EntryDate(ticker[j]);
    ticker
  }

  /** The number of mines whose status is active: none exactly when no mine is active, all
      exactly when every mine is. */
  function ActiveCount(mines: seq<MineInfo>): (n: nat)
    ensures n <= |mines|
    ensures n == 0 <==> forall i :: 0 <= i < |mines| ==> !IsActive(mines[i])
    ensures n == |mines| <==> forall i :: 0 <= i < |mines| ==> IsActive(mines[i])
  {
    var active := Filter(mines, IsActive);
    assert |active| == |mines| <==> forall i :: 0 <= i < |mines| ==> IsActive(mines[i]) by {
      if |active| == |mines| {
        FilterFull(mines, IsActive);
      }
      if forall i :: 0 <= i < |mines| ==> IsActive(mines[i]) {
        FilterAll(mines, IsActive);
      }
    }
    assert |active| > 0 ==> active[0] in mines;
    |active|
  }

  /** GET /api/home-stats. */
  function GetHomeStats(mines: seq<MineInfo>, colls: map<string, seq<StatDoc>>, now: int): (r: HomeReport)
    ensures r.totalMines == |mines|
    ensures r.activeMines == ActiveCount(mines) <= r.totalMines
    ensures r.recentEmissions == JsRound(Tonnes(TotalOver(mines, colls, RecentAt(now))))
    ensures r.totalEmissions == JsRound(Tonnes(TotalOver(mines, colls, AnyDoc)))
    ensures var pct := ReductionPct(TotalOver(mines, colls, PreviousAt(now)),
                                    TotalOver(mines, colls, RecentAt(now)));
            && r.reductionPct == JsRoundTenths(Abs(pct))
            && (r.reductionDown <==> pct >= 0.0)
    ensures r.ticker == Ticker(Candidates(mines, colls))
    ensures |r.ticker| <= TickerSize && |r.ticker| <= LatestPerMine * |mines|
  {
    var total := TotalOver(mines, colls, AnyDoc);
    var recent := TotalOver(mines, colls, RecentAt(now));
    var previous := TotalOver(mines, colls, PreviousAt(now));
    var pct := ReductionPct(previous, recent);
    HomeReport(|mines|, ActiveCount(mines), JsRound(Tonnes(total)), JsRound(Tonnes(recent)),
               JsRoundTenths(Abs(pct)), pct >= 0.0, Ticker(Candidates(mines, colls)))
  }

  /** The ticker shows the most recent candidates: every candidate left out is no newer than
      every entry shown. */
  lemma TickerIsMostRecent(mines: seq<MineInfo>, colls: map<string, seq<StatDoc>>)
    ensures var all := Candidates(mines, colls);
            var shown := Ticker(all);
            forall y, z :: y in Drop(SortDesc(all, EntryDate), TickerSize) && z in shown ==> y.date <= z.date
  {
    var all := Candidates(mines, colls);
    TopK(all, EntryDate, TickerSize);
  }
}

=== FILE: migration.dfy ===
/** The data scripts (backend/migrateData.js and CoalNet/backend/migrateData.js): the split of
    legacy records among the active mines, the demonstration profiles and the record each
    generated day receives. Random draws are parameters; days are day numbers. */
module Migration {
  import opened Wrappers
  import opened Accounting

  // ---------------------------------------------------------------------
  // Splitting legacy records among the mines

  /** The slice of `n` records the script gives mine `i` of `m`: with q = n / m and r = n % m
      it starts at i·q and ends q records later, one more for the first r mines. Each slice is
      as long as in the even split and stays within the records, but its start lags the even
      split's start by the extra records given to the mines before it. */
  function SliceBounds(n: nat, m: nat, i: nat): (b: (nat, nat))
    requires i < m
    ensures b.0 <= b.1 <= n
    ensures b.1 - b.0 == FairSliceBounds(n, m, i).1 - FairSliceBounds(n, m, i).0
    ensures b.0 + (if i < n % m then i else n % m) == FairSliceBounds(n, m, i).0
  {
    MulMonotone(i + 1, m, n / m);
    assert (i + 1) * (n / m) == i * (n / m) + n / m;
    assert n == m * (n / m) + n % m;
    var q := n / m;
    var start := i * q;
    (start, start + q + (if i < n % m then 1 else 0))
  }

  /** Slices at which a record index lies, as the script writes them (`slice` clamps the end
      to `n`). */
  predicate Assigned(n: nat, m: nat, i: nat, k: nat)
    requires i < m
  {
    var b := SliceBounds(n, m, i);
    b.0 <= k < b.1 && k < n
  }

  /** Three records over two mines: record 1 goes to both mines and record 2 to neither. */
  lemma SliceBoundsOverlap()
    ensures Assigned(3, 2, 0, 1) && Assigned(3, 2, 1, 1)
    ensures !Assigned(3, 2, 0, 2) && !Assigned(3, 2, 1, 2)
  {
    assert 3 / 2 == 1 && 3 % 2 == 1;
  }

  lemma MulMonotone(a: nat, b: nat, q: nat)
    requires a <= b
    ensures a * q <= b * q
  {
    assert b * q - a * q == (b - a) * q;
  }

  /** With at least one record per mine and a count that does not divide evenly, the last
      record is assigned to no mine. */
  lemma LastRecordUnassigned(n: nat, m: nat)
    requires 0 < m <= n && n % m > 0
    ensures forall i, k :: 0 <= i < m && k == n - 1 ==> !Assigned(n, m, i, k)
  {
    var q := n / m;
    var r := n % m;
    assert n == m * q + r;
    assert q >= 1;
    forall i, k | 0 <= i < m && k == n - 1 ensures !Assigned(n, m, i, k) {
      if i < r {
        MulMonotone(i + 1, r, q);
        MulMonotone(r + 1, m, q);
        assert (i + 1) * q == i * q + q;
        assert (r + 1) * q == r * q + q;
      } else {
        MulMonotone(i + 1, m, q);
        assert (i + 1) * q == i * q + q;
      }
    }
  }

  /** The split the script evidently intends: slice starts also count the extra records given
      to the earlier mines, so the slices are contiguous. */
  function FairSliceBounds(n: nat, m: nat, i: nat): (b: (nat, nat))
    requires i < m
    ensures b.1 - b.0 == n / m + (if i < n % m then 1 else 0)
    ensures b.0 <= b.1 <= n
  {
    var q := n / m;
    var r := n % m;
    assert n == m * q + r;
    MulMonotone(i + 1, m, q);
    assert (i + 1) * q == i * q + q;
    var start := i * q + (if i < r then i else r);
    (start, start + q + (if i < r then 1 else 0))
  }

  /** The intended split is a partition: the first slice starts at 0, each slice ends where
      the next begins, and the last ends at `n`. */
  lemma FairSlicesPartition(n: nat, m: nat)
    requires m > 0
    ensures FairSliceBounds(n, m, 0).0 == 0
    ensures forall i :: 0 <= i < m - 1 ==> FairSliceBounds(n, m, i).1 == FairSliceBounds(n, m, i + 1).0
    ensures FairSliceBounds(n, m, m - 1).1 == n
  {
    var q := n / m;
    var r := n % m;
    assert n == m * q + r;
    forall i | 0 <= i < m - 1 ensures FairSliceBounds(n, m, i).1 == FairSliceBounds(n, m, i + 1).0 {
      assert (i + 1) * q == i * q + q;
    }
    assert (m - 1) * q + q == m * q;
  }

  /** The intended split gives every record to exactly one mine. */
  lemma FairSliceUnique(n: nat, m: nat, k: nat)
    requires m > 0 && k < n
    ensures exists i :: 0 <= i < m && FairSliceBounds(n, m, i).0 <= k < FairSliceBounds(n, m, i).1
    ensures forall i, j :: 0 <= i < m && 0 <= j < m
              && FairSliceBounds(n, m, i).0 <= k < FairSliceBounds(n, m, i).1
              && FairSliceBounds(n, m, j).0 <= k < FairSliceBounds(n, m, j).1
              ==> i == j
  {
    FairSlicesPartition(n, m);
    FairSlicesOrdered(n, m);
    FindSlice(n, m, k, 0);
  }

  lemma FairSlicesOrdered(n: nat, m: nat)
    requires m > 0
    ensures forall i, j :: 0 <= i < j < m ==> FairSliceBounds(n, m, i).1 <= FairSliceBounds(n, m, j).0
  {
    FairSlicesPartition(n, m);
    forall i, j | 0 <= i < j < m ensures FairSliceBounds(n, m, i).1 <= FairSliceBounds(n, m, j).0 {
      OrderedFrom(n, m, i, j);
    }
  }

  lemma {:induction false} OrderedFrom(n: nat, m: nat, i: nat, j: nat)
    requires 0 <= i < j < m
    requires forall i :: 0 <= i < m - 1 ==> FairSliceBounds(n, m, i).1 == FairSliceBounds(n, m, i + 1).0
    ensures FairSliceBounds(n, m, i).1 <= FairSliceBounds(n, m, j).0
    decreases j - i
  {
    if j > i + 1 {
      OrderedFrom(n, m, i + 1, j);
    }
  }

  lemma {:induction false} FindSlice(n: nat, m: nat, k: nat, i: nat)
    requires m > 0 && k < n && i < m
    requires FairSliceBounds(n, m, i).0 <= k
    requires forall i :: 0 <= i < m - 1 ==> FairSliceBounds(n, m, i).1 == FairSliceBounds(n, m, i + 1).0
    requires FairSliceBounds(n, m, m - 1).1 == n
    ensures exists i :: 0 <= i < m && FairSliceBounds(n, m, i).0 <= k < FairSliceBounds(n, m, i).1
    decreases m - i
  {
    if k >= FairSliceBounds(n, m, i).1 {
      FindSlice(n, m, k, i + 1);
    }
  }

  function Slice<T>(records: seq<T>, mines: nat, i: nat): (r: seq<T>)
    requires i < mines
    ensures r == records[FairSliceBounds(|records|, mines, i).0..FairSliceBounds(|records|, mines, i).1]
  {
    var b := FairSliceBounds(|records|, mines, i);
    records[b.0..b.1]
  }

  /** `migrateExistingData`'s plan: nothing at all without legacy records, else one slice per
      active mine, cut with the corrected bounds. */
  function Plan<T>(records: seq<T>, mines: nat): (r: seq<seq<T>>)
    ensures |records| == 0 ==> r == []
    ensures |records| > 0 ==> |r| == mines
    ensures |records| > 0 ==> forall i :: 0 <= i < |r| ==>
              r[i] == records[FairSliceBounds(|records|, mines, i).0..FairSliceBounds(|records|, mines, i).1]
  {
    if |records| == 0 then []
    else
      seq(mines, i requires 0 <= i < mines => Slice(records, mines, i))
  }

  // ---------------------------------------------------------------------
  // Demonstration data (backend/migrateData.js)

  datatype Profile = Uptrend | Downtrend | AnomalyProfile | SeasonalProfile | StableProfile

  const Profiles: seq<Profile> := [Uptrend, Downtrend, AnomalyProfile, SeasonalProfile, StableProfile]

  /** Mine `k` follows the profiles in a cycle of five. */
  function ProfileOf(k: nat): (p: Profile)
    ensures p == Profiles[k % 5]
  {
    Profiles[k % 5]
  }

  /** Any five consecutive mines get five different profiles. */
  lemma ProfilesCycle(k: nat)
    ensures forall i, j :: k <= i < j < k + 5 ==> ProfileOf(i) != ProfileOf(j)
  {
    forall i, j | k <= i < j < k + 5 ensures ProfileOf(i) != ProfileOf(j) {
      assert i % 5 != j % 5 by {
        var a, b := i / 5, j / 5;
        assert j - i == 5 * (b - a) + (j % 5 - i % 5);
      }
    }
  }

  /** The drawn shares of the day's target; methane takes the rest. */
  datatype Shares = Shares(fuel: real, electricity: real, explosives: real, transport: real)

  function MethaneShare(s: Shares): real
  {
    1.0 - s.fuel - s.electricity - s.explosives - s.transport
  }

  /** The generated record: each component is its share of the target, the usages are
      back-calculated through the emission factors and CH4 through its warming potential. */
  function ShareRecord(date: int, target: real, s: Shares): (r: EmissionRecord)
    ensures r.fuelEmission + r.electricityEmission + r.explosivesEmission + r.transportEmission + r.methaneCo2e == target
    ensures r.total == r.scope1 + r.scope2 + r.scope3
    ensures r.total == target
  {
    var fuelE := target * s.fuel;
    var electricityE := target * s.electricity;
    var explosivesE := target * s.explosives;
    var transportE := target * s.transport;
    var methaneE := target * MethaneShare(s);
    SharesAddUp(target, s);
    var u := Usage(fuelE / FuelFactor, electricityE / ElectricityFactor, explosivesE / ExplosivesFactor, transportE / TransportFactor);
    var scope1 := fuelE + explosivesE + methaneE;
    EmissionRecord(date, u, methaneE / MethaneGwp, fuelE, electricityE, explosivesE, methaneE, transportE,
                   scope1, electricityE, transportE, scope1 + electricityE + transportE)
  }

  lemma SharesAddUp(target: real, s: Shares)
    ensures target * s.fuel + target * s.electricity + target * s.explosives + target * s.transport + target * MethaneShare(s) == target
  {
    assert target * s.fuel + target * s.electricity + target * s.explosives + target * s.transport + target * MethaneShare(s)
        == target * (s.fuel + s.electricity + s.explosives + s.transport + MethaneShare(s));
  }

  /** The back-calculation is undone by the forward factors of the API: each usage times its
      factor is its component, and the CH4 times 28 is the methane component. */
  lemma BackCalculationInverts(date: int, target: real, s: Shares)
    ensures var r := ShareRecord(date, target, s);
            && r.usage.fuel * FuelFactor == r.fuelEmission
            && r.usage.electricity * ElectricityFactor == r.electricityEmission
            && r.usage.explosives * ExplosivesFactor == r.explosivesEmission
            && r.usage.transport * TransportFactor == r.transportEmission
            && r.methaneCh4 * MethaneGwp == r.methaneCo2e
  {
  }

  // ---------------------------------------------------------------------
  // Demonstration data (CoalNet/backend/migrateData.js)

  function Scale(u: Usage, v: real): Usage
  {
    Usage(u.fuel * v, u.electricity * v, u.explosives * v, u.transport * v)
  }

  /** A generated day: the four drawn base usages all scaled by one variation factor, with the
      emissions, scopes and total computed as the API does. */
  function VariedRecord(date: int, base: Usage, variation: real): (r: EmissionRecord)
    ensures r.usage == Scale(base, variation)
    ensures r.methaneCh4 == MethanePerFuel * r.usage.fuel && r.methaneCo2e == r.methaneCh4 * MethaneGwp
    ensures r.total == r.scope1 + r.scope2 + r.scope3
  {
    var u := Scale(base, variation);
    var fuelE := u.fuel * FuelFactor;
    var explosivesE := u.explosives * ExplosivesFactor;
    var electricityE := u.electricity * ElectricityFactor;
    var transportE := u.transport * TransportFactor;
    var ch4 := u.fuel * MethanePerFuel;
    var methaneE := ch4 * MethaneGwp;
    var scope1 := fuelE + explosivesE + methaneE;
    EmissionRecord(date, u, ch4, fuelE, electricityE, explosivesE, methaneE, transportE,
                   scope1, electricityE, transportE, scope1 + electricityE + transportE)
  }

  /** A generated record is exactly the record the API would create for its usages. */
  lemma VariedIsCreated(date: int, base: Usage, variation: real)
    ensures VariedRecord(date, base, variation) == NewRecord(date, Scale(base, variation))
  {
  }

  /** One variation factor scales the whole record: its total is the factor times the total
      of the unscaled usages. */
  lemma VariationScalesTotal(date: int, base: Usage, variation: real)
    ensures VariedRecord(date, base, variation).total == variation * NewRecord(date, base).total
  {
    VariedIsCreated(date, base, variation);
    var b := base;
    var v := variation;
    assert NewRecord(date, Scale(b, v)).total
        == v * (b.fuel * FuelFactor + b.electricity * ElectricityFactor + b.transport * TransportFactor
                + b.explosives * ExplosivesFactor + MethanePerFuel * b.fuel * MethaneGwp);
  }

  /** The days the loop writes, from `day` on: stop after `end` or once `budget` records are
      written; days that already hold a record are passed over without using the budget. */
  function Planned(day: int, end: int, budget: nat, existing: set<int>): (r: seq<int>)
    ensures |r| <= budget
    decreases end - day + 1
  {
    if day > end || budget == 0 then []
    else if day in existing then Planned(day + 1, end, budget, existing)
    else [day] + Planned(day + 1, end, budget - 1, existing)
  }

  /** The written days lie in the range, skip the existing ones, ascend strictly, and stop
      short of the budget only once every free day of the range is written. */
  lemma {:induction false} PlannedDays(day: int, end: int, budget: nat, existing: set<int>)
    ensures var r := Planned(day, end, budget, existing);
            && (forall i :: 0 <= i < |r| ==> day <= r[i] <= end && r[i] !in existing)
            && (forall i, j :: 0 <= i < j < |r| ==> r[i] < r[j])
            && (|r| < budget ==> forall d :: day <= d <= end && d !in existing ==> d in r)
    decreases end - day + 1
  {
    if day <= end && budget > 0 {
      if day in existing {
        PlannedDays(day + 1, end, budget, existing);
      } else {
        PlannedDays(day + 1, end, budget - 1, existing);
      }
    }
  }

  /** One day of the loop: an existing day is passed over, a free one is written. */
  lemma PlannedStep(day: int, end: int, budget: nat, existing: set<int>)
    requires day <= end && budget > 0
    ensures day in existing ==> Planned(day, end, budget, existing) == Planned(day + 1, end, budget, existing)
    ensures day !in existing ==> Planned(day, end, budget, existing) == [day] + Planned(day + 1, end, budget - 1, existing)
  {
  }

  /** The generation loop of `generateDummyData`: `totalDays` is the span from `start` to `end`
      in whole days, rounded up by the caller. */
  method GenerateDays(start: int, end: int, totalDays: nat, existing: set<int>) returns (dates: seq<int>, generated: nat)
    ensures dates == Planned(start, end, totalDays, existing)
    ensures generated == |dates| <= totalDays
  {
    dates, generated := [], 0;
    var current := start;
    while current <= end && generated < totalDays
      invariant generated == |dates| <= totalDays
      invariant dates + Planned(current, end, totalDays - generated, existing) == Planned(start, end, totalDays, existing)
      decreases end - current + 1
    {
      PlannedStep(current, end, totalDays - generated, existing);
      ghost var rest := Planned(current + 1, end, totalDays - generated - (if current in existing then 0 else 1), existing);
      if current !in existing {
        assert dates + ([current] + rest) == (dates + [current]) + rest;
        dates := dates + [current];
        generated := generated + 1;
      }
      current := current + 1;
    }
    assert dates + [] == dates;
  }

  /** On a cleared collection the loop writes the `totalDays` days from `start` on, so with
      `totalDays == end - start` the day `end` itself gets no record. */
  lemma {:induction false} FreshGenerationSkipsLastDay(day: int, end: int, budget: nat)
    requires day + budget <= end
    ensures Planned(day, end, budget, {}) == seq(budget, i => day + i)
    decreases budget
  {
    if budget > 0 {
      FreshGenerationSkipsLastDay(day + 1, end, budget - 1);
      assert seq(budget, i => day + i) == [day] + seq(budget - 1, i => day + 1 + i);
    }
  }
}

=== FILE: ml_insights.dfy ===
/** The analytics behind `POST /api/forecast/insights` (ml-service/app/routes/insights.py):
    causal rolling-window anomaly flags, weekday seasonality, driver shares, the least-squares
    trend of the last 30 values and the rolling-mean MAPE proxy. Dates are day numbers
    (day 0 = 1970-01-01); `round(x, k)` is an abstract rounding operator. */
module MlInsights {
  import opened Wrappers
  import opened Numbers
  import opened Collections

  /** One element of the request's `emissions` list; `date` is None when pandas cannot parse it,
      `parts` holds the optional driver columns that this record carries. */
  datatype InsightRecord = InsightRecord(date: Option<int>, total: real, parts: map<string, Option<real>>)

  const TooFewMessage := "Need at least 7 emission records for insights."
  const MinimumRecords := 7

  // ---------------------------------------------------------------------
  // Preparation: drop unparseable dates, sort ascending by date

  function DateKey(e: InsightRecord): real
  {
    -(e.date.GetOr(0) as real)
  }

  predicate Dated(e: InsightRecord)
  {
    e.date.Some?
  }

  /** The frame after `sort_values("date").dropna(subset=["date"])`. Ties keep input order here;
      pandas' quicksort does not promise any order among them. */
  function Prepared(emissions: seq<InsightRecord>): (rows: seq<InsightRecord>)
    ensures forall i :: 0 <= i < |rows| ==> rows[i].date.Some?
    ensures forall i, j :: 0 <= i < j < |rows| ==> rows[i].date.value <= rows[j].date.value
    ensures multiset(rows) == multiset(Filter(emissions, Dated))
  {
    var dated := Filter(emissions, Dated);
    var rows := SortDesc(dated, DateKey);
    forall i | 0 <= i < |rows|
      ensures rows[i].date.Some?
    {
      assert rows[i] in multiset(dated);
    }
    rows
  }

  function Totals(rows: seq<InsightRecord>): (v: seq<real>)
    ensures |v| == |rows|
    ensures forall i :: 0 <= i < |rows| ==> v[i] == rows[i].total
  {
    seq(|rows|, i requires 0 <= i < |rows| => rows[i].total)
  }

  // ---------------------------------------------------------------------
  // Anomalies: rolling(window=7, min_periods=3), sample standard deviation

  /** The trailing window of at most 7 values ending at `i`. */
  function Window(v: seq<real>, i: nat): (w: seq<real>)
    requires i < |v|
    ensures 1 <= |w| <= 7
    ensures |w| == if i >= 6 then 7 else i + 1
    ensures w[|w| - 1] == v[i]
  {
    v[(if i >= 6 then i - 6 else 0)..i + 1]
  }

  /** Sum of squared deviations from `m`. */
  function SquaredDeviations(w: seq<real>, m: real): real
  {
    if |w| == 0 then 0.0 else SquaredDeviations(w[..|w| - 1], m) + Square(w[|w| - 1] - m)
  }

  /** pandas' `std()` squared: the sample variance with ddof = 1. */
  function SampleVariance(w: seq<real>): real
    requires |w| >= 2
  {
    SquaredDeviations(w, Mean(w)) / (|w| - 1) as real
  }

  /** `value - rolling_mean` at `i`. */
  function Deviation(v: seq<real>, i: nat): real
    requires i < |v|
  {
    v[i] - Mean(Window(v, i))
  }

  /** The anomaly test with both sides squared: |deviation| > 2·std and 2·std > 0, defined
      only once the window holds at least three values. */
  predicate Flagged(v: seq<real>, i: nat)
    requires i < |v|
  {
    var w := Window(v, i);
    && |w| >= 3
    && SampleVariance(w) > 0.0
    && Square(Deviation(v, i)) > 4.0 * SampleVariance(w)
  }

  /** The severity test |deviation| > 3·std, squared. */
  predicate Severe(v: seq<real>, i: nat)
    requires i < |v| && Flagged(v, i)
  {
    Square(Deviation(v, i)) > 9.0 * SampleVariance(Window(v, i))
  }

  /** The squared comparisons decide exactly what the source's comparisons with
      std = sqrt(variance) decide. */
  lemma SquaredTestsAgree(dev: real, variance: real, std: real)
    requires std >= 0.0 && std * std == variance
    ensures (Abs(dev) > 2.0 * std && 2.0 * std > 0.0) <==> (Square(dev) > 4.0 * variance && variance > 0.0)
    ensures Abs(dev) > 3.0 * std <==> Square(dev) > 9.0 * variance
  {
    var a := Abs(dev);
    assert Square(dev) == a * a;
    assert (2.0 * std) * (2.0 * std) == 4.0 * variance;
    assert (3.0 * std) * (3.0 * std) == 9.0 * variance;
    SquareCompare(a, 2.0 * std);
    SquareCompare(a, 3.0 * std);
    SquareCompare(std, 0.0);
  }

  /** For non-negative numbers, comparing squares compares the numbers. */
  lemma SquareCompare(a: real, b: real)
    requires a >= 0.0 && b >= 0.0
    ensures a > b <==> a * a > b * b
  {
    assert a * a - b * b == (a - b) * (a + b);
    if a > b {
      PositiveProduct2(a - b, a + b);
    } else {
      ProductNonNegative(b - a, b + a);
    }
  }

  lemma PositiveProduct2(x: real, y: real)
    requires x > 0.0 && y > 0.0
    ensures x * y > 0.0
  {
  }

  /** The positions flagged among the first `n` values, ascending. */
  function FlaggedPositions(v: seq<real>, n: nat): (r: seq<nat>)
    requires n <= |v|
    ensures forall k :: 0 <= k < |r| ==> r[k] < n && Flagged(v, r[k])
    ensures forall i :: 0 <= i < n && Flagged(v, i) ==> i in r
    ensures forall k, l :: 0 <= k < l < |r| ==> r[k] < r[l]
    ensures 0 !in r && 1 !in r
  {
    if n == 0 then []
    else
      var r' := FlaggedPositions(v, n - 1);
      if Flagged(v, n - 1) then r' + [n - 1] else r'
  }

  datatype Severity = Medium | High

  datatype Anomaly = Anomaly(date: int, value: real, expected: real, deviation: real, severity: Severity)

  /** One anomaly entry per flagged row, in date order. */
  function Anomalies(rows: seq<InsightRecord>, round2: Rounding): (r: seq<Anomaly>)
    requires forall i :: 0 <= i < |rows| ==> rows[i].date.Some?
    ensures |r| == |FlaggedPositions(Totals(rows), |rows|)| <= |rows|
  {
    var v := Totals(rows);
    var ps := FlaggedPositions(v, |v|);
    FlaggedCount(v, |v|);
    seq(|ps|, k requires 0 <= k < |ps| => Entry(rows, v, ps[k], round2))
  }

  /** Every reported anomaly stands for a flagged row, in date order, and every flagged row is
      reported. */
  lemma AnomaliesAreFlaggedRows(rows: seq<InsightRecord>, round2: Rounding)
    requires forall i :: 0 <= i < |rows| ==> rows[i].date.Some?
    ensures var r := Anomalies(rows, round2);
            forall k :: 0 <= k < |r| ==> IsEntryFor(rows, round2, r[k], FlaggedPositions(Totals(rows), |rows|)[k])
    ensures forall i :: 0 <= i < |rows| && Flagged(Totals(rows), i) ==> i in FlaggedPositions(Totals(rows), |rows|)
  {
    var v := Totals(rows);
    var ps := FlaggedPositions(v, |v|);
    var r := Anomalies(rows, round2);
    forall k | 0 <= k < |r|
      ensures IsEntryFor(rows, round2, r[k], ps[k])
    {
      assert r[k] == Entry(rows, v, ps[k], round2);
    }
  }

  function Entry(rows: seq<InsightRecord>, v: seq<real>, i: nat, round2: Rounding): Anomaly
    requires v == Totals(rows) && i < |rows| && Flagged(v, i)
    requires rows[i].date.Some?
  {
    Anomaly(rows[i].date.value, round2(v[i]), round2(Mean(Window(v, i))), round2(Deviation(v, i)),
            if Severe(v, i) then High else Medium)
  }

  /** `a` reports row `i`: a flagged row, with its date, rounded value, rolling mean and deviation, and
      severity High exactly when the deviation exceeds three standard deviations. */
  ghost predicate IsEntryFor(rows: seq<InsightRecord>, round2: Rounding, a: Anomaly, i: int)
  {
    && 0 <= i < |rows|
    && rows[i].date.Some?
    && Flagged(Totals(rows), i)
    && a.date == rows[i].date.value
    && a.value == round2(rows[i].total)
    && a.expected == round2(Mean(Window(Totals(rows), i)))
    && a.deviation == round2(Deviation(Totals(rows), i))
    && (a.severity == High <==> Severe(Totals(rows), i))
  }

  lemma {:induction false} FlaggedCount(v: seq<real>, n: nat)
    requires n <= |v|
    ensures |FlaggedPositions(v, n)| <= n
  {
    if n > 0 {
      FlaggedCount(v, n - 1);
    }
  }

  /** A constant series has zero variance everywhere, so nothing is flagged. */
  lemma ConstantSeriesHasNoAnomalies(v: seq<real>, c: real)
    requires forall i :: 0 <= i < |v| ==> v[i] == c
    ensures FlaggedPositions(v, |v|) == []
  {
    forall i | 0 <= i < |v|
      ensures !Flagged(v, i)
    {
      ConstantNotFlagged(v, c, i);
    }
    var r := FlaggedPositions(v, |v|);
    if |r| > 0 {
      assert false;
    }
  }

  lemma ConstantNotFlagged(v: seq<real>, c: real, i: nat)
    requires forall j :: 0 <= j < |v| ==> v[j] == c
    requires i < |v|
    ensures !Flagged(v, i)
  {
    var w := Window(v, i);
    var lo := if i >= 6 then i - 6 else 0;
    assert w == v[lo..i + 1];
    forall j | 0 <= j < |w|
      ensures w[j] == c
    {
      assert w[j] == v[lo + j];
    }
    if |w| >= 3 {
      ConstantMean(w, c);
      ConstantDeviations(w, c);
      assert SampleVariance(w) == 0.0 / (|w| - 1) as real;
    }
  }

  lemma ConstantMean(w: seq<real>, c: real)
    requires |w| > 0 && forall j :: 0 <= j < |w| ==> w[j] == c
    ensures Mean(w) == c
  {
    SumConstant(w, c);
  }

  lemma {:induction false} ConstantDeviations(w: seq<real>, c: real)
    requires forall j :: 0 <= j < |w| ==> w[j] == c
    ensures SquaredDeviations(w, c) == 0.0
  {
    if |w| > 0 {
      ConstantDeviations(w[..|w| - 1], c);
    }
  }

  /** A high-severity anomaly passes the medium threshold too. */
  lemma SevereIsAboveThreshold(dev: real, variance: real)
    requires variance > 0.0 && Square(dev) > 9.0 * variance
    ensures Square(dev) > 4.0 * variance
  {
  }

  // ---------------------------------------------------------------------
  // Seasonality over the last 30 rows

  /** pandas' weekday of a day number, Monday = 0 (1970-01-01 was a Thursday). */
  function PyWeekday(day: int): (k: int)
    ensures 0 <= k < 7
  {
    (day + 3) % 7
  }

  function WeekdayOf(e: InsightRecord): int
  {
    PyWeekday(e.date.GetOr(0))
  }

  function TotalOf(e: InsightRecord): real
  {
    e.total
  }

  function CountFor(rows: seq<InsightRecord>, k: int): (n: nat)
    ensures n <= |rows|
    ensures n == 0 <==> forall i :: 0 <= i < |rows| ==> WeekdayOf(rows[i]) != k
  {
    if |rows| == 0 then 0
    else CountFor(rows[..|rows| - 1], k) + (if WeekdayOf(rows[|rows| - 1]) == k then 1 else 0)
  }

  /** The group mean for weekday `k`, reindexed with 0 when the weekday is absent. */
  function WeekdayAverage(rows: seq<InsightRecord>, k: int): real
  {
    var n := CountFor(rows, k);
    if n == 0 then 0.0 else TotalFor(rows, WeekdayOf, TotalOf, k) / n as real
  }

  datatype SeasonalInsight = NoInsight | WeekendHigher(pct: real) | WeekdayHigher(pct: real) | Consistent

  datatype Seasonality = Seasonality(weekdayData: seq<real>, insight: SeasonalInsight, hasPattern: bool)

  function WeekdayMean(avg: seq<real>): real
    requires |avg| == 7
  {
    (avg[0] + avg[1] + avg[2] + avg[3] + avg[4]) / 5.0
  }

  function WeekendMean(avg: seq<real>): real
    requires |avg| == 7
  {
    (avg[5] + avg[6]) / 2.0
  }

  /** The textual insight: the signed percentage difference of weekend over weekday means,
      compared against ±5, and nothing when the weekday mean is not positive. */
  function Insight(weekday: real, weekend: real): (r: SeasonalInsight)
    ensures r == NoInsight <==> weekday <= 0.0
    ensures r.WeekendHigher? <==> weekday > 0.0 && weekend > weekday * 1.05
    ensures r.WeekdayHigher? <==> weekday > 0.0 && weekend < weekday * 0.95
    ensures r == Consistent <==> weekday > 0.0 && weekday * 0.95 <= weekend <= weekday * 1.05
    ensures (r.WeekendHigher? || r.WeekdayHigher?) ==> r.pct > 5.0 && r.pct * weekday == Abs(weekend - weekday) * 100.0
  {
    if weekday > 0.0 then
      var pct := (weekend - weekday) / weekday * 100.0;
      PercentDifference(weekday, weekend, pct);
      if pct > 5.0 then WeekendHigher(pct)
      else if pct < -5.0 then WeekdayHigher(-pct)
      else Consistent
    else NoInsight
  }

  /** The percentage difference against the 5% bands, without division. */
  lemma PercentDifference(weekday: real, weekend: real, pct: real)
    requires weekday > 0.0 && pct == (weekend - weekday) / weekday * 100.0
    ensures pct * weekday == (weekend - weekday) * 100.0
    ensures pct > 5.0 <==> weekend > weekday * 1.05
    ensures pct < -5.0 <==> weekend < weekday * 0.95
  {
    assert pct * weekday == (weekend - weekday) * 100.0;
    if pct > 5.0 {
      assert pct * weekday > 5.0 * weekday;
    } else {
      assert pct * weekday <= 5.0 * weekday;
    }
    if pct < -5.0 {
      assert pct * weekday < -5.0 * weekday;
    } else {
      assert pct * weekday >= -5.0 * weekday;
    }
  }

  function HasPattern(weekday: real, weekend: real): bool
  {
    Abs(weekend - weekday) / Max(weekday, 1.0) > 0.05
  }

  /** Once the weekday mean is at least 1, `has_pattern` and the insight text agree: a pattern is
      reported exactly when one side is more than 5% higher. */
  lemma PatternMatchesInsight(weekday: real, weekend: real)
    requires weekday >= 1.0
    ensures HasPattern(weekday, weekend) <==> (Insight(weekday, weekend).WeekendHigher? || Insight(weekday, weekend).WeekdayHigher?)
  {
    var pct := (weekend - weekday) / weekday * 100.0;
    RatioScale(weekend - weekday, weekday, pct);
  }

  lemma RatioScale(diff: real, w: real, pct: real)
    requires w >= 1.0 && pct == diff / w * 100.0
    ensures Abs(diff) / w > 0.05 <==> (pct > 5.0 || pct < -5.0)
  {
    assert pct * w == diff * 100.0;
    if diff >= 0.0 {
      assert Abs(diff) / w == pct / 100.0;
    } else {
      assert Abs(diff) / w == -pct / 100.0;
    }
  }

  /** The seven weekday means of the last 30 rows, Monday first, unrounded. */
  function WeekdayAverages(rows: seq<InsightRecord>): (avg: seq<real>)
    ensures |avg| == 7
    ensures forall k :: 0 <= k < 7 ==> avg[k] == WeekdayAverage(Tail(rows, 30), k)
  {
    seq(7, k requires 0 <= k < 7 => WeekdayAverage(Tail(rows, 30), k))
  }

  /** The seasonality block: the seven rounded weekday means, and the insight and pattern flag,
      both judged on the unrounded weekday (Monday to Friday) and weekend means. */
  function Seasonal(rows: seq<InsightRecord>, round2: Rounding): (r: Seasonality)
    ensures |r.weekdayData| == 7
    ensures forall k :: 0 <= k < 7 && CountFor(Tail(rows, 30), k) == 0 ==> r.weekdayData[k] == 0.0
    ensures forall k :: 0 <= k < 7 ==> r.weekdayData[k] == round2(WeekdayAverage(Tail(rows, 30), k))
    ensures r.insight == Insight(WeekdayMean(WeekdayAverages(rows)), WeekendMean(WeekdayAverages(rows)))
    ensures r.hasPattern == HasPattern(WeekdayMean(WeekdayAverages(rows)), WeekendMean(WeekdayAverages(rows)))
  {
    var recent := Tail(rows, 30);
    var avg := WeekdayAverages(rows);
    var weekday := WeekdayMean(avg);
    var weekend := WeekendMean(avg);
    var data := seq(7, k requires 0 <= k < 7 => round2(avg[k]));
    forall k | 0 <= k < 7 && CountFor(recent, k) == 0
      ensures data[k] == 0.0
    {
      assert avg[k] == 0.0;
    }
    Seasonality(data, Insight(weekday, weekend), HasPattern(weekday, weekend))
  }

  // ---------------------------------------------------------------------
  // Drivers

  /** The driver columns and their labels, in the source's dict order. */
  const DriverColumns: seq<(string, string)> := [
    ("fuel_emission", "Fuel Combustion"),
    ("electricity_emission", "Electricity"),
    ("explosives_emission", "Explosives"),
    ("transport_emission", "Transport"),
    ("methane_emissions_co2e", "Methane")
  ]

  const IncreaseDirection := "increase"

  datatype Driver = Driver(name: string, weight: real, direction: string)

  /** `col in df.columns`: some record of the request carries the key. */
  predicate ColumnPresent(emissions: seq<InsightRecord>, col: string)
  {
    exists e :: e in emissions && col in e.parts
  }

  /** `df[col].astype(float).sum()`: absent and null cells are NaN and skipped. */
  function ColumnTotal(rows: seq<InsightRecord>, col: string): real
  {
    if |rows| == 0 then 0.0
    else
      var last := rows[|rows| - 1];
      var cell := if col in last.parts then last.parts[col].GetOr(0.0) else 0.0;
      ColumnTotal(rows[..|rows| - 1], col) + cell
  }

  /** The (label, total) pairs of the present columns, in column order. */
  function DriverTotals(emissions: seq<InsightRecord>, rows: seq<InsightRecord>, columns: seq<(string, string)>): (r: seq<(string, real)>)
    ensures |r| <= |columns|
    ensures forall k :: 0 <= k < |r| ==>
              exists c :: (c in columns && ColumnPresent(emissions, c.0) && r[k] == (c.1, ColumnTotal(rows, c.0)))
    ensures forall c :: c in columns && ColumnPresent(emissions, c.0) ==> (c.1, ColumnTotal(rows, c.0)) in r
  {
    if |columns| == 0 then []
    else
      var r' := DriverTotals(emissions, rows, columns[..|columns| - 1]);
      var c := columns[|columns| - 1];
      assert forall d :: d in columns <==> d in columns[..|columns| - 1] || d == c;
      if ColumnPresent(emissions, c.0) then r' + [(c.1, ColumnTotal(rows, c.0))] else r'
  }

  function PairValue(p: (string, real)): real
  {
    p.1
  }

  function Values(ps: seq<(string, real)>): (v: seq<real>)
    ensures |v| == |ps|
    ensures forall k :: 0 <= k < |ps| ==> v[k] == ps[k].1
  {
    Map(ps, PairValue)
  }

  /** `val / total_all * 100`, or 0 when the total is not positive. */
  function Share(value: real, total: real): real
  {
    if total > 0.0 then value / total * 100.0 else 0.0
  }

  function DriverWeight(d: Driver): real
  {
    d.weight
  }

  /** One driver per column total, weighted by its rounded share of the combined total. */
  function Weighted(totals: seq<(string, real)>, round1: Rounding): (r: seq<Driver>)
    ensures |r| == |totals|
    ensures forall k :: 0 <= k < |r| ==>
              r[k] == Driver(totals[k].0, round1(Share(totals[k].1, Sum(Values(totals)))), IncreaseDirection)
  {
    var all := Sum(Values(totals));
    seq(|totals|, k requires 0 <= k < |totals| => Driver(totals[k].0, round1(Share(totals[k].1, all)), IncreaseDirection))
  }

  /** The driver list: one entry per present column, weighted by its rounded share of the
      combined total, sorted by descending weight. */
  function Drivers(emissions: seq<InsightRecord>, rows: seq<InsightRecord>, round1: Rounding): (r: seq<Driver>)
    ensures |r| <= 5
    ensures SortedDesc(r, DriverWeight)
    ensures forall k :: 0 <= k < |r| ==> r[k].direction == IncreaseDirection
    ensures multiset(r) == multiset(Weighted(DriverTotals(emissions, rows, DriverColumns), round1))
  {
    var unsorted := Weighted(DriverTotals(emissions, rows, DriverColumns), round1);
    var r := SortDesc(unsorted, DriverWeight);
    SortKeepsDirections(unsorted, r);
    r
  }

  /** Reordering drivers keeps every one's direction. */
  lemma SortKeepsDirections(unsorted: seq<Driver>, r: seq<Driver>)
    requires multiset(r) == multiset(unsorted)
    requires forall k :: 0 <= k < |unsorted| ==> unsorted[k].direction == IncreaseDirection
    ensures forall k :: 0 <= k < |r| ==> r[k].direction == IncreaseDirection
  {
    forall k | 0 <= k < |r|
      ensures r[k].direction == IncreaseDirection
    {
      assert r[k] in multiset(unsorted);
    }
  }

  /** Before rounding, the shares of the present columns add up to 100 whenever their combined
      total is positive. */
  lemma SharesSumToHundred(values: seq<real>)
    requires Sum(values) > 0.0
    ensures Sum(seq(|values|, k requires 0 <= k < |values| => Share(values[k], Sum(values)))) == 100.0
  {
    var t := Sum(values);
    ScaledSum(values, t);
    assert t / t == 1.0;
  }

  lemma {:induction false} ScaledSum(values: seq<real>, t: real)
    requires t > 0.0
    ensures Sum(seq(|values|, k requires 0 <= k < |values| => Share(values[k], t))) == Sum(values) / t * 100.0
    decreases |values|
  {
    var s := seq(|values|, k requires 0 <= k < |values| => Share(values[k], t));
    if |values| > 0 {
      var v' := values[..|values| - 1];
      ScaledSum(v', t);
      assert s[..|s| - 1] == seq(|v'|, k requires 0 <= k < |v'| => Share(v'[k], t));
      DivideSum(Sum(v'), values[|values| - 1], t);
    }
  }

  lemma DivideSum(a: real, b: real, t: real)
    requires t > 0.0
    ensures a / t * 100.0 + b / t * 100.0 == (a + b) / t * 100.0
  {
  }

  // ---------------------------------------------------------------------
  // Trend over the last 30 values

  datatype Direction = Rising | Falling | Stable

  datatype Trend = Trend(direction: Direction, slope: real, sufficient: bool)

  function DirectionOf(slope: real): (d: Direction)
    ensures d == Rising <==> slope > 0.5
    ensures d == Falling <==> slope < -0.5
  {
    if slope > 0.5 then Rising else if slope < -0.5 then Falling else Stable
  }

  /** The least-squares slope of the last 30 values (at least 7 needed), reported rounded. */
  function TrendOf(values: seq<real>, round4: Rounding): (r: Trend)
    ensures r.sufficient <==> |Tail(values, 30)| >= 7
    ensures !r.sufficient ==> r == Trend(Stable, 0.0, false)
    ensures r.sufficient ==> (r.direction == DirectionOf(LeastSquaresSlope(Tail(values, 30)))
                              && r.slope == round4(LeastSquaresSlope(Tail(values, 30))))
  {
    var recent := Tail(values, 30);
    if |recent| >= 7 then
      var slope := LeastSquaresSlope(recent);
      Trend(DirectionOf(slope), round4(slope), true)
    else Trend(Stable, 0.0, false)
  }

  /** Values on an exact line a + b·x are classified by b itself: the fitted slope is b. */
  lemma LineTrend(a: real, b: real, n: nat, round4: Rounding)
    requires 7 <= n <= 30
    ensures TrendOf(Line(a, b, n), round4).direction == DirectionOf(b)
    ensures TrendOf(Line(a, b, n), round4).slope == round4(b)
  {
    LeastSquaresFitsLine(a, b, n);
  }

  // ---------------------------------------------------------------------
  // MAPE proxy

  /** The seven-value rolling mean at every position where it is defined (`rolling(7).mean().dropna()`). */
  function RollingMeans(s: seq<real>): (r: seq<real>)
    ensures |r| == if |s| >= 7 then |s| - 6 else 0
    ensures forall j :: 0 <= j < |r| ==> r[j] == Mean(s[j..j + 7])
  {
    if |s| < 7 then [] else seq(|s| - 6, j requires 0 <= j < |s| - 6 => Mean(s[j..j + 7]))
  }

  /** One absolute percentage error: |a − p| / max(a, 1) · 100. */
  function Ape(actual: real, predicted: real): (r: real)
    ensures r >= 0.0
  {
    Abs(actual - predicted) / Max(actual, 1.0) * 100.0
  }

  /** The element-wise absolute percentage errors of two aligned series. */
  function Apes(actuals: seq<real>, predicted: seq<real>): (r: seq<real>)
    requires |actuals| == |predicted|
    ensures |r| == |actuals|
    ensures forall k :: 0 <= k < |r| ==> r[k] == Ape(actuals[k], predicted[k])
  {
    seq(|actuals|, k requires 0 <= k < |actuals| => Ape(actuals[k], predicted[k]))
  }

  /** The MAPE estimate, following the source's slicing: the last `test_n` actuals against the
      last `test_n` rolling means of the last `test_n + 7` values. */
  function Mape(values: seq<real>, forecastCount: nat, round2: Rounding): (r: Option<real>)
    ensures r.Some? <==> forecastCount > 0 && |values| >= 16 && Mean(values[|values| - 10..]) > 0.0
    ensures r.Some? ==> r.value >= 0.0
  {
    var recent := Tail(values, 30);
    var testN := if |recent| < 10 then |recent| else 10;
    if forecastCount == 0 || testN == 0 then None
    else
      var actuals := Tail(recent, testN);
      var pred := Tail(values, testN + 7);
      var rolling := Tail(RollingMeans(pred), testN);
      MapeShape(values, testN);
      if Mean(actuals) <= 0.0 then None
      else if |pred| <= testN then None
      else if |rolling| != testN then None
      else
        var ape := Apes(actuals, rolling);
        ApesNonNegative(ape);
        RoundingKeepsSign(round2, Mean(ape));
        Some(round2(Mean(ape)))
  }

  /** The slices line up exactly when there are at least 16 values: then the actuals are the
      last ten values and there are ten complete rolling windows. */
  lemma MapeShape(values: seq<real>, testN: nat)
    requires testN == if |Tail(values, 30)| < 10 then |Tail(values, 30)| else 10
    ensures var pred := Tail(values, testN + 7);
            (|pred| > testN && |Tail(RollingMeans(pred), testN)| == testN) <==> |values| >= 16
    ensures |values| >= 16 ==> testN == 10 && Tail(Tail(values, 30), testN) == values[|values| - 10..]
  {
    var n := |values|;
    if n >= 16 {
      assert testN == 10;
      assert Tail(values, 30) == values[n - |Tail(values, 30)|..];
    } else if n >= 10 {
      assert testN == 10;
      assert |Tail(values, 17)| == n;
    } else {
      assert testN == n;
      assert |Tail(values, testN + 7)| == n;
    }
  }

  lemma ApesNonNegative(ape: seq<real>)
    requires |ape| > 0 && forall k :: 0 <= k < |ape| ==> ape[k] >= 0.0
    ensures Mean(ape) >= 0.0
  {
    MeanNonNegative(ape);
  }

  /** The trailing seven-value mean ending at position `i` of the whole series. */
  function TrailingMean(values: seq<real>, i: nat): real
    requires 6 <= i < |values|
  {
    Mean(values[i - 6..i + 1])
  }

  /** Reference definition: for each of the last ten values, the trailing seven-value mean
      ending at it. */
  function TrailingMeans(values: seq<real>): (r: seq<real>)
    requires |values| >= 16
    ensures |r| == 10
    ensures forall k :: 0 <= k < 10 ==> r[k] == TrailingMean(values, |values| - 10 + k)
  {
    seq(10, k requires 0 <= k < 10 => TrailingMean(values, |values| - 10 + k))
  }

  /** In terms of the whole series: the MAPE compares each of the last ten values with the
      trailing seven-value mean that ends at that value. */
  lemma MapeCompares(values: seq<real>, forecastCount: nat, round2: Rounding)
    requires Mape(values, forecastCount, round2).Some?
    ensures |values| >= 16
    ensures Mape(values, forecastCount, round2) == Some(round2(Mean(Apes(Tail(values, 10), TrailingMeans(values)))))
  {
    MapeUnfolded(values, forecastCount, round2);
    MapeSlices(values);
  }

  /** The two slices the MAPE compares are the last ten values and their trailing means. */
  lemma MapeSlices(values: seq<real>)
    requires |values| >= 16
    ensures Tail(Tail(values, 30), 10) == Tail(values, 10)
    ensures Tail(RollingMeans(Tail(values, 17)), 10) == TrailingMeans(values)
  {
    MapeWindows(values);
    var actuals := Tail(Tail(values, 30), 10);
    var rolling := Tail(RollingMeans(Tail(values, 17)), 10);
    forall k | 0 <= k < 10 ensures actuals[k] == Tail(values, 10)[k] {}
    forall k | 0 <= k < 10 ensures rolling[k] == TrailingMeans(values)[k] {}
  }

  /** The MAPE in terms of the two slices it compares, once it is reported. */
  lemma MapeUnfolded(values: seq<real>, forecastCount: nat, round2: Rounding)
    requires Mape(values, forecastCount, round2).Some?
    ensures |values| >= 16
    ensures |Tail(Tail(values, 30), 10)| == 10 && |Tail(RollingMeans(Tail(values, 17)), 10)| == 10
    ensures Mape(values, forecastCount, round2) ==
              Some(round2(Mean(Apes(Tail(Tail(values, 30), 10), Tail(RollingMeans(Tail(values, 17)), 10)))))
  {
    MapeShape(values, 10);
  }

  /** The windows the MAPE slices out of a series of at least 16 values. */
  lemma MapeWindows(values: seq<real>)
    requires |values| >= 16
    ensures |Tail(Tail(values, 30), 10)| == 10 && |Tail(RollingMeans(Tail(values, 17)), 10)| == 10
    ensures forall k :: 0 <= k < 10 ==> Tail(Tail(values, 30), 10)[k] == values[|values| - 10 + k]
    ensures forall k :: 0 <= k < 10 ==>
              Tail(RollingMeans(Tail(values, 17)), 10)[k] == TrailingMean(values, |values| - 10 + k)
  {
    forall k | 0 <= k < 10
      ensures Tail(RollingMeans(Tail(values, 17)), 10)[k] == TrailingMean(values, |values| - 10 + k)
    {
      RollingWindowAt(values, k);
    }
  }

  lemma RollingWindowAt(values: seq<real>, k: nat)
    requires |values| >= 16 && k < 10
    ensures |Tail(RollingMeans(Tail(values, 17)), 10)| == 10
    ensures Tail(RollingMeans(Tail(values, 17)), 10)[k] == TrailingMean(values, |values| - 10 + k)
  {
    var n := |values|;
    var pred := Tail(values, 17);
    var m := |pred|;
    var off := n - m;
    assert pred == values[off..];
    var means := RollingMeans(pred);
    assert |means| == m - 6;
    var j := m - 16 + k;
    var tail := Tail(means, 10);
    assert tail == means[m - 16..];
    assert tail[k] == means[j];
    assert means[j] == Mean(pred[j..j + 7]);
    SuffixWindow(values, off, j, j + 7);
    assert off + j == n - 16 + k;
  }

  /** A window of a suffix is the shifted window of the whole sequence. */
  lemma SuffixWindow<T>(s: seq<T>, off: nat, lo: nat, hi: nat)
    requires off <= |s| && lo <= hi <= |s| - off
    ensures s[off..][lo..hi] == s[off + lo..off + hi]
  {
  }

  // ---------------------------------------------------------------------
  // The whole report

  datatype InsightsReport = InsightsReport(
    anomalies: seq<Anomaly>,
    seasonality: Seasonality,
    drivers: seq<Driver>,
    trend: Trend,
    mape: Option<real>)

  /** The insights response: an error under 7 records, otherwise every analysis over the
      prepared, date-sorted rows. */
  function GetInsights(emissions: seq<InsightRecord>, forecastCount: nat,
                       round1: Rounding, round2: Rounding, round4: Rounding): (r: Result<InsightsReport>)
    ensures r.Err? <==> |emissions| < MinimumRecords
    ensures r.Err? ==> r.msg == TooFewMessage
    ensures r.Ok? ==> (&& r.value.anomalies == Anomalies(Prepared(emissions), round2)
                       && r.value.seasonality == Seasonal(Prepared(emissions), round2)
                       && r.value.drivers == Drivers(emissions, Prepared(emissions), round1)
                       && r.value.trend == TrendOf(Totals(Prepared(emissions)), round4)
                       && r.value.mape == Mape(Totals(Prepared(emissions)), forecastCount, round2))
    ensures r.Ok? ==> (&& |r.value.anomalies| <= |Filter(emissions, Dated)|
                       && |r.value.seasonality.weekdayData| == 7
                       && |r.value.drivers| <= 5
                       && (r.value.mape.Some? ==> forecastCount > 0 && |Filter(emissions, Dated)| >= 16))
  {
    if |emissions| < MinimumRecords then Err(TooFewMessage)
    else
      var rows := Prepared(emissions);
      var values := Totals(rows);
      Ok(InsightsReport(
        Anomalies(rows, round2),
        Seasonal(rows, round2),
        Drivers(emissions, rows, round1),
        TrendOf(values, round4),
        Mape(values, forecastCount, round2)))
  }
}

=== FILE: multi_mine.dfy ===
/** The forecast page's multi-mine comparison
    (frontend/src/components/forecast/MultiMineComparisonRow.tsx): a selection of up to five
    mines, the merged chart of their forecasts and per-mine summary statistics. */
module MultiMine {
  import opened Wrappers
  import opened Numbers
  import opened Collections
  import opened Arima
  import opened ForecastService
  import opened Comparison

  const MaxSelected := 5
  /** A comparison is requested once this many mines are selected. */
  const MinToCompare := 2

  datatype MineRef = MineRef(id: string, name: string)

  /** A selection the page can reach: at most five ids, none twice. */
  ghost predicate ValidSelection(sel: seq<string>)
  {
    |sel| <= MaxSelected && NoDuplicates(sel)
  }

  /** The selection is sent to the backend only when it has two mines or more. */
  predicate ShouldFetch(sel: seq<string>)
  {
    |sel| >= MinToCompare
  }

  /** The first mine whose id differs from `current`. */
  function FirstOther(mines: seq<MineRef>, current: string): (r: Option<nat>)
    ensures r.Some? ==> r.value < |mines| && mines[r.value].id != current
    ensures r.Some? ==> forall k :: 0 <= k < r.value ==> mines[k].id == current
    ensures r.None? ==> forall k :: 0 <= k < |mines| ==> mines[k].id == current
  {
    if |mines| == 0 then None
    else if mines[0].id != current then Some(0)
    else match FirstOther(mines[1..], current)
      case None => None
      case Some(k) => Some(k + 1)
  }

  /** The auto-selection effect: with a current mine and more than one mine listed, select the
      current mine and the first other one; otherwise leave the selection alone (`None`). */
  function AutoSelect(current: string, mines: seq<MineRef>): (r: Option<seq<string>>)
    ensures r.None? <==> current == "" || |mines| <= 1 || forall k :: 0 <= k < |mines| ==> mines[k].id == current
    ensures r.Some? ==> exists k :: && 0 <= k < |mines| && r.value == [current, mines[k].id] && mines[k].id != current
                                    && forall j :: 0 <= j < k ==> mines[j].id == current
    ensures r.Some? ==> FirstOther(mines, current).Some? && r.value == [current, mines[FirstOther(mines, current).value].id]
  {
    if current != "" && |mines| > 1 then
      match FirstOther(mines, current)
      case Some(k) => Some([current, mines[k].id])
      case None => None
    else None
  }

  /** An auto-selection is a valid selection that is compared straight away. */
  lemma AutoSelectionCompared(current: string, mines: seq<MineRef>)
    requires AutoSelect(current, mines).Some?
    ensures ValidSelection(AutoSelect(current, mines).value)
    ensures ShouldFetch(AutoSelect(current, mines).value)
  {
  }

  /** `toggleMine`: a selected id is removed, an unselected one is appended unless five are
      already selected. */
  function Toggle(sel: seq<string>, id: string): (r: seq<string>)
    ensures id in sel ==> r == Filter(sel, (x: string) => x != id)
    ensures id in r <==> id !in sel && |sel| < MaxSelected
    ensures forall x :: x != id ==> (x in r <==> x in sel)
  {
    if id in sel then Filter(sel, (x: string) => x != id)
    else if |sel| >= MaxSelected then sel
    else sel + [id]
  }

  /** Toggling keeps the selection valid. */
  lemma ToggleKeepsValid(sel: seq<string>, id: string)
    requires ValidSelection(sel)
    ensures ValidSelection(Toggle(sel, id))
  {
    if id in sel {
      FilterKeepsDistinct(sel, (x: string) => x != id);
    }
  }

  /** Toggling an unselected mine on and off again restores the selection. */
  lemma ToggleTwice(sel: seq<string>, id: string)
    requires id !in sel && |sel| < MaxSelected
    ensures Toggle(Toggle(sel, id), id) == sel
  {
    var keep := (x: string) => x != id;
    FilterAppend(sel, id, keep);
    FilterAll(sel, keep);
  }

  /** `minesWithData`: the compared mines that have a non-empty forecast, in ranking order. */
  predicate HasData(c: MineForecast)
  {
    c.hasForecast && |c.forecastData| > 0
  }

  function MinesWithData(rows: seq<MineForecast>): (r: seq<MineForecast>)
    ensures forall i :: 0 <= i < |r| ==> HasData(r[i])
    ensures forall c :: c in rows && HasData(c) <==> c in r
    ensures r == Filter(rows, HasData)
    ensures (forall i :: 0 <= i < |rows| ==> HasData(rows[i])) ==> r == rows
  {
    if forall i :: 0 <= i < |rows| ==> HasData(rows[i]) then
      FilterAll(rows, HasData);
      Filter(rows, HasData)
    else
      Filter(rows, HasData)
  }

  // ---------------------------------------------------------------------
  // Merged chart

  /** One mine's values at a chart index, `Math.round`ed. */
  datatype Band = Band(predicted: int, upper: int, lower: int)

  /** A chart point: a date and, per charted mine, its values when its forecast reaches the
      index. */
  datatype ChartPoint = ChartPoint(date: int, values: seq<Option<Band>>)

  function BandOf(p: ForecastPoint): Band
  {
    Band(JsRound(p.predicted), JsRound(p.upperBound), JsRound(p.lowerBound))
  }

  /** The longest forecast among the charted mines (0 for none). */
  function MaxLen(rows: seq<MineForecast>): (n: nat)
    ensures forall j :: 0 <= j < |rows| ==> |rows[j].forecastData| <= n
    ensures |rows| > 0 ==> exists j :: 0 <= j < |rows| && |rows[j].forecastData| == n
  {
    if |rows| == 0 then 0
    else
      var m := MaxLen(rows[..|rows| - 1]);
      var last := |rows[|rows| - 1].forecastData|;
      assert forall j :: 0 <= j < |rows| - 1 ==> rows[..|rows| - 1][j] == rows[j];
      if last > m then last else m
  }

  predicate Covers(c: MineForecast, i: nat)
  {
    i < |c.forecastData|
  }

  /** The first charted mine whose forecast reaches index `i`: it supplies the date. */
  function FirstCovering(rows: seq<MineForecast>, i: nat): (r: Option<nat>)
    ensures r.Some? ==> r.value < |rows| && Covers(rows[r.value], i)
    ensures r.Some? ==> forall j :: 0 <= j < r.value ==> !Covers(rows[j], i)
    ensures r.None? <==> forall j :: 0 <= j < |rows| ==> !Covers(rows[j], i)
  {
    if |rows| == 0 then None
    else if Covers(rows[0], i) then Some(0)
    else match FirstCovering(rows[1..], i)
      case None => None
      case Some(k) => Some(k + 1)
  }

  /** `date` is the date at index `i` of the first mine whose forecast reaches that index. */
  predicate DatedByFirst(rows: seq<MineForecast>, date: int, i: nat)
  {
    exists k :: 0 <= k < |rows| && Covers(rows[k], i) && date == rows[k].forecastData[i].date
                && forall j :: 0 <= j < k ==> !Covers(rows[j], i)
  }

  /** The point the loop builds at index `i`, when some mine reaches it. */
  function PointAt(rows: seq<MineForecast>, i: nat): (p: Option<ChartPoint>)
    ensures p.Some? <==> FirstCovering(rows, i).Some?
    ensures p.Some? ==> p.value.date == rows[FirstCovering(rows, i).value].forecastData[i].date
    ensures p.Some? ==> |p.value.values| == |rows|
    ensures p.Some? ==> forall j :: 0 <= j < |rows| ==>
              p.value.values[j] == if Covers(rows[j], i) then Some(BandOf(rows[j].forecastData[i])) else None
  {
    match FirstCovering(rows, i)
    case None => None
    case Some(k) =>
      Some(ChartPoint(rows[k].forecastData[i].date,
                      seq(|rows|, j requires 0 <= j < |rows| =>
                            if Covers(rows[j], i) then Some(BandOf(rows[j].forecastData[i])) else None)))
  }

  /** The chart data: for every index below the longest forecast, a point dated by the
      first mine reaching that index and carrying every mine that reaches it. Every index is
      reached by the longest forecast, so no index is skipped. */
  function ChartData(rows: seq<MineForecast>): (points: seq<ChartPoint>)
    ensures |points| == MaxLen(rows)
    ensures rows == [] ==> points == []
    ensures forall i :: 0 <= i < |points| ==> |points[i].values| == |rows|
    ensures forall i, j :: 0 <= i < |points| && 0 <= j < |rows| ==>
              (points[i].values[j].Some? <==> Covers(rows[j], i))
              && (Covers(rows[j], i) ==> points[i].values[j] == Some(BandOf(rows[j].forecastData[i])))
    ensures forall i :: 0 <= i < |points| ==> DatedByFirst(rows, points[i].date, i)
  {
    var points := seq(MaxLen(rows), i requires 0 <= i < MaxLen(rows) => PointBelowLongest(rows, i));
    PointsDescribe(rows, points);
    points
  }

  /** The point at an index below the longest forecast, which always exists. */
  function PointBelowLongest(rows: seq<MineForecast>, i: nat): (p: ChartPoint)
    requires i < MaxLen(rows)
    ensures PointAt(rows, i) == Some(p)
  {
    ReachedBelowLongest(rows, i);
    PointAt(rows, i).value
  }

  /** The chart loop over the first `n` indices: it pushes one point per index, the one
      `PointAt` gives, so running it to the longest forecast builds the chart data. */
  method CollectPoints(rows: seq<MineForecast>, n: nat) returns (points: seq<ChartPoint>)
    requires n <= MaxLen(rows)
    ensures |points| == n
    ensures forall t :: 0 <= t < n ==> PointAt(rows, t) == Some(points[t])
    ensures points == ChartData(rows)[..n]
  {
    points := [];
    var i := 0;
    while i < n
      invariant 0 <= i <= n
      invariant |points| == i
      invariant forall t :: 0 <= t < i ==> PointAt(rows, t) == Some(points[t])
    {
      ReachedBelowLongest(rows, i);
      var point := PointAt(rows, i);
      var before := points;
      points := points + [point.value];
      forall t | 0 <= t <= i
        ensures PointAt(rows, t) == Some(points[t])
      {
        if t < i {
          assert points[t] == before[t];
        }
      }
      i := i + 1;
    }
    PointsAreChartPrefix(rows, points);
  }

  /** Points that agree with `PointAt` index by index are a prefix of the chart data. */
  lemma PointsAreChartPrefix(rows: seq<MineForecast>, points: seq<ChartPoint>)
    requires |points| <= MaxLen(rows)
    requires forall t :: 0 <= t < |points| ==> PointAt(rows, t) == Some(points[t])
    ensures points == ChartData(rows)[..|points|]
  {
    var chart := ChartData(rows);
    forall t | 0 <= t < |points|
      ensures points[t] == chart[t]
    {
      assert chart[t] == PointBelowLongest(rows, t);
    }
  }

  /** Every index below the longest forecast is reached by some mine. */
  lemma ReachedBelowLongest(rows: seq<MineForecast>, i: nat)
    requires i < MaxLen(rows)
    ensures PointAt(rows, i).Some?
  {
    var longest :| 0 <= longest < |rows| && |rows[longest].forecastData| == MaxLen(rows);
    assert Covers(rows[longest], i);
  }

  /** What the chart loop's points say, index by index. */
  lemma PointsDescribe(rows: seq<MineForecast>, data: seq<ChartPoint>)
    requires forall t :: 0 <= t < |data| ==> PointAt(rows, t) == Some(data[t])
    ensures forall i :: 0 <= i < |data| ==> |data[i].values| == |rows|
    ensures forall i, j :: 0 <= i < |data| && 0 <= j < |rows| ==>
              (data[i].values[j].Some? <==> Covers(rows[j], i))
              && (Covers(rows[j], i) ==> data[i].values[j] == Some(BandOf(rows[j].forecastData[i])))
    ensures forall i :: 0 <= i < |data| ==> DatedByFirst(rows, data[i].date, i)
  {
    forall i | 0 <= i < |data|
      ensures DatedByFirst(rows, data[i].date, i)
    {
      assert PointAt(rows, i) == Some(data[i]);
      var k := FirstCovering(rows, i).value;
      assert data[i].date == rows[k].forecastData[i].date;
    }
    forall i | 0 <= i < |data|
      ensures |data[i].values| == |rows|
    {
      assert PointAt(rows, i) == Some(data[i]);
    }
    forall i, j | 0 <= i < |data| && 0 <= j < |rows|
      ensures data[i].values[j].Some? <==> Covers(rows[j], i)
      ensures Covers(rows[j], i) ==> data[i].values[j] == Some(BandOf(rows[j].forecastData[i]))
    {
      assert PointAt(rows, i) == Some(data[i]);
    }
  }

  // ---------------------------------------------------------------------
  // Summary statistics

  datatype Stats = Stats(
    name: string, totalEmission: int, avgDaily: int, peakDay: int, minDay: int,
    trendPct: real, accuracy: Option<Metrics>)

  function SeqMax(s: seq<real>): (m: real)
    requires |s| > 0
    ensures m in s && forall i :: 0 <= i < |s| ==> s[i] <= m
  {
    if |s| == 1 then s[0]
    else
      var m := SeqMax(s[..|s| - 1]);
      assert forall i :: 0 <= i < |s| - 1 ==> s[..|s| - 1][i] == s[i];
      Max(m, s[|s| - 1])
  }

  function SeqMin(s: seq<real>): (m: real)
    requires |s| > 0
    ensures m in s && forall i :: 0 <= i < |s| ==> m <= s[i]
  {
    if |s| == 1 then s[0]
    else
      var m := SeqMin(s[..|s| - 1]);
      assert forall i :: 0 <= i < |s| - 1 ==> s[..|s| - 1][i] == s[i];
      Min(m, s[|s| - 1])
  }

  /** The change from the first to the last predicted value in percent, to one decimal;
      0 unless the first value is positive. */
  function TrendPct(first: real, last: real): (t: real)
    ensures first > 0.0 && last >= first ==> t >= 0.0
    ensures first > 0.0 && last <= first ==> t <= 0.0
    ensures first <= 0.0 ==> t == 0.0
  {
    var raw := if first > 0.0 then (last - first) / first * 100.0 else 0.0;
    TenthsKeepSign(raw);
    JsRoundTenths(raw)
  }

  lemma TenthsKeepSign(x: real)
    ensures x >= 0.0 ==> JsRoundTenths(x) >= 0.0
    ensures x <= 0.0 ==> JsRoundTenths(x) <= 0.0
  {
    JsRoundTenthsWhole(0);
    if x >= 0.0 { JsRoundTenthsMonotone(0.0, x); }
    if x <= 0.0 { JsRoundTenthsMonotone(x, 0.0); }
  }

  /** One mine's statistics over its predicted values. */
  function StatsOf(c: MineForecast): (st: Stats)
    ensures st.name == c.mineName && st.accuracy == c.accuracy
    ensures st.totalEmission == JsRound(Sum(Map(c.forecastData, Predicted)))
    ensures st.minDay <= st.avgDaily <= st.peakDay
    ensures c.forecastData == [] ==> st.avgDaily == 0 && st.peakDay == 0 && st.minDay == 0 && st.trendPct == 0.0
    ensures |c.forecastData| > 0 ==>
              var p := Map(c.forecastData, Predicted);
              && (forall i :: 0 <= i < |p| ==> st.minDay <= JsRound(p[i]) <= st.peakDay)
              && (exists i :: 0 <= i < |p| && JsRound(p[i]) == st.peakDay)
              && (exists i :: 0 <= i < |p| && JsRound(p[i]) == st.minDay)
              && st.avgDaily == JsRound(Mean(p))
              && st.trendPct == TrendPct(p[0], p[|p| - 1])
  {
    var p := Map(c.forecastData, Predicted);
    var total := Sum(p);
    if |p| == 0 then
      Stats(c.mineName, JsRound(total), 0, 0, 0, TrendPct(0.0, 0.0), c.accuracy)
    else
      var avg := total / |p| as real;
      var hi, lo := SeqMax(p), SeqMin(p);
      StatsBounds(p, hi, lo);
      Stats(c.mineName, JsRound(total), JsRound(avg), JsRound(hi), JsRound(lo),
            TrendPct(p[0], p[|p| - 1]), c.accuracy)
  }

  lemma StatsBounds(p: seq<real>, hi: real, lo: real)
    requires |p| > 0 && hi in p && lo in p
    requires forall i :: 0 <= i < |p| ==> lo <= p[i] <= hi
    ensures JsRound(lo) <= JsRound(Mean(p)) <= JsRound(hi)
    ensures forall i :: 0 <= i < |p| ==> JsRound(lo) <= JsRound(p[i]) <= JsRound(hi)
    ensures exists i :: 0 <= i < |p| && JsRound(p[i]) == JsRound(hi)
    ensures exists i :: 0 <= i < |p| && JsRound(p[i]) == JsRound(lo)
  {
    MeanAtMost(p, hi);
    MeanAtLeast(p, lo);
    JsRoundMonotone(lo, Mean(p));
    JsRoundMonotone(Mean(p), hi);
    forall i | 0 <= i < |p| ensures JsRound(lo) <= JsRound(p[i]) <= JsRound(hi) {
      JsRoundMonotone(lo, p[i]);
      JsRoundMonotone(p[i], hi);
    }
  }

  /** `comparisonStats`: one entry per charted mine, in the same order as the chart's mines. */
  function ComparisonStats(rows: seq<MineForecast>): (r: seq<Stats>)
    ensures |r| == |MinesWithData(rows)|
    ensures forall i :: 0 <= i < |r| ==> r[i].name == MinesWithData(rows)[i].mineName && r[i].minDay <= r[i].avgDaily <= r[i].peakDay
    ensures forall i :: 0 <= i < |r| ==> r[i] == StatsOf(MinesWithData(rows)[i])
  {
    Map(MinesWithData(rows), StatsOf)
  }
}

=== FILE: navbar.dfy ===
/** The navigation bar's avatar initials (frontend/src/components/Navbar.tsx): the first
    letters of the signed-in user's display name. */
module Navbar {
  import opened Wrappers
  import opened Collections
  import opened Text

  /** `piece.charAt(0)`: the first character, or nothing for an empty piece. */
  function FirstChar(piece: string): (r: string)
    ensures |r| <= 1
    ensures r == (if piece == "" then "" else [piece[0]])
  {
    if piece == "" then "" else piece[..1]
  }

  /** `pieces.join('')`. */
  function Concat(pieces: seq<string>): string
  {
    if |pieces| == 0 then "" else pieces[0] + Concat(pieces[1..])
  }

  /** Reference definition: the characters that begin a word, a word being a run of
      characters other than a space. `atStart` says whether the previous character was a
      space (or there was none). */
  function WordStartsFrom(s: string, atStart: bool): string
  {
    if |s| == 0 then ""
    else (if atStart && s[0] != ' ' then [s[0]] else "") + WordStartsFrom(s[1..], s[0] == ' ')
  }

  function WordStarts(s: string): string
  {
    WordStartsFrom(s, true)
  }

  /** Splitting on single spaces and keeping each piece's first character picks exactly the
      word starts: empty pieces between repeated spaces contribute nothing. */
  lemma {:induction false} FirstCharsAreWordStarts(s: string)
    ensures Concat(Map(Split(s, ' '), FirstChar)) == WordStartsFrom(s, true)
    ensures Concat(Map(Split(s, ' ')[1..], FirstChar)) == WordStartsFrom(s, false)
  {
    if |s| > 0 {
      var rest := Split(s[1..], ' ');
      FirstCharsAreWordStarts(s[1..]);
      if s[0] == ' ' {
        assert Split(s, ' ') == [""] + rest;
        assert Map(Split(s, ' '), FirstChar) == [""] + Map(rest, FirstChar);
        assert Split(s, ' ')[1..] == rest;
      } else {
        var head := [s[0]] + rest[0];
        assert Split(s, ' ') == [head] + rest[1..];
        assert Map(Split(s, ' '), FirstChar) == [[s[0]]] + Map(rest[1..], FirstChar);
        assert Split(s, ' ')[1..] == rest[1..];
      }
    }
  }

  /** `getInitials`: "U" with no display name; otherwise the first character of every
      space-separated piece, joined, upper-cased and cut to two characters. */
  function Initials(displayName: Option<string>): (r: string)
    ensures displayName == None || displayName == Some("") ==> r == "U"
    ensures displayName.Some? && displayName.value != "" ==> r == Take(Upper(WordStarts(displayName.value)), 2)
    ensures |r| <= 2
  {
    match displayName
    case None => "U"
    case Some(name) =>
      if name == "" then "U"
      else
        FirstCharsAreWordStarts(name);
        Take(Upper(Concat(Map(Split(name, ' '), FirstChar))), 2)
  }

  /** A one-word name gives its upper-cased first letter. */
  lemma OneWord(name: string)
    requires name != "" && ' ' !in name
    ensures Initials(Some(name)) == [UpperChar(name[0])]
  {
    NoLaterStarts(name[1..]);
  }

  /** After the first character of a word, a name with no spaces has no further word starts. */
  lemma {:induction false} NoLaterStarts(s: string)
    requires ' ' !in s
    ensures WordStartsFrom(s, false) == ""
  {
    if |s| > 0 {
      NoLaterStarts(s[1..]);
    }
  }

  /** A name of spaces alone gives no initials at all, not the "U" placeholder. */
  lemma BlankName(name: string)
    requires name != ""
    requires forall i :: 0 <= i < |name| ==> name[i] == ' '
    ensures Initials(Some(name)) == ""
  {
    OnlySpaces(name);
  }

  lemma {:induction false} OnlySpaces(s: string)
    requires forall i :: 0 <= i < |s| ==> s[i] == ' '
    ensures WordStartsFrom(s, true) == "" && WordStartsFrom(s, false) == ""
  {
    if |s| > 0 {
      OnlySpaces(s[1..]);
    }
  }

  /** First and last name, separated by one space, give both initials, upper-cased. */
  lemma TwoWords(first: string, last: string)
    requires first != "" && last != "" && ' ' !in first && ' ' !in last
    ensures Initials(Some(first + " " + last)) == [UpperChar(first[0]), UpperChar(last[0])]
  {
    var s := first + " " + last;
    assert s[1..] == first[1..] + (" " + last);
    SkipWord(first[1..], " " + last);
    assert (" " + last)[1..] == last;
    NoLaterStarts(last[1..]);
    assert WordStarts(s) == [first[0], last[0]];
  }

  /** Inside a word, the rest of the word contributes no word starts. */
  lemma {:induction false} SkipWord(word: string, rest: string)
    requires ' ' !in word
    ensures WordStartsFrom(word + rest, false) == WordStartsFrom(rest, false)
  {
    if |word| == 0 {
      assert word + rest == rest;
    } else {
      assert (word + rest)[1..] == word[1..] + rest;
      SkipWord(word[1..], rest);
    }
  }
}

=== FILE: numbers.dfy ===
/** Real-valued arithmetic shared by the services: sums and means, the rounding
    operators of the two runtimes, and ordinary least squares on x = 0, 1, 2, ... */
module Numbers {

  /** Left-to-right sum, as `reduce((s, x) => s + x, 0)` and `Series.sum()` compute it. */
  function Sum(s: seq<real>): real
  {
    if |s| == 0 then 0.0 else Sum(s[..|s| - 1]) + s[|s| - 1]
  }

  function Mean(s: seq<real>): real
    requires |s| > 0
  {
    Sum(s) / |s| as real
  }

  function Max(a: real, b: real): real { if a >= b then a else b }
  function Min(a: real, b: real): real { if a <= b then a else b }
  function Abs(x: real): (r: real)
    ensures r >= 0.0
  {
    if x < 0.0 then -x else x
  }

  function Square(x: real): real { x * x }

  lemma {:induction false} SumAppend(a: seq<real>, b: seq<real>)
    ensures Sum(a + b) == Sum(a) + Sum(b)
    decreases |b|
  {
    if |b| == 0 {
      assert a + b == a;
    } else {
      var b' := b[..|b| - 1];
      assert (a + b)[..|a + b| - 1] == a + b';
      SumAppend(a, b');
    }
  }

  /** Sums add pointwise: if c[i] = a[i] + b[i] everywhere, Sum(c) = Sum(a) + Sum(b). */
  lemma {:induction false} SumPointwise(a: seq<real>, b: seq<real>, c: seq<real>)
    requires |a| == |b| == |c|
    requires forall i :: 0 <= i < |c| ==> c[i] == a[i] + b[i]
    ensures Sum(c) == Sum(a) + Sum(b)
    decreases |c|
  {
    if |c| > 0 {
      var k := |c| - 1;
      SumPointwise(a[..k], b[..k], c[..k]);
    }
  }

  /** Scaling every term scales the sum: if t[i] = s[i] * c everywhere, Sum(t) = Sum(s) * c. */
  lemma {:induction false} SumScaled(s: seq<real>, t: seq<real>, c: real)
    requires |s| == |t|
    requires forall i :: 0 <= i < |t| ==> t[i] == s[i] * c
    ensures Sum(t) == Sum(s) * c
    decreases |t|
  {
    if |t| > 0 {
      var k := |t| - 1;
      SumScaled(s[..k], t[..k], c);
      assert Sum(t) == Sum(s[..k]) * c + s[k] * c;
    }
  }

  lemma {:induction false} SumNonNegative(s: seq<real>)
    requires forall i :: 0 <= i < |s| ==> s[i] >= 0.0
    ensures Sum(s) >= 0.0
    decreases |s|
  {
    if |s| > 0 {
      SumNonNegative(s[..|s| - 1]);
    }
  }

  lemma {:induction false} SumConstant(s: seq<real>, c: real)
    requires forall i :: 0 <= i < |s| ==> s[i] == c
    ensures Sum(s) == |s| as real * c
    decreases |s|
  {
    if |s| > 0 {
      SumConstant(s[..|s| - 1], c);
    }
  }

  lemma MeanNonNegative(s: seq<real>)
    requires |s| > 0
    requires forall i :: 0 <= i < |s| ==> s[i] >= 0.0
    ensures Mean(s) >= 0.0
  {
    SumNonNegative(s);
  }

  /** A mean never exceeds the largest element: if every element is at most `c`, so is the mean. */
  lemma MeanAtMost(s: seq<real>, c: real)
    requires |s| > 0
    requires forall i :: 0 <= i < |s| ==> s[i] <= c
    ensures Mean(s) <= c
  {
    var d := seq(|s|, i requires 0 <= i < |s| => c - s[i]);
    SumNonNegative(d);
    SumDifference(s, c);
  }

  /** A mean is never below the smallest element: if every element is at least `c`, so is the
      mean. */
  lemma MeanAtLeast(s: seq<real>, c: real)
    requires |s| > 0
    requires forall i :: 0 <= i < |s| ==> s[i] >= c
    ensures Mean(s) >= c
  {
    SumAtLeast(s, c);
    var n := |s| as real;
    assert Mean(s) * n == Sum(s);
  }

  lemma {:induction false} SumAtLeast(s: seq<real>, c: real)
    requires forall i :: 0 <= i < |s| ==> s[i] >= c
    ensures Sum(s) >= |s| as real * c
    decreases |s|
  {
    if |s| > 0 {
      SumAtLeast(s[..|s| - 1], c);
    }
  }

  lemma {:induction false} SumDifference(s: seq<real>, c: real)
    ensures Sum(seq(|s|, i requires 0 <= i < |s| => c - s[i])) == |s| as real * c - Sum(s)
    decreases |s|
  {
    if |s| > 0 {
      var s' := s[..|s| - 1];
      SumDifference(s', c);
      assert seq(|s|, i requires 0 <= i < |s| => c - s[i])[..|s| - 1]
          == seq(|s'|, i requires 0 <= i < |s'| => c - s'[i]);
    }
  }

  // ---------------------------------------------------------------------
  // Rounding

  /** A rounding operator: monotone and fixing zero. Python's `round(x, k)` and JavaScript's
      `toFixed(k)` are both of this kind; their exact digits are not modelled. */
  ghost predicate IsRounding(f: real -> real)
  {
    && f(0.0) == 0.0
    && forall x: real, y: real :: x <= y ==> f(x) <= f(y)
  }

  type Rounding = f: real -> real | IsRounding(f) witness (x: real) => x

  lemma RoundingKeepsSign(round: Rounding, x: real)
    ensures x >= 0.0 ==> round(x) >= 0.0
    ensures x <= 0.0 ==> round(x) <= 0.0
  {
    assert IsRounding(round);
    if x >= 0.0 {
      assert round(0.0) <= round(x);
    } else {
      assert round(x) <= round(0.0);
    }
  }

  lemma ProductNonNegative(a: real, b: real)
    requires a >= 0.0 && b >= 0.0
    ensures a * b >= 0.0
  {
  }

  /** Multiplying by a non-negative factor keeps the order. */
  lemma ScaleMonotone(a: real, x: real, y: real)
    requires a >= 0.0 && x <= y
    ensures a * x <= a * y
  {
    ProductNonNegative(a, y - x);
    assert a * y - a * x == a * (y - x);
  }

  /** Products of non-negative numbers grow with both factors. */
  lemma MulMonotone(a: real, b: real, c: real, d: real)
    requires 0.0 <= a <= c && 0.0 <= b <= d
    ensures 0.0 <= a * b <= c * d
  {
    ProductNonNegative(a, b);
    ScaleMonotone(b, a, c);
    ScaleMonotone(c, b, d);
  }

  /** JavaScript `Math.round`: the nearest integer, halves rounded towards +infinity. */
  function JsRound(x: real): (r: int)
    ensures x - 0.5 < r as real <= x + 0.5
  {
    (x + 0.5).Floor
  }

  lemma JsRoundMonotone(x: real, y: real)
    requires x <= y
    ensures JsRound(x) <= JsRound(y)
  {
  }

  lemma JsRoundInteger(n: int)
    ensures JsRound(n as real) == n
  {}

  /** JavaScript `Math.ceil`. */
  function JsCeil(x: real): (r: int)
    ensures x <= r as real < x + 1.0
  {
    -((-x).Floor)
  }

  /** `Math.round(x * 10) / 10`: one decimal place, as the services report percentages. */
  function JsRoundTenths(x: real): real
  {
    JsRound(x * 10.0) as real / 10.0
  }

  /** `Math.round(x * 100) / 100`: two decimal places. */
  function JsRoundHundredths(x: real): real
  {
    JsRound(x * 100.0) as real / 100.0
  }

  /** Rounding to tenths keeps the order of its arguments and fixes whole tenths, so a value
      capped at a bound stays capped after rounding. */
  lemma JsRoundTenthsMonotone(x: real, y: real)
    requires x <= y
    ensures JsRoundTenths(x) <= JsRoundTenths(y)
  {
    JsRoundMonotone(x * 10.0, y * 10.0);
  }

  /** Rounding to tenths moves a value by at most half a tenth, to hundredths by at most half
      a hundredth. */
  lemma JsRoundTenthsClose(x: real)
    ensures x - 0.05 < JsRoundTenths(x) <= x + 0.05
  {
    var n := JsRound(x * 10.0);
    assert x * 10.0 - 0.5 < n as real <= x * 10.0 + 0.5;
  }

  lemma JsRoundHundredthsClose(x: real)
    ensures x - 0.005 < JsRoundHundredths(x) <= x + 0.005
  {
    var n := JsRound(x * 100.0);
    assert x * 100.0 - 0.5 < n as real <= x * 100.0 + 0.5;
  }

  lemma JsRoundTenthsWhole(n: int)
    ensures JsRoundTenths(n as real) == n as real
  {
    JsRoundInteger(n * 10);
  }

  // ---------------------------------------------------------------------
  // Ordinary least squares with x = 0, 1, ..., n - 1

  /** Sum of x over x = 0 .. n-1. */
  function SumX(n: nat): real
  {
    if n == 0 then 0.0 else SumX(n - 1) + (n - 1) as real
  }

  /** Sum of x * x over x = 0 .. n-1. */
  function SumXX(n: nat): real
  {
    if n == 0 then 0.0 else SumXX(n - 1) + (n - 1) as real * (n - 1) as real
  }

  /** Sum of x * y[x]. */
  function SumXY(y: seq<real>): real
  {
    if |y| == 0 then 0.0 else SumXY(y[..|y| - 1]) + (|y| - 1) as real * y[|y| - 1]
  }

  lemma {:induction false} SumXClosedForm(n: nat)
    ensures 2.0 * SumX(n) == n as real * (n as real - 1.0)
  {
    if n > 0 {
      SumXClosedForm(n - 1);
    }
  }

  lemma {:induction false} SumXXClosedForm(n: nat)
    ensures 6.0 * SumXX(n) == n as real * (n as real - 1.0) * (2.0 * n as real - 1.0)
  {
    if n > 0 {
      SumXXClosedForm(n - 1);
      CubicStep((n - 1) as real);
    }
  }

  lemma CubicStep(m: real)
    ensures m * (m - 1.0) * (2.0 * m - 1.0) + 6.0 * m * m == (m + 1.0) * m * (2.0 * m + 1.0)
  {
    assert m * (m - 1.0) * (2.0 * m - 1.0) == 2.0 * m * m * m - 3.0 * m * m + m;
    assert (m + 1.0) * m * (2.0 * m + 1.0) == 2.0 * m * m * m + 3.0 * m * m + m;
  }

  lemma QuarticStep(n: real)
    ensures 2.0 * n * (n * (n - 1.0) * (2.0 * n - 1.0)) - 3.0 * (n * (n - 1.0)) * (n * (n - 1.0))
         == n * n * (n - 1.0) * (n + 1.0)
  {
    var p := n * (n - 1.0);
    assert 2.0 * n * (p * (2.0 * n - 1.0)) == p * (4.0 * n * n - 2.0 * n);
    assert 3.0 * p * p == p * (3.0 * n * n - 3.0 * n);
    assert p * (4.0 * n * n - 2.0 * n) - p * (3.0 * n * n - 3.0 * n) == p * (n * n + n);
    assert p * (n * n + n) == n * n * (n - 1.0) * (n + 1.0);
  }

  /** The least-squares denominator n * Sum(x^2) - Sum(x)^2. */
  function Denominator(n: nat): real
  {
    n as real * SumXX(n) - SumX(n) * SumX(n)
  }

  /** The denominator equals n^2 (n^2 - 1) / 12, so it is positive from two points on. */
  lemma DenominatorPositive(n: nat)
    requires n >= 2
    ensures Denominator(n) > 0.0
  {
    var nn := n as real;
    SumXClosedForm(n);
    SumXXClosedForm(n);
    var sx := SumX(n);
    var sxx := SumXX(n);
    assert 12.0 * Denominator(n) == 2.0 * nn * (6.0 * sxx) - 3.0 * (2.0 * sx) * (2.0 * sx);
    QuarticStep(nn);
    assert 12.0 * Denominator(n) == nn * nn * (nn - 1.0) * (nn + 1.0);
    PositiveProduct(nn);
  }

  lemma PositiveProduct(n: real)
    requires n >= 2.0
    ensures n * n * (n - 1.0) * (n + 1.0) > 0.0
  {
    assert n * n > 0.0;
    assert (n - 1.0) * (n + 1.0) > 0.0;
  }

  /** The least-squares slope and intercept from the five sums of n points. */
  function SlopeFromTotals(n: real, sx: real, sy: real, sxy: real, den: real): real
  {
    if den == 0.0 then 0.0 else (n * sxy - sx * sy) / den
  }

  function InterceptFromTotals(n: real, sx: real, sy: real, slope: real): real
  {
    if n == 0.0 then 0.0 else (sy - slope * sx) / n
  }

  /** Slope of the least-squares line through the points (i, y[i]):
      (n Sxy - Sx Sy) / (n Sxx - Sx^2), as `numpy.polyfit(x, y, 1)` and the dashboard compute it. */
  function LeastSquaresSlope(y: seq<real>): real
    requires |y| >= 2
  {
    SlopeFromTotals(|y| as real, SumX(|y|), Sum(y), SumXY(y), Denominator(|y|))
  }

  /** Intercept of the same line: (Sy - slope * Sx) / n. */
  function LeastSquaresIntercept(y: seq<real>): real
    requires |y| >= 2
  {
    InterceptFromTotals(|y| as real, SumX(|y|), Sum(y), LeastSquaresSlope(y))
  }

  function Line(a: real, b: real, n: nat): (y: seq<real>)
    ensures |y| == n
  {
    seq(n, i requires 0 <= i < n => a + b * i as real)
  }

  lemma {:induction false} LineSum(a: real, b: real, n: nat)
    ensures Sum(Line(a, b, n)) == n as real * a + b * SumX(n)
  {
    if n > 0 {
      LineSum(a, b, n - 1);
      assert Line(a, b, n)[..n - 1] == Line(a, b, n - 1);
      LineSumStep(a, b, (n - 1) as real, SumX(n - 1));
    }
  }

  lemma {:induction false} LineSumXY(a: real, b: real, n: nat)
    ensures SumXY(Line(a, b, n)) == a * SumX(n) + b * SumXX(n)
  {
    if n > 0 {
      LineSumXY(a, b, n - 1);
      assert Line(a, b, n)[..n - 1] == Line(a, b, n - 1);
      LineSumXYStep(a, b, (n - 1) as real, SumX(n - 1), SumXX(n - 1));
    }
  }

  lemma LineSumStep(a: real, b: real, k: real, sx: real)
    ensures k * a + b * sx + (a + b * k) == (k + 1.0) * a + b * (sx + k)
  {}

  lemma LineSumXYStep(a: real, b: real, k: real, sx: real, sxx: real)
    ensures a * sx + b * sxx + k * (a + b * k) == a * (sx + k) + b * (sxx + k * k)
  {}

  /** On the totals of a line a + b x the slope formula gives b and the intercept formula a. */
  lemma TotalsOfLine(n: real, sx: real, sxx: real, sy: real, sxy: real, den: real, a: real, b: real)
    requires n != 0.0 && den != 0.0 && den == n * sxx - sx * sx
    requires sy == n * a + b * sx && sxy == a * sx + b * sxx
    ensures SlopeFromTotals(n, sx, sy, sxy, den) == b
    ensures InterceptFromTotals(n, sx, sy, b) == a
  {
    assert n * sxy - sx * sy == b * den;
  }

  /** `sy` and `sxy` are the sums of y and x*y over the n points of the line a + b x. */
  predicate LineTotals(n: nat, a: real, b: real, sy: real, sxy: real)
  {
    sy == n as real * a + b * SumX(n) && sxy == a * SumX(n) + b * SumXX(n)
  }

  /** `den` is the least-squares denominator of n points. */
  predicate DenominatorOf(n: nat, den: real)
  {
    den == n as real * SumXX(n) - SumX(n) * SumX(n)
  }

  lemma LineHasTotals(a: real, b: real, n: nat)
    ensures LineTotals(n, a, b, Sum(Line(a, b, n)), SumXY(Line(a, b, n)))
  {
    LineSum(a, b, n);
    LineSumXY(a, b, n);
  }

  lemma DenominatorUnfolds(n: nat)
    ensures DenominatorOf(n, Denominator(n))
  {}

  /** The slope and intercept formulas applied to the totals of a line give back the line. */
  lemma FitFromTotals(n: nat, den: real, sy: real, sxy: real, a: real, b: real)
    requires n >= 2 && den != 0.0 && DenominatorOf(n, den) && LineTotals(n, a, b, sy, sxy)
    ensures SlopeFromTotals(n as real, SumX(n), sy, sxy, den) == b
    ensures InterceptFromTotals(n as real, SumX(n), sy, b) == a
  {
    TotalsOfLine(n as real, SumX(n), SumXX(n), sy, sxy, den, a, b);
  }

  /** Least squares recovers a straight line exactly: slope b and intercept a. */
  lemma {:induction false} LeastSquaresFitsLine(a: real, b: real, n: nat)
    requires n >= 2
    ensures LeastSquaresSlope(Line(a, b, n)) == b
    ensures LeastSquaresIntercept(Line(a, b, n)) == a
  {
    var y := Line(a, b, n);
    LineHasTotals(a, b, n);
    DenominatorPositive(n);
    DenominatorUnfolds(n);
    FitFromTotals(n, Denominator(n), Sum(y), SumXY(y), a, b);
  }
}

=== FILE: pathways.dfy ===
/** The decarbonisation pathways page (frontend/src/pages/PathwaysPage.tsx): a profile of one
    mine's emission history, the baseline-versus-reduced chart over history and forecast, the
    savings and carbon budget under the slider reduction, and rule-based recommendations.
    Dates are epoch day numbers; the calendar of the browser's time zone is a parameter, and
    `toFixed(2)` is an abstract rounding. */
module Pathways {
  import opened Wrappers
  import opened Numbers
  import opened Collections
  import opened ForecastService
  import opened WhatIf

  const FuelFactor := 2.68
  const ElectricityFactor := 0.82
  const TransportFactor := 2.68
  const ExplosivesFactor := 0.316
  const WindowDays := 30
  /** The annual budget is the current yearly run-rate less 10%. */
  const BudgetShare := 0.9
  const GrowthAlertPct := 5.0

  /** A stored record as the page reads it; an absent or zero field counts as 0. */
  datatype Record = Record(
    date: int, total: Option<real>, fuel: Option<real>, electricity: Option<real>,
    methane: Option<real>, transport: Option<real>, explosives: Option<real>)

  datatype SourceName = Fuel | Electricity | Methane | Transport | Explosives

  datatype Source = Source(name: SourceName, value: real)

  datatype Profile = Profile(
    total: real, avgDaily: real, growthPct: real, sources: seq<Source>, topSource: Source,
    sorted: seq<Record>, annualBudget: real, ytd: real, recordCount: nat)

  function TotalOf(e: Record): real { e.total.GetOr(0.0) }
  function DateOf(e: Record): real { -(e.date as real) }
  function SourceValue(s: Source): real { s.value }

  // ---------------------------------------------------------------------
  // Profile

  /** The records by ascending date; records of the same date keep their order. */
  function Ascending(records: seq<Record>): (r: seq<Record>)
    ensures multiset(r) == multiset(records) && |r| == |records|
    ensures forall i, j :: 0 <= i < j < |r| ==> r[i].date <= r[j].date
  {
    var r := SortDesc(records, DateOf);
    assert forall i, j :: 0 <= i < j < |r| ==> DateOf(r[i]) >= DateOf(r[j]);
    r
  }

  /** `sum / (length || 1)`: the mean, or 0 for no values. */
  function Average(s: seq<real>): (a: real)
    ensures |s| > 0 ==> a == Mean(s)
    ensures |s| == 0 ==> a == 0.0
  {
    Sum(s) / (if |s| == 0 then 1 else |s|) as real
  }

  /** `sorted.slice(-60, -30)`: the thirty records before the last thirty. */
  function PreviousWindow(sorted: seq<Record>): (r: seq<Record>)
    ensures |r| <= WindowDays
  {
    var n := |sorted|;
    var start := if n < 2 * WindowDays then 0 else n - 2 * WindowDays;
    var end := if n < WindowDays then 0 else n - WindowDays;
    sorted[start..end]
  }

  /** The two windows are adjacent and together are the last sixty records. */
  lemma WindowsAdjacent(sorted: seq<Record>)
    ensures PreviousWindow(sorted) + Tail(sorted, WindowDays) == Tail(sorted, 2 * WindowDays)
  {
    var n := |sorted|;
    var start := if n < 2 * WindowDays then 0 else n - 2 * WindowDays;
    var end := if n < WindowDays then 0 else n - WindowDays;
    assert PreviousWindow(sorted) == sorted[start..end];
    assert Tail(sorted, WindowDays) == sorted[end..];
    assert Tail(sorted, 2 * WindowDays) == sorted[start..];
    assert sorted[start..end] + sorted[end..] == sorted[start..];
  }

  /** Growth of the recent average over the previous one, in percent; 0 without a positive
      previous average. */
  function Growth(avgDaily: real, prevAvg: real): (g: real)
    ensures prevAvg > 0.0 ==> (g > 0.0 <==> avgDaily > prevAvg) && (g == 0.0 <==> avgDaily == prevAvg)
    ensures prevAvg <= 0.0 ==> g == 0.0
  {
    if prevAvg > 0.0 then (avgDaily - prevAvg) / prevAvg * 100.0 else 0.0
  }

  function FuelUsed(e: Record): real { e.fuel.GetOr(0.0) }
  function ElectricityUsed(e: Record): real { e.electricity.GetOr(0.0) }
  function TransportUsed(e: Record): real { e.transport.GetOr(0.0) }
  function ExplosivesUsed(e: Record): real { e.explosives.GetOr(0.0) }

  function FuelOf(e: Record): real { FuelUsed(e) * FuelFactor }
  function ElectricityOf(e: Record): real { ElectricityUsed(e) * ElectricityFactor }
  function MethaneOf(e: Record): real { e.methane.GetOr(0.0) }
  function TransportOf(e: Record): real { TransportUsed(e) * TransportFactor }
  function ExplosivesOf(e: Record): real { ExplosivesUsed(e) * ExplosivesFactor }

  /** A source total is its factor times the quantity used over all records. */
  lemma ScaledTotal(sorted: seq<Record>, used: Record -> real, emitted: Record -> real, factor: real)
    requires forall e :: emitted(e) == used(e) * factor
    ensures Sum(Map(sorted, emitted)) == Sum(Map(sorted, used)) * factor
  {
    SumScaled(Map(sorted, used), Map(sorted, emitted), factor);
  }

  /** The five source totals, always in the order Fuel, Electricity, Methane, Transport,
      Explosives: fuel and transport fuel at 2.68, electricity at 0.82 and explosives at 0.316
      per unit used, methane as recorded. */
  function Sources(sorted: seq<Record>): (r: seq<Source>)
    ensures |r| == 5
    ensures r[0].name == Fuel && r[1].name == Electricity && r[2].name == Methane
            && r[3].name == Transport && r[4].name == Explosives
    ensures r[0].value == Sum(Map(sorted, FuelOf)) && r[2].value == Sum(Map(sorted, MethaneOf))
    ensures r[0].value == Sum(Map(sorted, FuelUsed)) * 2.68
    ensures r[1].value == Sum(Map(sorted, ElectricityUsed)) * 0.82
    ensures r[3].value == Sum(Map(sorted, TransportUsed)) * 2.68
    ensures r[4].value == Sum(Map(sorted, ExplosivesUsed)) * 0.316
  {
    ScaledTotal(sorted, FuelUsed, FuelOf, FuelFactor);
    ScaledTotal(sorted, ElectricityUsed, ElectricityOf, ElectricityFactor);
    ScaledTotal(sorted, TransportUsed, TransportOf, TransportFactor);
    ScaledTotal(sorted, ExplosivesUsed, ExplosivesOf, ExplosivesFactor);
    [Source(Fuel, Sum(Map(sorted, FuelOf))),
     Source(Electricity, Sum(Map(sorted, ElectricityOf))),
     Source(Methane, Sum(Map(sorted, MethaneOf))),
     Source(Transport, Sum(Map(sorted, TransportOf))),
     Source(Explosives, Sum(Map(sorted, ExplosivesOf)))]
  }

  /** The sources by descending total; among equal totals the one listed first stays first. */
  function Ranked(sources: seq<Source>): (r: seq<Source>)
    ensures multiset(r) == multiset(sources) && |r| == |sources|
    ensures forall i, j :: 0 <= i < j < |r| ==> r[i].value >= r[j].value
  {
    var r := SortDesc(sources, SourceValue);
    assert forall i, j :: 0 <= i < j < |r| ==> SourceValue(r[i]) >= SourceValue(r[j]);
    r
  }

  /** `topSource`: the head of the ranking, a source no other source exceeds. */
  function TopSource(sources: seq<Source>): (t: Source)
    requires |sources| > 0
    ensures t in sources
    ensures forall s :: s in sources ==> s.value <= t.value
  {
    var ranked := Ranked(sources);
    assert ranked[0] in multiset(sources);
    assert forall s :: s in sources ==> s in multiset(ranked);
    ranked[0]
  }

  /** `mineProfile`: nothing without records. */
  function MineProfile(records: seq<Record>): (r: Option<Profile>)
    ensures r.None? <==> records == []
    ensures r.Some? ==>
              var p := r.value;
              && p.sorted == Ascending(records) && p.recordCount == |records|
              && p.total == Sum(Map(p.sorted, TotalOf)) && p.ytd == p.total
              && p.avgDaily == Average(Map(Tail(p.sorted, WindowDays), TotalOf))
              && p.growthPct == Growth(p.avgDaily, Average(Map(PreviousWindow(p.sorted), TotalOf)))
              && p.sources == Sources(p.sorted)
              && p.topSource == TopSource(p.sources)
              && p.annualBudget == p.avgDaily * 365.0 * BudgetShare
  {
    if |records| == 0 then None
    else
      var sorted := Ascending(records);
      var total := Sum(Map(sorted, TotalOf));
      var avgDaily := Average(Map(Tail(sorted, WindowDays), TotalOf));
      var prevAvg := Average(Map(PreviousWindow(sorted), TotalOf));
      var sources := Sources(sorted);
      Some(Profile(total, avgDaily, Growth(avgDaily, prevAvg), sources, TopSource(sources), sorted,
                   avgDaily * 365.0 * BudgetShare, total, |sorted|))
  }

  // ---------------------------------------------------------------------
  // Baseline versus reduced chart

  datatype SimMode = HistoricalMode | FutureMode | CombinedMode

  /** A calendar date in the browser's time zone. */
  datatype CivilDate = CivilDate(year: int, month: int, day: int)

  /** A chart label: a week of a month (`W<n>-<Mon> <yy>`) or a forecast day. */
  datatype Label = Week(week: int, month: int, year: int) | Day(date: int)

  datatype PointKind = Past | Projected

  datatype LifePoint = LifePoint(key: Label, baseline: real, simulated: real, kind: PointKind)

  /** The week key: the week of the month, `ceil(day / 7)`, with the month and two-digit year. */
  function WeekKey(calendar: int -> CivilDate, e: Record): (k: Label)
    ensures k.Week? && k.month == calendar(e.date).month
    ensures 7 * (k.week - 1) < calendar(e.date).day <= 7 * k.week
    ensures 0 <= k.year < 100 && (calendar(e.date).year - k.year) % 100 == 0
    ensures 1 <= calendar(e.date).day <= 31 ==> 1 <= k.week <= 5
  {
    var c := calendar(e.date);
    Week(JsCeil(c.day as real / 7.0), c.month, c.year % 100)
  }

  function One(e: Record): real { 1.0 }

  /** Every record of a bucket is counted, so a key that occurs has a positive count. */
  lemma {:induction false} CountPositive(s: seq<Record>, keyOf: Record -> Label, k: Label)
    requires k in Keys(s, keyOf)
    ensures TotalFor(s, keyOf, One, k) >= 1.0
  {
    var n := |s|;
    var prefix := s[..n - 1];
    if keyOf(s[n - 1]) != k {
      assert k in Keys(prefix, keyOf) by {
        var i :| 0 <= i < n && Keys(s, keyOf)[i] == k;
        assert i < n - 1 && Keys(prefix, keyOf)[i] == k;
      }
      CountPositive(prefix, keyOf, k);
    } else {
      CountNonNegative(prefix, keyOf, k);
    }
  }

  lemma {:induction false} CountNonNegative(s: seq<Record>, keyOf: Record -> Label, k: Label)
    ensures TotalFor(s, keyOf, One, k) >= 0.0
  {
    if |s| > 0 {
      CountNonNegative(s[..|s| - 1], keyOf, k);
    }
  }

  /** The records of one bucket, in their order. */
  function Bucket(s: seq<Record>, keyOf: Record -> Label, k: Label): seq<Record>
  {
    Filter(s, (e: Record) => keyOf(e) == k)
  }

  /** The grouping loop's running total and count for a key are the sum and the size of that
      key's bucket. */
  lemma {:induction false} BucketTotals(s: seq<Record>, keyOf: Record -> Label, k: Label)
    ensures TotalFor(s, keyOf, TotalOf, k) == Sum(Map(Bucket(s, keyOf, k), TotalOf))
    ensures TotalFor(s, keyOf, One, k) == |Bucket(s, keyOf, k)| as real
    decreases |s|
  {
    if |s| > 0 {
      var s', x := s[..|s| - 1], s[|s| - 1];
      BucketTotals(s', keyOf, k);
      var b' := Bucket(s', keyOf, k);
      if keyOf(x) == k {
        assert Bucket(s, keyOf, k) == b' + [x];
        assert Map(b' + [x], TotalOf)[..|b'|] == Map(b', TotalOf);
      } else {
        assert Bucket(s, keyOf, k) == b';
      }
    }
  }

  /** One historical bucket: the mean total of its records, in tonnes, drawn as is and reduced. */
  function BucketPoint(sorted: seq<Record>, keyOf: Record -> Label, k: Label, rf: real, fix2: Rounding): (pt: LifePoint)
    requires k in Keys(sorted, keyOf)
    ensures pt.key == k && pt.kind == Past
    ensures Bucket(sorted, keyOf, k) != []
    ensures var avg := Mean(Map(Bucket(sorted, keyOf, k), TotalOf)) / 1000.0;
            pt.baseline == fix2(avg) && pt.simulated == fix2(avg * (1.0 - rf))
  {
    CountPositive(sorted, keyOf, k);
    BucketTotals(sorted, keyOf, k);
    var avg := TotalFor(sorted, keyOf, TotalOf, k) / TotalFor(sorted, keyOf, One, k) / 1000.0;
    LifePoint(k, fix2(avg), fix2(Reduced(avg, rf)), Past)
  }

  /** The week key of every record, as the grouping loop computes it. */
  function WeekOf(calendar: int -> CivilDate): Record -> Label
  {
    (e: Record) => WeekKey(calendar, e)
  }

  /** The historical part: one point per week key, in order of first occurrence. */
  function Historical(sorted: seq<Record>, calendar: int -> CivilDate, rf: real, fix2: Rounding): (r: seq<LifePoint>)
    ensures forall i :: 0 <= i < |r| ==> r[i].kind == Past
    ensures forall i, j :: 0 <= i < j < |r| ==> r[i].key != r[j].key
    ensures forall e :: e in sorted ==> exists i :: 0 <= i < |r| && r[i].key == WeekKey(calendar, e)
    ensures forall i :: 0 <= i < |r| ==> r[i].key in Keys(sorted, WeekOf(calendar))
    ensures forall i :: 0 <= i < |r| ==> r[i] == BucketPoint(sorted, WeekOf(calendar), r[i].key, rf, fix2)
    ensures |r| <= |sorted|
  {
    var keyOf := WeekOf(calendar);
    var keys := Distinct(Keys(sorted, keyOf));
    assert forall i :: 0 <= i < |sorted| ==> keyOf(sorted[i]) in Keys(sorted, keyOf);
    BucketPoints(sorted, keyOf, keys, rf, fix2)
  }

  /** One bucket point per key, in the keys' order. */
  function BucketPoints(sorted: seq<Record>, keyOf: Record -> Label, keys: seq<Label>, rf: real, fix2: Rounding)
    : (r: seq<LifePoint>)
    requires forall k :: k in keys ==> k in Keys(sorted, keyOf)
    ensures |r| == |keys|
    ensures forall i :: 0 <= i < |r| ==> r[i] == BucketPoint(sorted, keyOf, keys[i], rf, fix2)
  {
    seq(|keys|, i requires 0 <= i < |keys| => BucketPoint(sorted, keyOf, keys[i], rf, fix2))
  }

  function ForecastPointOf(f: ForecastPoint, rf: real, fix2: Rounding): LifePoint
  {
    var baseline := f.predicted / 1000.0;
    LifePoint(Day(f.date), fix2(baseline), fix2(Reduced(baseline, rf)), Projected)
  }

  /** The historical part of the chart, shown when the mode includes history and the page has
      a profile. */
  function PastPart(profile: Option<Profile>, mode: SimMode, calendar: int -> CivilDate, rf: real, fix2: Rounding): (r: seq<LifePoint>)
    ensures forall i :: 0 <= i < |r| ==> r[i].kind == Past
    ensures |r| > 0 <==> mode != FutureMode && profile.Some? && profile.value.sorted != []
    ensures mode != FutureMode && profile.Some? ==> r == Historical(profile.value.sorted, calendar, rf, fix2)
  {
    if mode == FutureMode || profile.None? then []
    else
      var sorted := profile.value.sorted;
      assert sorted != [] ==> sorted[0] in sorted;
      Historical(sorted, calendar, rf, fix2)
  }

  /** The forecast part of the chart, shown when the mode includes the future. */
  function FuturePart(forecast: seq<ForecastPoint>, mode: SimMode, rf: real, fix2: Rounding): (r: seq<LifePoint>)
    ensures forall i :: 0 <= i < |r| ==> r[i].kind == Projected
    ensures |r| == if mode == HistoricalMode then 0 else |forecast|
    ensures forall i :: 0 <= i < |r| ==> r[i].key == Day(forecast[i].date)
    ensures forall i :: 0 <= i < |r| ==>
              && r[i].baseline == fix2(forecast[i].predicted / 1000.0)
              && r[i].simulated == fix2(forecast[i].predicted / 1000.0 * (1.0 - rf))
  {
    if mode == HistoricalMode || |forecast| == 0 then []
    else Map(forecast, (f: ForecastPoint) => ForecastPointOf(f, rf, fix2))
  }

  predicate IsPast(pt: LifePoint) { pt.kind == Past }
  predicate IsProjected(pt: LifePoint) { pt.kind == Projected }

  /** `lifecycleData`: the historical buckets (when the mode shows history and there is a
      profile) followed by one point per forecast day (when the mode shows the future). With
      the profile of any non-empty history, the history part is never empty. */
  function Lifecycle(profile: Option<Profile>, forecast: seq<ForecastPoint>, mode: SimMode,
                     calendar: int -> CivilDate, rf: real, fix2: Rounding): (r: seq<LifePoint>)
    ensures |Filter(r, IsPast)| > 0 <==> mode != FutureMode && profile.Some? && profile.value.sorted != []
    ensures |Filter(r, IsProjected)| == if mode == HistoricalMode then 0 else |forecast|
    ensures forall i, j :: 0 <= i < j < |r| && r[j].kind == Past ==> r[i].kind == Past
    ensures Filter(r, IsPast) == PastPart(profile, mode, calendar, rf, fix2)
    ensures Filter(r, IsProjected) == FuturePart(forecast, mode, rf, fix2)
  {
    var past := PastPart(profile, mode, calendar, rf, fix2);
    var future := FuturePart(forecast, mode, rf, fix2);
    LifecycleParts(past, future);
    past + future
  }

  lemma LifecycleParts(past: seq<LifePoint>, future: seq<LifePoint>)
    requires forall i :: 0 <= i < |past| ==> past[i].kind == Past
    requires forall i :: 0 <= i < |future| ==> future[i].kind == Projected
    ensures Filter(past + future, IsPast) == past
    ensures Filter(past + future, IsProjected) == future
    ensures forall i, j :: 0 <= i < j < |past + future| && (past + future)[j].kind == Past ==> (past + future)[i].kind == Past
  {
    PastKept(past, future);
    ProjectedKept(past, future);
    var all := past + future;
    forall i, j | 0 <= i < j < |all| && all[j].kind == Past
      ensures all[i].kind == Past
    {
      assert all[i] == past[i];
    }
  }

  lemma PastKept(past: seq<LifePoint>, future: seq<LifePoint>)
    requires forall i :: 0 <= i < |past| ==> past[i].kind == Past
    requires forall i :: 0 <= i < |future| ==> future[i].kind == Projected
    ensures Filter(past + future, IsPast) == past
  {
    FilterConcat(past, future, IsPast);
    FilterAll(past, IsPast);
    FilterNone(future, IsPast);
  }

  lemma ProjectedKept(past: seq<LifePoint>, future: seq<LifePoint>)
    requires forall i :: 0 <= i < |past| ==> past[i].kind == Past
    requires forall i :: 0 <= i < |future| ==> future[i].kind == Projected
    ensures Filter(past + future, IsProjected) == future
  {
    FilterConcat(past, future, IsProjected);
    FilterAll(future, IsProjected);
    FilterNone(past, IsProjected);
  }

  /** Records are never lost from the profile, so the chart shows history for any mine with
      records whenever the mode includes history. */
  lemma HistoryShown(records: seq<Record>, forecast: seq<ForecastPoint>, mode: SimMode,
                     calendar: int -> CivilDate, rf: real, fix2: Rounding)
    requires records != [] && mode != FutureMode
    ensures |Filter(Lifecycle(MineProfile(records), forecast, mode, calendar, rf, fix2), IsPast)| > 0
  {
  }

  predicate NonNegativeTotals(sorted: seq<Record>)
  {
    forall e :: e in sorted ==> TotalOf(e) >= 0.0
  }

  /** A bucket of non-negative totals is drawn with its reduced value at or below its baseline. */
  lemma BucketBelowBaseline(sorted: seq<Record>, keyOf: Record -> Label, k: Label, s: Sliders, fix2: Rounding)
    requires k in Keys(sorted, keyOf) && NonNegativeTotals(sorted)
    ensures var pt := BucketPoint(sorted, keyOf, k, ReductionFactor(s), fix2);
            0.0 <= pt.simulated <= pt.baseline
  {
    var rf := ReductionFactor(s);
    assert IsRounding(fix2);
    TotalForNonNegative(sorted, keyOf, k);
    CountPositive(sorted, keyOf, k);
    var avg := TotalFor(sorted, keyOf, TotalOf, k) / TotalFor(sorted, keyOf, One, k) / 1000.0;
    assert avg >= 0.0;
    RoundingKeepsSign(fix2, Reduced(avg, rf));
  }

  /** With non-negative data and a reduction from the sliders, every point of the chart shows
      the reduced value at or below the baseline, and both non-negative. */
  lemma LifecycleBelowBaseline(profile: Option<Profile>, forecast: seq<ForecastPoint>, mode: SimMode,
                               calendar: int -> CivilDate, s: Sliders, fix2: Rounding)
    requires profile.Some? ==> NonNegativeTotals(profile.value.sorted)
    requires forall f :: f in forecast ==> f.predicted >= 0.0
    ensures var r := Lifecycle(profile, forecast, mode, calendar, ReductionFactor(s), fix2);
            forall i :: 0 <= i < |r| ==> 0.0 <= r[i].simulated <= r[i].baseline
  {
    var rf := ReductionFactor(s);
    var past := PastPart(profile, mode, calendar, rf, fix2);
    var future := FuturePart(forecast, mode, rf, fix2);
    assert IsRounding(fix2);
    if mode != FutureMode && profile.Some? {
      var sorted := profile.value.sorted;
      var keyOf := WeekOf(calendar);
      var keys := Distinct(Keys(sorted, keyOf));
      forall i | 0 <= i < |past| ensures 0.0 <= past[i].simulated <= past[i].baseline {
        assert past[i] == BucketPoint(sorted, keyOf, keys[i], rf, fix2);
        BucketBelowBaseline(sorted, keyOf, keys[i], s, fix2);
      }
    }
    forall i | 0 <= i < |future| ensures 0.0 <= future[i].simulated <= future[i].baseline {
      var f := forecast[i];
      assert f in forecast;
      assert future[i] == ForecastPointOf(f, rf, fix2);
      RoundingKeepsSign(fix2, Reduced(f.predicted / 1000.0, rf));
    }
  }

  lemma {:induction false} TotalForNonNegative(s: seq<Record>, keyOf: Record -> Label, k: Label)
    requires NonNegativeTotals(s)
    ensures TotalFor(s, keyOf, TotalOf, k) >= 0.0
  {
    if |s| > 0 {
      assert s[|s| - 1] in s;
      assert forall e :: e in s[..|s| - 1] ==> e in s;
      TotalForNonNegative(s[..|s| - 1], keyOf, k);
    }
  }

  // ---------------------------------------------------------------------
  // Savings and carbon budget

  datatype Savings = Savings(total: real, daily: real, annual: real)

  function Baseline(pt: LifePoint): real { pt.baseline }
  function Simulated(pt: LifePoint): real { pt.simulated }

  /** `savings`: what the chart's reduced curve saves over its baseline, in total, per point and
      over a year; all zero for an empty chart. */
  function SavingsOf(points: seq<LifePoint>): (r: Savings)
    ensures points == [] ==> r == Savings(0.0, 0.0, 0.0)
    ensures points != [] ==> r.total == Sum(Map(points, Baseline)) - Sum(Map(points, Simulated))
    ensures points != [] ==> r.daily * |points| as real == r.total && r.annual == 365.0 * r.daily
  {
    if |points| == 0 then Savings(0.0, 0.0, 0.0)
    else
      var saved := Sum(Map(points, Baseline)) - Sum(Map(points, Simulated));
      var daily := saved / |points| as real;
      Savings(saved, daily, daily * 365.0)
  }

  /** A chart whose reduced curve never exceeds the baseline saves a non-negative amount. */
  lemma SavingsNonNegative(points: seq<LifePoint>)
    requires forall i :: 0 <= i < |points| ==> points[i].simulated <= points[i].baseline
    ensures var r := SavingsOf(points);
            r.total >= 0.0 && r.daily >= 0.0 && r.annual >= 0.0
  {
    if |points| > 0 {
      var b, m := Map(points, Baseline), Map(points, Simulated);
      var d := seq(|points|, i requires 0 <= i < |points| => points[i].baseline - points[i].simulated);
      SumPointwise(m, d, b);
      SumNonNegative(d);
    }
  }

  /** The page's savings are never negative for non-negative data. */
  lemma PageSavingsNonNegative(profile: Option<Profile>, forecast: seq<ForecastPoint>, mode: SimMode,
                               calendar: int -> CivilDate, s: Sliders, fix2: Rounding)
    requires profile.Some? ==> NonNegativeTotals(profile.value.sorted)
    requires forall f :: f in forecast ==> f.predicted >= 0.0
    ensures SavingsOf(Lifecycle(profile, forecast, mode, calendar, ReductionFactor(s), fix2)).total >= 0.0
  {
    LifecycleBelowBaseline(profile, forecast, mode, calendar, s, fix2);
    SavingsNonNegative(Lifecycle(profile, forecast, mode, calendar, ReductionFactor(s), fix2));
  }

  datatype Budget = Budget(budget: real, used: real, pct: real, remaining: real, daysLeft: Option<int>)

  /** `d` whole days at `rate` per day are the fewest that use up `remaining`. */
  predicate DaysCover(remaining: real, rate: real, d: int)
  {
    (d - 1) as real * rate < remaining <= d as real * rate
  }

  /** `Math.ceil(remaining / rate)` counts the days the remaining budget lasts. */
  function DaysLeft(remaining: real, rate: real): (d: int)
    requires rate > 0.0
    ensures DaysCover(remaining, rate, d)
  {
    var x := remaining / rate;
    var d := JsCeil(x);
    CeilCovers(remaining, rate, x, d);
    d
  }

  lemma CeilCovers(remaining: real, rate: real, x: real, d: int)
    requires rate > 0.0 && x == remaining / rate && x <= d as real < x + 1.0
    ensures DaysCover(remaining, rate, d)
  {
    var e := d as real - x;
    var f := x - (d - 1) as real;
    var er, fr := e * rate, f * rate;
    assert x * rate == remaining;
    ProductNonNegative(e, rate);
    ProductPositive(f, rate);
    assert d as real * rate == remaining + er;
    assert (d - 1) as real * rate == remaining - fr;
  }

  lemma ProductPositive(a: real, b: real)
    requires a > 0.0 && b > 0.0
    ensures a * b > 0.0
  {
  }

  /** The used share of the budget in percent, capped at 100. */
  function BudgetPct(used: real, budget: real): (pct: real)
    ensures pct <= 100.0
    ensures budget > 0.0 ==> (pct == 100.0 <==> used >= budget)
    ensures budget > 0.0 && used >= 0.0 ==> pct >= 0.0
    ensures budget <= 0.0 ==> pct == 0.0
  {
    if budget > 0.0 then
      ShareOfBudget(used, budget);
      Min(used / budget * 100.0, 100.0)
    else 0.0
  }

  lemma ShareOfBudget(used: real, budget: real)
    requires budget > 0.0
    ensures used / budget * 100.0 >= 100.0 <==> used >= budget
    ensures used >= 0.0 ==> used / budget >= 0.0
  {
    var share := used / budget;
    assert share * budget == used;
    if share >= 1.0 {
      assert share * budget >= 1.0 * budget;
    } else {
      assert share * budget < 1.0 * budget;
    }
  }

  /** `carbonBudget`: the year's budget in tonnes against what the year so far uses after the
      reduction, and how many days of the reduced daily rate the rest lasts. */
  function CarbonBudget(profile: Option<Profile>, rf: real): (r: Option<Budget>)
    ensures r.None? <==> profile.None?
    ensures r.Some? ==>
              var p := profile.value;
              var b := r.value;
              var rate := Reduced(p.avgDaily / 1000.0, rf);
              && b.budget == p.annualBudget / 1000.0
              && b.used == Reduced(p.ytd / 1000.0, rf)
              && b.pct == BudgetPct(b.used, b.budget)
              && b.remaining >= 0.0
              && (b.remaining == 0.0 <==> b.used >= b.budget)
              && (b.remaining > 0.0 ==> b.used + b.remaining == b.budget)
              && (b.daysLeft.Some? <==> rate > 0.0)
              && (b.daysLeft.Some? ==> DaysCover(b.remaining, rate, b.daysLeft.value))
  {
    match profile
    case None => None
    case Some(p) =>
      var budget := p.annualBudget / 1000.0;
      var used := Reduced(p.ytd / 1000.0, rf);
      var remaining := Max(budget - used, 0.0);
      var rate := Reduced(p.avgDaily / 1000.0, rf);
      Some(Budget(budget, used, BudgetPct(used, budget), remaining,
                  if rate > 0.0 then Some(DaysLeft(remaining, rate)) else None))
  }

  /** The year-to-date total of a profile built from non-negative records is non-negative. */
  lemma ProfileYtdNonNegative(records: seq<Record>)
    requires records != [] && NonNegativeTotals(records)
    ensures MineProfile(records).value.ytd >= 0.0
  {
    var sorted := MineProfile(records).value.sorted;
    forall i | 0 <= i < |sorted| ensures Map(sorted, TotalOf)[i] >= 0.0 {
      assert sorted[i] in multiset(records);
    }
    SumNonNegative(Map(sorted, TotalOf));
  }

  /** Moving the sliders up never makes the budget look worse: with a non-negative year to date
      the reduced usage and the used percentage do not grow and the remainder does not shrink. */
  lemma StrongerReductionHelps(p: Profile, a: Sliders, b: Sliders)
    requires AtMost(a, b) && p.ytd >= 0.0
    ensures var x, y := CarbonBudget(Some(p), ReductionFactor(a)).value, CarbonBudget(Some(p), ReductionFactor(b)).value;
            y.used <= x.used && y.pct <= x.pct && y.remaining >= x.remaining
  {
    var ra, rb := ReductionFactor(a), ReductionFactor(b);
    ReductionMonotone(a, b);
    var ytd := p.ytd / 1000.0;
    ReducedAntitone(ytd, ra, rb);
    var x, y := CarbonBudget(Some(p), ra).value, CarbonBudget(Some(p), rb).value;
    BudgetPctMonotone(y.used, x.used, x.budget);
  }

  /** A larger factor leaves less of a non-negative quantity. */
  lemma ReducedAntitone(x: real, ra: real, rb: real)
    requires x >= 0.0 && ra <= rb
    ensures Reduced(x, rb) <= Reduced(x, ra)
  {
    ProductNonNegative(x, rb - ra);
    assert Reduced(x, ra) - Reduced(x, rb) == x * (rb - ra);
  }

  lemma BudgetPctMonotone(u: real, v: real, budget: real)
    requires u <= v
    ensures BudgetPct(u, budget) <= BudgetPct(v, budget)
  {
    if budget > 0.0 {
      DivideMonotone(u, v, budget);
    }
  }

  lemma DivideMonotone(u: real, v: real, d: real)
    requires u <= v && d > 0.0
    ensures u / d * 100.0 <= v / d * 100.0
  {
    assert (v - u) / d >= 0.0;
    assert v / d - u / d == (v - u) / d;
  }

  // ---------------------------------------------------------------------
  // Recommendations

  datatype Recommendation =
    | EvFleet | SolarWind | MethaneCapture | EfficiencyAudit | RouteOptimisation
    | GrowthAlert(growthPct: real)

  /** Every measure is high priority except the audit and the route optimisation. */
  predicate HighPriority(r: Recommendation)
  {
    !(r.EfficiencyAudit? || r.RouteOptimisation?)
  }

  /** `sorted[k]?.name === name`: false when there is no k-th source. */
  predicate RankedAt(ranked: seq<Source>, k: nat, name: SourceName)
  {
    k < |ranked| && ranked[k].name == name
  }

  predicate InTopTwo(ranked: seq<Source>, name: SourceName)
  {
    RankedAt(ranked, 0, name) || RankedAt(ranked, 1, name)
  }

  /** `recommendations`: none without a profile; otherwise an EV fleet when fuel ranks first,
      renewables when electricity ranks in the top two, methane capture when methane does, the
      audit and route optimisation always, and an alert when emissions grew by more than 5%. */
  function Recommendations(profile: Option<Profile>): (r: seq<Recommendation>)
    ensures profile.None? ==> r == []
    ensures profile.Some? ==>
              var p := profile.value;
              var ranked := Ranked(p.sources);
              && (EvFleet in r <==> RankedAt(ranked, 0, Fuel))
              && (SolarWind in r <==> InTopTwo(ranked, Electricity))
              && (MethaneCapture in r <==> InTopTwo(ranked, Methane))
              && EfficiencyAudit in r && RouteOptimisation in r
              && ((exists g :: GrowthAlert(g) in r) <==> p.growthPct > GrowthAlertPct)
              && 2 <= |r| <= 5
  {
    match profile
    case None => []
    case Some(p) =>
      var ranked := Ranked(p.sources);
      var ev := if RankedAt(ranked, 0, Fuel) then [EvFleet] else [];
      var solar := if InTopTwo(ranked, Electricity) then [SolarWind] else [];
      var methane := if InTopTwo(ranked, Methane) then [MethaneCapture] else [];
      var alert := if p.growthPct > GrowthAlertPct then [GrowthAlert(p.growthPct)] else [];
      var recs := ev + solar + methane + [EfficiencyAudit, RouteOptimisation] + alert;
      assert forall x :: x in recs <==> x in ev || x in solar || x in methane
                                        || x == EfficiencyAudit || x == RouteOptimisation || x in alert;
      recs
  }

  /** For a profile's sources, the EV fleet is recommended exactly when no source's total exceeds
      the fuel total: fuel is listed first, so it keeps the lead on a tie. */
  lemma EvFleetIffFuelLargest(sorted: seq<Record>, p: Profile)
    requires p.sources == Sources(sorted)
    ensures EvFleet in Recommendations(Some(p)) <==>
              forall s :: s in p.sources ==> s.value <= Sum(Map(sorted, FuelOf))
  {
    if forall s :: s in p.sources ==> s.value <= Sum(Map(sorted, FuelOf)) {
      LargestFuelRanksFirst(sorted, p.sources);
    }
    if RankedAt(Ranked(p.sources), 0, Fuel) {
      FuelFirstIsLargest(sorted, p.sources);
    }
  }

  lemma LargestFuelRanksFirst(sorted: seq<Record>, sources: seq<Source>)
    requires sources == Sources(sorted)
    requires forall s :: s in sources ==> s.value <= Sum(Map(sorted, FuelOf))
    ensures RankedAt(Ranked(sources), 0, Fuel)
  {
    forall i | 0 <= i < |sources| ensures SourceValue(sources[i]) <= SourceValue(sources[0]) {
      assert sources[i] in sources;
    }
    SortDescHead(sources, SourceValue);
    assert Ranked(sources) == SortDesc(sources, SourceValue);
  }

  lemma FuelFirstIsLargest(sorted: seq<Record>, sources: seq<Source>)
    requires sources == Sources(sorted)
    requires RankedAt(Ranked(sources), 0, Fuel)
    ensures forall s :: s in sources ==> s.value <= Sum(Map(sorted, FuelOf))
  {
    var ranked := Ranked(sources);
    RankedHeadIsMax(sources);
    assert ranked[0] in multiset(ranked);
    OnlyFuelIsFirst(sorted, ranked[0]);
  }

  /** Fuel names only the first of the five sources. */
  lemma OnlyFuelIsFirst(sorted: seq<Record>, x: Source)
    requires x in Sources(sorted) && x.name == Fuel
    ensures x == Sources(sorted)[0]
  {
    var sources := Sources(sorted);
    var k :| 0 <= k < |sources| && sources[k] == x;
  }

  /** The head of the ranking is at least every source. */
  lemma RankedHeadIsMax(sources: seq<Source>)
    requires |sources| > 0
    ensures forall s :: s in sources ==> s.value <= Ranked(sources)[0].value
  {
    var ranked := Ranked(sources);
    forall s | s in sources ensures s.value <= ranked[0].value {
      assert s in multiset(ranked);
      var k :| 0 <= k < |ranked| && ranked[k] == s;
      if k > 0 { assert ranked[0].value >= ranked[k].value; }
    }
  }
}

=== FILE: request_validator.dfy ===
/** Validation of the forecast request body (ml-service/app/utils/validators.py), with JSON
    values and Python's truthiness and `in` operator written out. */
module RequestValidator {
  import opened Wrappers
  import ForecastService

  datatype Json =
    | JNull
    | JBool(b: bool)
    | JNumber(n: real)
    | JString(s: string)
    | JArray(items: seq<Json>)
    | JObject(fields: map<string, Json>)

  /** The outcome of `validate_forecast_request`: `(True, None)`, `(False, message)`, or a
      TypeError when `in` is applied to a number, a boolean or null. */
  datatype Validation = Valid | Invalid(msg: string) | RaisesTypeError

  const EmptyBodyMessage := "Request body is empty."
  const MissingEmissionsMessage := "Missing required field: 'emissions'."
  const NotAListMessage := "'emissions' must be a list of emission records."
  const EmptyListMessage := "'emissions' list is empty."
  const MissingDateMessage := "Emission records must contain 'date' field."
  const MissingTotalMessage := "Emission records must contain 'total_carbon_emission' field."

  /** Python truthiness of a JSON value. */
  predicate Truthy(j: Json)
  {
    match j
    case JNull => false
    case JBool(b) => b
    case JNumber(n) => n != 0.0
    case JString(s) => |s| > 0
    case JArray(items) => |items| > 0
    case JObject(fields) => |fields| > 0
  }

  /** Python's substring test `key in s`. */
  predicate IsSubstring(key: string, s: string)
    decreases |s|
  {
    key <= s || (|s| > 0 && IsSubstring(key, s[1..]))
  }

  /** Python's `key in value`: a dict key, a list element, a substring; None where `in` raises. */
  function Contains(value: Json, key: string): Option<bool>
  {
    match value
    case JObject(fields) => Some(key in fields)
    case JArray(items) => Some(JString(key) in items)
    case JString(s) => Some(IsSubstring(key, s))
    case _ => None
  }

  /** `horizon not in (7, 14, 30)` for the JSON value of `horizon` (7 when the key is absent). */
  predicate HorizonAllowed(body: map<string, Json>)
  {
    if "horizon" !in body then true
    else match body["horizon"]
      case JNumber(n) => n == 7.0 || n == 14.0 || n == 30.0
      case _ => false
  }

  function ValidateForecastRequest(body: Json): (r: Validation)
    ensures !Truthy(body) ==> r == Invalid(EmptyBodyMessage)
    ensures Truthy(body) && Contains(body, "emissions") == Some(false) ==> r == Invalid(MissingEmissionsMessage)
    ensures r == Valid <==>
              && body.JObject?
              && "emissions" in body.fields
              && body.fields["emissions"].JArray?
              && |body.fields["emissions"].items| > 0
              && HorizonAllowed(body.fields)
              && Contains(body.fields["emissions"].items[0], "date") == Some(true)
              && Contains(body.fields["emissions"].items[0], "total_carbon_emission") == Some(true)
    ensures body.JObject? && "emissions" in body.fields && !body.fields["emissions"].JArray? ==>
              r == Invalid(NotAListMessage)
    ensures body.JObject? && "emissions" in body.fields && body.fields["emissions"] == JArray([]) ==>
              r == Invalid(EmptyListMessage)
    ensures body.JObject? && "emissions" in body.fields && body.fields["emissions"].JArray?
            && |body.fields["emissions"].items| > 0 && !HorizonAllowed(body.fields) ==>
              r == Invalid(ForecastService.HorizonMessage)
    ensures body.JObject? && "emissions" in body.fields && body.fields["emissions"].JArray?
            && |body.fields["emissions"].items| > 0 && HorizonAllowed(body.fields) ==>
              var sample := body.fields["emissions"].items[0];
              && (Contains(sample, "date") == Some(false) ==> r == Invalid(MissingDateMessage))
              && (Contains(sample, "date") == Some(true) && Contains(sample, "total_carbon_emission") == Some(false) ==>
                    r == Invalid(MissingTotalMessage))
  {
    if !Truthy(body) then Invalid(EmptyBodyMessage)
    else match Contains(body, "emissions")
      case None => RaisesTypeError
      case Some(false) => Invalid(MissingEmissionsMessage)
      case Some(true) =>
        if !body.JObject? then RaisesTypeError   // a list or string body cannot be indexed by a key
        else
          var emissions := body.fields["emissions"];
          if !emissions.JArray? then Invalid(NotAListMessage)
          else if |emissions.items| == 0 then Invalid(EmptyListMessage)
          else if !HorizonAllowed(body.fields) then Invalid(ForecastService.HorizonMessage)
          else
            var sample := emissions.items[0];
            match Contains(sample, "date")
            case None => RaisesTypeError
            case Some(false) => Invalid(MissingDateMessage)
            case Some(true) =>
              match Contains(sample, "total_carbon_emission")
              case None => RaisesTypeError
              case Some(false) => Invalid(MissingTotalMessage)
              case Some(true) => Valid
  }

  /** The validator and the pipeline accept the same horizons: a numeric horizon passes the
      validator's check exactly when the pipeline does not refuse it. */
  lemma HorizonRulesAgree(body: map<string, Json>, h: int)
    requires "horizon" in body && body["horizon"] == JNumber(h as real)
    ensures HorizonAllowed(body) <==> ForecastService.ValidHorizon(h)
  {}

  /** A request without a horizon is validated as horizon 7, which the pipeline accepts. */
  lemma DefaultHorizonAccepted(body: map<string, Json>)
    requires "horizon" !in body
    ensures HorizonAllowed(body) && ForecastService.ValidHorizon(7)
  {}
}

=== FILE: simulator.dfy ===
/** The forecast page's reduction simulator (frontend/src/components/forecast/SimulatorRow.tsx):
    the forecast redrawn with every predicted value and the lower band edge reduced by the
    slider factor, and the total saved over the horizon. */
module Simulator {
  import opened Numbers
  import opened Collections
  import opened ForecastService
  import opened WhatIf

  /** One chart point; the values are `Math.round`ed. */
  datatype ChartPoint = ChartPoint(date: int, baseline: int, simulated: int, upperBound: int, lowerBound: int)

  function PointOf(p: ForecastPoint, rf: real): ChartPoint
  {
    ChartPoint(p.date, JsRound(p.predicted), JsRound(Reduced(p.predicted, rf)),
               JsRound(p.upperBound), JsRound(Reduced(p.lowerBound, rf)))
  }

  /** The chart: one point per forecast entry, in order; the upper band edge is drawn as
      forecast and only the lower edge follows the reduction. */
  function ChartData(forecast: seq<ForecastPoint>, rf: real): (r: seq<ChartPoint>)
    ensures |r| == |forecast|
    ensures r == [] <==> forecast == []
    ensures forall i :: 0 <= i < |r| ==>
              && r[i].date == forecast[i].date
              && r[i].baseline == JsRound(forecast[i].predicted)
              && r[i].upperBound == JsRound(forecast[i].upperBound)
              && r[i].simulated == JsRound(forecast[i].predicted * (1.0 - rf))
              && r[i].lowerBound == JsRound(forecast[i].lowerBound * (1.0 - rf))
  {
    if |forecast| == 0 then []
    else Map(forecast, (p: ForecastPoint) => PointOf(p, rf))
  }

  /** With a factor in the sliders' range, a non-negative forecast is never drawn higher than
      its baseline, and never lower than 15% of it, before rounding. */
  lemma SimulatedBelowBaseline(forecast: seq<ForecastPoint>, s: Sliders)
    requires forall i :: 0 <= i < |forecast| ==> forecast[i].predicted >= 0.0
    ensures var r := ChartData(forecast, ReductionFactor(s));
            forall i :: 0 <= i < |r| ==>
              0 <= r[i].simulated <= r[i].baseline && JsRound(0.15 * forecast[i].predicted) <= r[i].simulated
  {
    var rf := ReductionFactor(s);
    var r := ChartData(forecast, rf);
    forall i | 0 <= i < |r|
      ensures 0 <= r[i].simulated <= r[i].baseline && JsRound(0.15 * forecast[i].predicted) <= r[i].simulated
    {
      var x := forecast[i].predicted;
      assert r[i] == PointOf(forecast[i], rf);
      JsRoundMonotone(Reduced(x, rf), x);
      JsRoundMonotone(0.0, Reduced(x, rf));
      JsRoundMonotone(0.15 * x, Reduced(x, rf));
    }
  }

  /** Reducing only the lower edge keeps the band ordered: a band with
      0 <= lower <= predicted <= upper is drawn with lower <= simulated <= upper. */
  lemma BandStaysOrdered(forecast: seq<ForecastPoint>, s: Sliders)
    requires forall i :: 0 <= i < |forecast| ==>
               0.0 <= forecast[i].lowerBound <= forecast[i].predicted <= forecast[i].upperBound
    ensures var r := ChartData(forecast, ReductionFactor(s));
            forall i :: 0 <= i < |r| ==> r[i].lowerBound <= r[i].simulated <= r[i].upperBound
  {
    var rf := ReductionFactor(s);
    var r := ChartData(forecast, rf);
    forall i | 0 <= i < |r|
      ensures r[i].lowerBound <= r[i].simulated <= r[i].upperBound
    {
      var p := forecast[i];
      assert r[i] == PointOf(p, rf);
      ReducedMonotone(p.lowerBound, p.predicted, rf);
      JsRoundMonotone(Reduced(p.lowerBound, rf), Reduced(p.predicted, rf));
      JsRoundMonotone(Reduced(p.predicted, rf), p.upperBound);
    }
  }

  /** With the sliders off the simulated curve is the baseline and the band is the forecast's. */
  lemma OffDrawsForecast(forecast: seq<ForecastPoint>)
    ensures var r := ChartData(forecast, ReductionFactor(Off));
            forall i :: 0 <= i < |r| ==> r[i].simulated == r[i].baseline && r[i].lowerBound == JsRound(forecast[i].lowerBound)
  {
    var r := ChartData(forecast, 0.0);
    forall i | 0 <= i < |r|
      ensures r[i].simulated == r[i].baseline && r[i].lowerBound == JsRound(forecast[i].lowerBound)
    {
      assert r[i] == PointOf(forecast[i], 0.0);
    }
  }

  function Predicted(p: ForecastPoint): real { p.predicted }

  datatype Totals = Totals(baseline: real, simulated: real, saved: real)

  /** The savings card: the summed baseline, the baseline after the reduction and their
      difference. */
  function Savings(forecast: seq<ForecastPoint>, rf: real): (t: Totals)
    ensures t.baseline == Sum(Map(forecast, Predicted))
    ensures t.saved == t.baseline - t.simulated
  {
    var total := Sum(Map(forecast, Predicted));
    var simulated := Reduced(total, rf);
    Totals(total, simulated, total - simulated)
  }

  /** The amount saved is the reduction factor's share of the baseline, so for a non-negative
      forecast it lies between nothing and 85% of the baseline. */
  lemma SavedIsShare(forecast: seq<ForecastPoint>, s: Sliders)
    requires forall i :: 0 <= i < |forecast| ==> forecast[i].predicted >= 0.0
    ensures var t := Savings(forecast, ReductionFactor(s));
            && t.saved == t.baseline * ReductionFactor(s)
            && 0.0 <= t.saved <= MaxReduction * t.baseline
  {
    var rf := ReductionFactor(s);
    var t := Savings(forecast, rf);
    SumNonNegative(Map(forecast, Predicted));
    assert t.saved == t.baseline * rf;
    ProductNonNegative(t.baseline, rf);
    ProductNonNegative(t.baseline, MaxReduction - rf);
  }
}

=== FILE: text.dfy ===
/** String operations of the JavaScript runtime as the services use them: the `\s` class,
    `trim`, `split`/`join` on one separator character, ASCII case mapping and decimal digits. */
module Text {

  /** JavaScript's `\s`: the WhiteSpace and LineTerminator characters of ECMAScript. */
  predicate IsJsWhitespace(c: char)
  {
    || c == ' ' || c == '\t' || c == '\n' || c == '\r' || c == '\U{000B}' || c == '\U{000C}'
    || c == '\U{00A0}' || c == '\U{1680}' || ('\U{2000}' <= c <= '\U{200A}')
    || c == '\U{2028}' || c == '\U{2029}' || c == '\U{202F}' || c == '\U{205F}'
    || c == '\U{3000}' || c == '\U{FEFF}'
  }

  predicate HasNoWhitespace(s: string)
  {
    forall i :: 0 <= i < |s| ==> !IsJsWhitespace(s[i])
  }

  function TrimStart(s: string): (r: string)
    ensures |r| <= |s| && r == s[|s| - |r|..]
    ensures |r| > 0 ==> !IsJsWhitespace(r[0])
    ensures forall i :: 0 <= i < |s| - |r| ==> IsJsWhitespace(s[i])
  {
    if |s| > 0 && IsJsWhitespace(s[0]) then TrimStart(s[1..]) else s
  }

  function TrimEnd(s: string): (r: string)
    ensures |r| <= |s| && r == s[..|r|]
    ensures |r| > 0 ==> !IsJsWhitespace(r[|r| - 1])
    ensures forall i :: |r| <= i < |s| ==> IsJsWhitespace(s[i])
  {
    if |s| > 0 && IsJsWhitespace(s[|s| - 1]) then TrimEnd(s[..|s| - 1]) else s
  }

  /** `String.prototype.trim`. */
  function Trim(s: string): (r: string)
    ensures |r| <= |s|
    ensures |r| > 0 ==> !IsJsWhitespace(r[0]) && !IsJsWhitespace(r[|r| - 1])
  {
    TrimEnd(TrimStart(s))
  }

  /** A string that contains no whitespace is its own trim. */
  lemma TrimNoWhitespace(s: string)
    requires HasNoWhitespace(s)
    ensures Trim(s) == s
  {}

  /** A string that neither starts nor ends with whitespace is its own trim. */
  lemma TrimKeeps(s: string)
    requires |s| > 0 && !IsJsWhitespace(s[0]) && !IsJsWhitespace(s[|s| - 1])
    ensures Trim(s) == s
  {
    var t := TrimStart(s);
    assert t == s;
  }

  /** A string trims to nothing exactly when it is all whitespace. */
  lemma TrimEmptyIffBlank(s: string)
    ensures Trim(s) == "" <==> forall i :: 0 <= i < |s| ==> IsJsWhitespace(s[i])
  {
    var t := TrimStart(s);
    if Trim(s) == "" && |t| > 0 {
      assert false;
    }
  }

  // ---------------------------------------------------------------------
  // split and join on one character

  /** `s.split(c)`: the pieces between occurrences of `c`, empty pieces included. */
  function Split(s: string, c: char): (r: seq<string>)
    ensures |r| >= 1
  {
    if |s| == 0 then [""]
    else
      var rest := Split(s[1..], c);
      if s[0] == c then [""] + rest else [[s[0]] + rest[0]] + rest[1..]
  }

  /** `parts.join(c)`. */
  function Join(parts: seq<string>, c: char): string
  {
    if |parts| == 0 then ""
    else if |parts| == 1 then parts[0]
    else parts[0] + [c] + Join(parts[1..], c)
  }

  lemma {:induction false} SplitWithout(s: string, c: char)
    requires c !in s
    ensures Split(s, c) == [s]
  {
    if |s| > 0 {
      SplitWithout(s[1..], c);
      assert [s[0]] + s[1..] == s;
    }
  }

  lemma {:induction false} SplitAt(a: string, b: string, c: char)
    requires c !in a
    ensures Split(a + [c] + b, c) == [a] + Split(b, c)
  {
    if |a| == 0 {
      assert a + [c] + b == [c] + b;
      assert ([c] + b)[1..] == b;
    } else {
      var s := a + [c] + b;
      assert s[1..] == a[1..] + [c] + b;
      SplitAt(a[1..], b, c);
      assert [a[0]] + a[1..] == a;
    }
  }

  /** Splitting a join gives the parts back when no part contains the separator. */
  lemma {:induction false} SplitJoin(parts: seq<string>, c: char)
    requires |parts| >= 1
    requires forall i :: 0 <= i < |parts| ==> c !in parts[i]
    ensures Split(Join(parts, c), c) == parts
  {
    if |parts| == 1 {
      SplitWithout(parts[0], c);
    } else {
      SplitJoin(parts[1..], c);
      SplitAt(parts[0], Join(parts[1..], c), c);
      assert [parts[0]] + parts[1..] == parts;
    }
  }

  lemma {:induction false} JoinWithout(parts: seq<string>, c: char, d: char)
    requires c != d
    requires forall i :: 0 <= i < |parts| ==> d !in parts[i]
    ensures d !in Join(parts, c)
  {
    if |parts| > 1 {
      JoinWithout(parts[1..], c, d);
    }
  }

  // ---------------------------------------------------------------------
  // case mapping and digits

  /** `toLowerCase` on ASCII letters. */
  function LowerChar(c: char): (r: char)
    ensures !('A' <= r <= 'Z')
  {
    if 'A' <= c <= 'Z' then (c as int + 32) as char else c
  }

  /** `toUpperCase` on ASCII letters. */
  function UpperChar(c: char): (r: char)
    ensures !('a' <= r <= 'z')
  {
    if 'a' <= c <= 'z' then (c as int - 32) as char else c
  }

  function Lower(s: string): (r: string)
    ensures |r| == |s|
    ensures forall i :: 0 <= i < |s| ==> r[i] == LowerChar(s[i])
  {
    seq(|s|, i requires 0 <= i < |s| => LowerChar(s[i]))
  }

  function Upper(s: string): (r: string)
    ensures |r| == |s|
    ensures forall i :: 0 <= i < |s| ==> r[i] == UpperChar(s[i])
  {
    seq(|s|, i requires 0 <= i < |s| => UpperChar(s[i]))
  }

  function DigitChar(d: nat): char
    requires d < 10
  {
    ['0', '1', '2', '3', '4', '5', '6', '7', '8', '9'][d]
  }

  /** Decimal digits of a natural number, as string interpolation prints it. */
  function NatToString(n: nat): (r: string)
    ensures |r| >= 1
    decreases n
  {
    if n < 10 then [DigitChar(n)] else NatToString(n / 10) + [DigitChar(n % 10)]
  }
}

=== FILE: user_sync.dfy ===
/** User synchronisation (backend/routes/users.js): a signed-in identity is matched to a stored
    user by uid, else a pre-assigned user with the same email is claimed, else an observer is
    created. Roles are assigned elsewhere and never change here. The store is a sequence of
    users, searched front to back as `findOne` does. */
module UserSync {
  import opened Wrappers

  const MissingMessage := "UID and email are required"
  const NotFoundMessage := "User not found"
  const DefaultDisplayName := "User"

  datatype Role = Observer | Operator

  datatype User = User(uid: Option<string>, email: string, displayName: Option<string>, role: Role)

  /** A request value; an empty string is as falsy as an absent one. */
  predicate Given(s: string) { s != "" }

  datatype SyncOutcome = BadRequest(msg: string) | Synced(user: User, users: seq<User>)

  /** `findOne({uid})`: the first user with that uid. */
  function FindByUid(users: seq<User>, uid: string): (r: Option<nat>)
    ensures r.Some? ==> r.value < |users| && users[r.value].uid == Some(uid)
    ensures r.Some? ==> forall j :: 0 <= j < r.value ==> users[j].uid != Some(uid)
    ensures r.None? ==> forall j :: 0 <= j < |users| ==> users[j].uid != Some(uid)
  {
    if |users| == 0 then None
    else if users[0].uid == Some(uid) then Some(0)
    else match FindByUid(users[1..], uid)
      case None => None
      case Some(k) => Some(k + 1)
  }

  /** `findOne({email})`: the first user with that email. */
  function FindByEmail(users: seq<User>, email: string): (r: Option<nat>)
    ensures r.Some? ==> r.value < |users| && users[r.value].email == email
    ensures r.Some? ==> forall j :: 0 <= j < r.value ==> users[j].email != email
    ensures r.None? ==> forall j :: 0 <= j < |users| ==> users[j].email != email
  {
    if |users| == 0 then None
    else if users[0].email == email then Some(0)
    else match FindByEmail(users[1..], email)
      case None => None
      case Some(k) => Some(k + 1)
  }

  /** The display name after a sync: replaced only when one is given. */
  function Renamed(u: User, displayName: string): (v: User)
    ensures v.uid == u.uid && v.email == u.email && v.role == u.role
    ensures Given(displayName) ==> v.displayName == Some(displayName)
    ensures !Given(displayName) ==> v == u
  {
    if Given(displayName) then u.(displayName := Some(displayName)) else u
  }

  /** POST /api/users/sync. */
  function Sync(users: seq<User>, uid: string, email: string, displayName: string): (r: SyncOutcome)
    ensures r.BadRequest? <==> !Given(uid) || !Given(email)
    ensures r.BadRequest? ==> r.msg == MissingMessage
    ensures r.Synced? ==> r.user.uid == Some(uid)
    ensures r.Synced? ==> |r.users| == |users| || |r.users| == |users| + 1
    ensures r.Synced? ==> forall i :: 0 <= i < |users| ==> r.users[i].role == users[i].role && r.users[i].email == users[i].email
    ensures r.Synced? && |r.users| == |users| + 1 ==>
              && r.users == users + [r.user]
              && r.user == User(Some(uid), email, Some(if Given(displayName) then displayName else DefaultDisplayName), Observer)
              && FindByUid(users, uid).None? && FindByEmail(users, email).None?
    ensures r.Synced? && |r.users| == |users| ==>
              exists k :: 0 <= k < |users| && r.users == users[k := r.user] && r.user == Renamed(users[k], displayName).(uid := Some(uid))
    ensures r.Synced? && FindByUid(users, uid).Some? ==>
              var k := FindByUid(users, uid).value;
              r.user == Renamed(users[k], displayName) && r.users == users[k := Renamed(users[k], displayName)]
    ensures r.Synced? && FindByUid(users, uid).None? && FindByEmail(users, email).Some? ==>
              var k := FindByEmail(users, email).value;
              && r.user == Renamed(users[k], displayName).(uid := Some(uid))
              && r.users == users[k := Renamed(users[k], displayName).(uid := Some(uid))]
    ensures r.Synced? ==> (|r.users| == |users| + 1 <==> FindByUid(users, uid).None? && FindByEmail(users, email).None?)
  {
    if !Given(uid) || !Given(email) then BadRequest(MissingMessage)
    else match FindByUid(users, uid)
      case Some(k) =>
        var u := Renamed(users[k], displayName);
        assert u == Renamed(users[k], displayName).(uid := Some(uid));
        Synced(u, users[k := u])
      case None =>
        match FindByEmail(users, email)
        case Some(k) =>
          var u := Renamed(users[k], displayName).(uid := Some(uid));
          Synced(u, users[k := u])
        case None =>
          var u := User(Some(uid), email, Some(if Given(displayName) then displayName else DefaultDisplayName), Observer);
          Synced(u, users + [u])
  }

  /** GET /api/users/me/:uid. */
  function Me(users: seq<User>, uid: string): (r: Result<User>)
    ensures r.Ok? <==> exists j :: 0 <= j < |users| && users[j].uid == Some(uid)
    ensures r.Ok? ==> r.value.uid == Some(uid) && r.value in users
    ensures r.Err? ==> r.msg == NotFoundMessage
  {
    match FindByUid(users, uid)
    case Some(k) => Ok(users[k])
    case None => Err(NotFoundMessage)
  }

  /** After a sync, looking the uid up returns the synced user. */
  lemma {:induction false} SyncThenMe(users: seq<User>, uid: string, email: string, displayName: string)
    requires Sync(users, uid, email, displayName).Synced?
    ensures var s := Sync(users, uid, email, displayName);
            Me(s.users, uid) == Ok(s.user)
  {
    var s := Sync(users, uid, email, displayName);
    var users' := s.users;
    match FindByUid(users, uid)
    case Some(k) =>
      FindFirstUid(users', uid, k);
    case None =>
      match FindByEmail(users, email)
      case Some(k) =>
        FindFirstUid(users', uid, k);
      case None =>
        FindFirstUid(users', uid, |users|);
  }

  /** The first index holding a uid is what `FindByUid` returns. */
  lemma {:induction false} FindFirstUid(users: seq<User>, uid: string, k: nat)
    requires k < |users| && users[k].uid == Some(uid)
    requires forall j :: 0 <= j < k ==> users[j].uid != Some(uid)
    ensures FindByUid(users, uid) == Some(k)
  {
    if k > 0 {
      FindFirstUid(users[1..], uid, k - 1);
    }
  }

  /** Syncing the same identity again finds the user by uid and changes nothing further. */
  lemma SyncIdempotent(users: seq<User>, uid: string, email: string, displayName: string)
    requires Sync(users, uid, email, displayName).Synced?
    ensures var s := Sync(users, uid, email, displayName);
            Sync(s.users, uid, email, displayName) == s
  {
    var s := Sync(users, uid, email, displayName);
    SyncThenMe(users, uid, email, displayName);
    var k := FindByUid(s.users, uid).value;
    assert s.users[k] == s.user;
    assert Renamed(s.user, displayName) == s.user;
    assert s.users[k := s.user] == s.users;
  }
}

=== FILE: visualization.dfy ===
/** The CoalNet dashboard routes (CoalNet/backend/routes/dashboard.js): chart points whose
    missing derived fields are recomputed from the usages, the scope breakdown summed over
    them, and the per-mine visualization with its least-squares 90-day projection. */
module Visualization {
  import opened Wrappers
  import opened Numbers
  import opened Collections
  import Accounting

  /** A stored document as read back; every numeric field may be missing. */
  datatype StoredDoc = StoredDoc(
    date: int,
    fuelUsed: Option<real>, electricityUsed: Option<real>, explosivesUsed: Option<real>, transportUsed: Option<real>,
    fuelEmission: Option<real>, electricityEmission: Option<real>, explosivesEmission: Option<real>,
    transportEmission: Option<real>, methaneCo2e: Option<real>,
    scope1: Option<real>, scope2: Option<real>, scope3: Option<real>, total: Option<real>)

  /** `x || 0` for a numeric field: a missing field reads as 0. */
  function Val(x: Option<real>): real { x.GetOr(0.0) }

  /** `x || y`: the stored value unless it is missing or 0. */
  function OrElse(x: Option<real>, y: real): (r: real)
    ensures Val(x) != 0.0 ==> r == Val(x)
    ensures Val(x) == 0.0 ==> r == y
  {
    if Val(x) != 0.0 then Val(x) else y
  }

  /** The explosives factor the chart fallback uses; record creation uses 1.5. */
  const FallbackExplosivesFactor := 2.0

  datatype ChartPoint = ChartPoint(
    date: int, total: real, scope1: real, scope2: real, scope3: real,
    fuel: real, electricity: real, explosives: real, transport: real, methane: real)

  /** No derived field is stored: only the usages are known. */
  predicate UsagesOnly(d: StoredDoc)
  {
    && Val(d.fuelEmission) == 0.0 && Val(d.electricityEmission) == 0.0 && Val(d.explosivesEmission) == 0.0
    && Val(d.transportEmission) == 0.0 && Val(d.methaneCo2e) == 0.0
    && Val(d.scope1) == 0.0 && Val(d.scope2) == 0.0 && Val(d.scope3) == 0.0 && Val(d.total) == 0.0
  }

  /** One chart point: each stored derived field is kept when present and non-zero, and
      recomputed from the usages (or from the recomputed components) otherwise. */
  function Point(d: StoredDoc): (p: ChartPoint)
    ensures p.date == d.date
    ensures Val(d.total) != 0.0 ==> p.total == Val(d.total)
    ensures Val(d.scope1) != 0.0 ==> p.scope1 == Val(d.scope1)
    ensures Val(d.scope2) != 0.0 ==> p.scope2 == Val(d.scope2)
    ensures Val(d.scope3) != 0.0 ==> p.scope3 == Val(d.scope3)
    ensures Val(d.fuelEmission) != 0.0 ==> p.fuel == Val(d.fuelEmission)
    ensures Val(d.electricityEmission) != 0.0 ==> p.electricity == Val(d.electricityEmission)
    ensures Val(d.explosivesEmission) != 0.0 ==> p.explosives == Val(d.explosivesEmission)
    ensures Val(d.transportEmission) != 0.0 ==> p.transport == Val(d.transportEmission)
    ensures Val(d.methaneCo2e) != 0.0 ==> p.methane == Val(d.methaneCo2e)
    ensures Val(d.fuelEmission) == 0.0 ==> p.fuel == Val(d.fuelUsed) * Accounting.FuelFactor
    ensures Val(d.electricityEmission) == 0.0 ==> p.electricity == Val(d.electricityUsed) * Accounting.ElectricityFactor
    ensures Val(d.explosivesEmission) == 0.0 ==> p.explosives == Val(d.explosivesUsed) * FallbackExplosivesFactor
    ensures Val(d.transportEmission) == 0.0 ==> p.transport == Val(d.transportUsed) * Accounting.TransportFactor
    ensures Val(d.methaneCo2e) == 0.0 ==> p.methane == Val(d.fuelUsed) * Accounting.MethanePerFuel * Accounting.MethaneGwp
    ensures Val(d.total) == 0.0 ==> p.total == p.fuel + p.electricity + p.explosives + p.transport + p.methane
    ensures Val(d.scope1) == 0.0 ==> p.scope1 == p.fuel + p.explosives + p.methane
    ensures Val(d.scope2) == 0.0 ==> p.scope2 == p.electricity
    ensures Val(d.scope3) == 0.0 ==> p.scope3 == p.transport
    ensures UsagesOnly(d) ==>
              && p.fuel == Val(d.fuelUsed) * Accounting.FuelFactor
              && p.electricity == Val(d.electricityUsed) * Accounting.ElectricityFactor
              && p.explosives == Val(d.explosivesUsed) * FallbackExplosivesFactor
              && p.transport == Val(d.transportUsed) * Accounting.TransportFactor
              && p.methane == Val(d.fuelUsed) * Accounting.MethanePerFuel * Accounting.MethaneGwp
              && p.total == p.scope1 + p.scope2 + p.scope3
  {
    var fuel := OrElse(d.fuelEmission, Val(d.fuelUsed) * Accounting.FuelFactor);
    var electricity := OrElse(d.electricityEmission, Val(d.electricityUsed) * Accounting.ElectricityFactor);
    var explosives := OrElse(d.explosivesEmission, Val(d.explosivesUsed) * FallbackExplosivesFactor);
    var transport := OrElse(d.transportEmission, Val(d.transportUsed) * Accounting.TransportFactor);
    var methane := OrElse(d.methaneCo2e, Val(d.fuelUsed) * Accounting.MethanePerFuel * Accounting.MethaneGwp);
    ChartPoint(d.date,
               OrElse(d.total, fuel + electricity + explosives + transport + methane),
               OrElse(d.scope1, fuel + explosives + methane),
               OrElse(d.scope2, electricity),
               OrElse(d.scope3, transport),
               fuel, electricity, explosives, transport, methane)
  }

  function UsageOf(d: StoredDoc): Accounting.Usage
  {
    Accounting.Usage(Val(d.fuelUsed), Val(d.electricityUsed), Val(d.explosivesUsed), Val(d.transportUsed))
  }

  /** For a document holding only usages, the chart point agrees with the record that
      `POST /api/emissions` would create from those usages in every component except
      explosives, which the fallback weighs by 2 instead of 1.5. */
  lemma FallbackAgreesWithCreation(d: StoredDoc)
    requires UsagesOnly(d)
    ensures var p := Point(d);
            var rec := Accounting.NewRecord(d.date, UsageOf(d));
            && p.fuel == rec.fuelEmission && p.electricity == rec.electricityEmission
            && p.transport == rec.transportEmission && p.methane == rec.methaneCo2e
            && p.explosives * 3.0 == rec.explosivesEmission * 4.0
            && p.total == rec.total + (p.explosives - rec.explosivesEmission)
  {
  }

  function Scope1Of(p: ChartPoint): real { p.scope1 }
  function Scope2Of(p: ChartPoint): real { p.scope2 }
  function Scope3Of(p: ChartPoint): real { p.scope3 }
  function MethaneOf(p: ChartPoint): real { p.methane }
  function TotalOf(p: ChartPoint): real { p.total }

  /** The dashboard's scope breakdown, in tonnes, summed over the fallback-filled points. */
  function ChartBreakdown(points: seq<ChartPoint>): (r: seq<(string, real)>)
    ensures |r| == 4
    ensures r[0] == ("Scope 1", Sum(Map(points, Scope1Of)) / 1000.0)
    ensures r[1] == ("Scope 2", Sum(Map(points, Scope2Of)) / 1000.0)
    ensures r[2] == ("Scope 3", Sum(Map(points, Scope3Of)) / 1000.0)
    ensures r[3] == ("Methane", Sum(Map(points, MethaneOf)) / 1000.0)
  {
    [("Scope 1", Sum(Map(points, Scope1Of)) / 1000.0),
     ("Scope 2", Sum(Map(points, Scope2Of)) / 1000.0),
     ("Scope 3", Sum(Map(points, Scope3Of)) / 1000.0),
     ("Methane", Sum(Map(points, MethaneOf)) / 1000.0)]
  }

  /** Over documents that hold only usages, the three scope entries of the breakdown add up to
      the chart's total. */
  lemma BreakdownAddsUp(docs: seq<StoredDoc>)
    requires forall i :: 0 <= i < |docs| ==> UsagesOnly(docs[i])
    ensures var pts := Map(docs, Point);
            var b := ChartBreakdown(pts);
            b[0].1 + b[1].1 + b[2].1 == Sum(Map(pts, TotalOf)) / 1000.0
  {
    var pts := Map(docs, Point);
    var s1 := Map(pts, Scope1Of);
    var s2 := Map(pts, Scope2Of);
    var s3 := Map(pts, Scope3Of);
    var s12 := seq(|pts|, i requires 0 <= i < |pts| => s1[i] + s2[i]);
    SumPointwise(s1, s2, s12);
    SumPointwise(s12, s3, Map(pts, TotalOf));
  }

  // ---------------------------------------------------------------------
  // GET /api/visualization/:mineId

  const ProjectionDays := 90
  const RegressionWindow := 30
  const MinimumRegressionPoints := 7
  const NoDataMessage := "No emission data found for this mine"

  datatype Projection = Projection(date: int, forecasted: real, upper: real, lower: real)

  datatype Named = Named(name: string, value: real)

  datatype VisualizationReport = VisualizationReport(
    trend: seq<ChartPoint>,
    forecast: seq<Projection>,
    scopeBreakdown: seq<Named>,
    totalFuel: real, totalElectricity: real,
    totalEmissions: real, averageEmissions: real, recordCount: nat)

  function DocTotal(d: StoredDoc): real { Val(d.total) }
  function DocDate(d: StoredDoc): real { -(d.date as real) }

  /** The documents in ascending date order. */
  function Ascending(docs: seq<StoredDoc>): (r: seq<StoredDoc>)
    ensures multiset(r) == multiset(docs) && |r| == |docs|
    ensures forall i, j :: 0 <= i < j < |r| ==> r[i].date <= r[j].date
  {
    var r := SortDesc(docs, DocDate);
    assert forall i, j :: 0 <= i < j < |r| ==> DocDate(r[i]) >= DocDate(r[j]);
    r
  }

  /** A point of the projection band: the value slope·x + intercept and the band
      ± |slope · 0.1|, each clamped at 0. */
  function BandAt(slope: real, intercept: real, x: real, date: int): (p: Projection)
    ensures 0.0 <= p.lower <= p.forecasted <= p.upper
    ensures p.date == date
    ensures p.forecasted == Max(0.0, slope * x + intercept)
  {
    var value := slope * x + intercept;
    var band := Abs(slope * 0.1);
    Projection(date, Max(0.0, value), Max(0.0, value + band), Max(0.0, value - band))
  }

  /** Projection i (0-based) of the line fitted to `y`, at index |y| + i. */
  function ProjectionAt(y: seq<real>, lastDate: int, i: nat): (p: Projection)
    requires |y| >= 2
    ensures 0.0 <= p.lower <= p.forecasted <= p.upper
    ensures p.date == lastDate + i + 1
  {
    BandAt(LeastSquaresSlope(y), LeastSquaresIntercept(y), (|y| + i) as real, lastDate + i + 1)
  }

  /** The 90 projected days after the last record, computed only when the last ≤ 30 records
      number at least 7. */
  function Projections(sorted: seq<StoredDoc>): (r: seq<Projection>)
    ensures |Tail(sorted, RegressionWindow)| >= MinimumRegressionPoints ==> |r| == ProjectionDays
    ensures |Tail(sorted, RegressionWindow)| < MinimumRegressionPoints ==> r == []
    ensures forall i :: 0 <= i < |r| ==> 0.0 <= r[i].lower <= r[i].forecasted <= r[i].upper
    ensures forall i :: 0 <= i < |r| ==>
              var recent := Tail(sorted, RegressionWindow);
              r[i] == ProjectionAt(Map(recent, DocTotal), recent[|recent| - 1].date, i)
  {
    var recent := Tail(sorted, RegressionWindow);
    if |recent| < MinimumRegressionPoints then []
    else
      var y := Map(recent, DocTotal);
      seq(ProjectionDays, i requires 0 <= i < ProjectionDays => ProjectionAt(y, recent[|recent| - 1].date, i))
  }

  /** On a straight line of n points, projection i lies on the line's continuation. */
  lemma LineProjection(a: real, b: real, n: nat, lastDate: int, i: nat)
    requires n >= 2
    ensures ProjectionAt(Line(a, b, n), lastDate, i).forecasted == Max(0.0, a + b * (n + i) as real)
  {
    var y := Line(a, b, n);
    LeastSquaresFitsLine(a, b, n);
    assert ProjectionAt(y, lastDate, i) == BandAt(b, a, (n + i) as real, lastDate + i + 1);
  }

  /** A series whose last n ≤ 30 totals lie on a straight line is projected along that line. */
  lemma ProjectionFollowsLine(sorted: seq<StoredDoc>, a: real, b: real, n: nat, i: nat)
    requires n == |Tail(sorted, RegressionWindow)| && n >= MinimumRegressionPoints && i < ProjectionDays
    requires Map(Tail(sorted, RegressionWindow), DocTotal) == Line(a, b, n)
    ensures Projections(sorted)[i].forecasted == Max(0.0, a + b * (n + i) as real)
  {
    var recent := Tail(sorted, RegressionWindow);
    var last := recent[n - 1].date;
    LineProjection(a, b, n, last, i);
    calc {
      Projections(sorted)[i];
      ProjectionAt(Map(recent, DocTotal), last, i);
      ProjectionAt(Line(a, b, n), last, i);
    }
  }

  function Scope1Doc(d: StoredDoc): real { Val(d.scope1) }
  function Scope2Doc(d: StoredDoc): real { Val(d.scope2) }
  function Scope3Doc(d: StoredDoc): real { Val(d.scope3) }
  function MethaneDoc(d: StoredDoc): real { Val(d.methaneCo2e) }
  function FuelDoc(d: StoredDoc): real { Val(d.fuelUsed) }
  function ElectricityDoc(d: StoredDoc): real { Val(d.electricityUsed) }

  function Positive(e: Named): bool { e.value > 0.0 }

  /** The trend point of a document: stored values with `|| 0`, no fallback. */
  function TrendPoint(d: StoredDoc): ChartPoint
  {
    ChartPoint(d.date, Val(d.total), Val(d.scope1), Val(d.scope2), Val(d.scope3), 0.0, 0.0, 0.0, 0.0, 0.0)
  }

  /** The scope totals of the documents, keeping only the positive ones. */
  function VisualBreakdown(docs: seq<StoredDoc>): (r: seq<Named>)
    ensures |r| <= 4
    ensures forall e :: e in r ==> e.value > 0.0
    ensures forall e :: e in r <==> e.value > 0.0 && e in [Named("Scope 1", Sum(Map(docs, Scope1Doc))), Named("Scope 2", Sum(Map(docs, Scope2Doc))),
                                                              Named("Scope 3", Sum(Map(docs, Scope3Doc))), Named("Methane", Sum(Map(docs, MethaneDoc)))]
  {
    Filter([Named("Scope 1", Sum(Map(docs, Scope1Doc))), Named("Scope 2", Sum(Map(docs, Scope2Doc))),
            Named("Scope 3", Sum(Map(docs, Scope3Doc))), Named("Methane", Sum(Map(docs, MethaneDoc)))],
           Positive)
  }

  /** Total over count, for a non-empty set of records. */
  function Average(total: real, count: nat): (r: real)
    requires count > 0
    ensures r * count as real == total
  {
    total / count as real
  }

  /** The first three projected days, or none when the regression does not run. */
  function ShownProjections(sorted: seq<StoredDoc>): (r: seq<Projection>)
    ensures |r| == (if |sorted| >= MinimumRegressionPoints then 3 else 0)
    ensures forall i :: 0 <= i < |r| ==> 0.0 <= r[i].lower <= r[i].forecasted <= r[i].upper
    ensures |r| <= |Projections(sorted)| && forall i :: 0 <= i < |r| ==> r[i] == Projections(sorted)[i]
  {
    var p := Projections(sorted);
    assert |Tail(sorted, RegressionWindow)| >= MinimumRegressionPoints <==> |sorted| >= MinimumRegressionPoints;
    Take(p, 3)
  }

  /** The report over documents already in date order. */
  function ReportOf(sorted: seq<StoredDoc>): (r: VisualizationReport)
    requires |sorted| > 0
    ensures |r.trend| == |sorted| == r.recordCount
    ensures forall i :: 0 <= i < |r.trend| ==> r.trend[i] == TrendPoint(sorted[i]) && r.trend[i].date == sorted[i].date
    ensures |r.forecast| == (if |sorted| >= MinimumRegressionPoints then 3 else 0)
    ensures forall i :: 0 <= i < |r.forecast| ==> 0.0 <= r.forecast[i].lower <= r.forecast[i].forecasted <= r.forecast[i].upper
    ensures forall e :: e in r.scopeBreakdown ==> e.value > 0.0
    ensures |r.scopeBreakdown| <= 4
    ensures r.averageEmissions == Average(r.totalEmissions, |sorted|)
    ensures r.forecast == ShownProjections(sorted)
    ensures r.totalEmissions == Sum(Map(sorted, DocTotal))
    ensures r.scopeBreakdown == VisualBreakdown(sorted)
    ensures r.totalFuel == Sum(Map(sorted, FuelDoc)) && r.totalElectricity == Sum(Map(sorted, ElectricityDoc))
  {
    var total := Sum(Map(sorted, DocTotal));
    var shown := ShownProjections(sorted);
    assert |shown| == (if |sorted| >= MinimumRegressionPoints then 3 else 0);
    assert forall i :: 0 <= i < |shown| ==> 0.0 <= shown[i].lower <= shown[i].forecasted <= shown[i].upper;
    VisualizationReport(Map(sorted, TrendPoint), shown, VisualBreakdown(sorted),
                        Sum(Map(sorted, FuelDoc)), Sum(Map(sorted, ElectricityDoc)),
                        total, Average(total, |sorted|), |sorted|)
  }

  /** The visualization of one mine's documents: 404 without records; otherwise the trend in
      date order, the first three projected days, the positive scope totals and the averages. */
  function GetVisualization(docs: seq<StoredDoc>): (r: Result<VisualizationReport>)
    ensures r.Err? <==> docs == []
    ensures r.Err? ==> r.msg == NoDataMessage
    ensures r.Ok? ==>
              && |r.value.trend| == |docs| == r.value.recordCount
              && (forall i, j :: 0 <= i < j < |r.value.trend| ==> r.value.trend[i].date <= r.value.trend[j].date)
              && |r.value.forecast| == (if |docs| >= MinimumRegressionPoints then 3 else 0)
              && (forall i :: 0 <= i < |r.value.forecast| ==>
                    0.0 <= r.value.forecast[i].lower <= r.value.forecast[i].forecasted <= r.value.forecast[i].upper)
              && (forall e :: e in r.value.scopeBreakdown ==> e.value > 0.0)
              && |r.value.scopeBreakdown| <= 4
              && r.value.averageEmissions == Average(r.value.totalEmissions, |docs|)
    ensures r.Ok? ==>
              var sorted := Ascending(docs);
              && (forall i :: 0 <= i < |r.value.trend| ==> r.value.trend[i] == TrendPoint(sorted[i]))
              && (forall i :: 0 <= i < |r.value.forecast| ==> r.value.forecast[i] == Projections(sorted)[i])
              && r.value.totalEmissions == Sum(Map(sorted, DocTotal))
              && r.value.scopeBreakdown == VisualBreakdown(sorted)
              && r.value.totalFuel == Sum(Map(sorted, FuelDoc))
              && r.value.totalElectricity == Sum(Map(sorted, ElectricityDoc))
  {
    if docs == [] then Err(NoDataMessage)
    else
      var sorted := Ascending(docs);
      Ok(ReportOf(sorted))
  }
}

=== FILE: what_if.dfy ===
/** The what-if reduction sliders shared by the forecast simulator
    (frontend/src/components/forecast/SimulatorRow.tsx) and the pathways page
    (frontend/src/pages/PathwaysPage.tsx): four slider positions weigh into one reduction
    factor, capped at 85%, and the pathways page adds presets and an animated playback. */
module WhatIf {
  import opened Numbers

  const EvWeight := 0.002
  const RenewableWeight := 0.003
  const MethaneWeight := 0.0025
  const EfficiencyWeight := 0.005
  /** The largest reduction either page ever applies. */
  const MaxReduction := 0.85

  /** Slider ranges: the first three run to 100, efficiency to 30. */
  const SliderMax := 100
  const EfficiencyMax := 30

  datatype Sliders = Sliders(ev: nat, renewable: nat, methane: nat, efficiency: nat)

  predicate InRange(s: Sliders)
  {
    s.ev <= SliderMax && s.renewable <= SliderMax && s.methane <= SliderMax && s.efficiency <= EfficiencyMax
  }

  /** Componentwise order of slider positions. */
  predicate AtMost(a: Sliders, b: Sliders)
  {
    a.ev <= b.ev && a.renewable <= b.renewable && a.methane <= b.methane && a.efficiency <= b.efficiency
  }

  const Off := Sliders(0, 0, 0, 0)

  /** The weighted slider sum before the cap. */
  function Weighted(s: Sliders): real
  {
    s.ev as real * EvWeight + s.renewable as real * RenewableWeight
      + s.methane as real * MethaneWeight + s.efficiency as real * EfficiencyWeight
  }

  /** `Math.min(evR + renR + methR + effR, 0.85)`. */
  function ReductionFactor(s: Sliders): (rf: real)
    ensures 0.0 <= rf <= MaxReduction
    ensures rf == MaxReduction <==> Weighted(s) >= MaxReduction
    ensures rf <= Weighted(s)
  {
    Min(Weighted(s), MaxReduction)
  }

  /** Moving any slider up never lowers the reduction. */
  lemma ReductionMonotone(a: Sliders, b: Sliders)
    requires AtMost(a, b)
    ensures ReductionFactor(a) <= ReductionFactor(b)
  {
    assert Weighted(a) <= Weighted(b);
  }

  /** Every slider at zero applies no reduction. */
  lemma OffIsNoReduction()
    ensures ReductionFactor(Off) == 0.0
  {
  }

  /** With every slider at its maximum the weighted sum is 0.9, so the 85% cap is reached
      inside the sliders' range. */
  lemma CapIsReachable()
    ensures InRange(Sliders(SliderMax, SliderMax, SliderMax, EfficiencyMax))
    ensures Weighted(Sliders(SliderMax, SliderMax, SliderMax, EfficiencyMax)) == 0.9
    ensures ReductionFactor(Sliders(SliderMax, SliderMax, SliderMax, EfficiencyMax)) == MaxReduction
  {
  }

  /** The header badge: `Math.round(reductionFactor * 100)`. */
  function Badge(s: Sliders): (pct: int)
    ensures 0 <= pct <= 85
    ensures pct == 0 <==> Weighted(s) < 0.005
  {
    JsRound(ReductionFactor(s) * 100.0)
  }

  /** A quantity after the reduction, `x * (1 - reductionFactor)`: never more than the
      quantity and never below 15% of it. */
  function Reduced(x: real, rf: real): (y: real)
    ensures x >= 0.0 && 0.0 <= rf <= 1.0 ==> 0.0 <= y <= x
    ensures x >= 0.0 && rf <= MaxReduction ==> y >= 0.15 * x
    ensures rf == 0.0 ==> y == x
  {
    var y := x * (1.0 - rf);
    Scaled(x, rf, y);
    y
  }

  lemma Scaled(x: real, rf: real, y: real)
    requires y == x * (1.0 - rf)
    ensures x >= 0.0 && 0.0 <= rf <= 1.0 ==> 0.0 <= y <= x
    ensures x >= 0.0 && rf <= MaxReduction ==> y >= 0.15 * x
  {
    if x >= 0.0 && 0.0 <= rf <= 1.0 {
      ProductNonNegative(x, rf);
      ProductNonNegative(x, 1.0 - rf);
    }
    if x >= 0.0 && rf <= MaxReduction {
      ProductNonNegative(x, MaxReduction - rf);
      assert y == 0.15 * x + x * (MaxReduction - rf);
    }
  }

  /** The reduction keeps the order of quantities. */
  lemma ReducedMonotone(x: real, y: real, rf: real)
    requires x <= y && rf <= 1.0
    ensures Reduced(x, rf) <= Reduced(y, rf)
  {
    ProductNonNegative(y - x, 1.0 - rf);
    assert Reduced(y, rf) - Reduced(x, rf) == (y - x) * (1.0 - rf);
  }

  // ---------------------------------------------------------------------
  // Presets (PathwaysPage)

  datatype Preset = Preset(name: string, sliders: Sliders)

  const Presets := [
    Preset("Conservative", Sliders(15, 20, 25, 8)),
    Preset("Balanced", Sliders(40, 50, 45, 15)),
    Preset("Aggressive", Sliders(80, 85, 75, 25)),
    Preset("Net Zero 2030", Sliders(95, 100, 90, 30))
  ]

  /** Applying a listed preset moves the sliders to positions within their ranges, and
      reaches the reduction cap exactly for "Net Zero 2030". */
  function ApplyPreset(p: Preset): (s: Sliders)
    ensures p in Presets ==> InRange(s)
    ensures p in Presets ==> (ReductionFactor(s) == MaxReduction <==> p.name == "Net Zero 2030")
  {
    PresetsAscend();
    assert p in Presets ==> exists i :: 0 <= i < |Presets| && Presets[i] == p;
    p.sliders
  }

  /** The presets are within the sliders' ranges and listed from the mildest to the strongest:
      each moves every slider at least as far as the one before and reduces strictly more,
      and only the last one hits the cap. */
  lemma PresetsAscend()
    ensures forall i :: 0 <= i < |Presets| ==> InRange(Presets[i].sliders)
    ensures forall i :: 0 < i < |Presets| ==> AtMost(Presets[i - 1].sliders, Presets[i].sliders)
    ensures forall i :: 0 < i < |Presets| ==>
              ReductionFactor(Presets[i - 1].sliders) < ReductionFactor(Presets[i].sliders)
    ensures forall i :: 0 <= i < |Presets| ==> (ReductionFactor(Presets[i].sliders) == MaxReduction <==> i == |Presets| - 1)
  {
    assert ReductionFactor(Presets[0].sliders) == 0.1925;
    assert ReductionFactor(Presets[1].sliders) == 0.4175;
    assert ReductionFactor(Presets[2].sliders) == 0.7275;
    assert Weighted(Presets[3].sliders) == 0.865;
  }

  // ---------------------------------------------------------------------
  // Scenario playback (PathwaysPage)

  const PlaybackSteps := 10
  /** The slider positions the playback moves towards. */
  const PlaybackTarget := Sliders(80, 85, 70, 25)

  datatype Playback = Playback(sliders: Sliders, step: nat, playing: bool)

  /** `Math.round(max * factor)` for a non-negative argument. */
  function RoundNat(x: real): (n: nat)
    requires x >= 0.0
    ensures x - 0.5 < n as real <= x + 0.5
  {
    JsRound(x)
  }

  /** The slider positions shown at a playback step: each target scaled by step/10. */
  function PlaybackSliders(step: nat): (s: Sliders)
    requires step <= PlaybackSteps
    ensures AtMost(s, PlaybackTarget) && InRange(s)
  {
    var f := step as real / 10.0;
    assert f <= 1.0;
    Sliders(RoundNat(80.0 * f), RoundNat(85.0 * f), RoundNat(70.0 * f), RoundNat(25.0 * f))
  }

  /** The Playback button: the step restarts at 0 and the timer runs; the sliders are left
      where they are until the first tick. */
  function Start(p: Playback): (q: Playback)
    ensures q.playing && q.step == 0 && q.sliders == p.sliders
  {
    Playback(p.sliders, 0, true)
  }

  /** One 800 ms tick. A stopped timer does nothing; otherwise the step advances and the
      sliders follow it, and the step after the tenth stops the timer at 10. */
  function Tick(p: Playback): (q: Playback)
    ensures !p.playing ==> q == p
    ensures p.playing && p.step < PlaybackSteps ==>
              q == Playback(PlaybackSliders(p.step + 1), p.step + 1, true)
    ensures p.playing && p.step >= PlaybackSteps ==>
              q == Playback(p.sliders, PlaybackSteps, false)
  {
    if !p.playing then p
    else
      var next := p.step + 1;
      if next > PlaybackSteps then Playback(p.sliders, PlaybackSteps, false)
      else Playback(PlaybackSliders(next), next, true)
  }

  function Ticks(p: Playback, k: nat): Playback
  {
    if k == 0 then p else Tick(Ticks(p, k - 1))
  }

  /** After starting, the k-th tick (k from 1 to 10) shows step k with the sliders scaled to
      k/10 of the target; the eleventh stops the playback at the full target. */
  lemma {:induction false} PlaybackRun(p: Playback, k: nat)
    requires 1 <= k <= PlaybackSteps + 1
    ensures k <= PlaybackSteps ==> Ticks(Start(p), k) == Playback(PlaybackSliders(k), k, true)
    ensures k == PlaybackSteps + 1 ==> Ticks(Start(p), k) == Playback(PlaybackTarget, PlaybackSteps, false)
  {
    if k > 1 {
      PlaybackRun(p, k - 1);
    }
    if k == PlaybackSteps + 1 {
      assert PlaybackSliders(PlaybackSteps) == PlaybackTarget;
    }
  }

  /** The reduction grows with every playback step. */
  lemma PlaybackMonotone(i: nat, j: nat)
    requires i <= j <= PlaybackSteps
    ensures ReductionFactor(PlaybackSliders(i)) <= ReductionFactor(PlaybackSliders(j))
  {
    var a, b := PlaybackSliders(i), PlaybackSliders(j);
    var fi, fj := i as real / 10.0, j as real / 10.0;
    JsRoundMonotone(80.0 * fi, 80.0 * fj);
    JsRoundMonotone(85.0 * fi, 85.0 * fj);
    JsRoundMonotone(70.0 * fi, 70.0 * fj);
    JsRoundMonotone(25.0 * fi, 25.0 * fj);
    ReductionMonotone(a, b);
  }

  /** The Reset button: every slider and the step back to zero, the timer stopped. */
  function Reset(p: Playback): (q: Playback)
    ensures ReductionFactor(q.sliders) == 0.0 && Badge(q.sliders) == 0
    ensures q.step == 0 && !q.playing
  {
    Playback(Off, 0, false)
  }
}

=== FILE: wrappers.dfy ===
/** Option and Result, the failure-carrying values every service in the model returns. */
module Wrappers {

  /** A value that may be absent: a missing JSON field, a fit that raised, a lookup that found nothing. */
  datatype Option<+T> = None | Some(value: T) {
    function GetOr(default: T): T {
      match this
      case Some(v) => v
      case None => default
    }
  }

  /** The outcome of a service call: a value, or the error message the service raises or sends. */
  datatype Result<+T> = Ok(value: T) | Err(msg: string)
}
